=== FILE: README.md ===
# HHVM JIT IR, Zend array and asio scheduler: a Dafny model

This project models six pieces of the HipHop VM core:

- **The IR type lattice and opcode catalogue** of the HHIR JIT.
  - `Type` is a 64-bit set of kinds.
  - Subtyping is bit containment.
  - The derived bands (boxed, pointer-to) are shifts of the primitive band.
  - The opcode table gives every opcode a destination-type rule and a source contract.
  - The operand checker walks a source list against that contract.
- **The IR arena** (`IRFactory`).
  - Instruction ids and SSA value ids are handed out densely from counters.
  - An instruction is built from a variadic argument list: type parameter, exit label, extra data, then sources.
  - A trace is an instruction list that starts with its label.
  - `InstrState` is a per-instruction side table that grows lazily.
- **The trace builder**, whose state is:
  - the current stack and frame pointers;
  - the stack offset;
  - the per-local value/type tables;
  - the "`this` is available" flag;
  - the CSE (common subexpression elimination) tables.

  It also covers:
  - the per-opcode update of that state after each emitted instruction;
  - the emit / CSE-hit / skip protocol of `optimizeInst` and `appendInstruction`;
  - the recursive stack-value search;
  - the generators for constants, locals, stack spills and loads, and if/else diamonds;
  - the builder's constructor.
- **The Zend-compatible ordered hash array.** It is an insertion-ordered sequence of integer- or string-keyed entries with:
  - the next free integer key;
  - an internal position;
  - a power-of-two bucket-table size.

  Its operations are `init`, `resize`, `nextInsert`, `update`, `add`, `erase`, `pop`, `renumber`, `isVectorData`, `prepend` and copy.
- **The helper-table bit packing of the vector translator.**
  - `bitWidth`, `multiBitWidth` and `buildBitmask` pack helper arguments into a table index.
  - `FILL_ROW` fills the table.
  - `getKeyType` and its variants choose a key kind.
- **The asio scheduler.**
  - The context stack with its depth.
  - A FIFO ready queue and two priority-bucketed queues.
  - `runSingle` and the order of `runUntil`.
  - The `asio_enter_context` / `asio_exit_context` / `asio_get_current` / `asio_set_on_failed_callback` entry points.
  - The `GenArrayWaitHandle` combinator: a left-to-right fold over child wait handles in which the first exception wins, resumed where it blocked.

Modules and files follow the source:

| Module | File | What it holds |
|---|---|---|
| `IRType` | `irtype.dfy` | the lattice |
| `Opcodes` | `opcodes.dfy` | the opcode table |
| `TypeCheck` | `typecheck.dfy` | `outputType` and the operand checker |
| `IR` | `ir.dfy` | instructions, the factory, `InstrState`, traces, block successors |
| `Locals` | `locals.dfy` | the local-variable value and type tables, and `killLocals` |
| `StackValue` | `stackvalue.dfy` | `getStackValue`: finding a stack slot's value through spills and calls |
| `TraceBuilder` | `tracebuilder.dfy` | the builder state, tracked-state updates, CSE tables, `optimizeInst` and `gen` |
| `Generators` | `generators.dfy` | the `gen*` helpers, the builder constructor, if/else diamonds, and properties of emitted instructions |
| `ZendArray` | `zend_array.dfy` | the ordered hash array: insert, erase, pop, renumber, prepend, vector check |
| `VectorHelpers` | `vectorhelpers.dfy` | helper-table bitmasks, table filling and lookup, `getKeyType` |
| `Asio` | `asio.dfy` | contexts, their ready and priority queues, `runUntil`, the session's context stack |
| `GenArray` | `genarray.dfy` | `GenArrayWaitHandle`: create, the dependency walk, resume, `failBlock`, `enterContext` |

`Wrappers` holds `Option` and `Result`.

The whole model is pure functions over immutable datatypes. Instructions and values live in index-addressed pools inside a `Factory`. Pointers become indices.

Calls whose bodies are outside the model are parameters. The builder's `Config` carries:

- the simplifier;
- the vector-effects analysis;
- `spillValueCells`;
- `kNumActRecCells`;
- whether operand checks are on (`debug`).

The scheduler's `RunUntil` takes `run`, `isFinished` and `killCycle`.

## Model

| member | source | states |
|---|---|---|
| IRType.SubtypePartialOrder | hphp/runtime/vm/translator/hopt/ir.h:800-802 | Subtyping is reflexive, transitive and antisymmetric. |
| IRType.JoinIsLeastBound | hphp/runtime/vm/translator/hopt/ir.h:716 | `t1 \| t2` is below `u` exactly when both `t1` and `t2` are. The bitwise union is therefore the least upper bound. |
| IRType.SingleBitIsStaticallyKnown | hphp/runtime/vm/translator/hopt/ir.h:756-771 | Every type with at most one bit set is statically known. |
| IRType.UnionsAreStaticallyKnown | hphp/runtime/vm/translator/hopt/ir.h:756-771 | Every subtype of `Str`, `Arr`, `Null` or `BoxedCell` is statically known. |
| IRType.MostRefined | hphp/runtime/vm/translator/hopt/ir.h:817-820 | Of two comparable types, the result is the one that is a subtype of both. |
| IRType.BinArithResultType | hphp/runtime/vm/translator/hopt/ir.h:822-827 | The result is `Dbl` exactly when either operand is below `Dbl`, and `Int` otherwise. |
| IRType.InnerType | hphp/runtime/vm/translator/hopt/ir.h:841-844 | The inner type of a boxed type is not boxed, and boxing it again gives the original bits. |
| IRType.FirstUnionContaining | hphp/runtime/vm/translator/hopt/ir.h:852-869 | The result is the first listed union that contains the type: it contains it, and no earlier one does. |
| IRType.UnionOf | hphp/runtime/vm/translator/hopt/ir.h:852-869 | Both inputs are below the result. If one contains the other, the result is the larger. Otherwise it is the first predefined union containing `t1 \| t2`. |
| IRType.Box | hphp/runtime/vm/translator/hopt/ir.h:871-881 | The result is boxed. `Uninit` maps to `BoxedNull`; any other type's inner type is the type itself. |
| IRType.Unbox | hphp/runtime/vm/translator/hopt/ir.h:884-887 | The result is never boxed. A non-boxed type is unchanged, and a boxed type yields its inner type. |
| IRType.Deref | hphp/runtime/vm/translator/hopt/ir.h:889-892 | The target of a pointer type lies within `Gen`, and shifting it back gives the pointer type. |
| IRType.DerefIfPtr | hphp/runtime/vm/translator/hopt/ir.h:894-897 | A pointer is dereferenced into `Gen`; any other type is unchanged. |
| IRType.Ptr | hphp/runtime/vm/translator/hopt/ir.h:899-903 | The pointer to a type is a non-empty pointer type whose target is that type. |
| IRType.PtrDeref | hphp/runtime/vm/translator/hopt/ir.h:889-903 | `ptr(deref(t)) == t` for every pointer type, and the target is not itself a pointer. |
| IRType.UnboxBox | hphp/runtime/vm/translator/hopt/ir.h:871-887 | Unboxing a boxed type gives back the original, except that `Uninit` comes back as `Null`. |
| IRType.ToDataType | hphp/runtime/vm/translator/hopt/ir.h:912-935 | The data type is `KindOfRef` exactly for boxed types, and `KindOfInvalid` exactly for `None`. |
| IRType.FromDataType | hphp/runtime/vm/translator/hopt/ir.h:937-965 | `KindOfRef` gives a boxed type: the box of the inner kind's type. Every other kind gives an unboxed type within `Gen`. |
| IRType.ToDataTypeOfFromDataType | hphp/runtime/vm/translator/hopt/ir.h:912-965 | For every data type but `KindOfRef`, mapping it to its IR type and back returns it. |
| IRType.FromDataTypeOfToDataType | hphp/runtime/vm/translator/hopt/ir.h:912-965 | A type lies within the IR type of its own data type, and a null data type means a null type. |
| IRType.TypeForConst | hphp/runtime/vm/translator/hopt/ir.h:983-1000 | A constant's type has exactly one bit. It is uncounted exactly for bool, integral, string, double and static-array constants. |
| Opcodes.QueryJmpRoundTrip | hphp/runtime/vm/translator/hopt/ir.h:546-562 | `queryJmpToQueryOp(queryToJmpOp(op)) == op` for every query opcode. |
| Opcodes.JmpQueryRoundTrip | hphp/runtime/vm/translator/hopt/ir.h:546-562 | `queryToJmpOp(queryJmpToQueryOp(op)) == op` for every query-jump opcode. |
| Opcodes.QueryToJmpOp | hphp/runtime/vm/translator/hopt/ir.h:550-553 | A query opcode maps to a query-jump opcode. |
| Opcodes.QueryJmpToQueryOp | hphp/runtime/vm/translator/hopt/ir.h:559-562 | A query-jump opcode maps to a query opcode. |
| Opcodes.QueryBranchTwins | hphp/runtime/vm/translator/hopt/ir.h:133-365 | In the opcode table, every query op produces a `Bool` and its jump twin produces nothing. The twin takes the same sources, except `IsType`/`IsNType`, which become unchecked. |
| TypeCheck.OutputType | hphp/runtime/vm/translator/hopt/type.cpp:39-72 | Per destination rule: `D(t)` gives `t`. `DofS(n)` gives source `n`'s type exactly when that source exists. `DUnbox`/`DBox` give the unbox/box of that source. `DParam` gives the type parameter, `DLabel` gives `None` and `DVector` gives the analysis's type. `ND` is the only error "no destination". |
| TypeCheck.BuildUnionUpper | hphp/runtime/vm/translator/hopt/type.cpp:81-88 | Every listed type is below the union built from the list. |
| TypeCheck.BuildUnionLeast | hphp/runtime/vm/translator/hopt/type.cpp:81-88 | Any type above every listed type (and above `None`) is above the built union. |
| TypeCheck.SAcceptsListedTypes | hphp/runtime/vm/translator/hopt/type.cpp:176-181 | `S(t1..tn)` accepts an operand whose type is below one of the `ti`. |
| TypeCheck.SRejectsOtherTypes | hphp/runtime/vm/translator/hopt/type.cpp:176-181 | `S(t1..tn)` rejects an operand that is not below their union. |
| TypeCheck.NoneTypedOperandPassesS | hphp/runtime/vm/translator/hopt/type.cpp:81-88 | Because the union starts from `None`, a `None`-typed operand passes every `S(...)` check. |
| TypeCheck.CheckFrom | hphp/runtime/vm/translator/hopt/type.cpp:97-227 | The checker passes exactly when counts match and every operand is accepted. It reports running out of operands, the first rejected operand and extra operands, each with the prefix that was accepted before it. |
| TypeCheck.CheckOperands | hphp/runtime/vm/translator/hopt/type.cpp:97-227 | A destination failure is reported first: `DParam` without a type parameter, or a `DofS`/`DBox`/`DUnbox` source index out of range. The whole check passes exactly when the destination rule holds and the source contract does (`NA`: no operands; `SUnk`: anything; otherwise every operand accepted, counts equal). |
| TypeCheck.FirstFailureReported | hphp/runtime/vm/translator/hopt/type.cpp:110-122 | Too few operands is reported only when operands ran out and every supplied one was accepted. Too many operands is reported exactly when there are more operands than checks and every checked one was accepted. |
| TypeCheck.TooManyWhenAllPass | hphp/runtime/vm/translator/hopt/type.cpp:150-160 | Extra operands after a fully accepted contract are reported as too many operands. |
| TypeCheck.AddOfStringRefused | hphp/runtime/vm/translator/hopt/type.cpp:176-201 | Two instances: `OpAdd` with a `Str` second operand fails at index 1, and `OpAdd` without a type parameter fails as missing the type parameter. |
| IR.Transient | hphp/runtime/vm/translator/hopt/irfactory.h:50-54 | A freshly built instruction has the opcode and nothing else: no type parameter, sources, destinations, label or extra data. |
| IR.ValInt | hphp/runtime/vm/translator/hopt/ir.h:1440-1454 | An integer is read only from a constant, and a constant with integer data reads as its payload. |
| IR.Operands | hphp/runtime/vm/translator/hopt/ir.h:1414-1454 | Each source is presented to the checker with its value's type and whether it is a constant. |
| IR.VectorEffectsOf | hphp/runtime/vm/translator/hopt/ir.h:1576-1590 | Vector effects are available exactly when the sources reach two past the base operand (source 2 for `SetProp`, source 1 otherwise). |
| IR.DstType | hphp/runtime/vm/translator/hopt/ir.h:1209 | The clone's destination type follows `outputType`: source `n`'s type for `DofS(n)`, the type parameter for `DParam`. |
| IR.CloneInstruction | hphp/runtime/vm/translator/hopt/irfactory.h:152-179 | The clone gets the next instruction id and the arena only grows. With a destination, exactly one value is allocated with the next value id, points back at the clone and has the destination type. Without one, no value is allocated. It fails only when a needed destination type cannot be computed. |
| IR.DefLabelInst | hphp/runtime/vm/translator/hopt/irfactory.h:159-160 | A label gets the next instruction id, bumps the label counter, and owns `numDst` consecutive new values of type `None`. |
| IR.SetValueType | hphp/runtime/vm/translator/hopt/ir.h:1420 | Retyping a value changes only that value's type. |
| IR.SetOpcode | hphp/runtime/vm/translator/hopt/ir.h:1212 | Changing an opcode in place changes only that instruction's opcode. |
| IR.ApplyArgs | hphp/runtime/vm/translator/hopt/irfactory.h:84-97 | Arguments never change the opcode, sources or destinations. They are refused exactly when extra data is supplied more than once (counting data already present). Without an extra argument, the extra data is kept. |
| IR.MakeInstruction | hphp/runtime/vm/translator/hopt/irfactory.h:44-122 | The built instruction has the opcode and the given sources (list or count-and-array) and no destinations. With checks on, it is built exactly when its arguments apply and it satisfies the operand checker. With checks off, it is built whenever its arguments are. |
| IR.NewInstrState | hphp/runtime/vm/translator/hopt/irfactory.h:193-199 | A new side table has one `init` entry per existing instruction. |
| IR.Grow | hphp/runtime/vm/translator/hopt/irfactory.h:218-222 | Growing keeps every entry and pads with `init` up to the instruction count. |
| IR.Lookup | hphp/runtime/vm/translator/hopt/irfactory.h:200-205 | After a lookup, the id is in range. An id already in range reads its entry unchanged; a new id grows the table and reads `init`. |
| IR.Store | hphp/runtime/vm/translator/hopt/irfactory.h:200-205 | Storing through `operator[]` sets that entry, grows if needed, and leaves every other entry alone. |
| IR.Reset | hphp/runtime/vm/translator/hopt/irfactory.h:210-215 | After a reset, every entry is `init`, grown to the instruction count. |
| IR.ResetThenLookup | hphp/runtime/vm/translator/hopt/irfactory.h:200-215 | Reading any id after a reset gives `init`. |
| IR.StoreThenLookup | hphp/runtime/vm/translator/hopt/irfactory.h:200-205 | A stored entry reads back, and other ids read what they read before. |
| IR.NewTrace | hphp/runtime/vm/translator/hopt/ir.h:1602-1609 | A new trace holds just its label. |
| IR.GetLabel | hphp/runtime/vm/translator/hopt/ir.h:1619-1623 | The first instruction of a trace is a `DefLabel`. |
| IR.LabelOf | hphp/runtime/vm/translator/hopt/tracebuilder.h:290-292 | `getLabel` of no trace is none; otherwise it is the trace's first instruction. |
| IR.Append | hphp/runtime/vm/translator/hopt/ir.h:1632-1636 | Appending adds the instruction at the end. |
| IR.Prepend | hphp/runtime/vm/translator/hopt/ir.h:1624-1631 | Prepending inserts right after the label and shifts the rest by one. |
| IR.EditsKeepLabel | hphp/runtime/vm/translator/hopt/ir.h:1619-1636 | Both prepending and appending keep the label first and unchanged. |
| IR.SuccessorCounts | hphp/runtime/vm/translator/hopt/ir.h:1705-1717 | Two successors exactly for a non-terminal branch. None exactly for a terminal instruction without a target. The taken slot is used exactly when there is a target, and the next slot exactly when the instruction is not terminal. |
| Locals.GetValue | hphp/runtime/vm/translator/hopt/tracebuilder.cpp:1343-1348 | Id -1 and ids beyond the table hold no value; others hold their entry. |
| Locals.GetType | hphp/runtime/vm/translator/hopt/tracebuilder.cpp:1350-1355 | Id -1 and ids beyond the table have type `None`; others have their entry. |
| Locals.Extend | hphp/runtime/vm/translator/hopt/tracebuilder.cpp:1357-1379 | Growing keeps both tables the same length and every old entry. New slots hold nothing and have type `None`. |
| Locals.SetValue | hphp/runtime/vm/translator/hopt/tracebuilder.cpp:1357-1367 | Binding sets the local's value and type, grows the tables if needed, and leaves every other local as it was. Id -1 changes nothing. |
| Locals.SetType | hphp/runtime/vm/translator/hopt/tracebuilder.cpp:1369-1381 | Typing a local forgets its value and sets its type, leaving every other local as it was. Id -1 changes nothing. |
| Locals.KillValue | hphp/runtime/vm/translator/hopt/tracebuilder.cpp:1383-1389 | Killing clears that local's value and type, never grows the table, and leaves the others alone. |
| Locals.AnyHasValue | hphp/runtime/vm/translator/hopt/tracebuilder.cpp:1391-1403 | True exactly when some local holds the value. |
| Locals.UpdateRefValues | hphp/runtime/vm/translator/hopt/tracebuilder.cpp:1405-1417 | Every local bound to the old ref is rebound to the new ref with its type. Every other local is unchanged. |
| Locals.UpdateRefLeavesNoOldRef | hphp/runtime/vm/translator/hopt/tracebuilder.cpp:1405-1417 | Afterwards no local holds the old ref. If some local held it, some local holds the new one. |
| Locals.Clear | hphp/runtime/vm/translator/hopt/tracebuilder.cpp:1239-1246 | Every local loses its value and its type becomes `None`; the tables keep their length. |
| Locals.DefiningOp | hphp/runtime/vm/translator/hopt/tracebuilder.cpp:1425-1442 | The opcode of a value's defining instruction is known exactly for values in the arena. |
| Locals.CloneConst | hphp/runtime/vm/translator/hopt/tracebuilder.cpp:1431-1436 | Cloning an `LdConst` appends a copy of it with opcode `DefConst`, whose single new value is the next value id. |
| Locals.KillLocalsFrom | hphp/runtime/vm/translator/hopt/tracebuilder.cpp:1425-1445 | The loop keeps the arena well formed and only grows it, and never changes a type. Locals before the start are untouched; from the start on, each is killed as a call does. |
| Locals.KillLocalsFromEffect | hphp/runtime/vm/translator/hopt/tracebuilder.cpp:1425-1445 | See `KillLocalsFrom`: each local from the start on keeps a `DefConst`, is rebound to a `DefConst` clone of an `LdConst`, or is cleared. |
| Locals.KillLocals | hphp/runtime/vm/translator/hopt/tracebuilder.cpp:1425-1445 | Every local is killed as a call does: `DefConst` values kept, `LdConst` values rebound to a fresh `DefConst` copy, all others cleared, types unchanged. |
| Locals.SetThenGet | hphp/runtime/vm/translator/hopt/tracebuilder.cpp:1343-1367 | A bound local reads back its value and type, and every other local reads what it read before. |
| Locals.KillThenGet | hphp/runtime/vm/translator/hopt/tracebuilder.cpp:1343-1389 | A killed local reads back no value and type `None`. |
| StackValue.Wrap32 | hphp/runtime/vm/translator/hopt/tracebuilder.cpp:1013-1016 | A signed 32-bit offset passed as an unsigned index is taken modulo 2^32. Non-negative offsets are unchanged. |
| StackValue.SpillScan | hphp/runtime/vm/translator/hopt/tracebuilder.cpp:821-846 | A found spilled value is in the arena. The count of cells pushed so far never decreases. |
| StackValue.GetStackValue | hphp/runtime/vm/translator/hopt/tracebuilder.cpp:782-891 | A found value is in the arena and its type is reported. Once the search spans a call, it stays spanned. |
| StackValue.SpillScanPlain | hphp/runtime/vm/translator/hopt/tracebuilder.cpp:826-846 | Over plain spilled values, index `k` finds spilled operand `k`. An index past them reports how many cells were pushed. |
| StackValue.SpilledValuesFound | hphp/runtime/vm/translator/hopt/tracebuilder.cpp:821-853 | Through a `SpillStack`, an index below the spill count yields that spilled operand. A larger one continues from the previous stack pointer, shifted by the pushed cells less the adjustment. |
| StackValue.ThroughCallSpans | hphp/runtime/vm/translator/hopt/tracebuilder.cpp:807-819 | Searching past a `Call` for any slot other than the return value marks the result as spanning a call. |
| StackValue.CallReturnSlotUnknown | hphp/runtime/vm/translator/hopt/tracebuilder.cpp:807-812 | Slot 0 of a `Call` (its return value) is unknown, with only the caller's type. |
| TraceBuilder.DstOf | hphp/runtime/vm/translator/hopt/tracebuilder.cpp:1114-1166 | An instruction's destination, when it has one. |
| TraceBuilder.OperandInt | hphp/runtime/vm/translator/hopt/tracebuilder.cpp:1133-1165 | Reading operand `n` as an integer succeeds exactly when it exists and is an integer constant, and gives that constant. |
| TraceBuilder.LocalIdOf | hphp/runtime/vm/translator/hopt/tracebuilder.cpp:1177-1192 | The local id is read exactly from `LocalId` extra data. |
| TraceBuilder.AsLocalId | hphp/runtime/vm/translator/hopt/tracebuilder.cpp:1202 | A 64-bit constant narrowed to an `int` local id is accepted exactly in `[-1, 2^31)` and kept as is. |
| TraceBuilder.KillAcrossCall | hphp/runtime/vm/translator/hopt/tracebuilder.cpp:1114-1128 | After a call or `ContEnter`: the CSE table is empty and the constants kept. Locals are killed as `killLocals` does, with types unchanged. The pointers, offset and `this` flag are untouched. |
| TraceBuilder.TrackCall | hphp/runtime/vm/translator/hopt/tracebuilder.cpp:1114-1123 | After `Call`, SP is the call's destination and the offset drops by `kNumActRecCells - 1`, which must not go negative. The CSE table is cleared and locals are killed. |
| TraceBuilder.TrackDefSP | hphp/runtime/vm/translator/hopt/tracebuilder.cpp:1133-1137 | `DefSP` sets SP to its destination and the offset to its constant operand, and changes nothing else. |
| TraceBuilder.TrackSpillStack | hphp/runtime/vm/translator/hopt/tracebuilder.cpp:1143-1151 | After `SpillStack`, the offset is the old offset minus the adjustment plus the spilled cells, which must not go negative. SP is the spill's destination and nothing else changes. |
| TraceBuilder.TrackNewObj | hphp/runtime/vm/translator/hopt/tracebuilder.cpp:1152-1158 | After `NewObj`, the offset grows by an activation record plus one cell and SP is its destination. |
| TraceBuilder.TrackInterpOne | hphp/runtime/vm/translator/hopt/tracebuilder.cpp:1159-1166 | After `InterpOne`, SP is its destination and the offset moves by the cells pushed (one when it has a result type) minus the cells popped (operand 3). Nothing else changes; it fails exactly when operand 3 is not an integer constant. |
| TraceBuilder.TrackStRef | hphp/runtime/vm/translator/hopt/tracebuilder.cpp:1168-1175 | `StRef`/`StRefNT` with boxed source and destination rebind every local holding the old ref to the new ref. Nothing else changes. |
| TraceBuilder.BindLocal | hphp/runtime/vm/translator/hopt/tracebuilder.cpp:1357-1367 | Binding a local in the builder changes only the local tables. |
| TraceBuilder.TypeLocal | hphp/runtime/vm/translator/hopt/tracebuilder.cpp:1369-1381 | Typing a local in the builder changes only the local tables. |
| TraceBuilder.TrackStLoc | hphp/runtime/vm/translator/hopt/tracebuilder.cpp:1177-1182 | `StLoc`/`StLocNT` bind the local to source 1 with that value's type. It fails exactly without a local id or source 1. |
| TraceBuilder.TrackLdLoc | hphp/runtime/vm/translator/hopt/tracebuilder.cpp:1183-1186 | `LdLoc` binds the local to its own destination with that value's type. |
| TraceBuilder.TrackLocType | hphp/runtime/vm/translator/hopt/tracebuilder.cpp:1187-1192 | `AssertLoc`/`GuardLoc` give the local the type parameter and forget its value. |
| TraceBuilder.KillLocalAt | hphp/runtime/vm/translator/hopt/tracebuilder.cpp:1193-1204 | Killing the local named by operand `n` requires an integer constant that fits a local id, and clears exactly that local. |
| TraceBuilder.KillLocalsAt | hphp/runtime/vm/translator/hopt/tracebuilder.cpp:1193-1204 | Every local named by the listed operands reads no value and type `None` afterwards (`killLocalValue`, tracebuilder.cpp:1383-1389). Every other local keeps its value and type, and nothing but the locals changes. |
| TraceBuilder.IterKilledOperands | hphp/runtime/vm/translator/hopt/ir.h:326-336 | The operands to kill are the value local (and the key local for the `K` forms) at their positions in each opcode's layout. The iterator-id operand is never among them. |
| TraceBuilder.TrackIter | hphp/runtime/vm/translator/hopt/tracebuilder.cpp:1193-1204 | Iterator ops reset the value local, and for the `K` forms the key local too, to no value and type `None`. Every other local keeps its value and type, and nothing but the locals changes. |
| TraceBuilder.IterKilledOperandsAsWritten | hphp/runtime/vm/translator/hopt/tracebuilder.cpp:1193-1204 | As written, the operands killed are 3 then 2 for the `K` forms and 2 otherwise, whatever the opcode's layout. |
| TraceBuilder.TrackIterAsWritten | hphp/runtime/vm/translator/hopt/tracebuilder.cpp:1193-1204 | The as-written iterator update changes nothing but the locals. |
| TraceBuilder.IterInitAsWrittenKeepsStaleLocal | hphp/runtime/vm/translator/hopt/tracebuilder.cpp:1193-1204 | For an `IterInit` whose operands are (array, frame pointer, iterator id 0, value local 1), the as-written update kills local 0 and keeps local 1's stale value. The corrected update kills local 1 and keeps local 0. |
| TraceBuilder.ApplyBaseEffects | hphp/runtime/vm/translator/hopt/tracebuilder.cpp:1223-1227 | When the base's type or value changed, the base local loses its value and takes the dereferenced base type. Otherwise nothing happens. |
| TraceBuilder.Producer | hphp/runtime/vm/translator/hopt/tracebuilder.cpp:1216 | The producing instruction of a value is the one it points back to. |
| TraceBuilder.TrackVectorSet | hphp/runtime/vm/translator/hopt/tracebuilder.cpp:1209-1229 | `SetProp`/`SetElem` on a base that is not a local address change nothing. On a local address, they apply the vector effects to that local. |
| TraceBuilder.TrackPointers | hphp/runtime/vm/translator/hopt/tracebuilder.cpp:1114-1166 | The pointer-moving cases only evolve the state (arena and tables stay sound). |
| TraceBuilder.TrackOthers | hphp/runtime/vm/translator/hopt/tracebuilder.cpp:1167-1231 | The remaining cases never move the stack or frame pointer or the offset. |
| TraceBuilder.Track | hphp/runtime/vm/translator/hopt/tracebuilder.cpp:1110-1232 | The opcode switch evolves the state. Opcodes outside the pointer cases leave pointers and offset alone. |
| TraceBuilder.CseInsert | hphp/runtime/vm/translator/hopt/tracebuilder.cpp:1234-1236 | With CSE on and a CSE-able instruction that has a destination, the instruction's key maps to its destination. `DefConst` goes in the constant table and everything else in the CSE table. Otherwise nothing changes. |
| TraceBuilder.UpdateTrackedState | hphp/runtime/vm/translator/hopt/tracebuilder.cpp:1110-1237 | Succeeds exactly when the opcode case does. It evolves the state, and leaves the pointers alone outside the pointer cases. |
| TraceBuilder.ClearTrackedState | hphp/runtime/vm/translator/hopt/tracebuilder.cpp:1239-1250 | Afterwards: the CSE table is empty, no pointers, offset 0, `this` unavailable. Every local reads no value and type `None`. Arena, trace and constants are kept. |
| TraceBuilder.Linked | hphp/runtime/vm/translator/hopt/tracebuilder.cpp:1252-1258 | The trace gains the instruction unless it is a `Nop` or a `DefConst`. |
| TraceBuilder.AppendInstruction | hphp/runtime/vm/translator/hopt/tracebuilder.cpp:1252-1258 | The trace gains the instruction unless it is a `Nop` or a `DefConst`; the tracked state is updated either way. The option flags are kept. |
| TraceBuilder.CseLookup | hphp/runtime/vm/translator/hopt/tracebuilder.cpp:1264-1270 | A hit happens exactly when CSE is on, the opcode is CSE-able and its key is in the right table. A hit is an existing value whose instruction has the same key. |
| TraceBuilder.Emit | hphp/runtime/vm/translator/hopt/tracebuilder.cpp:1296-1315 | Emitting clones the instruction at the next id and links it as `appendInstruction` does. It returns the new destination value exactly when the opcode has a destination, typed by `outputType`. |
| TraceBuilder.OptimizeInst | hphp/runtime/vm/translator/hopt/tracebuilder.cpp:1272-1315 | A CSE hit returns the earlier value with the state unchanged. A simplifier `Nop` returns nothing. Without simplification, a miss is a plain emit. That an emitted instruction is a hit the next time is `Generators.CseIdempotent`. |
| TraceBuilder.Gen | hphp/runtime/vm/translator/hopt/tracebuilder.h:62-72 | `gen` only grows the arena and keeps the flags. With checks on, the instruction it built passes the operand checker. A build failure is reported as such. |
| Generators.GenConst | hphp/runtime/vm/translator/hopt/tracebuilder.h:265-280 | Generating a constant never touches the trace or pointers. Without simplification it yields a `DefConst` with that type and payload. With checks on, a `None` type is refused as a missing type parameter. |
| Generators.ConstGenKeepsTrace | hphp/runtime/vm/translator/hopt/tracebuilder.cpp:1252-1258 | Because `DefConst` is never linked, generating one leaves the trace and pointers as they were. |
| Generators.ConstGenDefines | hphp/runtime/vm/translator/hopt/tracebuilder.h:265-269 | Without simplification, generating a constant yields a value defined by a `DefConst` with that type and payload. |
| Generators.GenDefConst | hphp/runtime/vm/translator/hopt/tracebuilder.h:265-269 | `genDefConst(val)` yields a `DefConst` typed by `typeForConst` of the value's kind. |
| Generators.GenDefConstType | hphp/runtime/vm/translator/hopt/tracebuilder.h:397-401 | `genDefConst<Type>(t)` yields a `DefConst` with type parameter `t` and payload 0. |
| Generators.GenDefVoid | hphp/runtime/vm/translator/hopt/tracebuilder.h:271-274 | `genDefVoid` yields a `DefConst` of type `None` and payload 0. With operand checks on, that is refused as a missing type parameter. |
| Generators.GenLdLoc | hphp/runtime/vm/translator/hopt/tracebuilder.cpp:570-586 | A known value is returned unchanged. An unknown type or the ambiguous `Null` is refused. Any other null type becomes a constant. |
| Generators.LoadLocal | hphp/runtime/vm/translator/hopt/tracebuilder.cpp:582-584 | Loading a local needs a frame pointer. |
| Generators.LoadLocalIsEmit | hphp/runtime/vm/translator/hopt/tracebuilder.cpp:582-584 | Loading a local is emitting `LdLoc` with the type, the local id and the frame pointer. |
| Generators.LoadLocalBinds | hphp/runtime/vm/translator/hopt/tracebuilder.cpp:582-584 | After loading a local, the local is bound to the loaded value. |
| Generators.LoadTwice | hphp/runtime/vm/translator/hopt/tracebuilder.cpp:570-586 | Loading the same local again returns the first load's value and changes nothing. |
| Generators.EmittedLdLocBinds | hphp/runtime/vm/translator/hopt/tracebuilder.cpp:1183-1186 | An emitted `LdLoc` binds its local to its destination. |
| Generators.EmittedLocTypeSets | hphp/runtime/vm/translator/hopt/tracebuilder.cpp:1187-1192 | An emitted `AssertLoc`/`GuardLoc` types its local and forgets its value. |
| Generators.EmittedSetsStackPointer | hphp/runtime/vm/translator/hopt/tracebuilder.cpp:1133-1151 | An emitted `SpillStack` or `DefSP` leaves SP at its own destination. |
| Generators.EmittedSetsFramePointer | hphp/runtime/vm/translator/hopt/tracebuilder.cpp:1129-1132 | An emitted `DefFP` sets FP to its destination and leaves SP and the offset alone. |
| Generators.EmittedDefSPOffset | hphp/runtime/vm/translator/hopt/tracebuilder.cpp:1133-1137 | An emitted `DefSP` whose second source is a constant sets the offset to that constant and leaves FP alone. |
| Generators.GenAssertLoc | hphp/runtime/vm/translator/hopt/tracebuilder.cpp:451-459 | With a known previous type that the new one does not strictly refine: nothing happens if they agree or the old one is narrower, and otherwise the assertion contradicts. |
| Generators.AssertLocIsEmit | hphp/runtime/vm/translator/hopt/tracebuilder.cpp:451-456 | When the previous type is unknown or strictly wider, the result is the emit of `AssertLoc`. |
| Generators.AssertLocEmitted | hphp/runtime/vm/translator/hopt/tracebuilder.cpp:451-456 | After an emitted assertion, the local has the asserted type. |
| Generators.AssertLocNarrows | hphp/runtime/vm/translator/hopt/tracebuilder.cpp:451-459 | After `genAssertLoc`, the local's type is below the asserted type and below the type it had. |
| Generators.IntOperand | hphp/runtime/vm/translator/hopt/tracebuilder.cpp:1009 | An integer operand is a constant that leaves the trace and pointers alone. Without simplification, it is an `Int` `DefConst` with that payload. |
| Generators.SpillSources | hphp/runtime/vm/translator/hopt/tracebuilder.cpp:1007-1011 | The spill's sources are SP, the adjustment constant, then the spilled operands, passed as a count and an array. |
| Generators.GenSpillStack | hphp/runtime/vm/translator/hopt/tracebuilder.cpp:999-1011 | With no adjustment and no operands, it returns the current SP and changes nothing. Otherwise it needs a stack pointer. |
| Generators.GenSpillIsEmit | hphp/runtime/vm/translator/hopt/tracebuilder.cpp:999-1011 | Otherwise, spilling is emitting `SpillStack` over SP, the adjustment constant and the operands. |
| Generators.SpillThenFind | hphp/runtime/vm/translator/hopt/tracebuilder.cpp:782-853 | After spilling plain operands, looking up stack slot `k` below their count finds spilled operand `k` with its type. |
| Generators.FindInSpill | hphp/runtime/vm/translator/hopt/tracebuilder.cpp:821-853 | In any arena that extends the one the operands came from, a `SpillStack` of plain operands answers slot `k` with operand `k` and its type. |
| Generators.SpillThenLoad | hphp/runtime/vm/translator/hopt/tracebuilder.cpp:1013-1030 | After spilling plain operands, loading slot `k` returns spilled operand `k` and emits nothing. |
| Generators.SpillSetsStackPointer | hphp/runtime/vm/translator/hopt/tracebuilder.cpp:1143-1151 | A non-trivial spill leaves SP at the spill's destination. |
| Generators.EmittedDefines | hphp/runtime/vm/translator/hopt/tracebuilder.cpp:1296-1315 | An emitted instruction with a destination defines a new value whose producer has the emitted opcode, sources, type parameter and extra data. |
| Generators.EmitEffect | hphp/runtime/vm/translator/hopt/tracebuilder.cpp:1296-1315 | A successful emit is: clone at the next instruction id, link, update the tracked state for that instruction, then insert into the CSE table, in that order. |
| Generators.CseIdempotent | hphp/runtime/vm/translator/hopt/tracebuilder.cpp:1284-1293 | CSE is idempotent. Optimizing a CSE-able instruction with a destination a second time hits the entry the first emission's `cseInsert` made (lines 1233-1235). The second call returns the same value and leaves the state, trace included, unchanged. This holds unless the simplifier replaced the instruction or made it a Nop the first time, since then nothing was recorded. |
| Generators.LoadType | hphp/runtime/vm/translator/hopt/tracebuilder.cpp:1017-1023 | The load type refines the requested type with the known type, and is below both. It fails exactly when they are incomparable. |
| Generators.LoadStack | hphp/runtime/vm/translator/hopt/tracebuilder.cpp:1017-1027 | An incomparable known type is reported. |
| Generators.LoadAsIsEmit | hphp/runtime/vm/translator/hopt/tracebuilder.cpp:1024-1027 | Loading a slot is emitting `LdStack` over SP and an `Int` constant of the offset. |
| Generators.LoadAsEmits | hphp/runtime/vm/translator/hopt/tracebuilder.cpp:1024-1027 | The loaded value is produced by an `LdStack` of that SP, at a constant offset, with the requested type. |
| Generators.LoadStackEmits | hphp/runtime/vm/translator/hopt/tracebuilder.cpp:1017-1027 | The `LdStack` type is below the requested type and below any known type. |
| Generators.GenLdStack | hphp/runtime/vm/translator/hopt/tracebuilder.cpp:1013-1030 | Without SP it is refused. A value found without crossing a call is returned as is. With no value found, it emits an `LdStack` refined by the known type. A value found across a call is kept when a `DefConst` produces it and reloaded otherwise. |
| Generators.IfElseBegin | hphp/runtime/vm/translator/hopt/tracebuilder.h:301-306 | Two labels are defined: the taken label at the next instruction id, then the done label, whose one value is the next value id. CSE is switched off and the old flag saved. Nothing else in the builder changes. |
| Generators.JumpToJoin | hphp/runtime/vm/translator/hopt/tracebuilder.h:309-312 | Jumping to the join keeps the diamond's labels and result value in place and leaves the CSE flag as it was. |
| Generators.PlaceLabel | hphp/runtime/vm/translator/hopt/tracebuilder.h:310-313 | Placing a label always succeeds, appends it to the trace, and changes nothing else. |
| Generators.JumpThenLabel | hphp/runtime/vm/translator/hopt/tracebuilder.h:309-313 | After the jump and the label, the trace ends with that label. |
| Generators.IfElseTaken | hphp/runtime/vm/translator/hopt/tracebuilder.h:308-310 | The taken arm starts right after its label. |
| Generators.IfElseEnd | hphp/runtime/vm/translator/hopt/tracebuilder.h:312-316 | The merged result is the done label's value, and the trace ends with the done label. Both arms' types are below its type. The old CSE flag is restored. It is refused when the arms' types have no predefined union. |
| Generators.Int32 | hphp/runtime/vm/translator/hopt/tracebuilder.cpp:31-44 | An unsigned 32-bit offset stored in a signed 32-bit field is read in two's complement. |
| Generators.EmittedAppends | hphp/runtime/vm/translator/hopt/tracebuilder.cpp:1252-1258 | Emitting a linked instruction appends exactly one instruction of that opcode to the trace. |
| Generators.DefFPEmitted | hphp/runtime/vm/translator/hopt/tracebuilder.cpp:903-905 | `genDefFP` sets FP to its new value, leaves SP and the offset, and appends a `DefFP`. |
| Generators.DefSPEmitted | hphp/runtime/vm/translator/hopt/tracebuilder.cpp:907-909 | `genDefSP` sets SP to its new value, the offset to the given one, leaves FP, and appends a `DefSP`. |
| Generators.GenDefFP | hphp/runtime/vm/translator/hopt/tracebuilder.cpp:903-905 | As `DefFPEmitted`, for the generator as a whole. |
| Generators.GenDefSP | hphp/runtime/vm/translator/hopt/tracebuilder.cpp:907-909 | It needs a frame pointer. Then SP is the new value, the offset the given one, and a `DefSP` is appended. |
| Generators.DefSPFrom | hphp/runtime/vm/translator/hopt/tracebuilder.cpp:907-909 | `DefSP` over FP and the offset constant sets SP and the offset and appends a `DefSP`. |
| Generators.Fresh | hphp/runtime/vm/translator/hopt/tracebuilder.cpp:31-47 | A fresh builder: a trace with just a new label, no pointers, optimisations off, the given offset and constant table, an empty CSE table, `this` unavailable. |
| Generators.NewBuilder | hphp/runtime/vm/translator/hopt/tracebuilder.cpp:31-57 | A constructed builder has a non-negative offset. CSE/simplification are on exactly as the options say. The current function is a `DefConst` of function type. |
| Generators.NewBuilderSucceeds | hphp/runtime/vm/translator/hopt/tracebuilder.cpp:44-56 | Construction succeeds exactly when the initial offset read as signed 32-bit is not negative. |
| Generators.NewBuilderStarts | hphp/runtime/vm/translator/hopt/tracebuilder.cpp:31-57 | The new trace is its label, then `DefFP`, then `DefSP`, with both pointers set and the initial offset. |
| Generators.Finish | hphp/runtime/vm/translator/hopt/tracebuilder.cpp:49-56 | Construction completes exactly when the offset is not negative, and then only records the current function. |
| Generators.DefinePointers | hphp/runtime/vm/translator/hopt/tracebuilder.cpp:54-55 | Defining FP then SP sets both pointers and the offset and appends `DefFP`, `DefSP`. |
| ZendArray.Wrap64 | hphp/runtime/base/array/zend_array.cpp:476-483 | 64-bit signed arithmetic wraps: in range it is the identity, `INT64_MAX + 1` is `INT64_MIN` and `INT64_MIN - 1` is `INT64_MAX`. |
| ZendArray.NextPower2From | hphp/runtime/base/array/zend_array.cpp:77-96 | The doubling loop ends at a power of two at least the request and the start. When it starts below the request, it ends below twice the request. |
| ZendArray.InitTableSize | hphp/runtime/base/array/zend_array.cpp:77-96 | The size is `MinSize` for small requests, otherwise the next power of two at least the request, capped at `0x80000000`. It is always a power of two at least `MinSize`. |
| ZendArray.Init | hphp/runtime/base/array/zend_array.cpp:77-96 | A new array is empty, with next free key 0, no position, and room for the request unless capped. |
| ZendArray.Resize | hphp/runtime/base/array/zend_array.cpp:436-458 | Resizing keeps the entries, next free key and position, and grows a power-of-two table to a larger power of two. |
| ZendArray.Find | hphp/runtime/base/array/zend_array.cpp:300-316 | The index of the first entry with the key, or none exactly when no entry has it. |
| ZendArray.Get | hphp/runtime/base/array/zend_array.cpp:408-420 | A value is found exactly when some entry has the key. With distinct keys, it is that entry's value. |
| ZendArray.Append | hphp/runtime/base/array/zend_array.cpp:476-486 | Linking at the tail adds the entry last, gives an unset position the new entry, and grows the table when the size exceeds it. |
| ZendArray.NextInsert | hphp/runtime/base/array/zend_array.cpp:470-488 | It is refused exactly when the next free key is negative. Otherwise the value is appended under that key and the next free key is incremented with wrap-around. |
| ZendArray.Update | hphp/runtime/base/array/zend_array.cpp:621-666 | An existing key is overwritten in place with order, size, next free key and position unchanged. A new key is appended at the tail and may move the next free key. |
| ZendArray.Add | hphp/runtime/base/array/zend_array.cpp:868-888 | `add` on an absent key behaves as `update`. |
| ZendArray.UpdateGet | hphp/runtime/base/array/zend_array.cpp:621-666 | After an update, the key reads the new value and every other key reads what it read before. |
| ZendArray.UpdateExistingKeepsOrder | hphp/runtime/base/array/zend_array.cpp:624-630 | Overwriting keeps the size and every entry's key at its place. |
| ZendArray.InsertMovesNextFree | hphp/runtime/base/array/zend_array.cpp:636-638 | A string key never moves the next free key. An int key at or above a non-negative next free key sets it to key+1. A smaller int key leaves it. |
| ZendArray.UpdateKeepsValid | hphp/runtime/base/array/zend_array.cpp:621-666 | Updating keeps keys distinct, the position in range and the table a power of two that fits. |
| ZendArray.NextInsertKeepsValid | hphp/runtime/base/array/zend_array.cpp:470-488 | On a valid array with a non-negative next free key, appending succeeds, stays valid, and the old next free key reads the value. |
| ZendArray.EraseEntry | hphp/runtime/base/array/zend_array.cpp:935-973 | Unlinking removes exactly that entry and lowers the next free key by one (with wrap-around) when asked. |
| ZendArray.EraseAsWritten | hphp/runtime/base/array/zend_array.cpp:935-973 | Erasing an absent key changes nothing. |
| ZendArray.Erase | hphp/runtime/base/array/zend_array.cpp:935-973 | Erasing an absent key changes nothing. Without `updateNext`, it is the erase as written. |
| ZendArray.EraseRemoves | hphp/runtime/base/array/zend_array.cpp:935-973 | Erasing a present key removes exactly that entry, keeping the others in order, and the key is then absent. A position on it moves to its successor; any other position keeps its key. |
| ZendArray.EraseKeepsValid | hphp/runtime/base/array/zend_array.cpp:967-971 | Erasing keeps the array valid and never makes a non-negative next free key negative. |
| ZendArray.PopAsWritten | hphp/runtime/base/array/zend_array.cpp:1152-1168 | As written, `pop` returns the last value, removes the last entry, and resets the position to the head. |
| ZendArray.Pop | hphp/runtime/base/array/zend_array.cpp:1152-1168 | `pop` with the next-free guard: same entries, value and position as written. |
| ZendArray.PopUndoesNextInsert | hphp/runtime/base/array/zend_array.cpp:1152-1168 | Popping right after an append returns the appended value and restores the entries and next free key. |
| ZendArray.PopKeepsAppending | hphp/runtime/base/array/zend_array.cpp:967-971 | After the corrected `pop`, the next free key is non-negative, so a following append succeeds. |
| ZendArray.PopAsWrittenBlocksAppend | hphp/runtime/base/array/zend_array.cpp:967-971 | Popping the single entry keyed -1 from an array whose next free key is 0 leaves next free -1, and the next append is refused. |
| ZendArray.RenumberFromSpec | hphp/runtime/base/array/zend_array.cpp:1240-1263 | Renumbering keeps every value and string key and the kind of every key, and numbers the int keys consecutively from the start. |
| ZendArray.RenumberFixed | hphp/runtime/base/array/zend_array.cpp:1240-1263 | Renumbering leaves the entries alone exactly when their int keys are already consecutive from the start. |
| ZendArray.RenumberScanIsRenumber | hphp/runtime/base/array/zend_array.cpp:1244-1258 | The in-place scan over the list equals the functional renumbering of the rest. |
| ZendArray.RenumberSpec | hphp/runtime/base/array/zend_array.cpp:1240-1263 | `renumber` relabels int keys 0..m-1 in order, leaves string keys and values, sets next free to m and keeps the position. |
| ZendArray.RenumberIdempotent | hphp/runtime/base/array/zend_array.cpp:1240-1263 | Renumbering twice is renumbering once. |
| ZendArray.IsVectorData | hphp/runtime/base/array/zend_array.cpp:194-200 | True exactly when the keys are the ints 0..n-1 in order. |
| ZendArray.VectorIffNumbered | hphp/runtime/base/array/zend_array.cpp:194-200 | The keys are the ints `next, next+1, …` in order exactly when every key is an int and the int keys are numbered from `next`. |
| ZendArray.RenumberedIsVector | hphp/runtime/base/array/zend_array.cpp:194-200 | An array with only int keys is vector data after renumbering. |
| ZendArray.PrependAsWritten | hphp/runtime/base/array/zend_array.cpp:1193-1238 | As written, `prepend` succeeds whenever the insertion does. With the insertion refused, it fails (null list head) exactly on an empty array. |
| ZendArray.Prepend | hphp/runtime/base/array/zend_array.cpp:1193-1238 | The result holds one entry more than the array, and the new value is at its head, even when the next free key is used up. |
| ZendArray.PrependSpec | hphp/runtime/base/array/zend_array.cpp:1193-1238 | The value is at the head with the old entries after it in order. String keys are kept. On a non-empty array, int keys are renumbered from 0 and the position is on the head. On an empty array, the value is stored under the next free key, or under 0 when that key is used up. |
| ZendArray.PrependKeepsValues | hphp/runtime/base/array/zend_array.cpp:1193-1238 | The values become the new value followed by the old ones in order. No value is lost. |
| ZendArray.PrependAsWrittenDropsValue | hphp/runtime/base/array/zend_array.cpp:1203-1234 | On an array whose next free key is used up, `prepend` as written drops the value and moves the old tail to the head. The corrected one yields the values 3, 1, 2. |
| ZendArray.CopyPreserves | hphp/runtime/base/array/zend_array.cpp:1024-1074 | A copy keeps the entries in order, the next free key, the position and its key, and is valid. |
| VectorHelpers.BitWidth | hphp/runtime/vm/translator/hopt/vectortranslator-internal.h:49-60 | Flags, key types, attributes and op enums take 1 to 4 bits. Any other argument takes 8 bits per byte. |
| VectorHelpers.Truncate | hphp/runtime/vm/translator/hopt/vectortranslator-internal.h:82 | A truncated argument fits its width. |
| VectorHelpers.BuildBitmaskShifts | hphp/runtime/vm/translator/hopt/vectortranslator-internal.h:75-84 | Building from bit `b` is the packed arguments shifted left by `b`. Each argument sits at the sum of the widths before it. |
| VectorHelpers.PackedBound | hphp/runtime/vm/translator/hopt/vectortranslator-internal.h:63-84 | The packed arguments fit the total width. |
| VectorHelpers.BitmaskInTable | hphp/runtime/vm/translator/hopt/vectortranslator-internal.h:96-104 | The index is below `2^multiBitWidth`, so it lies within the table `BUILD_OPTAB_ARG` allocates. |
| VectorHelpers.PackedInjective | hphp/runtime/vm/translator/hopt/vectortranslator-internal.h:75-84 | Argument lists of the same kinds with the same index agree on every truncated argument. |
| VectorHelpers.TruncateFits | hphp/runtime/vm/translator/hopt/vectortranslator-internal.h:82 | A value that fits its width is unchanged by truncation. |
| VectorHelpers.BitmaskDistinct | hphp/runtime/vm/translator/hopt/vectortranslator-internal.h:75-84 | Different fitting argument lists of the same kinds get different indices. |
| VectorHelpers.MatchesWidth | hphp/runtime/vm/translator/hopt/vectortranslator-internal.h:63-71 | Arguments of the table's kinds have the table's width. |
| VectorHelpers.NewTable | hphp/runtime/vm/translator/hopt/vectortranslator-internal.h:96-99 | The table has `2^width` empty slots. |
| VectorHelpers.SlotOf | hphp/runtime/vm/translator/hopt/vectortranslator-internal.h:88 | The slot of a row is its bitmask, within the table. It is refused exactly when the arguments do not match the table's kinds. |
| VectorHelpers.FillRow | hphp/runtime/vm/translator/hopt/vectortranslator-internal.h:87-91 | Filling writes the helper into the row's slot only. A slot already written is refused. |
| VectorHelpers.FillRows | hphp/runtime/vm/translator/hopt/vectortranslator-internal.h:94-101 | Filling all rows keeps the table well formed. |
| VectorHelpers.Lookup | hphp/runtime/vm/translator/hopt/vectortranslator-internal.h:102-104 | A lookup returns the helper stored in the arguments' slot. |
| VectorHelpers.FillRowsSucceeds | hphp/runtime/vm/translator/hopt/vectortranslator-internal.h:87-104 | Distinct fitting rows on an empty table all fill, and each row's arguments look up that row's helper. |
| VectorHelpers.FillKeeps | hphp/runtime/vm/translator/hopt/vectortranslator-internal.h:87-101 | Filling never touches a slot that no row maps to. |
| VectorHelpers.KeyTypeSound | hphp/runtime/vm/translator/hopt/vectortranslator-internal.h:110-126 | `StrKey` exactly for an unboxed string that is constant or accepted non-literal. `IntKey` exactly for an unboxed `Int` otherwise so accepted. Each specialised kind is chosen only for a key of that kind. |
| VectorHelpers.GetKeyTypeConst | hphp/runtime/vm/translator/hopt/vectortranslator-internal.h:127-129 | A non-constant key is never specialised. |
| VectorHelpers.GetKeyTypeS | hphp/runtime/vm/translator/hopt/vectortranslator-internal.h:130-132 | A non-constant key is never specialised to `IntKey`. |
| VectorHelpers.GetKeyTypeIS | hphp/runtime/vm/translator/hopt/vectortranslator-internal.h:133-135 | Accepting both kinds of non-literal keys treats every key as if it were constant. |
| VectorHelpers.KeyTypeVariantsMonotone | hphp/runtime/vm/translator/hopt/vectortranslator-internal.h:127-135 | Each wider variant keeps every specialisation the narrower one chose. |
| Asio.NewContext | hphp/runtime/ext/asio/asio_context.cpp:37-41 | The depth is the parent's plus one, or 0 without a parent. A new context has empty queues and nothing running. |
| Asio.Schedule | hphp/runtime/ext/asio/asio_context.cpp:66-69 | A continuation is appended to the ready queue and nothing else changes. |
| Asio.Enqueue | hphp/runtime/ext/asio/asio_context.cpp:71-82 | The bucket list stays ordered by priority, with distinct priorities and non-empty buckets. |
| Asio.EnqueueBuckets | hphp/runtime/ext/asio/asio_context.cpp:71-82 | The handle is appended to its priority's bucket (creating it if absent), and every other bucket is unchanged. |
| Asio.Reschedule | hphp/runtime/ext/asio/asio_context.cpp:71-82 | A reschedule goes to the named queue's bucket and leaves the other queue, the ready queue and the depth alone. |
| Asio.RunSingle | hphp/runtime/ext/asio/asio_context.cpp:133-151 | Nothing is taken exactly from an empty queue. What is left stays well formed. |
| Asio.RunSingleTakesLowest | hphp/runtime/ext/asio/asio_context.cpp:133-151 | The handle taken is the front of the lowest-priority bucket. Taking it and draining the rest is draining the whole queue. |
| Asio.RunSingleDrain | hphp/runtime/ext/asio/asio_context.cpp:133-151 | The handle taken, followed by the rest drained in order, is the whole queue drained. |
| Asio.RunSingleBucket | hphp/runtime/ext/asio/asio_context.cpp:140-149 | The lowest bucket loses exactly its front handle; an emptied bucket is erased. |
| Asio.NextStep | hphp/runtime/ext/asio/asio_context.cpp:89-112 | A finished handle stops the loop. Otherwise the ready queue's front runs first. With it empty, the default queue's lowest bucket runs; only with both empty does the no-pending-IO queue run; with all empty, there is nothing to run. |
| Asio.RunUntil | hphp/runtime/ext/asio/asio_context.cpp:84-128 | The loop reports done only when the awaited handle is finished, and returns at once if it already is. |
| Asio.RunUntilOrder | hphp/runtime/ext/asio/asio_context.cpp:84-128 | For steps that finish nothing and schedule nothing, the loop runs the ready queue in order, then the default queue drained by priority, then the no-pending-IO queue. It then fails as unblockable. |
| Asio.OrderReady | hphp/runtime/ext/asio/asio_context.cpp:89-98 | The ready-queue part of `RunUntilOrder`, by induction on the ready queue. |
| Asio.OrderDefault | hphp/runtime/ext/asio/asio_context.cpp:99-104 | The default-queue part of `RunUntilOrder`, by induction on the default queue. |
| Asio.OrderNoIO | hphp/runtime/ext/asio/asio_context.cpp:105-112 | The no-pending-IO part of `RunUntilOrder`, by induction on that queue. |
| Asio.EnterContext | hphp/runtime/ext/ext_asio.cpp:27-31 | Entering pushes a new context whose depth is the stack height, with nothing running. It becomes current. |
| Asio.ExitContext | hphp/runtime/ext/ext_asio.cpp:33-48 | Outside any context, or with a continuation running, exit fails. Otherwise it pops the context and keeps the callback. The handles released are the ready queue, then the default queue, then the no-pending-IO queue. |
| Asio.EnterExit | hphp/runtime/ext/ext_asio.cpp:27-48 | Entering then exiting restores the session and releases nothing. |
| Asio.ExitKeepsSession | hphp/runtime/ext/asio/asio_context.cpp:47-64 | Exiting keeps depths consistent: the parent's depth is one less. |
| Asio.GetCurrent | hphp/runtime/ext/ext_asio.cpp:50-57 | No context means no current handle. Otherwise it is the top context's running handle. |
| Asio.SetOnFailedCallback | hphp/runtime/ext/ext_asio.cpp:59-67 | A non-closure object is refused as not a closure. Null or a closure replaces the callback and nothing else. |
| GenArray.StateOf | hphp/runtime/ext/asio/gen_array_wait_handle.cpp:81-92 | A static-exception handle is failed with its exception. |
| GenArray.PutException | hphp/runtime/ext/asio/gen_array_wait_handle.cpp:29-36 | An exception is always stored afterwards. The first one stored wins. |
| GenArray.Fold | hphp/runtime/ext/asio/gen_array_wait_handle.cpp:69-94 | The walk keeps the number of dependencies, and blocks only at a position it reached. |
| GenArray.FoldStep | hphp/runtime/ext/asio/gen_array_wait_handle.cpp:72-84 | One non-pending step settles the cell (null, result), adds its exception as the first-wins `putException` does, and continues. |
| GenArray.FoldSpec | hphp/runtime/ext/asio/gen_array_wait_handle.cpp:69-99 | The walk settles exactly the cells before its end, all non-pending. It leaves the rest. It stops at a pending cell if blocked. Its exception is the first one among the settled cells, after any it started with. |
| GenArray.WalkBlocksIffPending | hphp/runtime/ext/asio/gen_array_wait_handle.cpp:85-99 | The walk blocks exactly when some dependency is pending. |
| GenArray.FoldResume | hphp/runtime/ext/asio/gen_array_wait_handle.cpp:116-159 | Resuming a blocked walk from its position after more children settle is the same as walking from the start. |
| GenArray.Create | hphp/runtime/ext/asio/gen_array_wait_handle.cpp:60-100 | A blocking handle is waiting, well formed, and in the given context. |
| GenArray.CreateSpec | hphp/runtime/ext/asio/gen_array_wait_handle.cpp:60-100 | `create` blocks exactly when some dependency is pending, at the first pending one, with the first exception before it. It gives a static result of the settled dependencies exactly when none is pending and none failed. Otherwise it gives a static exception carrying the first exception. |
| GenArray.Finish | hphp/runtime/ext/asio/gen_array_wait_handle.cpp:85-99 | A blocked walk waits at its position. A complete one succeeds with the settled dependencies, or fails with the first exception. |
| GenArray.OnUnblocked | hphp/runtime/ext/asio/gen_array_wait_handle.cpp:116-159 | Resuming keeps the handle well formed and in its context, and never moves it backwards. |
| GenArray.CreateThenResume | hphp/runtime/ext/asio/gen_array_wait_handle.cpp:60-159 | Creating, then resuming once everything settled, gives what a single walk over the settled state gives. |
| GenArray.FailBlock | hphp/runtime/ext/asio/gen_array_wait_handle.cpp:161-170 | Failing the current dependency records its exception unless one was already recorded, then moves past it. The handle never succeeds from there. |
| GenArray.EnterContext | hphp/runtime/ext/asio/gen_array_wait_handle.cpp:176-198 | A finished handle, or one whose context already includes the target, does nothing. A waiting one moves to the context and passes it on to the dependency it is blocked on. |
| GenArray.EnterContextIdempotent | hphp/runtime/ext/asio/gen_array_wait_handle.cpp:176-198 | After entering, a waiting handle sits in a context the new one includes. So entering the same context again takes the already-included early return (lines 183-185): the handle is unchanged and nothing is passed on to its child. This holds for any `includes` under which a context includes itself. |

## Left out

- Simplifier, CSE hashing, `VectorEffects::init`, `spillValueCells`: their bodies are not part of this model. They are parameters of the trace builder's `Config`, and CSE keys are compared by a key function instead of the hash table's equality.
- `kNumActRecCells` is a parameter: its definition is not part of this model.
- `OptimizeInst` skips the per-instruction copy propagation `optimizeInst` runs first (tracebuilder.cpp:1282), so CSE keys are taken on the sources before propagation. `optimizeTrace`, `buildCfg` and the other passes over a finished trace are not modelled.
- `TraceBuilder.TrackOthers`: the iterator ops (`IterInit`, `IterInitK`, `IterNext`, `IterNextK`) go to the corrected `TrackIter`, not to tracebuilder.cpp:1193-1204 as written (`TrackIterAsWritten`, see Findings). So `Track`, `UpdateTrackedState`, `AppendInstruction`, `Emit`, `OptimizeInst` and the generators model the corrected switch.
- Not modelled: the plain one-instruction generators (`genAdd`, `genLdProp`, …), `genGuardLoc`, exit traces, and register and code-address fields. They only call `gen` with fixed arguments, or are code generation.
- `TypeCheck.CheckOperands`: the `NA` and `SUnk` cases and the `C(type)` check are modelled, but `DVector` types come from the vector-effects parameter.
- `IR.DstType`: the `DVector` rule takes its type from the vector-effects parameter.
- `TraceBuilder.AsLocalId`: narrowing a 64-bit constant to an `int` local id is modelled as a range check. Values outside it are an error instead of a truncation.
- `Generators.Int32`: the stack offset is an unbounded integer after construction. Its 32-bit wrap-around on later arithmetic is not modelled.
- Floating-point constants and the bit-punning of `ConstData`: constant payloads are opaque integers.
- The `instNest` debug counter, tracing and printing.
- Zend array:
  - bucket chains, the doubly linked list and the smart/malloc allocation modes are abstracted into one ordered sequence;
  - `rehash` is not modelled.
- Strong iterators (`FullPos`), reference-binding of values, and refcounted strings are not modelled. Copy-on-write (`getCount() > 1`) in `pop` and `prepend` is not modelled either: the copy is `CopyPreserves`.
- `ZendArray.Erase`: a string key whose hash (`ikey`) equals the next free key minus one does not lower the next free key in the model.
- `ZendArray.Resize`: doubling the 32-bit table size is not wrapped. The table never exceeds `0x80000000` in valid arrays.
- `MinSize` is a parameter of `Init`: its definition is not part of this model.
- Zend array operations not modelled: iteration (`reset`, `next`, `prev`, `each`, …), `lval*`, `dequeue`, `append` of a whole array, `onSetEvalScalar` and the chain-length error.
- `ptr`, `objOrPtr`, `noLitInt`, `keyPtr` and `unbox` in the vector translator helpers: they are debug assertions that pass their argument through, or casts of runtime pointers.
- The asio `run()` of a continuation, `killCycle` and the `isFinished` test: they are parameters of `RunUntil`.
- `Asio.RunUntil`: a fuel bound stands in for termination. The ordering lemma requires fuel at least the number of queued handles, and exhausting it is a separate outcome.
- Asio: `AsioSession` is a value. Creating the static exceptions and the `SystemLib` exception objects is left out, as is refcounting (`incRefCount`, `decRefObj`).
- `GenArray.EnterContext`: `AsioContext::includes` is a parameter (a relation between context ids), because asio_context.h is not part of this model. `EnterContextIdempotent` assumes only that a context includes itself. The invariant-violation branch is unreachable in the state model, and entering the dependencies after the one blocked on (a TODO in the source) is not modelled.
- Gen array:
  - keys of the dependency array are not modelled, only the values in order;
  - the cell model has no references, so `KindOfRef` unboxing is omitted;
  - the `t___construct` that always throws is not modelled;
  - `getName` is not modelled.
- `GenArray.FailBlock`: the exception recorded for a child that cannot enter the context is a parameter.

## Findings

| source | as written | input that shows it | evidently intended | confidence | as-written member | corrected member |
|---|---|---|---|---|---|---|
| hphp/runtime/vm/translator/hopt/tracebuilder.cpp:1193-1204 | `IterInit`/`IterInitK` kill the locals named by operands 2 (and 3), the positions used by `IterNext`/`IterNextK`. Operand 2 is the value local for `IterNext` (frame pointer, iterator id, value local), but the init forms take the array first (ir.h:326-336), so operand 2 of `IterInit` is the iterator id: the switch kills the local numbered by the iterator id and keeps the real value local at operand 3 | `IterInit` with operands (array, frame pointer, iterator id 0, value local 1) while locals 0 and 1 hold values: local 0 is killed, local 1 keeps its stale value | kill the value local (and the key local) at each opcode's own operand positions | medium, not executed | TraceBuilder.IterInitAsWrittenKeepsStaleLocal | TraceBuilder.TrackIter |
| hphp/runtime/base/array/zend_array.cpp:1193-1238 | `prepend` ignores the result of `nextInsert`. When the next free key is used up, the insertion is refused, and the old tail is moved to the head and the array renumbered instead | entries `[INT64_MAX => 1, "s" => 2]` with the next key used up: `prepend(3)` drops 3 and yields `["s" => 2, 0 => 1]` | put the value at the head and renumber the integer keys from 0, as the comments in `prepend` describe, even when no next free key is left | high, not executed | ZendArray.PrependAsWrittenDropsValue | ZendArray.PrependKeepsValues |
| hphp/runtime/base/array/zend_array.cpp:967-971 | `pop` erases with `updateNext` set. Erase lowers the next free key when the key equals next-free minus one, compared as unsigned, so key -1 with next free 0 lowers it to -1 | `[-1 => 7]` with next free key 0: after `pop`, the next free key is -1 and every later append is refused | only lower a positive next free key | medium, not executed | ZendArray.PopAsWrittenBlocksAppend | ZendArray.PopKeepsAppending |

=== FILE: asio.dfy ===
/**
 * The cooperative asio scheduler: a stack of contexts, each with a FIFO
 * queue of ready continuations and two priority queues of rescheduled wait
 * handles, and the extension functions that enter and leave contexts.
 * Wait handles are named by ids; what running one does is a parameter.
 */
module Asio {
  import opened Wrappers

  type Handle = nat

  /** The two priority queues a rescheduled wait handle can go to. */
  datatype QueueKind = Default | NoPendingIO

  /** One priority level: a non-empty FIFO of handles. */
  datatype Bucket = Bucket(prio: nat, fifo: seq<Handle>)

  /**
   * A context: its depth in the context stack, the wait-handle depth it
   * was entered at, the ready queue, the default and no-pending-IO
   * priority queues (buckets in increasing priority, as the ordered map
   * keeps them), and the continuation currently running, if any.
   */
  datatype Context = Context(
    depth: nat,
    waitHandleDepth: nat,
    ready: seq<Handle>,
    prioDefault: seq<Bucket>,
    prioNoIO: seq<Bucket>,
    current: Option<Handle>)

  /** The failure callback argument: null, a closure, or some other object. */
  datatype Callback = NullCallback | Closure(id: nat) | OtherObject(id: nat)

  /** The session: the context stack (the last one is current) and the failure callback. */
  datatype Session = Session(contexts: seq<Context>, onFailed: Callback)

  datatype AsioError = NotInContext | ContinuationRunning | NotAClosure | QueuesEmptyNotBlockable

  predicate PrioOk(q: seq<Bucket>) {
    && (forall i | 0 <= i < |q| :: |q[i].fifo| > 0)
    && (forall i, j | 0 <= i < j < |q| :: q[i].prio < q[j].prio)
  }

  predicate ContextOk(c: Context) {
    PrioOk(c.prioDefault) && PrioOk(c.prioNoIO)
  }

  /** Each context's parent is the one below it, and depths count up from 0. */
  predicate SessionOk(s: Session) {
    forall i | 0 <= i < |s.contexts| :: s.contexts[i].depth == i && ContextOk(s.contexts[i])
  }

  // ---------------------------------------------------------------------
  // Contexts

  /**
   * The constructor: one deeper than the parent, or 0 without one; the
   * wait-handle depth is the parent's current one, which is given here.
   */
  function NewContext(parent: Option<Context>, parentWaitHandleDepth: nat): (r: Context)
    ensures parent.None? ==> r.depth == 0 && r.waitHandleDepth == 0
    ensures parent.Some? ==> r.depth == parent.value.depth + 1 && r.waitHandleDepth == parentWaitHandleDepth
    ensures r.ready == [] && r.prioDefault == [] && r.prioNoIO == [] && r.current.None?
  {
    Context(
      if parent.Some? then parent.value.depth + 1 else 0,
      if parent.Some? then parentWaitHandleDepth else 0,
      [], [], [], None)
  }

  /** The handles of a priority queue, lowest priority first. */
  function Drain(q: seq<Bucket>): seq<Handle> {
    if |q| == 0 then [] else q[0].fifo + Drain(q[1..])
  }

  /** `schedule(continuation)`: onto the back of the ready queue. */
  function Schedule(c: Context, h: Handle): (r: Context)
    ensures r.ready == c.ready + [h]
    ensures r.prioDefault == c.prioDefault && r.prioNoIO == c.prioNoIO && r.depth == c.depth && r.current == c.current
  {
    c.(ready := c.ready + [h])
  }

  /** The FIFO for a priority, empty when the map has no bucket for it. */
  function BucketOf(q: seq<Bucket>, prio: nat): seq<Handle> {
    if |q| == 0 then [] else if q[0].prio == prio then q[0].fifo else BucketOf(q[1..], prio)
  }

  /** Append to the bucket for `prio`, creating it in its place if it does not exist. */
  function Enqueue(q: seq<Bucket>, prio: nat, h: Handle): (r: seq<Bucket>)
    requires PrioOk(q)
    ensures PrioOk(r)
    ensures |r| > 0 && (r[0].prio == prio || (|q| > 0 && r[0].prio == q[0].prio))
    decreases |q|
  {
    if |q| == 0 then [Bucket(prio, [h])]
    else if q[0].prio == prio then [Bucket(prio, q[0].fifo + [h])] + q[1..]
    else if prio < q[0].prio then [Bucket(prio, [h])] + q
    else [q[0]] + Enqueue(q[1..], prio, h)
  }

  /** Enqueueing appends to that priority's FIFO and leaves every other priority alone. */
  lemma {:induction false} EnqueueBuckets(q: seq<Bucket>, prio: nat, h: Handle, p: nat)
    requires PrioOk(q)
    ensures BucketOf(Enqueue(q, prio, h), p) == if p == prio then BucketOf(q, p) + [h] else BucketOf(q, p)
    decreases |q|
  {
    if |q| > 0 && q[0].prio != prio && prio > q[0].prio {
      assert PrioOk(q[1..]) by {
        forall i, j | 0 <= i < j < |q| - 1 ensures q[1..][i].prio < q[1..][j].prio { assert q[1..][i] == q[i + 1] && q[1..][j] == q[j + 1]; }
      }
      EnqueueBuckets(q[1..], prio, h, p);
      assert Enqueue(q, prio, h)[1..] == Enqueue(q[1..], prio, h);
    } else if |q| > 0 && prio < q[0].prio {
      BucketAbsentBelow(q, prio);
      assert ([Bucket(prio, [h])] + q)[1..] == q;
    } else if |q| > 0 {
      assert ([Bucket(prio, q[0].fifo + [h])] + q[1..])[1..] == q[1..];
    }
  }

  /** A priority below the lowest bucket has no bucket. */
  lemma {:induction false} BucketAbsentBelow(q: seq<Bucket>, prio: nat)
    requires PrioOk(q) && |q| > 0 && prio < q[0].prio
    ensures BucketOf(q, prio) == []
    decreases |q|
  {
    if |q| > 1 {
      assert PrioOk(q[1..]) by {
        forall i, j | 0 <= i < j < |q| - 1 ensures q[1..][i].prio < q[1..][j].prio { assert q[1..][i] == q[i + 1] && q[1..][j] == q[j + 1]; }
      }
      assert q[1..][0] == q[1];
      BucketAbsentBelow(q[1..], prio);
    }
  }

  /** `schedule(reschedule, queue, priority)`: into the chosen queue's bucket for that priority. */
  function Reschedule(c: Context, h: Handle, queue: QueueKind, prio: nat): (r: Context)
    requires ContextOk(c)
    ensures ContextOk(r) && r.ready == c.ready && r.depth == c.depth && r.current == c.current
    ensures queue == Default ==> r.prioNoIO == c.prioNoIO && r.prioDefault == Enqueue(c.prioDefault, prio, h)
    ensures queue == NoPendingIO ==> r.prioDefault == c.prioDefault && r.prioNoIO == Enqueue(c.prioNoIO, prio, h)
  {
    match queue
    case Default => c.(prioDefault := Enqueue(c.prioDefault, prio, h))
    case NoPendingIO => c.(prioNoIO := Enqueue(c.prioNoIO, prio, h))
  }

  /** What `runSingle` takes: the handle to run and the queue left behind. */
  datatype Taken = Taken(h: Handle, rest: seq<Bucket>)

  /**
   * `runSingle`: nothing on an empty queue; otherwise the front of the
   * lowest-priority bucket, dropping the bucket once it is empty.
   */
  function RunSingle(q: seq<Bucket>): (r: Option<Taken>)
    requires PrioOk(q)
    ensures r.None? <==> |q| == 0
    ensures r.Some? ==> PrioOk(r.value.rest)
  {
    if |q| == 0 then None
    else
      var b := q[0];
      if |b.fifo| == 1 then Some(Taken(b.fifo[0], q[1..]))
      else Some(Taken(b.fifo[0], [Bucket(b.prio, b.fifo[1..])] + q[1..]))
  }

  /** Dropping the lowest bucket keeps a priority queue well formed. */
  lemma PrioTail(q: seq<Bucket>)
    requires PrioOk(q) && |q| > 0
    ensures PrioOk(q[1..])
  {
    forall i, j | 0 <= i < j < |q| - 1 ensures q[1..][i].prio < q[1..][j].prio {
      assert q[1..][i] == q[i + 1] && q[1..][j] == q[j + 1];
    }
  }

  /**
   * `runSingle` takes the oldest handle of the lowest priority present, and
   * the handles come out in priority order, FIFO within a priority.
   */
  lemma RunSingleTakesLowest(q: seq<Bucket>)
    requires PrioOk(q) && |q| > 0
    ensures forall i | 0 <= i < |q| :: q[0].prio <= q[i].prio
    ensures [RunSingle(q).value.h] + Drain(RunSingle(q).value.rest) == Drain(q)
    ensures BucketOf(q, q[0].prio) == [RunSingle(q).value.h] + BucketOf(RunSingle(q).value.rest, q[0].prio)
  {
    RunSingleDrain(q);
    RunSingleBucket(q);
  }

  lemma RunSingleDrain(q: seq<Bucket>)
    requires PrioOk(q) && |q| > 0
    ensures [RunSingle(q).value.h] + Drain(RunSingle(q).value.rest) == Drain(q)
  {
    var f := q[0].fifo;
    if |f| > 1 {
      assert RunSingle(q).value == Taken(f[0], [Bucket(q[0].prio, f[1..])] + q[1..]);
      SplitFront(q);
    } else {
      assert RunSingle(q).value == Taken(f[0], q[1..]);
      assert Drain(q) == f + Drain(q[1..]);
      assert f == [f[0]];
    }
  }

  /** Taking the front handle of the lowest bucket leaves the rest of the drain order unchanged. */
  lemma SplitFront(q: seq<Bucket>)
    requires |q| > 0 && |q[0].fifo| > 1
    ensures [q[0].fifo[0]] + Drain([Bucket(q[0].prio, q[0].fifo[1..])] + q[1..]) == Drain(q)
  {
    var f := q[0].fifo;
    DrainCons(Bucket(q[0].prio, f[1..]), q[1..]);
    assert f == [f[0]] + f[1..];
  }

  lemma DrainCons(b: Bucket, q: seq<Bucket>)
    ensures Drain([b] + q) == b.fifo + Drain(q)
  {
    assert ([b] + q)[1..] == q;
  }

  lemma RunSingleBucket(q: seq<Bucket>)
    requires PrioOk(q) && |q| > 0
    ensures BucketOf(q, q[0].prio) == [RunSingle(q).value.h] + BucketOf(RunSingle(q).value.rest, q[0].prio)
  {
    var t := RunSingle(q).value;
    if |q[0].fifo| == 1 {
      if |q| > 1 {
        PrioTail(q);
        BucketAbsentBelow(q[1..], q[0].prio);
      }
      assert q[0].fifo == [t.h];
    } else {
      assert q[0].fifo == [t.h] + q[0].fifo[1..];
    }
  }

  // ---------------------------------------------------------------------
  // Running until a handle finishes

  /** Which queue a step ran a handle from. */
  datatype Source = FromReady | FromDefault | FromNoIO

  datatype Ran = Ran(source: Source, h: Handle)

  /** One step of `runUntil`'s loop, before the handle's own run. */
  datatype Step = Finished | Run(ran: Ran, next: Context) | NothingToRun

  /**
   * The order `runUntil` follows: stop once the awaited handle has
   * finished; otherwise the ready queue first, then one handle from the
   * default queue, then one from the no-pending-IO queue.
   */
  function NextStep(c: Context, finished: bool): (r: Step)
    requires ContextOk(c)
    ensures finished <==> r.Finished?
    ensures r.NothingToRun? <==> !finished && c.ready == [] && c.prioDefault == [] && c.prioNoIO == []
    ensures r.Run? && r.ran.source == FromReady ==> |c.ready| > 0 && r.ran.h == c.ready[0] && r.next == c.(ready := c.ready[1..])
    ensures r.Run? && r.ran.source == FromDefault ==>
      |c.prioDefault| > 0 && RunSingle(c.prioDefault) == Some(Taken(r.ran.h, r.next.prioDefault)) && r.next == c.(prioDefault := r.next.prioDefault)
    ensures r.Run? && r.ran.source == FromNoIO ==>
      |c.prioNoIO| > 0 && RunSingle(c.prioNoIO) == Some(Taken(r.ran.h, r.next.prioNoIO)) && r.next == c.(prioNoIO := r.next.prioNoIO)
    ensures r.Run? && r.ran.source != FromReady ==> c.ready == []
    ensures r.Run? && r.ran.source == FromNoIO ==> c.prioDefault == []
    ensures r.Run? ==> ContextOk(r.next)
  {
    if finished then Finished
    else if |c.ready| > 0 then Run(Ran(FromReady, c.ready[0]), c.(ready := c.ready[1..]))
    else match RunSingle(c.prioDefault)
      case Some(t) => Run(Ran(FromDefault, t.h), c.(prioDefault := t.rest))
      case None =>
        match RunSingle(c.prioNoIO)
        case Some(t) => Run(Ran(FromNoIO, t.h), c.(prioNoIO := t.rest))
        case None => NothingToRun
  }

  /** How `runUntil` ends. */
  datatype RunResult = Done(c: Context, ran: seq<Ran>) | Failed(e: AsioError, ran: seq<Ran>) | OutOfFuel(c: Context, ran: seq<Ran>)

  /**
   * `runUntil`: `run` is what running a handle does to the context (a ready
   * continuation runs as the context's current one), `isFinished` tells
   * whether the awaited handle has finished, `killCycle` breaks the cycle a
   * blocked handle sits in once nothing is left to run. The fuel bounds the
   * number of loop turns.
   */
  function RunUntil(c: Context, run: (Context, Handle) -> Context, isFinished: Context -> bool,
                    blockable: bool, killCycle: Context -> Context, fuel: nat): (r: RunResult)
    requires ContextOk(c)
    ensures r.Done? ==> isFinished(r.c)
    ensures isFinished(c) ==> r == Done(c, [])
    decreases fuel
  {
    match NextStep(c, isFinished(c))
      case Finished => Done(c, [])
      case NothingToRun =>
        if !blockable then Failed(QueuesEmptyNotBlockable, [])
        else if fuel == 0 then OutOfFuel(c, [])
        else
          var c' := killCycle(c);
          if !ContextOk(c') then OutOfFuel(c', [])
          else RunUntil(c', run, isFinished, blockable, killCycle, fuel - 1)
      case Run(ran, next) =>
        var c' := AfterRun(ran, next, run);
        if fuel == 0 || !ContextOk(c') then OutOfFuel(c', [ran])
        else Prefixed(ran, RunUntil(c', run, isFinished, blockable, killCycle, fuel - 1))
  }

  /** The context after running a handle; a ready continuation runs as the context's current one. */
  function AfterRun(ran: Ran, next: Context, run: (Context, Handle) -> Context): Context {
    if ran.source == FromReady then run(next.(current := Some(ran.h)), ran.h).(current := None)
    else run(next, ran.h)
  }

  /** Records that `ran` ran before the rest of the loop. */
  function Prefixed(ran: Ran, r: RunResult): (p: RunResult)
    ensures p.ran == [ran] + r.ran
  {
    match r
    case Done(d, rs) => Done(d, [ran] + rs)
    case Failed(e, rs) => Failed(e, [ran] + rs)
    case OutOfFuel(d, rs) => OutOfFuel(d, [ran] + rs)
  }

  /** Running a handle adds no work and the awaited handle never finishes. */
  ghost predicate Inert(run: (Context, Handle) -> Context, isFinished: Context -> bool) {
    && (forall d, h :: run(d, h) == d)
    && (forall d :: !isFinished(d))
  }

  /**
   * When running does not add work and the awaited handle never finishes,
   * `runUntil` first empties the ready queue in order, then the default
   * queue, then the no-pending-IO queue.
   */
  lemma {:induction false} RunUntilOrder(c: Context, run: (Context, Handle) -> Context, isFinished: Context -> bool,
                                        killCycle: Context -> Context, fuel: nat)
    requires ContextOk(c)
    requires Inert(run, isFinished)
    requires fuel >= |c.ready| + |Drain(c.prioDefault)| + |Drain(c.prioNoIO)|
    ensures RunUntil(c, run, isFinished, false, killCycle, fuel) == Failed(QueuesEmptyNotBlockable,
        Runs(FromReady, c.ready) + Runs(FromDefault, Drain(c.prioDefault)) + Runs(FromNoIO, Drain(c.prioNoIO)))
    decreases fuel, 1
  {
    var step := NextStep(c, isFinished(c));
    if step.Run? {
      match step.ran.source
      case FromReady => OrderReady(c, run, isFinished, killCycle, fuel);
      case FromDefault => OrderDefault(c, run, isFinished, killCycle, fuel);
      case FromNoIO => OrderNoIO(c, run, isFinished, killCycle, fuel);
    }
  }

  lemma {:induction false} OrderReady(c: Context, run: (Context, Handle) -> Context, isFinished: Context -> bool,
                                        killCycle: Context -> Context, fuel: nat)
    requires ContextOk(c)
    requires Inert(run, isFinished)
    requires fuel >= |c.ready| + |Drain(c.prioDefault)| + |Drain(c.prioNoIO)|
    requires NextStep(c, false).Run? && NextStep(c, false).ran.source == FromReady
    ensures RunUntil(c, run, isFinished, false, killCycle, fuel) == Failed(QueuesEmptyNotBlockable,
        Runs(FromReady, c.ready) + Runs(FromDefault, Drain(c.prioDefault)) + Runs(FromNoIO, Drain(c.prioNoIO)))
    decreases fuel, 0
  {
    var step := NextStep(c, isFinished(c));
    var ran, next := step.ran, step.next;
    var c' := AfterRun(ran, next, run);
    var ds, ns := Runs(FromDefault, Drain(c.prioDefault)), Runs(FromNoIO, Drain(c.prioNoIO));
    assert c' == c.(ready := c.ready[1..], current := None);
    RunUntilOrder(c', run, isFinished, killCycle, fuel - 1);
    RunUntilRunStep(c, run, isFinished, false, killCycle, fuel);
    RunsCons(FromReady, c.ready);
    ConsAssoc(ran, Runs(FromReady, c.ready[1..]), ds, ns);
  }

  lemma {:induction false} OrderDefault(c: Context, run: (Context, Handle) -> Context, isFinished: Context -> bool,
                                        killCycle: Context -> Context, fuel: nat)
    requires ContextOk(c)
    requires Inert(run, isFinished)
    requires fuel >= |c.ready| + |Drain(c.prioDefault)| + |Drain(c.prioNoIO)|
    requires NextStep(c, false).Run? && NextStep(c, false).ran.source == FromDefault
    ensures RunUntil(c, run, isFinished, false, killCycle, fuel) == Failed(QueuesEmptyNotBlockable,
        Runs(FromReady, c.ready) + Runs(FromDefault, Drain(c.prioDefault)) + Runs(FromNoIO, Drain(c.prioNoIO)))
    decreases fuel, 0
  {
    var step := NextStep(c, isFinished(c));
    var ran, next := step.ran, step.next;
    var ns := Runs(FromNoIO, Drain(c.prioNoIO));
    assert AfterRun(ran, next, run) == next;
    RunSingleDrain(c.prioDefault);
    RunUntilOrder(next, run, isFinished, killCycle, fuel - 1);
    RunsCons(FromDefault, Drain(c.prioDefault));
    RunUntilRunStep(c, run, isFinished, false, killCycle, fuel);
    assert Runs(FromReady, c.ready) == [];
    assert Runs(FromDefault, Drain(c.prioDefault)) + ns == [ran] + (Runs(FromDefault, Drain(next.prioDefault)) + ns);
  }

  lemma {:induction false} OrderNoIO(c: Context, run: (Context, Handle) -> Context, isFinished: Context -> bool,
                                        killCycle: Context -> Context, fuel: nat)
    requires ContextOk(c)
    requires Inert(run, isFinished)
    requires fuel >= |c.ready| + |Drain(c.prioDefault)| + |Drain(c.prioNoIO)|
    requires NextStep(c, false).Run? && NextStep(c, false).ran.source == FromNoIO
    ensures RunUntil(c, run, isFinished, false, killCycle, fuel) == Failed(QueuesEmptyNotBlockable,
        Runs(FromReady, c.ready) + Runs(FromDefault, Drain(c.prioDefault)) + Runs(FromNoIO, Drain(c.prioNoIO)))
    decreases fuel, 0
  {
    var step := NextStep(c, isFinished(c));
    var ran, next := step.ran, step.next;
    assert AfterRun(ran, next, run) == next;
    RunSingleDrain(c.prioNoIO);
    RunUntilOrder(next, run, isFinished, killCycle, fuel - 1);
    RunsCons(FromNoIO, Drain(c.prioNoIO));
    RunUntilRunStep(c, run, isFinished, false, killCycle, fuel);
    assert Runs(FromReady, c.ready) == [] && Runs(FromDefault, Drain(c.prioDefault)) == [];
  }

  /** One loop turn that runs a handle, then the rest of the loop from the context it leaves. */
  lemma RunUntilRunStep(c: Context, run: (Context, Handle) -> Context, isFinished: Context -> bool,
                        blockable: bool, killCycle: Context -> Context, fuel: nat)
    requires ContextOk(c) && fuel > 0 && NextStep(c, isFinished(c)).Run?
    requires ContextOk(AfterRun(NextStep(c, isFinished(c)).ran, NextStep(c, isFinished(c)).next, run))
    ensures var step := NextStep(c, isFinished(c));
      RunUntil(c, run, isFinished, blockable, killCycle, fuel)
      == Prefixed(step.ran, RunUntil(AfterRun(step.ran, step.next, run), run, isFinished, blockable, killCycle, fuel - 1))
  {
  }

  lemma ConsAssoc<T>(x: T, a: seq<T>, b: seq<T>, c: seq<T>)
    ensures [x] + a + b + c == [x] + (a + b + c)
  {
  }

  lemma RunsCons(source: Source, hs: seq<Handle>)
    requires |hs| > 0
    ensures Runs(source, hs) == [Ran(source, hs[0])] + Runs(source, hs[1..])
  {
  }

  /** The record of running `hs` in order from one source. */
  function Runs(source: Source, hs: seq<Handle>): seq<Ran>
  {
    if |hs| == 0 then [] else [Ran(source, hs[0])] + Runs(source, hs[1..])
  }

  // ---------------------------------------------------------------------
  // The extension functions

  function Current(s: Session): Option<Context> {
    if |s.contexts| == 0 then None else Some(s.contexts[|s.contexts| - 1])
  }

  /** `asio_enter_context`: a new context whose parent is the current one becomes current. */
  function EnterContext(s: Session, parentWaitHandleDepth: nat): (r: Session)
    ensures |r.contexts| == |s.contexts| + 1 && r.contexts[..|s.contexts|] == s.contexts
    ensures Current(r).Some? && Current(r).value.current.None?
    ensures SessionOk(s) ==> Current(r).value.depth == |s.contexts|
    ensures SessionOk(s) ==> SessionOk(r)
  {
    Session(s.contexts + [NewContext(Current(s), parentWaitHandleDepth)], s.onFailed)
  }

  /** What leaving a context gives: the session and the handles told to leave it, in queue order. */
  datatype Exited = Exited(session: Session, released: seq<Handle>)

  /**
   * `asio_exit_context`: refused outside a context and while a continuation
   * runs; otherwise the context's queues are emptied (ready queue, default
   * buckets, no-pending-IO buckets) and its parent becomes current.
   */
  function ExitContext(s: Session): (r: Result<Exited, AsioError>)
    ensures |s.contexts| == 0 ==> r == Err(NotInContext)
    ensures |s.contexts| > 0 && Current(s).value.current.Some? ==> r == Err(ContinuationRunning)
    ensures r.Ok? ==> r.value.session.contexts == s.contexts[..|s.contexts| - 1] && r.value.session.onFailed == s.onFailed
    ensures r.Ok? ==> var c := Current(s).value;
      r.value.released == c.ready + Drain(c.prioDefault) + Drain(c.prioNoIO)
  {
    if |s.contexts| == 0 then Err(NotInContext)
    else
      var c := s.contexts[|s.contexts| - 1];
      if c.current.Some? then Err(ContinuationRunning)
      else Ok(Exited(Session(s.contexts[..|s.contexts| - 1], s.onFailed), c.ready + Drain(c.prioDefault) + Drain(c.prioNoIO)))
  }

  /** Entering and then leaving a context gives the previous session back, with nothing released. */
  lemma EnterExit(s: Session, parentWaitHandleDepth: nat)
    ensures ExitContext(EnterContext(s, parentWaitHandleDepth)) == Ok(Exited(s, []))
  {
    var r := EnterContext(s, parentWaitHandleDepth);
    assert r.contexts[..|r.contexts| - 1] == s.contexts;
    assert Current(r).value.ready + Drain(Current(r).value.prioDefault) + Drain(Current(r).value.prioNoIO) == [];
  }

  /** Leaving keeps the context stack well formed. */
  lemma ExitKeepsSession(s: Session)
    requires SessionOk(s) && ExitContext(s).Ok?
    ensures SessionOk(ExitContext(s).value.session)
    ensures |s.contexts| > 1 ==> Current(ExitContext(s).value.session).value.depth == Current(s).value.depth - 1
  {
  }

  /** `asio_get_current`: null outside a context, else the running continuation (null if none). */
  function GetCurrent(s: Session): (r: Option<Handle>)
    ensures |s.contexts| == 0 ==> r.None?
    ensures |s.contexts| > 0 ==> r == s.contexts[|s.contexts| - 1].current
  {
    match Current(s)
    case None => None
    case Some(c) => c.current
  }

  /** `asio_set_on_failed_callback`: null or a closure is stored; anything else is refused and nothing changes. */
  function SetOnFailedCallback(s: Session, cb: Callback): (r: Result<Session, AsioError>)
    ensures r.Err? <==> cb.OtherObject?
    ensures r.Err? ==> r.error == NotAClosure
    ensures r.Ok? ==> r.value == s.(onFailed := cb)
  {
    if cb.OtherObject? then Err(NotAClosure) else Ok(s.(onFailed := cb))
  }
}

=== FILE: genarray.dfy ===
/**
 * The gen-array wait handle: waits for every wait handle in an array of
 * dependencies and yields the array of their results, or the first
 * exception met. The dependencies are walked in iteration order; null
 * entries stay null, finished children are replaced by their result (or
 * contribute their exception), and the walk stops at the first child that
 * has not finished, to resume once it has.
 *
 * Only the values of the dependency array are modelled (the walk never
 * changes a key). Child wait handles are named by ids and their states
 * come from a map: an id the map does not hold is still pending.
 */
module GenArray {
  import opened Wrappers

  type Id = nat

  /** An exception: the one raised for a non-wait-handle entry, or one a child failed with. */
  datatype Exc = InvalidArgument | Thrown(id: nat)

  /** A wait handle in the array: a child handle, or a static exception handle put there by `failBlock`. */
  datatype WaitHandle = Child(id: Id) | StaticFailure(exc: Exc)

  /** An entry of the dependency array. */
  datatype Cell = Uninit | Null | Plain(v: int) | WH(w: WaitHandle)

  /** What a child wait handle's state is when the walk looks at it. */
  datatype ChildState = Succeeded(result: Cell) | FailedWith(exc: Exc) | Pending

  type Status = map<Id, ChildState>

  function StateOf(w: WaitHandle, st: Status): (r: ChildState)
    ensures w.StaticFailure? ==> r == FailedWith(w.exc)
  {
    match w
    case StaticFailure(e) => FailedWith(e)
    case Child(id) => if id in st then st[id] else Pending
  }

  /** `putException`: only the first exception recorded is kept. */
  function PutException(field: Option<Exc>, e: Exc): (r: Option<Exc>)
    ensures r.Some?
    ensures field.None? ==> r == Some(e)
    ensures field.Some? ==> r == field
  {
    if field.None? then Some(e) else field
  }

  // ---------------------------------------------------------------------
  // The walk

  /** Where a walk stops: blocked on the child at `pos`, or at the end of the array. */
  datatype Walk = Blocked(deps: seq<Cell>, pos: nat, exc: Option<Exc>) | Complete(deps: seq<Cell>, exc: Option<Exc>)

  /**
   * The loop shared by `create` and `onUnblocked`, from position `i` with
   * the exception recorded so far.
   */
  function Fold(deps: seq<Cell>, i: nat, exc: Option<Exc>, st: Status): (r: Walk)
    requires i <= |deps|
    ensures |r.deps| == |deps|
    ensures r.Blocked? ==> i <= r.pos < |deps|
    decreases |deps| - i
  {
    if i == |deps| then Complete(deps, exc)
    else match deps[i]
      case Uninit => Fold(deps[i := Null], i + 1, exc, st)
      case Null => Fold(deps[i := Null], i + 1, exc, st)
      case Plain(_) => Fold(deps, i + 1, PutException(exc, InvalidArgument), st)
      case WH(w) =>
        match StateOf(w, st)
        case Succeeded(v) => Fold(deps[i := v], i + 1, exc, st)
        case FailedWith(e) => Fold(deps, i + 1, PutException(exc, e), st)
        case Pending => Blocked(deps, i, exc)
  }

  // Reference definitions, one entry at a time.

  predicate IsPending(c: Cell, st: Status) {
    c.WH? && StateOf(c.w, st).Pending?
  }

  /** What an entry becomes once looked at: null for null types, the result for a succeeded child, itself otherwise. */
  function Settle(c: Cell, st: Status): Cell {
    match c
    case Uninit => Null
    case Null => Null
    case Plain(_) => c
    case WH(w) => if StateOf(w, st).Succeeded? then StateOf(w, st).result else c
  }

  /** The exception an entry contributes: a non-wait-handle entry or a failed child. */
  function CellExc(c: Cell, st: Status): Option<Exc> {
    match c
    case Plain(_) => Some(InvalidArgument)
    case WH(w) => if StateOf(w, st).FailedWith? then Some(StateOf(w, st).exc) else None
    case _ => None
  }

  function Or(a: Option<Exc>, b: Option<Exc>): Option<Exc> {
    if a.Some? then a else b
  }

  /** The first exception contributed by the entries at `lo` up to `hi`. */
  function FirstExc(deps: seq<Cell>, lo: nat, hi: nat, st: Status): Option<Exc>
    requires lo <= hi <= |deps|
    decreases hi - lo
  {
    if lo == hi then None else Or(CellExc(deps[lo], st), FirstExc(deps, lo + 1, hi, st))
  }

  lemma {:induction false} FirstExcFrame(a: seq<Cell>, b: seq<Cell>, lo: nat, hi: nat, st: Status)
    requires lo <= hi <= |a| == |b|
    requires forall j | lo <= j < hi :: a[j] == b[j]
    ensures FirstExc(a, lo, hi, st) == FirstExc(b, lo, hi, st)
    decreases hi - lo
  {
    if lo < hi {
      FirstExcFrame(a, b, lo + 1, hi, st);
    }
  }

  /** One step of the walk is: record the entry's exception, settle the entry, move on. */
  lemma FoldStep(deps: seq<Cell>, i: nat, exc: Option<Exc>, st: Status)
    requires i < |deps| && !IsPending(deps[i], st)
    ensures Fold(deps, i, exc, st) == Fold(deps[i := Settle(deps[i], st)], i + 1, Or(exc, CellExc(deps[i], st)), st)
  {
    match deps[i]
    case Uninit =>
    case Null =>
    case Plain(_) =>
      assert deps[i := Settle(deps[i], st)] == deps;
    case WH(w) =>
      if !StateOf(w, st).Succeeded? {
        assert deps[i := Settle(deps[i], st)] == deps;
      }
  }

  /** The entries the walk stopped before. */
  function End(r: Walk): nat {
    if r.Blocked? then r.pos else |r.deps|
  }

  /**
   * What the walk from `i` computes: it stops at the first pending child at
   * or after `i` (or runs to the end when there is none), every entry it
   * passed is settled, every other entry is untouched, and the exception it
   * keeps is the first of the one it started with and those of the passed
   * entries.
   */
  lemma {:induction false} FoldSpec(deps: seq<Cell>, i: nat, exc: Option<Exc>, st: Status)
    requires i <= |deps|
    ensures var r := Fold(deps, i, exc, st);
      (i <= End(r) <= |deps|
      && (forall j | i <= j < End(r) :: !IsPending(deps[j], st) && r.deps[j] == Settle(deps[j], st))
      && (forall j | 0 <= j < i || End(r) <= j < |deps| :: r.deps[j] == deps[j])
      && (r.Blocked? ==> IsPending(deps[r.pos], st))
      && r.exc == Or(exc, FirstExc(deps, i, End(r), st)))
    decreases |deps| - i
  {
    var r := Fold(deps, i, exc, st);
    if i < |deps| && !IsPending(deps[i], st) {
      var d' := deps[i := Settle(deps[i], st)];
      var e' := Or(exc, CellExc(deps[i], st));
      FoldStep(deps, i, exc, st);
      FoldSpec(d', i + 1, e', st);
      FirstExcFrame(d', deps, i + 1, End(r), st);
    }
  }

  /** A walk from the start blocks exactly when some entry is a pending child. */
  lemma WalkBlocksIffPending(deps: seq<Cell>, st: Status)
    ensures Fold(deps, 0, None, st).Blocked? <==> exists j | 0 <= j < |deps| :: IsPending(deps[j], st)
  {
    FoldSpec(deps, 0, None, st);
  }

  /** Child states only move from pending to finished between `s1` and `s2`. */
  predicate Settles(s1: Status, s2: Status) {
    forall id | id in s1 && !s1[id].Pending? :: id in s2 && s2[id] == s1[id]
  }

  /**
   * Resuming a blocked walk once children have finished gives what a single
   * walk over the original array with the later states gives: blocking
   * loses nothing and repeats nothing.
   */
  lemma {:induction false} FoldResume(deps: seq<Cell>, i: nat, exc: Option<Exc>, s1: Status, s2: Status)
    requires i <= |deps| && Settles(s1, s2)
    ensures var b := Fold(deps, i, exc, s1);
      b.Blocked? ==> Fold(b.deps, b.pos, b.exc, s2) == Fold(deps, i, exc, s2)
    decreases |deps| - i
  {
    if i < |deps| && !IsPending(deps[i], s1) {
      if deps[i].WH? {
        assert StateOf(deps[i].w, s2) == StateOf(deps[i].w, s1);
      }
      assert Settle(deps[i], s2) == Settle(deps[i], s1) && CellExc(deps[i], s2) == CellExc(deps[i], s1);
      FoldStep(deps, i, exc, s1);
      FoldStep(deps, i, exc, s2);
      FoldResume(deps[i := Settle(deps[i], s1)], i + 1, Or(exc, CellExc(deps[i], s1)), s1, s2);
    }
  }

  // ---------------------------------------------------------------------
  // The wait handle

  /** A gen-array wait handle: blocked (in a context) on the entry at `pos`, or finished. */
  datatype State =
    | Waiting(deps: seq<Cell>, pos: nat, exc: Option<Exc>, context: nat)
    | Done(result: seq<Cell>)
    | FailedState(e: Exc)

  /** A waiting handle is blocked on a wait handle entry of its array. */
  predicate StateOk(s: State) {
    s.Waiting? ==> s.pos < |s.deps| && s.deps[s.pos].WH?
  }

  /** What `create` returns: a static result, a static exception, or a blocked gen-array handle. */
  datatype Created = StaticResult(deps: seq<Cell>) | StaticException(e: Exc) | Blocking(handle: State)

  /**
   * `create`: walk a copy of the dependencies; if some child is pending,
   * a new handle blocked on it in the current context, else a static result
   * or the first exception.
   */
  function Create(deps: seq<Cell>, st: Status, context: nat): (r: Created)
    ensures r.Blocking? ==> r.handle.Waiting? && StateOk(r.handle) && r.handle.context == context
  {
    match Fold(deps, 0, None, st)
    case Blocked(d, p, e) =>
      FoldSpec(deps, 0, None, st);
      Blocking(Waiting(d, p, e, context))
    case Complete(d, e) => if e.None? then StaticResult(d) else StaticException(e.value)
  }

  /**
   * What `create` gives in terms of the reference definitions: a static
   * result exactly when no child is pending and no entry has an exception,
   * holding every entry settled; a static exception exactly when no child
   * is pending and some entry has one, holding the first.
   */
  lemma CreateSpec(deps: seq<Cell>, st: Status, context: nat)
    ensures var r := Create(deps, st, context);
      ((r.Blocking? <==> exists j | 0 <= j < |deps| :: IsPending(deps[j], st))
      && (r.StaticResult? <==> (forall j | 0 <= j < |deps| :: !IsPending(deps[j], st)) && FirstExc(deps, 0, |deps|, st).None?)
      && (r.StaticResult? ==> |r.deps| == |deps| && forall j | 0 <= j < |deps| :: r.deps[j] == Settle(deps[j], st))
      && (r.StaticException? ==> Some(r.e) == FirstExc(deps, 0, |deps|, st))
      && (r.Blocking? ==> IsPending(deps[r.handle.pos], st) && r.handle.exc == FirstExc(deps, 0, r.handle.pos, st)))
  {
    FoldSpec(deps, 0, None, st);
  }

  /** The end of a walk decides the handle's next state. */
  function Finish(w: Walk, context: nat): (r: State)
    ensures w.Blocked? ==> r == Waiting(w.deps, w.pos, w.exc, context)
    ensures w.Complete? && w.exc.None? ==> r == Done(w.deps)
    ensures w.Complete? && w.exc.Some? ==> r == FailedState(w.exc.value)
  {
    match w
    case Blocked(d, p, e) => Waiting(d, p, e, context)
    case Complete(d, e) => if e.None? then Done(d) else FailedState(e.value)
  }

  /** `onUnblocked`: resume the walk at the entry it was blocked on. */
  function OnUnblocked(s: State, st: Status): (r: State)
    requires s.Waiting? && StateOk(s)
    ensures StateOk(r)
    ensures r.Waiting? ==> r.context == s.context && s.pos <= r.pos
  {
    FoldSpec(s.deps, s.pos, s.exc, st);
    Finish(Fold(s.deps, s.pos, s.exc, st), s.context)
  }

  /**
   * Creating under some child states and resuming under later ones ends in
   * the state a single walk under the later states describes.
   */
  lemma CreateThenResume(deps: seq<Cell>, s1: Status, s2: Status, context: nat)
    requires Settles(s1, s2)
    ensures var c := Create(deps, s1, context);
      c.Blocking? ==> OnUnblocked(c.handle, s2) == Finish(Fold(deps, 0, None, s2), context)
  {
    FoldResume(deps, 0, None, s1, s2);
  }

  /** The wait handle a `failBlock` puts in place of the entry it was blocked on. */
  function FailBlock(s: State, e: Exc, st: Status): (r: State)
    requires s.Waiting? && StateOk(s)
    ensures StateOk(r)
    ensures !r.Done?
    ensures r.FailedState? && s.exc.None? ==> r.e == e
    ensures r.FailedState? && s.exc.Some? ==> r.e == s.exc.value
    ensures r.Waiting? ==> r.exc == PutException(s.exc, e) && s.pos < r.pos
  {
    var s' := s.(deps := s.deps[s.pos := WH(StaticFailure(e))]);
    FoldStep(s'.deps, s.pos, s.exc, st);
    FoldSpec(s'.deps, s.pos + 1, PutException(s.exc, e), st);
    OnUnblocked(s', st)
  }

  /** What `enterContext` does: nothing, or move the handle and pass the context on to the child it is blocked on. */
  datatype Entered = Entered(state: State, passOn: Option<WaitHandle>)

  /**
   * `enterContext`: a finished handle, or one whose context the new one
   * already includes, stays as it is; otherwise the handle moves to the new
   * context and so does the child it is blocked on. `includes(c, d)` is
   * `AsioContext::includes`: whether context `c` includes context `d`.
   */
  function EnterContext(s: State, context: nat, includes: (nat, nat) -> bool): (r: Entered)
    requires StateOk(s)
    ensures !s.Waiting? || includes(context, s.context) ==> r == Entered(s, None)
    ensures s.Waiting? && !includes(context, s.context) ==>
      && r.state == s.(context := context)
      && r.passOn == Some(s.deps[s.pos].w)
  {
    if !s.Waiting? || includes(context, s.context) then Entered(s, None)
    else Entered(s.(context := context), Some(s.deps[s.pos].w))
  }

  /**
   * After entering, a waiting handle is in a context the new one includes,
   * so entering the same context again takes the early return: the handle stays as it is
   * and nothing is passed on to its child.
   */
  lemma EnterContextIdempotent(s: State, context: nat, includes: (nat, nat) -> bool)
    requires StateOk(s) && includes(context, context)
    ensures var r := EnterContext(s, context, includes);
      && StateOk(r.state)
      && (r.state.Waiting? ==> includes(context, r.state.context))
      && EnterContext(r.state, context, includes) == Entered(r.state, None)
  {
  }
}

=== FILE: generators.dfy ===
/**
 * The trace builder's instruction generators that carry logic of their
 * own (constants, locals, stack spills and loads, if-then-else diamonds)
 * and its constructor.
 */
module Generators {
  import Ty = IRType
  import opened Opcodes
  import opened Wrappers
  import TC = TypeCheck
  import IR
  import L = Locals
  import TB = TraceBuilder
  import SV = StackValue

  /** The result of a generator: the builder's new state and the value produced, if any. */
  type Gen = Result<(TB.State, Option<nat>), TB.Error>

  /** A generator kept the builder valid and only grew its arena. */
  predicate Grown(st: TB.State, r: Gen) {
    r.Ok? ==> (TB.Valid(r.value.0) && IR.Extends(st.f, r.value.0.f) &&
      (r.value.1.Some? ==> r.value.1.value < |r.value.0.f.values|))
  }

  // ---------------------------------------------------------------------
  // Constants

  /** Whether value `v` is defined by a DefConst with this type parameter and payload. */
  predicate DefinedAsConst(f: IR.Factory, v: nat, t: Ty.Type, bits: int) {
    v < |f.values| && f.values[v].inst < |f.insts| &&
    var inst := f.insts[f.values[v].inst];
    inst.op == DefConst && inst.typeParam == t && inst.srcs == [] && inst.extra == IR.ConstData(bits)
  }

  /**
   * DefConst with the given type parameter and payload. Without
   * simplification the result is such a constant, either found in the
   * constant table or freshly allocated (and then not linked into the
   * trace).
   */
  function GenConst(cfg: TB.Config, st: TB.State, t: Ty.Type, bits: int): (r: Gen)
    requires TB.Valid(st)
    ensures Grown(st, r)
    ensures r.Ok? ==> r.value.0.trace == st.trace && TB.KeepsPointers(st, r.value.0)
    ensures r.Ok? ==> r.value.0.enableCse == st.enableCse && r.value.0.enableSimplification == st.enableSimplification
    ensures r.Ok? && !st.enableSimplification ==>
      r.value.1.Some? && DefinedAsConst(r.value.0.f, r.value.1.value, t, bits)
    ensures cfg.debug && t == Ty.None ==> r == Err(TB.BuildFailed(IR.OperandCheckFailed(TC.MissingTypeParam)))
    ensures !cfg.debug || t != Ty.None ==> r.Ok? || st.enableSimplification
  {
    ConstMake(st.f, cfg.debug, t, bits);
    ConstGenKeepsTrace(cfg, st, t, bits);
    ConstGenDefines(cfg, st, t, bits);
    TB.Gen(cfg, st, DefConst, [IR.TypeArg(t), IR.ExtraArg(IR.ConstData(bits))], IR.NoSrcs)
  }

  /** Generating a constant does not touch the trace or the stack and frame pointers. */
  lemma ConstGenKeepsTrace(cfg: TB.Config, st: TB.State, t: Ty.Type, bits: int)
    requires TB.Valid(st)
    ensures var r := TB.Gen(cfg, st, DefConst, [IR.TypeArg(t), IR.ExtraArg(IR.ConstData(bits))], IR.NoSrcs);
      r.Ok? ==> r.value.0.trace == st.trace && TB.KeepsPointers(st, r.value.0)
  {
    ConstMake(st.f, cfg.debug, t, bits);
  }

  /** Without simplification a constant is always generated, as a DefConst with its type and payload. */
  lemma ConstGenDefines(cfg: TB.Config, st: TB.State, t: Ty.Type, bits: int)
    requires TB.Valid(st)
    ensures var r := TB.Gen(cfg, st, DefConst, [IR.TypeArg(t), IR.ExtraArg(IR.ConstData(bits))], IR.NoSrcs);
      !st.enableSimplification && (!cfg.debug || t != Ty.None) ==>
        r.Ok? && r.value.1.Some? && DefinedAsConst(r.value.0.f, r.value.1.value, t, bits)
  {
    var args := [IR.TypeArg(t), IR.ExtraArg(IR.ConstData(bits))];
    var inst := IR.Instr(DefConst, t, [], [], None, IR.ConstData(bits));
    ConstMake(st.f, cfg.debug, t, bits);
    if !st.enableSimplification && (!cfg.debug || t != Ty.None) {
      var r := TB.Gen(cfg, st, DefConst, args, IR.NoSrcs);
      ConstEmitOk(cfg, st, inst);
      ConstResult(cfg, st, inst, r.value);
    }
  }

  /** The DefConst a constant generator builds, or why the operand check refuses it. */
  lemma ConstMake(f: IR.Factory, debug: bool, t: Ty.Type, bits: int)
    ensures IR.MakeInstruction(f, debug, DefConst, [IR.TypeArg(t), IR.ExtraArg(IR.ConstData(bits))], IR.NoSrcs) ==
      (if debug && t == Ty.None then Err(IR.OperandCheckFailed(TC.MissingTypeParam))
       else Ok(IR.Instr(DefConst, t, [], [], None, IR.ConstData(bits))))
  {
    TypeAndExtraArgs(IR.Transient(DefConst), t, IR.ConstData(bits));
    ConstOperandsOk(f, t);
  }

  /** A type argument then an extra-data argument set exactly those two fields. */
  lemma TypeAndExtraArgs(inst: IR.Instr, t: Ty.Type, e: IR.Extra)
    requires inst.extra == IR.NoData && e != IR.NoData
    ensures IR.ApplyArgs(inst, [IR.TypeArg(t), IR.ExtraArg(e)]) == Ok(inst.(typeParam := t, extra := e))
  {
    var args := [IR.TypeArg(t), IR.ExtraArg(e)];
    assert args[1..] == [IR.ExtraArg(e)];
    assert args[1..][1..] == [];
    calc {
      IR.ApplyArgs(inst, args);
      IR.ApplyArgs(inst.(typeParam := t), args[1..]);
      IR.ApplyArgs(inst.(typeParam := t, extra := e), args[1..][1..]);
    }
  }

  /** DefConst passes the operand check exactly when its type parameter is not None. */
  lemma ConstOperandsOk(f: IR.Factory, t: Ty.Type)
    ensures TC.CheckOperands(DefConst, t, IR.Operands(f, [])) ==
      (if t == Ty.None then Some(TC.MissingTypeParam) else None)
  {
  }

  /** What optimizeInst returns for a constant when the simplifier is off. */
  lemma ConstResult(cfg: TB.Config, st: TB.State, inst: IR.Instr, res: (TB.State, Option<nat>))
    requires TB.Valid(st) && TB.Emittable(st, inst) && !st.enableSimplification
    requires inst.op == DefConst && inst.dsts == [] && inst.target.None? && inst.srcs == [] && inst.extra.ConstData?
    ensures TB.OptimizeInst(cfg, st, inst) == Ok(res) ==>
      res.1.Some? && DefinedAsConst(res.0.f, res.1.value, inst.typeParam, inst.extra.bits)
  {
    if TB.OptimizeInst(cfg, st, inst) == Ok(res) {
      match TB.CseLookup(st, inst)
      case Some(v) =>
      case None =>
        assert TB.OptimizeInst(cfg, st, inst) == TB.Emit(cfg, st, inst);
        ConstOps();
    }
  }

  lemma ConstOps()
    ensures !TB.PointerOp(DefConst) && HasDst(DefConst) && Info(DefConst).dst.DParam?
    ensures DefConst != StRef && DefConst != StRefNT && DefConst != StLoc && DefConst != StLocNT && DefConst != LdLoc
    ensures DefConst != AssertLoc && DefConst != GuardLoc && DefConst != LdThis && DefConst != SetProp && DefConst != SetElem
    ensures !TB.IterOp(DefConst)
  {
  }

  /** A constant is always emitted: its type is its type parameter and it has nothing to track. */
  lemma ConstEmitOk(cfg: TB.Config, st: TB.State, inst: IR.Instr)
    requires TB.Valid(st) && TB.Emittable(st, inst) && inst.op == DefConst
    ensures TB.Emit(cfg, st, inst).Ok?
  {
    ConstOps();
    assert IR.DstType(cfg.vfx, st.f, inst) == Ok(inst.typeParam);
    var (f1, iid) := IR.CloneInstruction(cfg.vfx, st.f, inst).value;
    TB.ValidUnderExtension(st, f1);
    var st1 := TB.Linked(st.(f := f1), iid);
    assert st1.f.insts[iid].op == DefConst;
    assert TB.Track(cfg, st1, iid) == Ok(st1);
  }

  /** DefConst typed by typeForConst: genDefConst. */
  function GenDefConst(cfg: TB.Config, st: TB.State, k: Ty.ConstKind, bits: int): (r: Gen)
    requires TB.Valid(st)
    ensures Grown(st, r)
    ensures r.Ok? && !st.enableSimplification ==>
      r.value.1.Some? && DefinedAsConst(r.value.0.f, r.value.1.value, Ty.TypeForConst(k), bits)
    ensures r.Ok? || st.enableSimplification
  {
    GenConst(cfg, st, Ty.TypeForConst(k), bits)
  }

  /** genDefConst<Type>: DefConst with the given type parameter and a zero payload. */
  function GenDefConstType(cfg: TB.Config, st: TB.State, t: Ty.Type): (r: Gen)
    requires TB.Valid(st)
    ensures Grown(st, r)
    ensures r.Ok? && !st.enableSimplification ==>
      r.value.1.Some? && DefinedAsConst(r.value.0.f, r.value.1.value, t, 0)
  {
    GenConst(cfg, st, t, 0)
  }

  /**
   * genDefVoid: DefConst of type None. DefConst's destination is its type
   * parameter, which the operand checker requires not to be None, so a
   * build that checks operands refuses it.
   */
  function GenDefVoid(cfg: TB.Config, st: TB.State): (r: Gen)
    requires TB.Valid(st)
    ensures Grown(st, r)
    ensures cfg.debug ==> r == Err(TB.BuildFailed(IR.OperandCheckFailed(TC.MissingTypeParam)))
    ensures !cfg.debug && !st.enableSimplification ==>
      r.Ok? && r.value.1.Some? && DefinedAsConst(r.value.0.f, r.value.1.value, Ty.None, 0)
  {
    GenConst(cfg, st, Ty.None, 0)
  }

  // ---------------------------------------------------------------------
  // What an emitted instruction does to the tracked state

  /**
   * Emitting an instruction clones it into the arena at the next iid and
   * runs the tracked-state update on the clone.
   */
  lemma EmitEffect(cfg: TB.Config, st: TB.State, inst: IR.Instr)
    requires TB.Valid(st) && TB.Emittable(st, inst) && TB.Emit(cfg, st, inst).Ok?
    ensures IR.CloneInstruction(cfg.vfx, st.f, inst).Ok?
    ensures var (f1, iid) := IR.CloneInstruction(cfg.vfx, st.f, inst).value;
      var st1 := st.(f := f1);
      iid == |st.f.insts| && TB.Valid(st1) && iid < |f1.insts| && TB.DstsPointBack(f1, iid) &&
      TB.Track(cfg, TB.Linked(st1, iid), iid).Ok? &&
      TB.Emit(cfg, st, inst).value.0 == TB.CseInsert(TB.Track(cfg, TB.Linked(st1, iid), iid).value, iid)
  {
    var (f1, iid) := IR.CloneInstruction(cfg.vfx, st.f, inst).value;
    TB.ValidUnderExtension(st, f1);
  }

  /**
   * CSE is idempotent: once a CSE-able instruction with a destination has
   * been emitted (or found in the tables), optimizing the same instruction
   * again is a table hit that returns the same value and emits nothing.
   * An instruction the simplifier replaced or turned into a Nop was never
   * recorded, so the emission path is the one the hypothesis names.
   */
  lemma CseIdempotent(cfg: TB.Config, st: TB.State, inst: IR.Instr)
    requires TB.Valid(st) && TB.Emittable(st, inst)
    requires st.enableCse && CanCSEOp(inst.op) && HasDst(inst.op)
    requires TB.CseLookup(st, inst).Some? || !st.enableSimplification || cfg.simplify(st.f, inst).NoChange?
    requires TB.OptimizeInst(cfg, st, inst).Ok?
    ensures var (st', v) := TB.OptimizeInst(cfg, st, inst).value;
      (TB.Emittable(st', inst) && TB.CseLookup(st', inst) == v && TB.OptimizeInst(cfg, st', inst) == Ok((st', v)))
  {
    if TB.CseLookup(st, inst).Some? {
      return;
    }
    var (st', v) := TB.Emit(cfg, st, inst).value;
    EmitEffect(cfg, st, inst);
    var (f1, iid) := IR.CloneInstruction(cfg.vfx, st.f, inst).value;
    var st2 := TB.Track(cfg, TB.Linked(st.(f := f1), iid), iid).value;
    assert st2.f.insts[iid] == st2.f.insts[..|f1.insts|][iid];
    assert st2.f.insts[iid].dsts == [|st.f.values|];
    assert TB.KeyOf(st2.f.insts[iid]) == TB.KeyOf(inst);
    assert TB.Emittable(st', inst) by {
      forall k | 0 <= k < |inst.srcs| ensures inst.srcs[k] < |st'.f.values| { }
    }
  }

  /** An emitted LdLoc binds its local to the value it loads. */
  lemma EmittedLdLocBinds(cfg: TB.Config, st: TB.State, inst: IR.Instr, res: (TB.State, Option<nat>))
    requires TB.Valid(st) && TB.Emittable(st, inst)
    requires inst.op == LdLoc && inst.extra.LocalIdData?
    ensures TB.Emit(cfg, st, inst) == Ok(res) ==>
      res.1.Some? && L.GetValue(res.0.locals, inst.extra.locId) == res.1
  {
    if TB.Emit(cfg, st, inst) == Ok(res) {
      EmitEffect(cfg, st, inst);
      var (f1, iid) := IR.CloneInstruction(cfg.vfx, st.f, inst).value;
      var st1 := TB.Linked(st.(f := f1), iid);
      LdLocOps();
      assert TB.Track(cfg, st1, iid) == TB.TrackLdLoc(st1, iid);
    }
  }

  /** An emitted AssertLoc or GuardLoc gives its local the asserted type and no value. */
  lemma EmittedLocTypeSets(cfg: TB.Config, st: TB.State, inst: IR.Instr, res: (TB.State, Option<nat>))
    requires TB.Valid(st) && TB.Emittable(st, inst)
    requires (inst.op == AssertLoc || inst.op == GuardLoc) && inst.extra.LocalIdData?
    ensures TB.Emit(cfg, st, inst) == Ok(res) ==>
      L.GetValue(res.0.locals, inst.extra.locId).None? && L.GetType(res.0.locals, inst.extra.locId) == inst.typeParam
  {
    if TB.Emit(cfg, st, inst) == Ok(res) {
      EmitEffect(cfg, st, inst);
      var (f1, iid) := IR.CloneInstruction(cfg.vfx, st.f, inst).value;
      var st1 := TB.Linked(st.(f := f1), iid);
      LocTypeOps(inst.op);
      assert TB.Track(cfg, st1, iid) == TB.TrackLocType(st1, iid);
    }
  }

  /** An emitted SpillStack or DefSP makes its destination the stack pointer. */
  lemma EmittedSetsStackPointer(cfg: TB.Config, st: TB.State, inst: IR.Instr, res: (TB.State, Option<nat>))
    requires TB.Valid(st) && TB.Emittable(st, inst)
    requires inst.op == SpillStack || inst.op == DefSP
    ensures TB.Emit(cfg, st, inst) == Ok(res) ==>
      res.0.sp == res.1 && res.1.Some?
  {
    if TB.Emit(cfg, st, inst) == Ok(res) {
      EmitEffect(cfg, st, inst);
      var (f1, iid) := IR.CloneInstruction(cfg.vfx, st.f, inst).value;
      var st1 := TB.Linked(st.(f := f1), iid);
      StackPointerOps(inst.op);
      var t := TB.Track(cfg, st1, iid);
      assert t == TB.TrackPointers(cfg, st1, iid);
      if inst.op == SpillStack {
        assert t == TB.TrackSpillStack(cfg, st1, iid);
      } else {
        assert t == TB.TrackDefSP(st1, iid);
      }
    }
  }

  lemma StackPointerOps(op: Opcode)
    requires op == SpillStack || op == DefSP
    ensures TB.PointerOp(op) && HasDst(op) && !CanCSEOp(op) && Info(op).dst.D?
  {
  }

  lemma FramePointerOps()
    ensures TB.PointerOp(DefFP) && HasDst(DefFP) && !CanCSEOp(DefFP) && Info(DefFP).dst.D?
  {
  }

  lemma LdLocOps()
    ensures !TB.PointerOp(LdLoc) && HasDst(LdLoc) && !CanCSEOp(LdLoc)
  {
  }

  lemma LocTypeOps(op: Opcode)
    requires op == AssertLoc || op == GuardLoc
    ensures !TB.PointerOp(op) && !HasDst(op) && !CanCSEOp(op)
  {
  }

  /** An emitted DefFP makes its destination the frame pointer and leaves the stack pointer alone. */
  lemma EmittedSetsFramePointer(cfg: TB.Config, st: TB.State, inst: IR.Instr, res: (TB.State, Option<nat>))
    requires TB.Valid(st) && TB.Emittable(st, inst)
    requires inst.op == DefFP
    ensures TB.Emit(cfg, st, inst) == Ok(res) ==>
      res.0.fp == res.1 && res.1.Some? && res.0.sp == st.sp && res.0.spOffset == st.spOffset
  {
    if TB.Emit(cfg, st, inst) == Ok(res) {
      EmitEffect(cfg, st, inst);
      var (f1, iid) := IR.CloneInstruction(cfg.vfx, st.f, inst).value;
      var st1 := TB.Linked(st.(f := f1), iid);
      FramePointerOps();
      assert TB.Track(cfg, st1, iid) == TB.TrackPointers(cfg, st1, iid);
    }
  }

  /** An emitted DefSP takes the stack offset from its constant source. */
  lemma EmittedDefSPOffset(cfg: TB.Config, st: TB.State, inst: IR.Instr, res: (TB.State, Option<nat>), t: Ty.Type, bits: int)
    requires TB.Valid(st) && TB.Emittable(st, inst)
    requires inst.op == DefSP && |inst.srcs| == 2 && DefinedAsConst(st.f, inst.srcs[1], t, bits)
    ensures TB.Emit(cfg, st, inst) == Ok(res) ==>
      res.0.spOffset == bits && res.0.fp == st.fp
  {
    if TB.Emit(cfg, st, inst) == Ok(res) {
      EmitEffect(cfg, st, inst);
      var (f1, iid) := IR.CloneInstruction(cfg.vfx, st.f, inst).value;
      var st1 := TB.Linked(st.(f := f1), iid);
      StackPointerOps(DefSP);
      var tr := TB.Track(cfg, st1, iid);
      assert tr == TB.TrackPointers(cfg, st1, iid);
      assert tr == TB.TrackDefSP(st1, iid);
      ConstStable(st.f, f1, inst.srcs[1], t, bits);
    }
  }

  // ---------------------------------------------------------------------
  // Locals

  /**
   * genLdLoc: the value the local is known to hold; otherwise a load,
   * which needs a known type that is not the ambiguous Null; a local known
   * to be Uninit or InitNull is that constant rather than a load.
   */
  function GenLdLoc(cfg: TB.Config, st: TB.State, id: nat): (r: Gen)
    requires TB.Valid(st)
    ensures Grown(st, r)
    ensures L.GetValue(st.locals, id).Some? ==> r == Ok((st, L.GetValue(st.locals, id)))
    ensures L.GetValue(st.locals, id).None? && L.GetType(st.locals, id) == Ty.None ==> r == Err(TB.LocalTypeUnknown)
    ensures L.GetValue(st.locals, id).None? && L.GetType(st.locals, id) == Ty.Null ==> r == Err(TB.LocalTypeAmbiguousNull)
    ensures L.GetValue(st.locals, id).None? && Ty.IsNull(L.GetType(st.locals, id)) && L.GetType(st.locals, id) != Ty.Null ==>
      r == GenDefConstType(cfg, st, L.GetType(st.locals, id))
  {
    match L.GetValue(st.locals, id)
    case Some(v) => Ok((st, Some(v)))
    case None =>
      var t := L.GetType(st.locals, id);
      if t == Ty.None then Err(TB.LocalTypeUnknown)
      else if t == Ty.Null then Err(TB.LocalTypeAmbiguousNull)
      else if Ty.IsNull(t) then GenDefConstType(cfg, st, t)
      else LoadLocal(cfg, st, id, t)
  }

  /** The LdLoc instruction genLdLoc emits: typed by the local's type, naming the local, reading the frame. */
  function LoadLocal(cfg: TB.Config, st: TB.State, id: nat, t: Ty.Type): (r: Gen)
    requires TB.Valid(st)
    ensures Grown(st, r)
    ensures st.fp.None? ==> r == Err(TB.NoFramePointer)
  {
    match st.fp
    case None => Err(TB.NoFramePointer)
    case Some(fp) =>
      TB.Gen(cfg, st, LdLoc, [IR.TypeArg(t), IR.ExtraArg(IR.LocalIdData(id))], IR.SrcList([fp]))
  }

  /**
   * With checks, CSE and simplification out of the way, gen of an
   * instruction with a type and an extra datum emits exactly that
   * instruction.
   */
  lemma GenEmitsPlain(cfg: TB.Config, st: TB.State, op: Opcode, t: Ty.Type, e: IR.Extra, srcs: seq<nat>)
    requires TB.Valid(st) && !cfg.debug && !st.enableSimplification && !CanCSEOp(op)
    requires e != IR.NoData && IR.AllBelow(srcs, |st.f.values|)
    ensures var inst := IR.Transient(op).(typeParam := t, extra := e, srcs := srcs);
      TB.Emittable(st, inst) &&
      TB.Gen(cfg, st, op, [IR.TypeArg(t), IR.ExtraArg(e)], IR.SrcList(srcs)) == TB.Emit(cfg, st, inst)
  {
    TypeAndExtraArgs(IR.Transient(op), t, e);
  }

  lemma LoadLocalIsEmit(cfg: TB.Config, st: TB.State, id: nat, t: Ty.Type)
    requires TB.Valid(st) && !cfg.debug && !st.enableSimplification && st.fp.Some?
    ensures LoadLocal(cfg, st, id, t) ==
      TB.Emit(cfg, st, IR.Transient(LdLoc).(typeParam := t, extra := IR.LocalIdData(id), srcs := [st.fp.value]))
  {
    GenEmitsPlain(cfg, st, LdLoc, t, IR.LocalIdData(id), [st.fp.value]);
  }

  /** A load genLdLoc emits binds the local to the loaded value. */
  lemma LoadLocalBinds(cfg: TB.Config, st: TB.State, id: nat, t: Ty.Type, res: (TB.State, Option<nat>))
    requires TB.Valid(st) && !cfg.debug && !st.enableSimplification
    ensures LoadLocal(cfg, st, id, t) == Ok(res) ==>
      res.1.Some? && L.GetValue(res.0.locals, id) == res.1
  {
    if LoadLocal(cfg, st, id, t) == Ok(res) {
      var inst := IR.Transient(LdLoc).(typeParam := t, extra := IR.LocalIdData(id), srcs := [st.fp.value]);
      LoadLocalIsEmit(cfg, st, id, t);
      EmittedLdLocBinds(cfg, st, inst, res);
    }
  }

  /** A local loaded once is known afterwards: loading it again emits nothing and gives the same value. */
  lemma LoadTwice(cfg: TB.Config, st: TB.State, id: nat, res: (TB.State, Option<nat>))
    requires TB.Valid(st) && !st.enableSimplification && !cfg.debug
    requires !Ty.IsNull(L.GetType(st.locals, id))
    ensures GenLdLoc(cfg, st, id) == Ok(res) ==>
      GenLdLoc(cfg, res.0, id) == Ok(res)
  {
    if GenLdLoc(cfg, st, id) == Ok(res) {
      if L.GetValue(st.locals, id).None? {
        LoadLocalBinds(cfg, st, id, L.GetType(st.locals, id), res);
      }
    }
  }

  /**
   * genAssertLoc: an assertion is emitted only when it tells something
   * new (the local's type is unknown or the asserted type is strictly
   * narrower); otherwise the known type must already be at least as
   * narrow as the asserted one.
   */
  function GenAssertLoc(cfg: TB.Config, st: TB.State, id: nat, t: Ty.Type): (r: Gen)
    requires TB.Valid(st)
    ensures Grown(st, r)
    ensures var prev := L.GetType(st.locals, id);
      !(prev == Ty.None || Ty.StrictSubtypeOf(t, prev)) ==>
        r == (if prev == t || Ty.StrictSubtypeOf(prev, t) then Ok((st, None)) else Err(TB.AssertLocContradicts))
  {
    var prev := L.GetType(st.locals, id);
    if prev == Ty.None || Ty.StrictSubtypeOf(t, prev) then
      match st.fp
      case None => Err(TB.NoFramePointer)
      case Some(fp) =>
        TB.Gen(cfg, st, AssertLoc, [IR.TypeArg(t), IR.ExtraArg(IR.LocalIdData(id))], IR.SrcList([fp]))
    else if prev == t || Ty.StrictSubtypeOf(prev, t) then Ok((st, None))
    else Err(TB.AssertLocContradicts)
  }

  /** genAssertLoc emits exactly an AssertLoc when it emits at all. */
  lemma AssertLocIsEmit(cfg: TB.Config, st: TB.State, id: nat, t: Ty.Type)
    requires TB.Valid(st) && !cfg.debug && !st.enableSimplification && st.fp.Some?
    requires var prev := L.GetType(st.locals, id); prev == Ty.None || Ty.StrictSubtypeOf(t, prev)
    ensures GenAssertLoc(cfg, st, id, t) ==
      TB.Emit(cfg, st, IR.Transient(AssertLoc).(typeParam := t, extra := IR.LocalIdData(id), srcs := [st.fp.value]))
  {
    GenEmitsPlain(cfg, st, AssertLoc, t, IR.LocalIdData(id), [st.fp.value]);
  }

  /** When genAssertLoc emits, the local's known type becomes the asserted type. */
  lemma AssertLocEmitted(cfg: TB.Config, st: TB.State, id: nat, t: Ty.Type, res: (TB.State, Option<nat>))
    requires TB.Valid(st) && !cfg.debug && !st.enableSimplification
    requires var prev := L.GetType(st.locals, id); prev == Ty.None || Ty.StrictSubtypeOf(t, prev)
    ensures GenAssertLoc(cfg, st, id, t) == Ok(res) ==>
      L.GetType(res.0.locals, id) == t
  {
    if GenAssertLoc(cfg, st, id, t) == Ok(res) {
      var inst := IR.Transient(AssertLoc).(typeParam := t, extra := IR.LocalIdData(id), srcs := [st.fp.value]);
      AssertLocIsEmit(cfg, st, id, t);
      EmittedLocTypeSets(cfg, st, inst, res);
    }
  }

  /** After genAssertLoc the local's known type is within the asserted type and within what was known before. */
  lemma AssertLocNarrows(cfg: TB.Config, st: TB.State, id: nat, t: Ty.Type, res: (TB.State, Option<nat>))
    requires TB.Valid(st) && !cfg.debug && !st.enableSimplification
    ensures GenAssertLoc(cfg, st, id, t) == Ok(res) ==>
      (Ty.SubtypeOf(L.GetType(res.0.locals, id), t)) &&
      (L.GetType(st.locals, id) != Ty.None ==> Ty.SubtypeOf(L.GetType(res.0.locals, id), L.GetType(st.locals, id)))
  {
    if GenAssertLoc(cfg, st, id, t) == Ok(res) {
      var prev := L.GetType(st.locals, id);
      if prev == Ty.None || Ty.StrictSubtypeOf(t, prev) {
        AssertLocEmitted(cfg, st, id, t, res);
        Ty.SubtypePartialOrder(t, t, t);
      } else {
        Ty.SubtypePartialOrder(prev, t, prev);
      }
    }
  }

  // ---------------------------------------------------------------------
  // The evaluation stack

  /**
   * An integer constant used as an operand: the value the constant
   * generator produced, which must exist (a simplifier that turned the
   * constant into nothing leaves the operand missing).
   */
  function IntOperand(cfg: TB.Config, st: TB.State, bits: int): (r: Result<(TB.State, nat), TB.Error>)
    requires TB.Valid(st)
    ensures r.Ok? ==> (TB.Valid(r.value.0) && IR.Extends(st.f, r.value.0.f) && r.value.1 < |r.value.0.f.values| &&
      r.value.0.trace == st.trace && TB.KeepsPointers(st, r.value.0) &&
      r.value.0.enableCse == st.enableCse && r.value.0.enableSimplification == st.enableSimplification)
    ensures !st.enableSimplification ==> r.Ok? && DefinedAsConst(r.value.0.f, r.value.1, Ty.Int, bits)
  {
    match GenConst(cfg, st, Ty.Int, bits)
    case Err(e) => Err(e)
    case Ok((st1, c)) =>
      match c
      case None => Err(TB.SimplifiedWithoutDst)
      case Some(v) => Ok((st1, v))
  }

  /** The sources of a SpillStack: the stack pointer, the adjustment constant, then the spilled values. */
  function SpillSources(sp: nat, adj: nat, opnds: seq<nat>): (r: IR.Srcs)
    ensures r.SrcArray? && r.count == |r.arr| == |opnds| + 2
    ensures IR.SrcsOf(r) == [sp, adj] + opnds
  {
    IR.SrcArray(|opnds| + 2, [sp, adj] + opnds)
  }

  /**
   * genSpillStack: nothing to spill and no adjustment leaves the stack
   * pointer as it is; otherwise a SpillStack of the current stack pointer,
   * the adjustment as an integer constant, and the spilled values.
   */
  function GenSpillStack(cfg: TB.Config, st: TB.State, adj: nat, opnds: seq<nat>): (r: Gen)
    requires TB.Valid(st) && adj < 0x1_0000_0000 && IR.AllBelow(opnds, |st.f.values|)
    ensures Grown(st, r)
    ensures adj == 0 && opnds == [] ==> r == Ok((st, st.sp))
    ensures !(adj == 0 && opnds == []) && st.sp.None? ==> r == Err(TB.NoStackPointer)
  {
    if adj == 0 && |opnds| == 0 then Ok((st, st.sp))
    else
      match st.sp
      case None => Err(TB.NoStackPointer)
      case Some(sp) =>
        match IntOperand(cfg, st, adj)
        case Err(e) => Err(e)
        case Ok((st1, c)) =>
          SpillSourcesBelow(st, st1, sp, c, opnds);
          var r := TB.Gen(cfg, st1, SpillStack, [], SpillSources(sp, c, opnds));
          if r.Ok? then IR.ExtendsTrans(st.f, st1.f, r.value.0.f); r else r
  }

  /** A spill's sources are allocated values once the adjustment constant is. */
  lemma SpillSourcesBelow(st: TB.State, st1: TB.State, sp: nat, c: nat, opnds: seq<nat>)
    requires IR.Extends(st.f, st1.f) && sp < |st.f.values| && c < |st1.f.values| && IR.AllBelow(opnds, |st.f.values|)
    ensures TB.GenArgsOk(st1, [], SpillSources(sp, c, opnds))
  {
    var srcs := [sp, c] + opnds;
    forall k | 0 <= k < |srcs| ensures srcs[k] < |st1.f.values| {
      if k >= 2 { assert srcs[k] == opnds[k - 2]; }
    }
  }

  /** Values already allocated keep their type and defining instruction as the arena grows. */
  lemma ProducerStable(f: IR.Factory, f': IR.Factory, v: nat)
    requires IR.WellFormed(f) && IR.WellFormed(f') && IR.Extends(f, f') && v < |f.values|
    ensures f'.values[v] == f.values[v] && TB.Producer(f', v) == TB.Producer(f, v)
  {
    assert IR.ValueOk(f, v);
    assert f'.values[v] == f'.values[..|f.values|][v];
    assert f'.insts[f.values[v].inst] == f'.insts[..|f.insts|][f.values[v].inst];
  }

  /** Values that are neither activation records nor produced by IncRef. */
  predicate PlainValues(f: IR.Factory, vs: seq<nat>)
    requires IR.WellFormed(f) && IR.AllBelow(vs, |f.values|)
  {
    forall k | 0 <= k < |vs| :: f.values[vs[k]].ty != Ty.ActRec && TB.Producer(f, vs[k]).op != IncRef
  }

  /** The SpillStack genSpillStack emits when it emits one. */
  lemma SpillIsEmit(cfg: TB.Config, st1: TB.State, sp: nat, c: nat, opnds: seq<nat>)
    requires TB.Valid(st1) && !st1.enableSimplification && !cfg.debug
    requires sp < |st1.f.values| && c < |st1.f.values| && IR.AllBelow(opnds, |st1.f.values|)
    ensures TB.Emittable(st1, IR.Transient(SpillStack).(srcs := [sp, c] + opnds))
    ensures TB.Gen(cfg, st1, SpillStack, [], SpillSources(sp, c, opnds)) ==
      TB.Emit(cfg, st1, IR.Transient(SpillStack).(srcs := [sp, c] + opnds))
  {
    SpillSourcesBelow(st1, st1, sp, c, opnds);
    StackPointerOps(SpillStack);
  }

  /** The spill genSpillStack emits: after the adjustment constant, a SpillStack of the stack pointer, that constant and the values. */
  lemma GenSpillIsEmit(cfg: TB.Config, st: TB.State, adj: nat, opnds: seq<nat>, st1: TB.State, c: nat)
    requires TB.Valid(st) && !st.enableSimplification && !cfg.debug
    requires adj < 0x1_0000_0000 && IR.AllBelow(opnds, |st.f.values|) && |opnds| > 0 && st.sp.Some?
    ensures IntOperand(cfg, st, adj) == Ok((st1, c)) ==>
      (TB.Valid(st1) && IR.Extends(st.f, st1.f)) &&
      (TB.Emittable(st1, IR.Transient(SpillStack).(srcs := [st.sp.value, c] + opnds))) &&
      (GenSpillStack(cfg, st, adj, opnds) == TB.Emit(cfg, st1, IR.Transient(SpillStack).(srcs := [st.sp.value, c] + opnds)))
  {
    if IntOperand(cfg, st, adj) == Ok((st1, c)) {
      SpillSourcesBelow(st, st1, st.sp.value, c, opnds);
      SpillIsEmit(cfg, st1, st.sp.value, c, opnds);
    }
  }

  lemma SpillStackDefines()
    ensures HasDst(SpillStack) && !CanCSEOp(SpillStack)
  {
  }

  /** An emitted instruction with a destination defines the value it returns. */
  lemma EmittedDefines(cfg: TB.Config, st: TB.State, inst: IR.Instr, res: (TB.State, Option<nat>))
    requires TB.Valid(st) && TB.Emittable(st, inst) && HasDst(inst.op)
    ensures TB.Emit(cfg, st, inst) == Ok(res) ==>
      (IR.Extends(st.f, res.0.f) && IR.WellFormed(res.0.f)) &&
      (res.1.Some? && res.1.value < |res.0.f.values|) &&
      (TB.Producer(res.0.f, res.1.value).op == inst.op && TB.Producer(res.0.f, res.1.value).srcs == inst.srcs) &&
      (TB.Producer(res.0.f, res.1.value).typeParam == inst.typeParam && TB.Producer(res.0.f, res.1.value).extra == inst.extra)
  {
    if TB.Emit(cfg, st, inst) == Ok(res) {

    }
  }

  /** A SpillStack of plain values, found from its own destination. */
  lemma FindInSpill(actRecCells: nat, f: IR.Factory, f': IR.Factory, v: nat, opnds: seq<nat>, k: nat, ty: Ty.Type)
    requires IR.WellFormed(f) && IR.WellFormed(f') && IR.Extends(f, f')
    requires IR.AllBelow(opnds, |f.values|) && PlainValues(f, opnds) && k < |opnds| && k < 0x1_0000_0000
    requires v < |f'.values| && TB.Producer(f', v).op == SpillStack && |TB.Producer(f', v).srcs| == |opnds| + 2
    requires TB.Producer(f', v).srcs[2..] == opnds
    ensures SV.GetStackValue(actRecCells, f', v, k, false, ty) == Ok(SV.StackInfo(Some(opnds[k]), false, f.values[opnds[k]].ty))
  {
    var p := TB.Producer(f', v);
    assert IR.ValueOk(f', v);
    forall j | 2 <= j < |p.srcs|
      ensures f'.values[p.srcs[j]].ty != Ty.ActRec && TB.Producer(f', p.srcs[j]).op != IncRef
    {
      assert p.srcs[j] == p.srcs[2..][j - 2] == opnds[j - 2];
      ProducerStable(f, f', opnds[j - 2]);
    }
    assert SV.PlainSpills(f', p, 0);
    SV.SpilledValuesFound(actRecCells, f', v, k, ty);
    assert p.srcs[k + 2] == p.srcs[2..][k] == opnds[k];
    ProducerStable(f, f', opnds[k]);
  }

  /**
   * Spilling plain values puts them on the stack top-down: the search
   * from the new stack pointer finds the `k`-th spilled value at index
   * `k`, with its type, and not as living across a call.
   */
  lemma SpillThenFind(cfg: TB.Config, st: TB.State, adj: nat, opnds: seq<nat>, k: nat, ty: Ty.Type, res: (TB.State, Option<nat>))
    requires TB.Valid(st) && !st.enableSimplification && !cfg.debug
    requires adj < 0x1_0000_0000 && IR.AllBelow(opnds, |st.f.values|) && PlainValues(st.f, opnds)
    requires k < |opnds| && k < 0x1_0000_0000
    ensures GenSpillStack(cfg, st, adj, opnds) == Ok(res) ==>
      (res.1.Some? && res.1.value < |res.0.f.values|) &&
      (SV.GetStackValue(cfg.actRecCells, res.0.f, res.1.value, k, false, ty) ==
        Ok(SV.StackInfo(Some(opnds[k]), false, st.f.values[opnds[k]].ty)))
  {
    if GenSpillStack(cfg, st, adj, opnds) == Ok(res) {
      var r1 := IntOperand(cfg, st, adj);
      var st1, c := r1.value.0, r1.value.1;
      var inst := IR.Transient(SpillStack).(srcs := [st.sp.value, c] + opnds);
      GenSpillIsEmit(cfg, st, adj, opnds, st1, c);
      SpillStackDefines();
      EmittedDefines(cfg, st1, inst, res);
      IR.ExtendsTrans(st.f, st1.f, res.0.f);
      assert inst.srcs[2..] == opnds;
      FindInSpill(cfg.actRecCells, st.f, res.0.f, res.1.value, opnds, k, ty);
    }
  }

  /**
   * The type genLdStack loads with: the requested type, refined by the
   * type known for the slot when one is known; the two must then be
   * comparable.
   */
  function LoadType(t: Ty.Type, known: Ty.Type): (r: Result<Ty.Type, TB.Error>)
    ensures r.Ok? ==> Ty.SubtypeOf(r.value, t) && (known != Ty.None ==> Ty.SubtypeOf(r.value, known))
    ensures r.Ok? ==> r.value == t || r.value == known
    ensures r.Err? <==> known != Ty.None && !Ty.SubtypeOf(t, known) && !Ty.SubtypeOf(known, t)
  {
    if known == Ty.None then
      Ty.SubtypePartialOrder(t, t, t);
      Ok(t)
    else if Ty.SubtypeOf(t, known) || Ty.SubtypeOf(known, t) then Ok(Ty.MostRefined(t, known))
    else Err(TB.TypesIncomparable)
  }

  /** The LdStack genLdStack emits: the slot's offset as an integer constant, then a load from the stack pointer. */
  function LoadStack(cfg: TB.Config, st: TB.State, sp: nat, stackOff: int, t: Ty.Type, known: Ty.Type): (r: Gen)
    requires TB.Valid(st) && sp < |st.f.values|
    ensures Grown(st, r)
    ensures LoadType(t, known).Err? ==> r == Err(LoadType(t, known).error)
  {
    match LoadType(t, known)
    case Err(e) => Err(e)
    case Ok(t') => LoadAs(cfg, st, sp, stackOff, t')
  }

  /** A load of type `t` from the stack pointer `sp` at the offset `stackOff`. */
  function LoadAs(cfg: TB.Config, st: TB.State, sp: nat, stackOff: int, t: Ty.Type): (r: Gen)
    requires TB.Valid(st) && sp < |st.f.values|
    ensures Grown(st, r)
  {
    match IntOperand(cfg, st, stackOff)
    case Err(e) => Err(e)
    case Ok((st1, c)) =>
      TypedSourcesOk(st1, t, [sp, c]);
      var r := TB.Gen(cfg, st1, LdStack, [IR.TypeArg(t)], IR.SrcList([sp, c]));
      if r.Ok? then IR.ExtendsTrans(st.f, st1.f, r.value.0.f); r else r
  }

  /**
   * genLdStack: the value at `stackOff` cells below the stack pointer
   * when the search finds it and it does not live across a call (a
   * constant may); otherwise a load, typed with whatever the search
   * learnt about the slot.
   */
  function GenLdStack(cfg: TB.Config, st: TB.State, stackOff: int, t: Ty.Type): (r: Gen)
    requires TB.Valid(st) && -0x8000_0000 <= stackOff < 0x8000_0000
    ensures Grown(st, r)
    ensures st.sp.None? ==> r == Err(TB.NoStackPointer)
    ensures st.sp.Some? ==> var s := SV.GetStackValue(cfg.actRecCells, st.f, st.sp.value, SV.Wrap32(stackOff), false, Ty.None);
      (s.Err? ==> r == Err(s.error)) &&
      (s.Ok? && s.value.value.Some? && !s.value.spansCall ==> r == Ok((st, s.value.value))) &&
      (s.Ok? && s.value.value.None? ==> r == LoadStack(cfg, st, st.sp.value, stackOff, t, s.value.ty))
    ensures st.sp.Some? ==> var s := SV.GetStackValue(cfg.actRecCells, st.f, st.sp.value, SV.Wrap32(stackOff), false, Ty.None);
      s.Ok? && s.value.value.Some? && s.value.spansCall ==>
        s.value.value.value < |st.f.values| &&
        (TB.Producer(st.f, s.value.value.value).op == DefConst ==> r == Ok((st, s.value.value))) &&
        (TB.Producer(st.f, s.value.value.value).op != DefConst ==> r == LoadStack(cfg, st, st.sp.value, stackOff, t, s.value.ty))
  {
    match st.sp
    case None => Err(TB.NoStackPointer)
    case Some(sp) =>
      match SV.GetStackValue(cfg.actRecCells, st.f, sp, SV.Wrap32(stackOff), false, Ty.None)
      case Err(e) => Err(e)
      case Ok(info) =>
        if info.value.None? || (info.spansCall && TB.Producer(st.f, info.value.value).op != DefConst) then
          LoadStack(cfg, st, sp, stackOff, t, info.ty)
        else Ok((st, info.value))
  }

  /**
   * Spilling plain values and loading a slot among them gives back the
   * spilled value itself, with nothing emitted.
   */
  lemma SpillThenLoad(cfg: TB.Config, st: TB.State, adj: nat, opnds: seq<nat>, k: nat, t: Ty.Type, res: (TB.State, Option<nat>))
    requires TB.Valid(st) && !st.enableSimplification && !cfg.debug
    requires adj < 0x1_0000_0000 && IR.AllBelow(opnds, |st.f.values|) && PlainValues(st.f, opnds)
    requires k < |opnds| && k < 0x8000_0000
    ensures GenSpillStack(cfg, st, adj, opnds) == Ok(res) ==>
      (res.0.sp == res.1) &&
      (GenLdStack(cfg, res.0, k, t) == Ok((res.0, Some(opnds[k]))))
  {
    if GenSpillStack(cfg, st, adj, opnds) == Ok(res) {
      SpillThenFind(cfg, st, adj, opnds, k, Ty.None, res);
      SpillSetsStackPointer(cfg, st, adj, opnds, res);
    }
  }

  /** After genSpillStack emits, the stack pointer is the spill's destination. */
  lemma SpillSetsStackPointer(cfg: TB.Config, st: TB.State, adj: nat, opnds: seq<nat>, res: (TB.State, Option<nat>))
    requires TB.Valid(st) && !st.enableSimplification && !cfg.debug
    requires adj < 0x1_0000_0000 && IR.AllBelow(opnds, |st.f.values|) && |opnds| > 0
    ensures GenSpillStack(cfg, st, adj, opnds) == Ok(res) ==>
      res.0.sp == res.1
  {
    if GenSpillStack(cfg, st, adj, opnds) == Ok(res) {
      var r1 := IntOperand(cfg, st, adj);
      var st1, c := r1.value.0, r1.value.1;
      GenSpillIsEmit(cfg, st, adj, opnds, st1, c);
      EmittedSetsStackPointer(cfg, st1, IR.Transient(SpillStack).(srcs := [st.sp.value, c] + opnds), res);
    }
  }

  /** A type argument and allocated sources are acceptable to gen. */
  lemma TypedSourcesOk(st: TB.State, t: Ty.Type, vs: seq<nat>)
    requires IR.AllBelow(vs, |st.f.values|)
    ensures TB.GenArgsOk(st, [IR.TypeArg(t)], IR.SrcList(vs))
  {
  }

  /** Allocated sources alone are acceptable to gen. */
  lemma SourcesOk(st: TB.State, vs: seq<nat>)
    requires IR.AllBelow(vs, |st.f.values|)
    ensures TB.GenArgsOk(st, [], IR.SrcList(vs))
  {
  }

  /** A lone argument sets exactly the field it names. */
  lemma SingleArg(inst: IR.Instr, a: IR.Arg)
    requires !a.ExtraArg?
    ensures IR.ApplyArgs(inst, [a]) == Ok(if a.TypeArg? then inst.(typeParam := a.t) else inst.(target := Some(a.l)))
  {
    assert [a][1..] == [];
  }

  lemma LdStackDefines()
    ensures HasDst(LdStack) && !CanCSEOp(LdStack)
  {
  }

  /** A constant stays what it is as the arena grows. */
  lemma ConstStable(f: IR.Factory, f': IR.Factory, v: nat, t: Ty.Type, bits: int)
    requires IR.WellFormed(f) && IR.WellFormed(f') && IR.Extends(f, f') && DefinedAsConst(f, v, t, bits)
    ensures DefinedAsConst(f', v, t, bits)
  {
    ProducerStable(f, f', v);
  }

  /** The load genLdStack emits when it emits one. */
  lemma LoadAsIsEmit(cfg: TB.Config, st: TB.State, sp: nat, stackOff: int, t: Ty.Type, st1: TB.State, c: nat)
    requires TB.Valid(st) && !st.enableSimplification && !cfg.debug && sp < |st.f.values|
    ensures IntOperand(cfg, st, stackOff) == Ok((st1, c)) ==>
      (TB.Valid(st1) && IR.Extends(st.f, st1.f) && DefinedAsConst(st1.f, c, Ty.Int, stackOff)) &&
      (TB.Emittable(st1, IR.Transient(LdStack).(typeParam := t, srcs := [sp, c]))) &&
      (LoadAs(cfg, st, sp, stackOff, t) == TB.Emit(cfg, st1, IR.Transient(LdStack).(typeParam := t, srcs := [sp, c])))
  {
    if IntOperand(cfg, st, stackOff) == Ok((st1, c)) {
      SingleArg(IR.Transient(LdStack), IR.TypeArg(t));
      LdStackDefines();
    }
  }

  /** A load of type `t` reads the stack pointer at the offset, given as an integer constant. */
  lemma LoadAsEmits(cfg: TB.Config, st: TB.State, sp: nat, stackOff: int, t: Ty.Type, res: (TB.State, Option<nat>))
    requires TB.Valid(st) && !st.enableSimplification && !cfg.debug && sp < |st.f.values|
    ensures LoadAs(cfg, st, sp, stackOff, t) == Ok(res) ==>
      (res.1.Some? && res.1.value < |res.0.f.values|) &&
      (var p := TB.Producer(res.0.f, res.1.value);
        p.op == LdStack && |p.srcs| == 2 && p.srcs[0] == sp &&
        DefinedAsConst(res.0.f, p.srcs[1], Ty.Int, stackOff) && p.typeParam == t)
  {
    if LoadAs(cfg, st, sp, stackOff, t) == Ok(res) {
      var r1 := IntOperand(cfg, st, stackOff);
      var st1, c := r1.value.0, r1.value.1;
      LoadAsIsEmit(cfg, st, sp, stackOff, t, st1, c);
      var inst := IR.Transient(LdStack).(typeParam := t, srcs := [sp, c]);
      LdStackDefines();
      EmittedDefines(cfg, st1, inst, res);
      ConstStable(st1.f, res.0.f, c, Ty.Int, stackOff);
    }
  }

  /**
   * When genLdStack loads, the load reads the stack pointer at the
   * requested offset (an integer constant) and is typed with the
   * requested type refined by what was known about the slot.
   */
  lemma LoadStackEmits(cfg: TB.Config, st: TB.State, sp: nat, stackOff: int, t: Ty.Type, known: Ty.Type, res: (TB.State, Option<nat>))
    requires TB.Valid(st) && !st.enableSimplification && !cfg.debug && sp < |st.f.values|
    ensures LoadStack(cfg, st, sp, stackOff, t, known) == Ok(res) ==>
      (res.1.Some? && res.1.value < |res.0.f.values|) &&
      (var p := TB.Producer(res.0.f, res.1.value);
        p.op == LdStack && |p.srcs| == 2 && p.srcs[0] == sp &&
        DefinedAsConst(res.0.f, p.srcs[1], Ty.Int, stackOff) &&
        Ty.SubtypeOf(p.typeParam, t) && (known != Ty.None ==> Ty.SubtypeOf(p.typeParam, known)))
  {
    if LoadStack(cfg, st, sp, stackOff, t, known) == Ok(res) {
      LoadAsEmits(cfg, st, sp, stackOff, LoadType(t, known).value, res);
    }
  }

  /**
   * The two labels of a diamond (the taken branch's, with no destination,
   * and the join's, whose one destination is the merged value) and whether
   * CSE was on when the diamond began.
   */
  datatype Diamond = Diamond(taken: nat, done: nat, result: nat, savedCse: bool)

  /** The diamond's labels are in the arena as allocated. */
  predicate DiamondOk(f: IR.Factory, d: Diamond) {
    d.taken < |f.insts| && f.insts[d.taken].op == DefLabel && f.insts[d.taken].dsts == [] &&
    d.done < |f.insts| && f.insts[d.done].op == DefLabel && f.insts[d.done].dsts == [d.result] &&
    d.result < |f.values| && f.values[d.result].inst == d.done
  }

  lemma DiamondStable(f: IR.Factory, f': IR.Factory, d: Diamond)
    requires DiamondOk(f, d) && IR.Extends(f, f')
    ensures DiamondOk(f', d)
  {
    assert f'.insts[d.taken] == f'.insts[..|f.insts|][d.taken];
    assert f'.insts[d.done] == f'.insts[..|f.insts|][d.done];
    assert f'.values[d.result] == f'.values[..|f.values|][d.result];
  }

  /**
   * The start of ifelse: a label for the taken branch and a label with one
   * destination for the join are allocated (not yet in the trace), and CSE
   * is switched off for the whole diamond.
   */
  function IfElseBegin(st: TB.State): (r: (TB.State, Diamond))
    requires TB.Valid(st)
    ensures TB.Valid(r.0) && IR.Extends(st.f, r.0.f) && DiamondOk(r.0.f, r.1)
    ensures r.0 == st.(f := r.0.f, enableCse := false)
    ensures r.1.savedCse == st.enableCse
    ensures r.1.taken == |st.f.insts| && r.1.done == |st.f.insts| + 1 && r.1.result == |st.f.values|
  {
    var (f1, taken) := IR.DefLabelInst(st.f, 0);
    var (f2, done) := IR.DefLabelInst(f1, 1);
    assert f2.insts[taken] == f2.insts[..|f1.insts|][taken];
    IR.ExtendsTrans(st.f, f1, f2);
    TB.ValidUnderExtension(st, f2);
    (st.(f := f2, enableCse := false), Diamond(taken, done, |f1.values|, st.enableCse))
  }

  /** An unconditional jump to the join label, passing the branch's value. */
  function JumpToJoin(cfg: TB.Config, st: TB.State, d: Diamond, v: nat): (r: Result<TB.State, TB.Error>)
    requires TB.Valid(st) && DiamondOk(st.f, d) && v < |st.f.values|
    ensures r.Ok? ==> TB.Valid(r.value) && IR.Extends(st.f, r.value.f) && DiamondOk(r.value.f, d)
    ensures r.Ok? ==> r.value.enableCse == st.enableCse
  {
    match TB.Gen(cfg, st, Jmp_, [IR.LabelArg(d.done)], IR.SrcList([v]))
    case Err(e) => Err(e)
    case Ok((st1, _)) =>
      DiamondStable(st.f, st1.f, d);
      Ok(st1)
  }

  /** A label appended to the trace: linked at its end, nothing else tracked. */
  function PlaceLabel(cfg: TB.Config, st: TB.State, l: nat): (r: Result<TB.State, TB.Error>)
    requires TB.Valid(st) && l < |st.f.insts| && st.f.insts[l].op == DefLabel
    requires TB.DstsPointBack(st.f, l)
    ensures r.Ok? && r.value == st.(trace := IR.Append(st.trace, l))
  {
    LabelOp();
    assert TB.Linked(st, l) == st.(trace := IR.Append(st.trace, l));
    TB.AppendInstruction(cfg, st, l)
  }

  lemma LabelOp()
    ensures !TB.PointerOp(DefLabel) && !CanCSEOp(DefLabel) && DefLabel != Nop && DefLabel != DefConst
    ensures DefLabel != StRef && DefLabel != StRefNT && DefLabel != StLoc && DefLabel != StLocNT && DefLabel != LdLoc
    ensures DefLabel != AssertLoc && DefLabel != GuardLoc && DefLabel != LdThis && DefLabel != SetProp && DefLabel != SetElem
    ensures !TB.IterOp(DefLabel)
  {
  }

  /** A branch's jump to the join, then one of the diamond's labels placed after it. */
  function JumpThenLabel(cfg: TB.Config, st: TB.State, d: Diamond, v: nat, l: nat): (r: Result<TB.State, TB.Error>)
    requires TB.Valid(st) && DiamondOk(st.f, d) && v < |st.f.values| && (l == d.taken || l == d.done)
    ensures r.Ok? ==> TB.Valid(r.value) && IR.Extends(st.f, r.value.f) && DiamondOk(r.value.f, d)
    ensures r.Ok? ==> r.value.enableCse == st.enableCse
    ensures r.Ok? ==> |r.value.trace.instrs| > 0 && r.value.trace.instrs[|r.value.trace.instrs| - 1] == l
  {
    match JumpToJoin(cfg, st, d, v)
    case Err(e) => Err(e)
    case Ok(st1) => PlaceLabel(cfg, st1, l)
  }

  /** The middle of ifelse: the fall-through branch jumps to the join, then the taken branch's label is placed. */
  function IfElseTaken(cfg: TB.Config, st: TB.State, d: Diamond, v1: nat): (r: Result<TB.State, TB.Error>)
    requires TB.Valid(st) && DiamondOk(st.f, d) && v1 < |st.f.values|
    ensures r.Ok? ==> TB.Valid(r.value) && IR.Extends(st.f, r.value.f) && DiamondOk(r.value.f, d)
    ensures r.Ok? ==> r.value.enableCse == st.enableCse
    ensures r.Ok? ==> |r.value.trace.instrs| > 0 && r.value.trace.instrs[|r.value.trace.instrs| - 1] == d.taken
  {
    JumpThenLabel(cfg, st, d, v1, d.taken)
  }

  /** Retyping a value keeps a valid state valid. */
  lemma ValidRetyped(st: TB.State, v: nat, t: Ty.Type)
    requires TB.Valid(st) && v < |st.f.values|
    ensures TB.Valid(st.(f := IR.SetValueType(st.f, v, t)))
  {
    var f' := IR.SetValueType(st.f, v, t);
    forall w | 0 <= w < |st.f.values| ensures f'.values[w].inst == st.f.values[w].inst {
    }
  }

  /**
   * The end of ifelse: the taken branch jumps to the join, the join label
   * is placed, its destination is typed as the union of the two branches'
   * types (which must exist), and CSE is restored.
   */
  function IfElseEnd(cfg: TB.Config, st: TB.State, d: Diamond, v1: nat, v2: nat): (r: Result<(TB.State, nat), TB.Error>)
    requires TB.Valid(st) && DiamondOk(st.f, d) && v1 < |st.f.values| && v2 < |st.f.values|
    ensures r.Ok? ==> TB.Valid(r.value.0) && r.value.1 == d.result && r.value.1 < |r.value.0.f.values|
    ensures r.Ok? ==> r.value.0.enableCse == d.savedCse
    ensures r.Ok? ==> |r.value.0.trace.instrs| > 0 && r.value.0.trace.instrs[|r.value.0.trace.instrs| - 1] == d.done
    ensures r.Ok? ==> (Ty.SubtypeOf(st.f.values[v1].ty, r.value.0.f.values[d.result].ty) &&
      Ty.SubtypeOf(st.f.values[v2].ty, r.value.0.f.values[d.result].ty))
    ensures !Ty.UnionOfDefined(st.f.values[v1].ty, st.f.values[v2].ty) ==> r.Err?
  {
    match JumpThenLabel(cfg, st, d, v2, d.done)
    case Err(e) => Err(e)
    case Ok(st2) =>
      assert st2.f.values[v1] == st2.f.values[..|st.f.values|][v1];
      assert st2.f.values[v2] == st2.f.values[..|st.f.values|][v2];
      var t1 := st2.f.values[v1].ty;
      var t2 := st2.f.values[v2].ty;
      if !Ty.UnionOfDefined(t1, t2) then Err(TB.UnionUndefined)
      else
        ValidRetyped(st2, d.result, Ty.UnionOf(t1, t2));
        Ok((st2.(f := IR.SetValueType(st2.f, d.result, Ty.UnionOf(t1, t2)), enableCse := d.savedCse), d.result))
  }

  // ---------------------------------------------------------------------
  // Construction

  /** A 32-bit unsigned value read as a signed one. */
  function Int32(x: nat): (r: int)
    requires x < 0x1_0000_0000
    ensures -0x8000_0000 <= r < 0x8000_0000 && (x - r) % 0x1_0000_0000 == 0
    ensures r >= 0 <==> x < 0x8000_0000
  {
    if x < 0x8000_0000 then x else x - 0x1_0000_0000
  }

  /**
   * The trace holds `pre` followed by one instruction (of the arena `f`) of
   * each opcode of `ops`, in order.
   */
  predicate TraceIs(t: IR.Trace, f: IR.Factory, pre: seq<nat>, ops: seq<Opcode>) {
    |t.instrs| == |pre| + |ops| && t.instrs[..|pre|] == pre &&
    forall k | 0 <= k < |ops| :: t.instrs[|pre| + k] < |f.insts| && f.insts[t.instrs[|pre| + k]].op == ops[k]
  }

  /** Appending to a trace that was appended to: the opcodes follow one another. */
  lemma TraceIsConcat(st1: TB.State, st2: TB.State, pre: seq<nat>, ops1: seq<Opcode>, ops2: seq<Opcode>)
    requires IR.Extends(st1.f, st2.f) && TraceIs(st1.trace, st1.f, pre, ops1) && TraceIs(st2.trace, st2.f, st1.trace.instrs, ops2)
    ensures TraceIs(st2.trace, st2.f, pre, ops1 + ops2)
  {
    var n1 := |st1.trace.instrs|;
    var ops := ops1 + ops2;
    assert st2.trace.instrs[..n1] == st1.trace.instrs;
    assert st2.trace.instrs[..|pre|] == st2.trace.instrs[..n1][..|pre|];
    forall k | 0 <= k < |ops|
      ensures st2.trace.instrs[|pre| + k] < |st2.f.insts| && st2.f.insts[st2.trace.instrs[|pre| + k]].op == ops[k]
    {
      if k < |ops1| {
        assert ops[k] == ops1[k];
        var i := st1.trace.instrs[|pre| + k];
        assert i < |st1.f.insts| && st1.f.insts[i].op == ops1[k];
        assert st2.trace.instrs[|pre| + k] == st2.trace.instrs[..n1][|pre| + k] == i;
        assert st2.f.insts[i] == st2.f.insts[..|st1.f.insts|][i];
        assert ops[k] == ops1[k];
      } else {
        var k2 := k - |ops1|;
        assert ops[k] == ops2[k2];
        assert |pre| + k == n1 + k2;
        assert st2.trace.instrs[n1 + k2] < |st2.f.insts| && st2.f.insts[st2.trace.instrs[n1 + k2]].op == ops2[k2];
      }
    }
  }

  /** One instruction appended after another. */
  lemma TraceIsTwo(st1: TB.State, st2: TB.State, pre: seq<nat>, a: Opcode, b: Opcode)
    requires IR.Extends(st1.f, st2.f) && TraceIs(st1.trace, st1.f, pre, [a]) && TraceIs(st2.trace, st2.f, st1.trace.instrs, [b])
    ensures TraceIs(st2.trace, st2.f, pre, [a, b])
  {
    TraceIsConcat(st1, st2, pre, [a], [b]);
    assert [a] + [b] == [a, b];
  }

  /** An emitted instruction that is neither a Nop nor a DefConst is the one instruction appended to the trace. */
  lemma EmittedAppends(cfg: TB.Config, st: TB.State, inst: IR.Instr, res: (TB.State, Option<nat>))
    requires TB.Valid(st) && TB.Emittable(st, inst)
    requires inst.op != Nop && inst.op != DefConst
    ensures TB.Emit(cfg, st, inst) == Ok(res) ==>
      TraceIs(res.0.trace, res.0.f, st.trace.instrs, [inst.op])
  {
    if TB.Emit(cfg, st, inst) == Ok(res) {
      assert res.0.trace.instrs[..|st.trace.instrs|] == st.trace.instrs;
    }
  }

  /** With simplification off, gen of a DefFP is a plain emission, and it cannot fail. */
  lemma DefFPEmitted(cfg: TB.Config, st: TB.State)
    requires TB.Valid(st) && !cfg.debug && !st.enableSimplification
    ensures var r := TB.Gen(cfg, st, DefFP, [], IR.NoSrcs);
      r.Ok? && r.value.1.Some? && r.value.0.fp == r.value.1 && r.value.0.sp == st.sp &&
      r.value.0.spOffset == st.spOffset && TraceIs(r.value.0.trace, r.value.0.f, st.trace.instrs, [DefFP])
  {
    var inst := IR.Transient(DefFP);
    FramePointerOps();
    assert TB.Gen(cfg, st, DefFP, [], IR.NoSrcs) == TB.Emit(cfg, st, inst);
    PointerEmitOk(cfg, st, inst, Ty.None, 0);
    var res := TB.Emit(cfg, st, inst).value;
    EmittedSetsFramePointer(cfg, st, inst, res);
    EmittedAppends(cfg, st, inst, res);
  }

  /**
   * With simplification off, gen of a DefSP from the frame pointer and an
   * integer constant is a plain emission that cannot fail; it sets the
   * stack pointer, at the constant's offset.
   */
  lemma DefSPEmitted(cfg: TB.Config, st: TB.State, fp: nat, c: nat, spOffset: int)
    requires TB.Valid(st) && !cfg.debug && !st.enableSimplification
    requires fp < |st.f.values| && DefinedAsConst(st.f, c, Ty.Int, spOffset)
    ensures var r := TB.Gen(cfg, st, DefSP, [], IR.SrcList([fp, c]));
      r.Ok? && r.value.1.Some? && r.value.0.sp == r.value.1 && r.value.0.fp == st.fp &&
      r.value.0.spOffset == spOffset && TraceIs(r.value.0.trace, r.value.0.f, st.trace.instrs, [DefSP])
  {
    var inst := IR.Transient(DefSP).(srcs := [fp, c]);
    StackPointerOps(DefSP);
    assert TB.Gen(cfg, st, DefSP, [], IR.SrcList([fp, c])) == TB.Emit(cfg, st, inst);
    PointerEmitOk(cfg, st, inst, Ty.Int, spOffset);
    var res := TB.Emit(cfg, st, inst).value;
    EmittedSetsStackPointer(cfg, st, inst, res);
    EmittedDefSPOffset(cfg, st, inst, res, Ty.Int, spOffset);
    EmittedAppends(cfg, st, inst, res);
  }

  /** genDefFP: the frame pointer's definition, which becomes the frame pointer. */
  function GenDefFP(cfg: TB.Config, st: TB.State): (r: Gen)
    requires TB.Valid(st)
    ensures Grown(st, r)
    ensures r.Ok? ==> r.value.0.enableCse == st.enableCse && r.value.0.enableSimplification == st.enableSimplification
    ensures !cfg.debug && !st.enableSimplification ==>
      r.Ok? && r.value.1.Some? && r.value.0.fp == r.value.1 && r.value.0.sp == st.sp &&
      r.value.0.spOffset == st.spOffset && TraceIs(r.value.0.trace, r.value.0.f, st.trace.instrs, [DefFP])
  {
    if !cfg.debug && !st.enableSimplification then DefFPEmitted(cfg, st); TB.Gen(cfg, st, DefFP, [], IR.NoSrcs)
    else TB.Gen(cfg, st, DefFP, [], IR.NoSrcs)
  }

  /**
   * genDefSP: the stack pointer, at a constant offset from the frame
   * pointer; it becomes the stack pointer, at that offset.
   */
  function GenDefSP(cfg: TB.Config, st: TB.State, spOffset: int): (r: Gen)
    requires TB.Valid(st)
    ensures Grown(st, r)
    ensures st.fp.None? ==> r == Err(TB.NoFramePointer)
    ensures r.Ok? ==> r.value.0.enableCse == st.enableCse && r.value.0.enableSimplification == st.enableSimplification
    ensures !cfg.debug && !st.enableSimplification && st.fp.Some? ==>
      r.Ok? && r.value.1.Some? && r.value.0.sp == r.value.1 && r.value.0.fp == st.fp &&
      r.value.0.spOffset == spOffset && TraceIs(r.value.0.trace, r.value.0.f, st.trace.instrs, [DefSP])
  {
    match st.fp
    case None => Err(TB.NoFramePointer)
    case Some(fp) =>
      match IntOperand(cfg, st, spOffset)
      case Err(e) => Err(e)
      case Ok((st1, c)) =>
        var r := DefSPFrom(cfg, st1, fp, c, spOffset);
        if r.Ok? then IR.ExtendsTrans(st.f, st1.f, r.value.0.f); r else r
  }

  /** The DefSP of GenDefSP, once its offset constant `c` exists. */
  function DefSPFrom(cfg: TB.Config, st: TB.State, fp: nat, c: nat, spOffset: int): (r: Gen)
    requires TB.Valid(st) && fp < |st.f.values| && c < |st.f.values|
    requires !st.enableSimplification ==> DefinedAsConst(st.f, c, Ty.Int, spOffset)
    ensures Grown(st, r)
    ensures r.Ok? ==> r.value.0.enableCse == st.enableCse && r.value.0.enableSimplification == st.enableSimplification
    ensures !cfg.debug && !st.enableSimplification ==>
      r.Ok? && r.value.1.Some? && r.value.0.sp == r.value.1 && r.value.0.fp == st.fp &&
      r.value.0.spOffset == spOffset && TraceIs(r.value.0.trace, r.value.0.f, st.trace.instrs, [DefSP])
  {
    SourcesOk(st, [fp, c]);
    var r := TB.Gen(cfg, st, DefSP, [], IR.SrcList([fp, c]));
    if !cfg.debug && !st.enableSimplification then DefSPEmitted(cfg, st, fp, c, spOffset); r else r
  }

  /** The builder before its first instruction: a trace holding only its label, nothing tracked, optimisations off. */
  function Fresh(f: IR.Factory, consts: map<TB.CseKey, nat>, spOffset: int): (r: TB.State)
    requires IR.WellFormed(f) && TB.TableSound(f, consts)
    ensures TB.Valid(r) && IR.Extends(f, r.f) && IR.LabelFirst(r.f, r.trace) && r.trace.instrs == [|f.insts|]
    ensures !r.enableCse && !r.enableSimplification && r.sp.None? && r.fp.None? && r.curFunc.None?
    ensures r.spOffset == spOffset && r.consts == consts && r.cse == map[] && !r.thisAvailable
  {
    var (f1, lab) := IR.DefLabelInst(f, 0);
    var st := TB.State(f, IR.NewTrace(lab), false, false, None, None, None, spOffset, map[], consts, false, L.NoLocals);
    assert TB.Valid(st.(trace := IR.Trace([])));
    TB.ValidUnderExtension(st.(trace := IR.Trace([])), f1);
    st.(f := f1)
  }

  /** The optimisation switches: whether optimisations are on at all, and CSE and simplification within them. */
  datatype Options = Options(genOpts: bool, cse: bool, simplification: bool)

  /**
   * The TraceBuilder constructor: a trace with its label, the current
   * function as a constant, then (with optimisations as configured) the
   * frame pointer and the stack pointer at the initial offset, which read
   * as a signed 32-bit number may not be negative. The current function
   * is recorded once the pointers are defined; nothing in between reads
   * or writes it. With operand checks off and without simplification,
   * construction succeeds exactly when that offset is not negative, and
   * the trace is then the label, the DefFP and the DefSP.
   */
  function NewBuilder(cfg: TB.Config, f: IR.Factory, consts: map<TB.CseKey, nat>, initialSpOffset: nat, func: int, opts: Options): (r: Result<TB.State, TB.Error>)
    requires IR.WellFormed(f) && TB.TableSound(f, consts) && initialSpOffset < 0x1_0000_0000
    ensures r.Ok? ==> TB.Valid(r.value) && IR.Extends(f, r.value.f) && r.value.spOffset >= 0
    ensures r.Ok? ==> r.value.enableCse == (opts.genOpts && opts.cse) && r.value.enableSimplification == (opts.genOpts && opts.simplification)
    ensures r.Ok? ==> r.value.curFunc.Some? && DefinedAsConst(r.value.f, r.value.curFunc.value, Ty.TypeForConst(Ty.FuncConst), func)
  {
    var st0 := Fresh(f, consts, Int32(initialSpOffset));
    match GenDefConst(cfg, st0, Ty.FuncConst, func)
    case Err(e) => Err(e)
    case Ok((st1, curFunc)) =>
      var st2 := if opts.genOpts then st1.(enableCse := opts.cse, enableSimplification := opts.simplification) else st1;
      match DefinePointers(cfg, st2, Int32(initialSpOffset))
      case Err(e) => Err(e)
      case Ok(st3) =>
        IR.ExtendsTrans(st0.f, st1.f, st3.f);
        IR.ExtendsTrans(f, st0.f, st3.f);
        ConstStable(st1.f, st3.f, curFunc.value, Ty.TypeForConst(Ty.FuncConst), func);
        FreshLabelStable(f, st0, st3);
        Finish(st3, curFunc)
  }

  /**
   * With operand checks off and without simplification, construction
   * succeeds exactly when the initial offset, read as a signed 32-bit
   * number, is not negative.
   */
  lemma NewBuilderSucceeds(cfg: TB.Config, f: IR.Factory, consts: map<TB.CseKey, nat>, initialSpOffset: nat, func: int, opts: Options)
    requires IR.WellFormed(f) && TB.TableSound(f, consts) && initialSpOffset < 0x1_0000_0000
    requires !cfg.debug && !(opts.genOpts && opts.simplification)
    ensures NewBuilder(cfg, f, consts, initialSpOffset, func, opts).Ok? <==> initialSpOffset < 0x8000_0000
  {
    var st0 := Fresh(f, consts, Int32(initialSpOffset));
    var (st1, curFunc) := GenDefConst(cfg, st0, Ty.FuncConst, func).value;
    var st2 := if opts.genOpts then st1.(enableCse := opts.cse, enableSimplification := opts.simplification) else st1;
    assert DefinePointers(cfg, st2, Int32(initialSpOffset)).value.spOffset == Int32(initialSpOffset);
  }

  /**
   * A builder constructed with operand checks off and without
   * simplification has a frame pointer, a stack pointer at the initial
   * offset, and a trace of its label, the DefFP and the DefSP.
   */
  lemma NewBuilderStarts(cfg: TB.Config, f: IR.Factory, consts: map<TB.CseKey, nat>, initialSpOffset: nat, func: int, opts: Options, st: TB.State)
    requires IR.WellFormed(f) && TB.TableSound(f, consts) && initialSpOffset < 0x1_0000_0000
    requires !cfg.debug && !(opts.genOpts && opts.simplification)
    ensures NewBuilder(cfg, f, consts, initialSpOffset, func, opts) == Ok(st) ==>
      (st.spOffset == initialSpOffset && st.sp.Some? && st.fp.Some?) &&
      (|f.insts| < |st.f.insts| && st.f.insts[|f.insts|].op == DefLabel) &&
      (TraceIs(st.trace, st.f, [|f.insts|], [DefFP, DefSP]))
  {
    if NewBuilder(cfg, f, consts, initialSpOffset, func, opts) == Ok(st) {
      var st0 := Fresh(f, consts, Int32(initialSpOffset));
      var (st1, curFunc) := GenDefConst(cfg, st0, Ty.FuncConst, func).value;
      var st2 := if opts.genOpts then st1.(enableCse := opts.cse, enableSimplification := opts.simplification) else st1;
      var st3 := DefinePointers(cfg, st2, Int32(initialSpOffset)).value;
      assert st == st3.(curFunc := curFunc);
      IR.ExtendsTrans(st0.f, st1.f, st3.f);
      FreshLabelStable(f, st0, st3);
    }
  }

  /** The end of construction: the current function recorded, provided the stack offset is not negative. */
  function Finish(st: TB.State, curFunc: Option<nat>): (r: Result<TB.State, TB.Error>)
    requires TB.Valid(st) && TB.OptBelow(curFunc, |st.f.values|)
    ensures r.Ok? <==> st.spOffset >= 0
    ensures r.Ok? ==> TB.Valid(r.value) && r.value == st.(curFunc := curFunc)
  {
    if st.spOffset < 0 then Err(TB.NegativeSpOffset(st.spOffset)) else Ok(st.(curFunc := curFunc))
  }

  /** The label a fresh builder starts with stays a label as the arena grows. */
  lemma FreshLabelStable(f: IR.Factory, st0: TB.State, st: TB.State)
    requires |f.insts| < |st0.f.insts| && st0.f.insts[|f.insts|].op == DefLabel && IR.Extends(st0.f, st.f)
    ensures |f.insts| < |st.f.insts| && st.f.insts[|f.insts|].op == DefLabel
  {
    assert st.f.insts[|f.insts|] == st.f.insts[..|st0.f.insts|][|f.insts|];
  }

  /** The frame pointer, then the stack pointer at the given offset. */
  function DefinePointers(cfg: TB.Config, st: TB.State, spOffset: int): (r: Result<TB.State, TB.Error>)
    requires TB.Valid(st)
    ensures r.Ok? ==> TB.Valid(r.value) && IR.Extends(st.f, r.value.f)
    ensures r.Ok? ==> r.value.enableCse == st.enableCse && r.value.enableSimplification == st.enableSimplification
    ensures !cfg.debug && !st.enableSimplification ==>
      r.Ok? && r.value.spOffset == spOffset && r.value.sp.Some? && r.value.fp.Some? &&
      TraceIs(r.value.trace, r.value.f, st.trace.instrs, [DefFP, DefSP])
  {
    match GenDefFP(cfg, st)
    case Err(e) => Err(e)
    case Ok((st1, _)) =>
      match GenDefSP(cfg, st1, spOffset)
      case Err(e) => Err(e)
      case Ok((st2, _)) =>
        IR.ExtendsTrans(st.f, st1.f, st2.f);
        if !cfg.debug && !st.enableSimplification then
          TraceIsTwo(st1, st2, st.trace.instrs, DefFP, DefSP);
          Ok(st2)
        else Ok(st2)
  }

  /**
   * An instruction whose destination type is fixed by its opcode and
   * whose tracking cannot fail is always emitted.
   */
  lemma PointerEmitOk(cfg: TB.Config, st: TB.State, inst: IR.Instr, t: Ty.Type, bits: int)
    requires TB.Valid(st) && TB.Emittable(st, inst)
    requires inst.op == DefFP || (inst.op == DefSP && |inst.srcs| == 2 && DefinedAsConst(st.f, inst.srcs[1], t, bits))
    ensures TB.Emit(cfg, st, inst).Ok?
  {
    if inst.op == DefFP { FramePointerOps(); } else { StackPointerOps(DefSP); }
    var (f1, iid) := IR.CloneInstruction(cfg.vfx, st.f, inst).value;
    TB.ValidUnderExtension(st, f1);
    var st1 := TB.Linked(st.(f := f1), iid);
    assert st1.f.insts[iid].srcs == inst.srcs;
    if inst.op == DefSP {
      ConstStable(st.f, f1, inst.srcs[1], t, bits);
      assert TB.Track(cfg, st1, iid) == TB.TrackDefSP(st1, iid);
    }
  }
}

=== FILE: ir.dfy ===
/**
 * Instructions, SSA values and traces of the JIT's intermediate
 * representation, together with the factory that allocates them.
 *
 * The factory's arena is modelled as two pools: `insts[i]` is the
 * instruction whose id (iid) is `i`, and `values[v]` is the SSA value
 * whose id is `v`. A pointer to an instruction or value becomes its index.
 */
module IR {
  import Ty = IRType
  import opened Opcodes
  import opened Wrappers
  import TC = TypeCheck

  // ---------------------------------------------------------------------
  // Instructions and values

  /** Extra data an instruction may carry; a constant's payload is kept as opaque bits. */
  datatype Extra =
    | NoData
    | LocalIdData(locId: nat)
    | ConstData(bits: int)
    | OtherData(tag: nat)   // marker and string-switch data, not interpreted here

  /**
   * An instruction. `target` is the iid of the label a control-flow
   * instruction may jump to; `dsts` lists the values it defines (one for an
   * opcode with a destination, any number for a label).
   */
  datatype Instr = Instr(
    op: Opcode,
    typeParam: Ty.Type,
    srcs: seq<nat>,
    dsts: seq<nat>,
    target: Option<nat>,
    extra: Extra)

  /** A fresh instruction: no type parameter (None), no sources, no label, no extra data. */
  function Transient(op: Opcode): (r: Instr)
    ensures r.op == op && r.typeParam == Ty.None && r.srcs == [] && r.dsts == []
    ensures r.target.None? && r.extra == NoData
  {
    Instr(op, Ty.None, [], [], None, NoData)
  }

  /** An SSA value: the instruction that defines it, and its type. */
  datatype Value = Value(inst: nat, ty: Ty.Type)

  /** The arena: every instruction and value allocated so far, and the label counter. */
  datatype Factory = Factory(insts: seq<Instr>, values: seq<Value>, numLabels: nat)

  const EmptyFactory: Factory := Factory([], [], 0)

  /** Every reference in the arena points at something allocated. */
  predicate InstOk(f: Factory, i: nat)
    requires i < |f.insts|
  {
    AllBelow(f.insts[i].srcs, |f.values|) &&
    AllBelow(f.insts[i].dsts, |f.values|) &&
    (f.insts[i].target.Some? ==> f.insts[i].target.value < |f.insts|)
  }

  /**
   * A value's defining instruction exists, and everything it reads was
   * defined before the value itself: SSA chains run strictly downwards.
   */
  predicate ValueOk(f: Factory, v: nat)
    requires v < |f.values|
  {
    f.values[v].inst < |f.insts| && AllBelow(f.insts[f.values[v].inst].srcs, v)
  }

  /** Every id in the list is below `n`. */
  predicate AllBelow(ids: seq<nat>, n: nat) {
    forall k | 0 <= k < |ids| :: ids[k] < n
  }

  predicate WellFormed(f: Factory) {
    (forall i | 0 <= i < |f.insts| :: InstOk(f, i)) &&
    (forall v | 0 <= v < |f.values| :: ValueOk(f, v))
  }

  /** `f'` was obtained from `f` by allocating further instructions and values. */
  predicate Extends(f: Factory, f': Factory) {
    |f.insts| <= |f'.insts| && f'.insts[..|f.insts|] == f.insts &&
    |f.values| <= |f'.values| && f'.values[..|f.values|] == f.values
  }

  lemma ExtendsTrans(f1: Factory, f2: Factory, f3: Factory)
    requires Extends(f1, f2) && Extends(f2, f3)
    ensures Extends(f1, f3)
  {
    assert f3.insts[..|f2.insts|][..|f1.insts|] == f3.insts[..|f1.insts|];
    assert f3.values[..|f2.values|][..|f1.values|] == f3.values[..|f1.values|];
  }

  /** Whether the value is a compile-time constant (defined by DefConst or LdConst). */
  predicate IsConst(f: Factory, v: nat)
    requires v < |f.values|
  {
    f.values[v].inst < |f.insts| &&
    var op := f.insts[f.values[v].inst].op;
    op == DefConst || op == LdConst
  }

  /** The integer payload of a constant value, if it is one. */
  function ValInt(f: Factory, v: nat): (r: Option<int>)
    requires v < |f.values|
    ensures r.Some? ==> IsConst(f, v)
    ensures IsConst(f, v) && f.insts[f.values[v].inst].extra.ConstData? ==>
      r == Some(f.insts[f.values[v].inst].extra.bits)
  {
    if IsConst(f, v) && f.insts[f.values[v].inst].extra.ConstData? then
      Some(f.insts[f.values[v].inst].extra.bits)
    else None
  }

  /** What the operand checker sees of each source. */
  function Operands(f: Factory, srcs: seq<nat>): (r: seq<TC.Operand>)
    requires AllBelow(srcs, |f.values|)
    ensures |r| == |srcs|
    ensures forall k | 0 <= k < |srcs| ::
      r[k].ty == f.values[srcs[k]].ty && (r[k].isConst <==> IsConst(f, srcs[k]))
  {
    seq(|srcs|, k requires 0 <= k < |srcs| => TC.Operand(f.values[srcs[k]].ty, IsConst(f, srcs[k])))
  }

  function SrcTypes(f: Factory, srcs: seq<nat>): (r: seq<Ty.Type>)
    requires AllBelow(srcs, |f.values|)
    ensures |r| == |srcs|
    ensures forall k | 0 <= k < |srcs| :: r[k] == f.values[srcs[k]].ty
  {
    seq(|srcs|, k requires 0 <= k < |srcs| => f.values[srcs[k]].ty)
  }

  // ---------------------------------------------------------------------
  // Allocation

  /** What the vector-instruction effects analysis reports (its body is not part of this model). */
  datatype VectorEffects = VectorEffects(
    baseType: Ty.Type, valType: Ty.Type,
    baseTypeChanged: bool, baseValChanged: bool, valTypeChanged: bool)

  /** The effects analysis: opcode and base, key and value types to effects. */
  type VectorOracle = (Opcode, Ty.Type, Ty.Type, Ty.Type) -> VectorEffects

  /**
   * Operand positions of the base, key and value of the two vector opcodes
   * that define a value, as laid out in the opcode catalog (SetProp: code
   * address, class, base, key, value; SetElem: code address, base, key,
   * value).
   */
  function VectorBaseIdx(op: Opcode): nat { if op == SetProp then 2 else 1 }

  /** The effects of a vector instruction, or None when an operand is missing. */
  function VectorEffectsOf(vfx: VectorOracle, f: Factory, inst: Instr): (r: Option<VectorEffects>)
    requires AllBelow(inst.srcs, |f.values|)
    ensures r.Some? <==> VectorBaseIdx(inst.op) + 2 < |inst.srcs|
  {
    var b := VectorBaseIdx(inst.op);
    if b + 2 < |inst.srcs| then
      var ts := SrcTypes(f, inst.srcs);
      Some(vfx(inst.op, ts[b], ts[b + 1], ts[b + 2]))
    else None
  }

  /** The destination type of a (not yet allocated) instruction. */
  function DstType(vfx: VectorOracle, f: Factory, inst: Instr): (r: Result<Ty.Type, TC.OutputError>)
    requires AllBelow(inst.srcs, |f.values|)
    ensures Info(inst.op).dst.DofS? && Info(inst.op).dst.n < |inst.srcs| ==>
      r == Ok(f.values[inst.srcs[Info(inst.op).dst.n]].ty)
    ensures Info(inst.op).dst.DParam? ==> r == Ok(inst.typeParam)
  {
    var vt := if Info(inst.op).dst.DVector? then
      (match VectorEffectsOf(vfx, f, inst) case Some(e) => e.valType case None => Ty.None)
      else Ty.None;
    if Info(inst.op).dst.DVector? && VectorEffectsOf(vfx, f, inst).None? then
      Err(TC.SourceMissing(VectorBaseIdx(inst.op) + 2))
    else TC.OutputType(inst.op, inst.typeParam, SrcTypes(f, inst.srcs), vt)
  }

  /**
   * Allocate a copy of a transient instruction: the copy's iid is the
   * number of instructions allocated so far, and if its opcode has a
   * destination, a value is allocated with the next value id and the
   * destination type of the instruction.
   */
  function CloneInstruction(vfx: VectorOracle, f: Factory, inst: Instr): (r: Result<(Factory, nat), TC.OutputError>)
    requires WellFormed(f)
    requires AllBelow(inst.srcs, |f.values|)
    requires inst.target.Some? ==> inst.target.value < |f.insts|
    requires inst.dsts == []
    ensures r.Ok? ==>
      var (f', iid) := r.value;
      iid == |f.insts| && |f'.insts| == iid + 1 && f'.insts[..iid] == f.insts &&
      f'.numLabels == f.numLabels && WellFormed(f') &&
      f'.insts[iid] == inst.(dsts := f'.insts[iid].dsts) &&
      (HasDst(inst.op) ==>
        |f'.values| == |f.values| + 1 && f'.values[..|f.values|] == f.values &&
        f'.values[|f.values|].inst == iid &&
        DstType(vfx, f, inst) == Ok(f'.values[|f.values|].ty) &&
        f'.insts[iid].dsts == [|f.values|]) &&
      (!HasDst(inst.op) ==> f'.values == f.values && f'.insts[iid].dsts == [])
    ensures r.Err? <==> HasDst(inst.op) && DstType(vfx, f, inst).Err?
  {
    var iid := |f.insts|;
    if !HasDst(inst.op) then
      var f' := f.(insts := f.insts + [inst]);
      assert forall i | 0 <= i < iid :: f'.insts[i] == f.insts[i];
      assert InstOk(f', iid);
      assert forall i | 0 <= i < iid :: InstOk(f', i) by {
        forall i | 0 <= i < iid ensures InstOk(f', i) { assert InstOk(f, i); }
      }
      assert forall v | 0 <= v < |f'.values| :: ValueOk(f', v) by {
        forall v | 0 <= v < |f'.values| ensures ValueOk(f', v) { assert ValueOk(f, v); }
      }
      Ok((f', iid))
    else
      match DstType(vfx, f, inst)
      case Err(e) => Err(e)
      case Ok(t) =>
        var d := |f.values|;
        var f' := Factory(f.insts + [inst.(dsts := [d])], f.values + [Value(iid, t)], f.numLabels);
        assert forall i | 0 <= i < iid :: f'.insts[i] == f.insts[i];
        assert InstOk(f', iid);
        assert forall i | 0 <= i < iid :: InstOk(f', i) by {
          forall i | 0 <= i < iid ensures InstOk(f', i) { assert InstOk(f, i); }
        }
        assert forall v | 0 <= v < d :: ValueOk(f', v) by {
          forall v | 0 <= v < d ensures ValueOk(f', v) { assert ValueOk(f, v); }
        }
        assert ValueOk(f', d);
        Ok((f', iid))
  }

  /**
   * Allocate a label: a DefLabel instruction with `numDst` values of type
   * None. (The label's own counter is kept; how a label is laid out beyond
   * that belongs to code that is not part of this model.)
   */
  function DefLabelInst(f: Factory, numDst: nat): (r: (Factory, nat))
    requires WellFormed(f)
    ensures var (f', iid) := r;
      iid == |f.insts| && |f'.insts| == iid + 1 && f'.insts[..iid] == f.insts &&
      f'.insts[iid].op == DefLabel && |f'.insts[iid].dsts| == numDst &&
      f'.numLabels == f.numLabels + 1 &&
      |f'.values| == |f.values| + numDst && f'.values[..|f.values|] == f.values &&
      (forall k | 0 <= k < numDst ::
        f'.insts[iid].dsts[k] == |f.values| + k && f'.values[|f.values| + k] == Value(iid, Ty.None)) &&
      WellFormed(f')
  {
    var iid := |f.insts|;
    var n := |f.values|;
    var dsts := seq(numDst, k => n + k);
    var newVals := seq(numDst, k => Value(iid, Ty.None));
    var f' := Factory(f.insts + [Instr(DefLabel, Ty.None, [], dsts, None, NoData)], f.values + newVals, f.numLabels + 1);
    assert forall i | 0 <= i < iid :: f'.insts[i] == f.insts[i];
    assert InstOk(f', iid);
    assert forall i | 0 <= i < iid :: InstOk(f', i) by {
      forall i | 0 <= i < iid ensures InstOk(f', i) { assert InstOk(f, i); }
    }
    assert forall v | 0 <= v < n :: ValueOk(f', v) by {
      forall v | 0 <= v < n ensures ValueOk(f', v) { assert ValueOk(f, v); }
    }
    assert forall v | n <= v < |f'.values| :: ValueOk(f', v);
    (f', iid)
  }

  /** Change the type of an allocated value (as the if-then-else merge does). */
  function SetValueType(f: Factory, v: nat, t: Ty.Type): (r: Factory)
    requires WellFormed(f) && v < |f.values|
    ensures r.insts == f.insts && |r.values| == |f.values| && r.numLabels == f.numLabels
    ensures r.values[v] == Value(f.values[v].inst, t)
    ensures forall w | 0 <= w < |f.values| && w != v :: r.values[w] == f.values[w]
    ensures WellFormed(r)
  {
    var r := f.(values := f.values[v := Value(f.values[v].inst, t)]);
    assert forall i | 0 <= i < |r.insts| :: InstOk(r, i) by {
      forall i | 0 <= i < |r.insts| ensures InstOk(r, i) { assert InstOk(f, i); }
    }
    assert forall w | 0 <= w < |r.values| :: ValueOk(r, w) by {
      forall w | 0 <= w < |r.values| ensures ValueOk(r, w) { assert ValueOk(f, w); }
    }
    r
  }

  /** Change the opcode of an allocated instruction (killLocals turns LdConst clones into DefConst). */
  function SetOpcode(f: Factory, iid: nat, op: Opcode): (r: Factory)
    requires WellFormed(f) && iid < |f.insts|
    ensures r.values == f.values && |r.insts| == |f.insts| && r.numLabels == f.numLabels
    ensures r.insts[iid] == f.insts[iid].(op := op)
    ensures forall i | 0 <= i < |f.insts| && i != iid :: r.insts[i] == f.insts[i]
    ensures WellFormed(r)
  {
    var r := f.(insts := f.insts[iid := f.insts[iid].(op := op)]);
    assert forall i | 0 <= i < |r.insts| :: InstOk(r, i) by {
      forall i | 0 <= i < |r.insts| ensures InstOk(r, i) { assert InstOk(f, i); }
    }
    assert forall w | 0 <= w < |r.values| :: ValueOk(r, w) by {
      forall w | 0 <= w < |r.values| ensures ValueOk(r, w) { assert ValueOk(f, w); }
    }
    r
  }

  // ---------------------------------------------------------------------
  // Building an instruction from an argument list

  /** An optional argument of `gen`, dispatched on its type. */
  datatype Arg =
    | LabelArg(l: nat)
    | TypeArg(t: Ty.Type)
    | ExtraArg(e: Extra)

  /** The trailing sources: none, a list of values, or a count and an array. */
  datatype Srcs =
    | NoSrcs
    | SrcList(vs: seq<nat>)
    | SrcArray(count: nat, arr: seq<nat>)

  datatype BuildError =
    | ExtraSetTwice
    | OperandCheckFailed(e: TC.CheckError)

  /** The source list a `Srcs` argument stands for. */
  function SrcsOf(s: Srcs): seq<nat>
    requires s.SrcArray? ==> s.count <= |s.arr|
  {
    match s
    case NoSrcs => []
    case SrcList(vs) => vs
    case SrcArray(n, arr) => arr[..n]
  }

  /** How many extra-data arguments the list holds. */
  function CountExtra(args: seq<Arg>): nat {
    if |args| == 0 then 0 else (if args[0].ExtraArg? then 1 else 0) + CountExtra(args[1..])
  }

  /** Every extra-data argument points at actual data. */
  predicate ExtrasGiven(args: seq<Arg>) {
    forall k | 0 <= k < |args| :: args[k].ExtraArg? ==> args[k].e != NoData
  }

  /** Apply the optional arguments in order, each by its setter. */
  function ApplyArgs(inst: Instr, args: seq<Arg>): (r: Result<Instr, BuildError>)
    requires ExtrasGiven(args)
    ensures r.Ok? ==> r.value.op == inst.op && r.value.srcs == inst.srcs && r.value.dsts == inst.dsts
    ensures r.Err? <==> CountExtra(args) + (if inst.extra != NoData then 1 else 0) > 1
    ensures r.Ok? && CountExtra(args) == 0 ==> r.value.extra == inst.extra
    decreases |args|
  {
    if |args| == 0 then Ok(inst)
    else
      var inst' := match args[0]
        case LabelArg(l) => Ok(inst.(target := Some(l)))
        case TypeArg(t) => Ok(inst.(typeParam := t))
        case ExtraArg(e) => if inst.extra != NoData then Err(ExtraSetTwice) else Ok(inst.(extra := e));
      if inst'.Err? then inst'
      else
        ApplyArgs(inst'.value, args[1..])
  }

  /**
   * makeInstruction: a transient instruction for `op`, its optional
   * arguments applied, its sources attached and, in debug builds, its
   * operands checked against the catalog.
   */
  function MakeInstruction(f: Factory, debug: bool, op: Opcode, args: seq<Arg>, srcs: Srcs): (r: Result<Instr, BuildError>)
    requires ExtrasGiven(args)
    requires srcs.SrcArray? ==> srcs.count <= |srcs.arr|
    requires AllBelow(SrcsOf(srcs), |f.values|)
    ensures r.Ok? ==> r.value.op == op && r.value.srcs == SrcsOf(srcs) && r.value.dsts == []
    ensures r.Ok? ==> ApplyArgs(Transient(op), args).Ok?
    ensures r.Ok? && debug ==> TC.OperandsOk(op, r.value.typeParam, Operands(f, SrcsOf(srcs)))
    ensures ApplyArgs(Transient(op), args).Ok? && !debug ==> r.Ok?
    ensures (debug && ApplyArgs(Transient(op), args).Ok? &&
      TC.OperandsOk(op, ApplyArgs(Transient(op), args).value.typeParam, Operands(f, SrcsOf(srcs)))) ==> r.Ok?
  {
    match ApplyArgs(Transient(op), args)
    case Err(e) => Err(e)
    case Ok(inst) =>
      var inst' := inst.(srcs := SrcsOf(srcs));
      if debug then
        match TC.CheckOperands(op, inst'.typeParam, Operands(f, inst'.srcs))
        case Some(e) => Err(OperandCheckFailed(e))
        case None => Ok(inst')
      else Ok(inst')
  }

  // ---------------------------------------------------------------------
  // Per-instruction side tables

  /** A table indexed by iid that grows lazily to the number of instructions. */
  datatype InstrState<T> = InstrState(info: seq<T>, init: T)

  function NewInstrState<T>(numInsts: nat, init: T): (r: InstrState<T>)
    ensures |r.info| == numInsts && r.init == init
    ensures forall i | 0 <= i < numInsts :: r.info[i] == init
  {
    InstrState(seq(numInsts, _ => init), init)
  }

  /** Extend the table with `init` entries up to `numInsts`. */
  function Grow<T>(s: InstrState<T>, numInsts: nat): (r: InstrState<T>)
    ensures r.init == s.init
    ensures |r.info| == if |s.info| < numInsts then numInsts else |s.info|
    ensures r.info[..|s.info|] == s.info
    ensures forall i | |s.info| <= i < |r.info| :: r.info[i] == s.init
  {
    if |s.info| < numInsts then
      s.(info := s.info + seq(numInsts - |s.info|, _ => s.init))
    else s
  }

  /**
   * The entry for `iid` (operator[]): the table first grows when `iid` is
   * beyond it. The returned table is the one the lookup leaves behind.
   */
  function Lookup<T>(s: InstrState<T>, numInsts: nat, iid: nat): (r: (InstrState<T>, T))
    requires iid < numInsts
    ensures iid < |r.0.info| && r.1 == r.0.info[iid]
    ensures iid < |s.info| ==> r == (s, s.info[iid])
    ensures iid >= |s.info| ==>
      |r.0.info| == numInsts && r.0.info[..|s.info|] == s.info && r.1 == s.init
  {
    var s' := if iid >= |s.info| then Grow(s, numInsts) else s;
    (s', s'.info[iid])
  }

  /** Store `x` as the entry for `iid`. */
  function Store<T>(s: InstrState<T>, numInsts: nat, iid: nat, x: T): (r: InstrState<T>)
    requires iid < numInsts
    ensures iid < |r.info| && r.info[iid] == x && r.init == s.init
    ensures |r.info| == if iid < |s.info| then |s.info| else numInsts
    ensures forall i | 0 <= i < |s.info| && i != iid :: r.info[i] == s.info[i]
  {
    var s' := Lookup(s, numInsts, iid).0;
    s'.(info := s'.info[iid := x])
  }

  /** Set every entry back to `init` and grow to the number of instructions. */
  function Reset<T>(s: InstrState<T>, numInsts: nat): (r: InstrState<T>)
    ensures r.init == s.init
    ensures |r.info| == if |s.info| < numInsts then numInsts else |s.info|
    ensures forall i | 0 <= i < |r.info| :: r.info[i] == s.init
  {
    Grow(s.(info := seq(|s.info|, _ => s.init)), numInsts)
  }

  /** After a reset, every valid iid reads as `init`. */
  lemma ResetThenLookup<T>(s: InstrState<T>, numInsts: nat, iid: nat)
    requires iid < numInsts
    ensures Lookup(Reset(s, numInsts), numInsts, iid).1 == s.init
  {
  }

  /** A stored entry is read back, and storing leaves other entries alone. */
  lemma StoreThenLookup<T>(s: InstrState<T>, numInsts: nat, iid: nat, other: nat, x: T)
    requires iid < numInsts && other < numInsts
    ensures Lookup(Store(s, numInsts, iid, x), numInsts, iid).1 == x
    ensures other != iid ==>
      Lookup(Store(s, numInsts, iid, x), numInsts, other).1 == Lookup(s, numInsts, other).1
  {
  }

  // ---------------------------------------------------------------------
  // Traces and blocks

  /** A trace: the iids of its instructions in order, its label first. */
  datatype Trace = Trace(instrs: seq<nat>)

  predicate LabelFirst(f: Factory, t: Trace) {
    |t.instrs| > 0 && t.instrs[0] < |f.insts| && f.insts[t.instrs[0]].op == DefLabel
  }

  /** A new trace holds just its label. */
  function NewTrace(labelIid: nat): (r: Trace)
    ensures r.instrs == [labelIid]
  {
    Trace([labelIid])
  }

  /** The trace's label, which is its first instruction. */
  function GetLabel(f: Factory, t: Trace): (r: nat)
    requires LabelFirst(f, t)
    ensures r < |f.insts| && f.insts[r].op == DefLabel
  {
    t.instrs[0]
  }

  /** The label of an optional trace: none for no trace. */
  function LabelOf(f: Factory, t: Option<Trace>): (r: Option<nat>)
    requires t.Some? ==> LabelFirst(f, t.value)
    ensures t.None? <==> r.None?
    ensures t.Some? ==> r == Some(t.value.instrs[0])
  {
    match t
    case None => None
    case Some(tr) => Some(GetLabel(f, tr))
  }

  function Append(t: Trace, iid: nat): (r: Trace)
    ensures r.instrs == t.instrs + [iid]
  {
    Trace(t.instrs + [iid])
  }

  /** Insert right after the label. */
  function Prepend(t: Trace, iid: nat): (r: Trace)
    requires |t.instrs| > 0
    ensures |r.instrs| == |t.instrs| + 1
    ensures r.instrs[0] == t.instrs[0] && r.instrs[1] == iid
    ensures r.instrs[2..] == t.instrs[1..]
  {
    Trace([t.instrs[0], iid] + t.instrs[1..])
  }

  /** Prepending and appending keep a trace's label at its head. */
  lemma EditsKeepLabel(f: Factory, t: Trace, iid: nat)
    requires LabelFirst(f, t)
    ensures LabelFirst(f, Prepend(t, iid)) && GetLabel(f, Prepend(t, iid)) == GetLabel(f, t)
    ensures LabelFirst(f, Append(t, iid)) && GetLabel(f, Append(t, iid)) == GetLabel(f, t)
  {
  }

  /**
   * The slice of a block's two successor slots (0: fall-through, 1: taken)
   * that its last instruction can reach.
   */
  function SuccSlots(last: Instr): (r: (nat, nat))
    ensures r.0 <= r.1 <= 2
  {
    var controlFlow := last.target.Some?;
    var terminal := IsTerminalOp(last.op);
    if controlFlow && !terminal then (0, 2)
    else if controlFlow then (1, 2)
    else if !terminal then (0, 1)
    else (0, 0)
  }

  /**
   * A conditional branch has both successors, a jump only its target, an
   * ordinary instruction only its fall-through, and a terminal instruction
   * (exit, return, throw) none.
   */
  lemma SuccessorCounts(last: Instr)
    ensures var (lo, hi) := SuccSlots(last);
      (hi - lo == 2 <==> last.target.Some? && !IsTerminalOp(last.op)) &&
      (hi - lo == 0 <==> last.target.None? && IsTerminalOp(last.op)) &&
      (lo <= 1 < hi <==> last.target.Some?) &&
      (lo == 0 < hi <==> !IsTerminalOp(last.op))
  {
  }
}

=== FILE: irtype.dfy ===
/**
 * The JIT's IR type lattice. A type is a set of kinds encoded as a 64-bit
 * mask: ten primitive PHP kinds in bits 0-9, the same kinds boxed in bits
 * 10-19, pointers to them in bits 20-29, pointers to boxed ones in bits
 * 30-39, and runtime kinds (classes, functions, stack pointers, ...) in bits
 * 40-51. Subtyping is bit containment.
 */
module IRType {

  type Type = bv64

  // Band shifts: kBoxShift = 10, kPtrShift = 20, kPtrBoxShift = 30.

  // Primitive PHP kinds (bits 0-9)
  const Uninit: Type := 0x1
  const InitNull: Type := 0x2
  const Bool: Type := 0x4
  const Int: Type := 0x8
  const Dbl: Type := 0x10
  const StaticStr: Type := 0x20
  const CountedStr: Type := 0x40
  const StaticArr: Type := 0x80
  const CountedArr: Type := 0x100
  const Obj: Type := 0x200

  // Predefined PHP unions, in non-decreasing order of specificity
  const Null: Type := 0x3           // Uninit | InitNull
  const Str: Type := 0x60           // StaticStr | CountedStr
  const Arr: Type := 0x180          // StaticArr | CountedArr
  const UncountedInit: Type := 0xbe // InitNull | Bool | Int | Dbl | StaticStr | StaticArr
  const Uncounted: Type := 0xbf     // UncountedInit | Uninit
  const Cell: Type := 0x3ff         // Uncounted | Str | Arr | Obj

  // The boxed band (bits 10-19)
  const BoxedNull: Type := 0xc00
  const BoxedStr: Type := 0x18000
  const BoxedArr: Type := 0x60000
  const BoxedUncountedInit: Type := 0x2f800
  const BoxedUncounted: Type := 0x2fc00
  const BoxedCell: Type := 0xffc00
  const BoxedObj: Type := 0x80000
  const BoxedCountedArr: Type := 0x40000

  // The pointer bands (bits 20-39)
  const PtrToCell: Type := 0x3ff00000
  const PtrToBoxedCell: Type := 0xffc0000000

  // Runtime kinds (bits 40-51)
  const Cls: Type := 0x100_0000_0000
  const Func: Type := 0x200_0000_0000
  const VarEnv: Type := 0x400_0000_0000
  const NamedEntity: Type := 0x800_0000_0000
  const FuncCls: Type := 0x1000_0000_0000
  const FuncObj: Type := 0x2000_0000_0000
  const Cctx: Type := 0x4000_0000_0000
  const RetAddr: Type := 0x8000_0000_0000
  const StkPtr: Type := 0x1_0000_0000_0000
  const TCA: Type := 0x2_0000_0000_0000
  const ActRec: Type := 0x4_0000_0000_0000
  const None: Type := 0x8_0000_0000_0000

  // Runtime unions
  const Ctx: Type := 0x4000_0000_0200      // Obj | Cctx
  const FuncCtx: Type := 0x3000_0000_0000  // FuncCls | FuncObj

  // Special types that have no boxed or pointer variants of their own
  const Bottom: Type := 0
  const Counted: Type := 0xfff40          // CountedStr | CountedArr | Obj | BoxedCell
  const PtrToCounted: Type := 0xfff4000000 // Counted << kPtrShift
  const Gen: Type := 0xfffff              // Cell | BoxedCell
  const PtrToGen: Type := 0xfffff00000     // Gen << kPtrShift

  /** The unions unionOf may land on, in the order it tries them. */
  const UnionTypes: seq<Type> :=
    [Null, BoxedNull, Str, BoxedStr, Arr, BoxedArr, UncountedInit,
     BoxedUncountedInit, Uncounted, BoxedUncounted, Cell, BoxedCell, Gen]

  predicate SubtypeOf(t1: Type, t2: Type) {
    t1 & t2 == t1
  }

  predicate StrictSubtypeOf(t1: Type, t2: Type) {
    t1 != t2 && SubtypeOf(t1, t2)
  }

  predicate IsBoxed(t: Type) { SubtypeOf(t, BoxedCell) }
  predicate NotBoxed(t: Type) { SubtypeOf(t, Cell) }
  predicate MaybeBoxed(t: Type) { t & BoxedCell != Bottom }
  predicate IsPtr(t: Type) { SubtypeOf(t, PtrToGen) }
  predicate IsCounted(t: Type) { SubtypeOf(t, Counted) }
  predicate MaybeCounted(t: Type) { t & Counted != Bottom }
  predicate NotCounted(t: Type) { !MaybeCounted(t) }
  predicate IsArray(t: Type) { SubtypeOf(t, Arr) }
  predicate IsString(t: Type) { SubtypeOf(t, Str) }
  predicate IsNull(t: Type) { SubtypeOf(t, Null) }
  /** True when the type definitely excludes Uninit. */
  predicate IsInit(t: Type) { !SubtypeOf(Uninit, t) }
  predicate NeedsStaticBitCheck(t: Type) { t & (StaticStr | StaticArr) != Bottom }
  predicate CanRunDtor(t: Type) {
    t & (Obj | CountedArr | BoxedObj | BoxedCountedArr) != Bottom
  }

  /** A mask with no bit or exactly one bit set. */
  predicate AtMostOneBit(t: Type) {
    t == 0 || exists k: nat | k < 64 :: t == Bit(k)
  }

  /** The mask with only bit k set. */
  function Bit(k: nat): Type
    requires k < 64
  {
    (1 as bv64) << k
  }

  /**
   * Whether code generation may treat the type as one concrete kind:
   * strings, arrays, nulls, pointers to them, boxed types, and every type
   * with at most one bit set.
   */
  predicate IsStaticallyKnown(t: Type) {
    IsString(t) || IsArray(t) || IsNull(t)
    || (IsPtr(t) && (IsString(Deref(t)) || IsArray(Deref(t)) || IsNull(Deref(t))))
    || IsBoxed(t)
    || t & (t - 1) == 0
  }

  /** The more refined of two comparable types. */
  function MostRefined(t1: Type, t2: Type): (r: Type)
    requires SubtypeOf(t1, t2) || SubtypeOf(t2, t1)
    ensures SubtypeOf(r, t1) && SubtypeOf(r, t2)
    ensures r == t1 || r == t2
  {
    if SubtypeOf(t1, t2) then t1 else t2
  }

  /** The result type of an arithmetic operation on operands of these types. */
  function BinArithResultType(t1: Type, t2: Type): (r: Type)
    ensures r == Dbl <==> (SubtypeOf(t1, Dbl) || SubtypeOf(t2, Dbl))
    ensures r == Dbl || r == Int
  {
    if SubtypeOf(t1, Dbl) || SubtypeOf(t2, Dbl) then Dbl else Int
  }

  /** The type a boxed type holds. */
  function InnerType(t: Type): (r: Type)
    requires IsBoxed(t)
    ensures NotBoxed(r)
    ensures r << 10 == t
  {
    t >> 10
  }

  /** The first union of `us` that contains `t`. */
  function FirstUnionContaining(t: Type, us: seq<Type>): (r: Type)
    requires exists i :: 0 <= i < |us| && SubtypeOf(t, us[i])
    ensures SubtypeOf(t, r)
    ensures exists i :: 0 <= i < |us| && us[i] == r && forall j :: 0 <= j < i ==> !SubtypeOf(t, us[j])
  {
    if SubtypeOf(t, us[0]) then us[0]
    else
      var r := FirstUnionContaining(t, us[1..]);
      assert forall i :: 1 <= i < |us| ==> us[1..][i - 1] == us[i];
      r
  }

  /** The precondition of unionOf: both within Gen, or equal. */
  predicate UnionOfDefined(t1: Type, t2: Type) {
    SubtypeOf(t1, Gen) == SubtypeOf(t2, Gen) && (SubtypeOf(t1, Gen) || t1 == t2)
  }

  /**
   * The least predefined supertype of both types: the larger one when they
   * are comparable, and otherwise the first predefined union holding both.
   */
  function UnionOf(t1: Type, t2: Type): (r: Type)
    requires UnionOfDefined(t1, t2)
    ensures SubtypeOf(t1, r) && SubtypeOf(t2, r)
    ensures SubtypeOf(t1, t2) ==> r == t2
    ensures SubtypeOf(t2, t1) ==> r == t1
    ensures !SubtypeOf(t1, t2) && !SubtypeOf(t2, t1) ==>
              exists i :: 0 <= i < |UnionTypes| && UnionTypes[i] == r
                && forall j :: 0 <= j < i ==> !SubtypeOf(t1 | t2, UnionTypes[j])
  {
    if t1 == t2 then t1
    else if SubtypeOf(t1, t2) then t2
    else if SubtypeOf(t2, t1) then t1
    else
      JoinIsLeastBound(t1, t2, Gen);
      assert UnionTypes[12] == Gen;
      var r := FirstUnionContaining(t1 | t2, UnionTypes);
      JoinIsLeastBound(t1, t2, r);
      r
  }

  /** A type contains two types exactly when it contains their union. */
  lemma JoinIsLeastBound(t1: Type, t2: Type, u: Type)
    ensures SubtypeOf(t1 | t2, u) <==> SubtypeOf(t1, u) && SubtypeOf(t2, u)
  {
    if SubtypeOf(t1 | t2, u) {
      JoinBelow(t1, t2, u);
    } else {
      JoinAbove(t1, t2, u);
    }
  }

  lemma JoinBelow(t1: Type, t2: Type, u: Type)
    requires SubtypeOf(t1 | t2, u)
    ensures SubtypeOf(t1, u) && SubtypeOf(t2, u)
  {
  }

  lemma JoinAbove(t1: Type, t2: Type, u: Type)
    requires !SubtypeOf(t1 | t2, u)
    ensures !(SubtypeOf(t1, u) && SubtypeOf(t2, u))
  {
  }

  /**
   * The type of a reference to a value of this type. Boxing Uninit (and
   * Bottom) yields BoxedNull, since a fresh reference holds null.
   */
  function Box(t: Type): (r: Type)
    requires SubtypeOf(t, Gen) && NotBoxed(t)
    ensures IsBoxed(r)
    ensures SubtypeOf(t, Uninit) ==> r == BoxedNull
    ensures !SubtypeOf(t, Uninit) ==> InnerType(r) == t
  {
    if SubtypeOf(t, Uninit) then BoxedNull else t << 10
  }

  /** The type effects of the Unbox opcode: cells stay, boxes are opened. */
  function Unbox(t: Type): (r: Type)
    requires SubtypeOf(t, Gen)
    ensures NotBoxed(r)
    ensures NotBoxed(t) ==> r == t
    ensures IsBoxed(t) ==> r == InnerType(t)
  {
    (t & Cell) | InnerType(t & BoxedCell)
  }

  /** The type a pointer type points to. */
  function Deref(t: Type): (r: Type)
    requires IsPtr(t)
    ensures SubtypeOf(r, Gen)
    ensures r << 20 == t
  {
    DerefWithinGen(t);
    DerefShiftBack(t);
    t >> 20
  }

  lemma DerefWithinGen(t: Type)
    requires IsPtr(t)
    ensures SubtypeOf(t >> 20, Gen)
  {
  }

  lemma DerefShiftBack(t: Type)
    requires IsPtr(t)
    ensures (t >> 20) << 20 == t
  {
  }

  function DerefIfPtr(t: Type): (r: Type)
    requires SubtypeOf(t, Gen | PtrToGen)
    ensures IsPtr(t) ==> SubtypeOf(r, Gen)
    ensures !IsPtr(t) ==> r == t
  {
    if IsPtr(t) then Deref(t) else t
  }

  /** The type of a pointer to a value of this type. */
  function Ptr(t: Type): (r: Type)
    requires !IsPtr(t) && SubtypeOf(t, Gen)
    ensures IsPtr(r) && r != Bottom
    ensures Deref(r) == t
  {
    PtrIsPtr(t);
    PtrShiftBack(t);
    t << 20
  }

  lemma PtrIsPtr(t: Type)
    requires !IsPtr(t) && SubtypeOf(t, Gen)
    ensures IsPtr(t << 20) && t << 20 != Bottom
  {
  }

  lemma PtrShiftBack(t: Type)
    requires SubtypeOf(t, Gen)
    ensures (t << 20) >> 20 == t
  {
  }

  /** The runtime's DataType tags. */
  datatype DataType =
    | KindOfInvalid | KindOfUninit | KindOfNull | KindOfBoolean | KindOfInt64
    | KindOfDouble | KindOfStaticString | KindOfString | KindOfArray
    | KindOfObject | KindOfRef | KindOfClass | KindOfUncountedInit
    | KindOfUncounted | KindOfAny

  /** The types toDataType can translate without reaching its not_reached(). */
  predicate HasDataType(t: Type) {
    !IsPtr(t) && (IsBoxed(t) || SubtypeOf(t, None) || SubtypeOf(t, Cls) || SubtypeOf(t, Gen))
  }

  /** The most specific DataType covering the type (Null aside, see README). */
  function ToDataType(t: Type): (r: DataType)
    requires HasDataType(t)
    ensures r == KindOfRef <==> IsBoxed(t)
    ensures r == KindOfInvalid <==> t == None
  {
    if IsBoxed(t) then KindOfRef
    else if SubtypeOf(t, None) then KindOfInvalid
    else if SubtypeOf(t, Uninit) then KindOfUninit
    else if SubtypeOf(t, Null) then KindOfNull
    else if SubtypeOf(t, Bool) then KindOfBoolean
    else if SubtypeOf(t, Int) then KindOfInt64
    else if SubtypeOf(t, Dbl) then KindOfDouble
    else if SubtypeOf(t, StaticStr) then KindOfStaticString
    else if SubtypeOf(t, Str) then KindOfString
    else if SubtypeOf(t, Arr) then KindOfArray
    else if SubtypeOf(t, Obj) then KindOfObject
    else if SubtypeOf(t, Cls) then KindOfClass
    else if SubtypeOf(t, UncountedInit) then KindOfUncountedInit
    else if SubtypeOf(t, Uncounted) then KindOfUncounted
    else KindOfAny
  }

  /** The DataTypes whose type is a cell, so that boxing it is defined. */
  predicate BoxableKind(d: DataType) {
    d in {KindOfUninit, KindOfNull, KindOfBoolean, KindOfInt64, KindOfDouble,
          KindOfStaticString, KindOfString, KindOfArray, KindOfObject,
          KindOfUncountedInit, KindOfUncounted}
  }

  predicate FromDataTypeDefined(outer: DataType, inner: DataType) {
    inner != KindOfRef && (outer == KindOfRef ==> inner == KindOfInvalid || BoxableKind(inner))
  }

  /** The type of values tagged `outer`; for a reference, of inner kind `inner`. */
  function FromDataType(outer: DataType, inner: DataType): (r: Type)
    requires FromDataTypeDefined(outer, inner)
    decreases outer == KindOfRef
    ensures outer == KindOfRef <==> IsBoxed(r) && r != Bottom
    ensures outer == KindOfRef && inner != KindOfInvalid ==> r == Box(FromDataType(inner, KindOfInvalid))
    ensures BoxableKind(outer) ==> NotBoxed(r) && SubtypeOf(r, Gen)
  {
    match outer
    case KindOfInvalid => None
    case KindOfUninit => Uninit
    case KindOfNull => InitNull
    case KindOfBoolean => Bool
    case KindOfInt64 => Int
    case KindOfDouble => Dbl
    case KindOfStaticString => StaticStr
    case KindOfString => Str
    case KindOfArray => Arr
    case KindOfObject => Obj
    case KindOfClass => Cls
    case KindOfUncountedInit => UncountedInit
    case KindOfUncounted => Uncounted
    case KindOfAny => Gen
    case KindOfRef =>
      if inner == KindOfInvalid then BoxedCell
      else Box(FromDataType(inner, KindOfInvalid))
  }

  /** The values a ConstData payload may hold, by their C++ type. */
  datatype ConstKind =
    | IntegralConst | BoolConst | StringConst | NamedEntityConst | FuncConst
    | ClassConst | TCAConst | DoubleConst | StaticArrayConst

  /** typeForConst: the IR type of a constant of the given C++ type. */
  function TypeForConst(k: ConstKind): (r: Type)
    ensures AtMostOneBit(r) && r != Bottom
    ensures SubtypeOf(r, UncountedInit) <==> (k == BoolConst || k == IntegralConst || k == StringConst || k == DoubleConst || k == StaticArrayConst)
  {
    match k
    case IntegralConst =>
      assert Int == Bit(3); Int
    case BoolConst =>
      assert Bool == Bit(2); Bool
    case StringConst =>
      assert StaticStr == Bit(5); StaticStr
    case NamedEntityConst =>
      assert NamedEntity == Bit(43); NamedEntity
    case FuncConst =>
      assert Func == Bit(41); Func
    case ClassConst =>
      assert Cls == Bit(40); Cls
    case TCAConst =>
      assert TCA == Bit(49); TCA
    case DoubleConst =>
      assert Dbl == Bit(4); Dbl
    case StaticArrayConst =>
      assert StaticArr == Bit(7); StaticArr
  }

  // ---------------------------------------------------------------------
  // Properties of the lattice

  /** Subtyping is a partial order. */
  lemma SubtypePartialOrder(a: Type, b: Type, c: Type)
    ensures SubtypeOf(a, a)
    ensures SubtypeOf(a, b) && SubtypeOf(b, c) ==> SubtypeOf(a, c)
    ensures SubtypeOf(a, b) && SubtypeOf(b, a) ==> a == b
  {
  }

  /** Every type with at most one bit set is statically known. */
  lemma SingleBitIsStaticallyKnown(t: Type)
    requires AtMostOneBit(t)
    ensures IsStaticallyKnown(t)
  {
    if t != 0 {
      var k: nat :| k < 64 && t == Bit(k);
      assert t & (t - 1) == 0;
    }
  }

  /** Strings, arrays, nulls and boxed types are statically known. */
  lemma UnionsAreStaticallyKnown(t: Type)
    requires IsString(t) || IsArray(t) || IsNull(t) || IsBoxed(t)
    ensures IsStaticallyKnown(t)
  {
  }

  /** Boxing then unboxing gives back the type, except that Uninit comes back as Null. */
  lemma UnboxBox(t: Type)
    requires SubtypeOf(t, Gen) && NotBoxed(t)
    ensures SubtypeOf(Box(t), Gen)
    ensures Unbox(Box(t)) == (if SubtypeOf(t, Uninit) then Null else t)
  {
  }

  /** For a pointer type, taking a pointer to its target gives it back. */
  lemma PtrDeref(t: Type)
    requires IsPtr(t) && t != Bottom
    ensures !IsPtr(Deref(t))
    ensures Ptr(Deref(t)) == t
  {
  }

  /** toDataType inverts fromDataType on every kind but KindOfRef. */
  lemma ToDataTypeOfFromDataType(d: DataType)
    requires d != KindOfRef
    ensures HasDataType(FromDataType(d, KindOfInvalid))
    ensures ToDataType(FromDataType(d, KindOfInvalid)) == d
  {
  }

  /**
   * Every type translated by toDataType lies within the type of its tag,
   * except that KindOfNull covers all of Null while fromDataType gives InitNull.
   */
  lemma FromDataTypeOfToDataType(t: Type)
    requires HasDataType(t)
    ensures ToDataType(t) == KindOfNull ==> SubtypeOf(t, Null)
    ensures ToDataType(t) != KindOfRef && ToDataType(t) != KindOfNull ==>
              SubtypeOf(t, FromDataType(ToDataType(t), KindOfInvalid))
    ensures ToDataType(t) == KindOfRef ==> SubtypeOf(t, FromDataType(KindOfRef, KindOfInvalid))
  {
  }
}

=== FILE: locals.dfy ===
/**
 * What the trace builder knows about the current function's locals: for
 * each local id, the SSA value it currently holds (if known) and its type
 * (None when unknown). The two tables always have the same length and grow
 * on demand when a local beyond them is set.
 */
module Locals {
  import Ty = IRType
  import opened Opcodes
  import opened Wrappers
  import IR

  datatype Locals = Locals(values: seq<Option<nat>>, types: seq<Ty.Type>)

  const NoLocals: Locals := Locals([], [])

  predicate Valid(l: Locals) {
    |l.values| == |l.types|
  }

  /** Every bound value is an allocated value. */
  predicate BoundBelow(l: Locals, n: nat) {
    forall i | 0 <= i < |l.values| :: l.values[i].Some? ==> l.values[i].value < n
  }

  /** The value a local holds; nothing for id -1 or beyond the table. */
  function GetValue(l: Locals, id: int): (r: Option<nat>)
    requires Valid(l) && id >= -1
    ensures id == -1 || id >= |l.values| ==> r.None?
    ensures 0 <= id < |l.values| ==> r == l.values[id]
  {
    if id == -1 || id >= |l.values| then None else l.values[id]
  }

  /** The type of a local; None for id -1 or beyond the table. */
  function GetType(l: Locals, id: int): (r: Ty.Type)
    requires Valid(l) && id >= -1
    ensures id == -1 || id >= |l.values| ==> r == Ty.None
    ensures 0 <= id < |l.values| ==> r == l.types[id]
  {
    if id == -1 || id >= |l.values| then Ty.None else l.types[id]
  }

  /** Grow both tables to hold local `id`; new slots hold nothing, with type None. */
  function Extend(l: Locals, id: nat): (r: Locals)
    requires Valid(l)
    ensures Valid(r) && |r.values| == if id < |l.values| then |l.values| else id + 1
    ensures forall i | 0 <= i < |l.values| :: r.values[i] == l.values[i] && r.types[i] == l.types[i]
    ensures forall i | |l.values| <= i < |r.values| :: r.values[i].None? && r.types[i] == Ty.None
  {
    if id < |l.values| then l
    else
      var n := id + 1 - |l.values|;
      Locals(l.values + seq(n, _ => None), l.types + seq(n, _ => Ty.None))
  }

  /** Bind local `id` to a value of type `ty` (id -1 is ignored). */
  function SetValue(l: Locals, id: int, v: nat, ty: Ty.Type): (r: Locals)
    requires Valid(l) && id >= -1
    ensures Valid(r)
    ensures id == -1 ==> r == l
    ensures id >= 0 ==>
      |r.values| == (if id < |l.values| then |l.values| else id + 1) &&
      r.values[id] == Some(v) && r.types[id] == ty &&
      (forall i | 0 <= i < |l.values| && i != id :: r.values[i] == l.values[i] && r.types[i] == l.types[i]) &&
      (forall i | |l.values| <= i < |r.values| && i != id :: r.values[i].None? && r.types[i] == Ty.None)
  {
    if id == -1 then l
    else
      var e := Extend(l, id);
      Locals(e.values[id := Some(v)], e.types[id := ty])
  }

  /** Give local `id` a type, forgetting its value (id -1 is ignored). */
  function SetType(l: Locals, id: int, t: Ty.Type): (r: Locals)
    requires Valid(l) && id >= -1
    ensures Valid(r)
    ensures id == -1 ==> r == l
    ensures id >= 0 ==>
      |r.values| == (if id < |l.values| then |l.values| else id + 1) &&
      r.values[id].None? && r.types[id] == t &&
      (forall i | 0 <= i < |l.values| && i != id :: r.values[i] == l.values[i] && r.types[i] == l.types[i]) &&
      (forall i | |l.values| <= i < |r.values| && i != id :: r.values[i].None? && r.types[i] == Ty.None)
  {
    if id == -1 then l
    else
      var e := Extend(l, id);
      Locals(e.values[id := None], e.types[id := t])
  }

  /**
   * Forget everything about local `id`, as when it escapes by reference or
   * an iterator overwrites it; ids that are -1 or beyond the table are ignored.
   */
  function KillValue(l: Locals, id: int): (r: Locals)
    requires Valid(l) && id >= -1
    ensures Valid(r) && |r.values| == |l.values|
    ensures 0 <= id < |l.values| ==> r.values[id].None? && r.types[id] == Ty.None
    ensures forall i | 0 <= i < |l.values| && i != id :: r.values[i] == l.values[i] && r.types[i] == l.types[i]
    ensures id == -1 || id >= |l.values| ==> r == l
  {
    if id == -1 || id >= |l.values| then l
    else Locals(l.values[id := None], l.types[id := Ty.None])
  }

  /** Whether some local holds the value. */
  function AnyHasValue(l: Locals, v: nat): (r: bool)
    ensures r <==> exists i | 0 <= i < |l.values| :: l.values[i] == Some(v)
  {
    Some(v) in l.values
  }

  /**
   * Every local holding the reference `oldRef` now holds `newRef`, with
   * `newRef`'s type; nothing else changes.
   */
  function UpdateRefValues(l: Locals, oldRef: nat, newRef: nat, newRefType: Ty.Type): (r: Locals)
    requires Valid(l)
    requires Ty.IsBoxed(newRefType)
    ensures Valid(r) && |r.values| == |l.values|
    ensures forall i | 0 <= i < |l.values| ::
      if l.values[i] == Some(oldRef) then r.values[i] == Some(newRef) && r.types[i] == newRefType
      else r.values[i] == l.values[i] && r.types[i] == l.types[i]
  {
    Locals(
      seq(|l.values|, i requires 0 <= i < |l.values| =>
        if l.values[i] == Some(oldRef) then Some(newRef) else l.values[i]),
      seq(|l.types|, i requires 0 <= i < |l.types| =>
        if l.values[i] == Some(oldRef) then newRefType else l.types[i]))
  }

  /** Forget every value and every type, keeping the tables' length. */
  function Clear(l: Locals): (r: Locals)
    requires Valid(l)
    ensures Valid(r) && |r.values| == |l.values|
    ensures forall i | 0 <= i < |r.values| :: r.values[i].None? && r.types[i] == Ty.None
  {
    Locals(seq(|l.values|, _ => None), seq(|l.types|, _ => Ty.None))
  }

  // ---------------------------------------------------------------------
  // What a call does to the locals

  /** The opcode of the instruction defining value `v`. */
  function DefiningOp(f: IR.Factory, v: nat): (r: Option<Opcode>)
    ensures r.Some? <==> v < |f.values| && f.values[v].inst < |f.insts|
  {
    if v < |f.values| && f.values[v].inst < |f.insts| then Some(f.insts[f.values[v].inst].op) else None
  }

  /**
   * Clear the locals' values across a call, from local `i` on. Values
   * defined by DefConst survive; a value loaded by LdConst is replaced by a
   * DefConst copy of its instruction (so it need not stay in a register);
   * everything else is forgotten. Types are kept. What happens to each
   * local is stated by KillLocalsFromEffect.
   */
  function KillLocalsFrom(vfx: IR.VectorOracle, f: IR.Factory, l: Locals, i: nat): (r: (IR.Factory, Locals))
    requires IR.WellFormed(f) && Valid(l) && BoundBelow(l, |f.values|) && i <= |l.values|
    ensures IR.WellFormed(r.0) && IR.Extends(f, r.0)
    ensures Valid(r.1) && BoundBelow(r.1, |r.0.values|)
    ensures r.1.types == l.types && |r.1.values| == |l.values|
    decreases |l.values| - i
  {
    if i == |l.values| then (f, l)
    else
      match l.values[i]
      case None => KillLocalsFrom(vfx, f, l, i + 1)
      case Some(v) =>
        if DefiningOp(f, v) == Some(DefConst) then KillLocalsFrom(vfx, f, l, i + 1)
        else if DefiningOp(f, v) == Some(LdConst) then
          var (f1, w) := CloneConst(vfx, f, v);
          var r := KillLocalsFrom(vfx, f1, Locals(l.values[i := Some(w)], l.types), i + 1);
          IR.ExtendsTrans(f, f1, r.0);
          r
        else
          KillLocalsFrom(vfx, f, Locals(l.values[i := None], l.types), i + 1)
  }

  /** What a call leaves in local `j`, which held `before` in factory `f`, given the result `f'`, `now`. */
  predicate KilledAsCallDoes(f: IR.Factory, f': IR.Factory, before: Option<nat>, now: Option<nat>) {
    match before
    case None => now.None?
    case Some(v) =>
      if DefiningOp(f, v) == Some(DefConst) then now == Some(v)
      else if DefiningOp(f, v) == Some(LdConst) then
        now.Some? && |f.values| <= now.value < |f'.values| &&
        DefiningOp(f', now.value) == Some(DefConst) &&
        f'.values[now.value].inst < |f'.insts| &&
        f'.insts[f'.values[now.value].inst] == f.insts[f.values[v].inst].(op := DefConst, dsts := [now.value])
      else now.None?
  }

  /** Locals before `i` are untouched; each local from `i` on is treated as a call demands. */
  lemma {:induction false} KillLocalsFromEffect(vfx: IR.VectorOracle, f: IR.Factory, l: Locals, i: nat)
    requires IR.WellFormed(f) && Valid(l) && BoundBelow(l, |f.values|) && i <= |l.values|
    ensures var (f', l') := KillLocalsFrom(vfx, f, l, i);
      (forall j | 0 <= j < i :: l'.values[j] == l.values[j]) &&
      (forall j | i <= j < |l.values| :: KilledAsCallDoes(f, f', l.values[j], l'.values[j]))
    decreases |l.values| - i, 1
  {
    var (f', l') := KillLocalsFrom(vfx, f, l, i);
    if i < |l.values| {
      var v := l.values[i];
      if v.Some? && DefiningOp(f, v.value) == Some(LdConst) {
        KillLdConstEffect(vfx, f, l, i);
      } else {
        var l1 := if v.Some? && DefiningOp(f, v.value) != Some(DefConst) then Locals(l.values[i := None], l.types) else l;
        assert KillLocalsFrom(vfx, f, l1, i + 1) == (f', l');
        KillLocalsFromEffect(vfx, f, l1, i + 1);
        forall j | 0 <= j < |l.values| && j != i ensures l1.values[j] == l.values[j] {
        }
      }
    }
  }

  /** The step of KillLocalsFromEffect for a local holding an LdConst value. */
  lemma {:induction false} KillLdConstEffect(vfx: IR.VectorOracle, f: IR.Factory, l: Locals, i: nat)
    requires IR.WellFormed(f) && Valid(l) && BoundBelow(l, |f.values|) && i < |l.values|
    requires l.values[i].Some? && DefiningOp(f, l.values[i].value) == Some(LdConst)
    ensures var (f', l') := KillLocalsFrom(vfx, f, l, i);
      (forall j | 0 <= j < i :: l'.values[j] == l.values[j]) &&
      (forall j | i <= j < |l.values| :: KilledAsCallDoes(f, f', l.values[j], l'.values[j]))
    decreases |l.values| - i, 0
  {
    var (f', l') := KillLocalsFrom(vfx, f, l, i);
    var v := l.values[i].value;
    var (f1, w) := CloneConst(vfx, f, v);
    var l1 := Locals(l.values[i := Some(w)], l.types);
    assert KillLocalsFrom(vfx, f1, l1, i + 1) == (f', l');
    KillLocalsFromEffect(vfx, f1, l1, i + 1);
    forall j | 0 <= j < i ensures l'.values[j] == l.values[j] {
      assert l1.values[j] == l.values[j];
    }
    forall j | i < j < |l.values|
      ensures KilledAsCallDoes(f, f', l.values[j], l'.values[j])
    {
      assert l1.values[j] == l.values[j];
      KilledStable(f, f1, f', l.values[j], l'.values[j]);
    }
    ClonedConstKept(f, f1, f', v, w);
  }

  /** Judging a local against an older factory gives the same verdict. */
  lemma KilledStable(f: IR.Factory, f1: IR.Factory, f': IR.Factory, before: Option<nat>, now: Option<nat>)
    requires IR.WellFormed(f) && IR.Extends(f, f1) && IR.Extends(f1, f')
    requires before.Some? ==> before.value < |f.values|
    requires KilledAsCallDoes(f1, f', before, now)
    ensures KilledAsCallDoes(f, f', before, now)
  {
    if before.Some? {
      var u := before.value;
      DefiningOpStable(f, f1, u);
      assert IR.ValueOk(f, u);
      assert f1.values[u] == f1.values[..|f.values|][u];
      assert f1.insts[f.values[u].inst] == f1.insts[..|f.insts|][f.values[u].inst];
    }
  }

  /** The copy made for an LdConst local survives later allocation. */
  lemma ClonedConstKept(f: IR.Factory, f1: IR.Factory, f': IR.Factory, v: nat, w: nat)
    requires IR.WellFormed(f) && IR.WellFormed(f1) && IR.Extends(f, f1) && IR.Extends(f1, f')
    requires DefiningOp(f, v) == Some(LdConst)
    requires w == |f.values| && |f1.values| == w + 1 && f1.values[w].inst == |f.insts|
    requires |f1.insts| == |f.insts| + 1
    requires DefiningOp(f1, w) == Some(DefConst)
    requires f1.insts[|f.insts|] == f.insts[f.values[v].inst].(op := DefConst, dsts := [w])
    ensures KilledAsCallDoes(f, f', Some(v), Some(w))
  {
    DefiningOpStable(f1, f', w);
    assert f'.values[w] == f'.values[..|f1.values|][w];
    assert f'.insts[|f.insts|] == f'.insts[..|f1.insts|][|f.insts|];
  }

  /** A DefConst copy of the LdConst defining `v`, with its new value. */
  function CloneConst(vfx: IR.VectorOracle, f: IR.Factory, v: nat): (r: (IR.Factory, nat))
    requires IR.WellFormed(f) && DefiningOp(f, v) == Some(LdConst)
    ensures IR.WellFormed(r.0) && IR.Extends(f, r.0)
    ensures r.1 == |f.values| && |r.0.values| == |f.values| + 1 && |r.0.insts| == |f.insts| + 1
    ensures r.0.values[r.1].inst == |f.insts|
    ensures DefiningOp(r.0, r.1) == Some(DefConst)
    ensures r.0.insts[|f.insts|] == f.insts[f.values[v].inst].(op := DefConst, dsts := [r.1])
  {
    var inst := f.insts[f.values[v].inst];
    assert IR.InstOk(f, f.values[v].inst);
    LdConstHasDst();
    var c := IR.CloneInstruction(vfx, f, inst.(dsts := []));
    assert c.Ok?;
    var f1 := c.value.0;
    var f2 := IR.SetOpcode(f1, |f.insts|, DefConst);
    assert f2.insts[..|f.insts|] == f1.insts[..|f.insts|];
    (f2, |f.values|)
  }

  /** Growing the factory does not change what defines an existing value. */
  lemma DefiningOpStable(f: IR.Factory, f': IR.Factory, v: nat)
    requires IR.WellFormed(f) && v < |f.values|
    requires IR.Extends(f, f')
    ensures DefiningOp(f', v) == DefiningOp(f, v)
  {
    assert IR.ValueOk(f, v);
    assert f'.values[v] == f'.values[..|f.values|][v];
    assert f'.insts[f.values[v].inst] == f'.insts[..|f.insts|][f.values[v].inst];
  }

  lemma LdConstHasDst()
    ensures HasDst(LdConst) && Info(LdConst).dst == DParam
  {
  }

  /** killLocals: the whole pass. */
  function KillLocals(vfx: IR.VectorOracle, f: IR.Factory, l: Locals): (r: (IR.Factory, Locals))
    requires IR.WellFormed(f) && Valid(l) && BoundBelow(l, |f.values|)
    ensures IR.WellFormed(r.0) && IR.Extends(f, r.0) && Valid(r.1) && BoundBelow(r.1, |r.0.values|)
    ensures r.1.types == l.types && |r.1.values| == |l.values|
    ensures forall j | 0 <= j < |l.values| :: KilledAsCallDoes(f, r.0, l.values[j], r.1.values[j])
  {
    KillLocalsFromEffect(vfx, f, l, 0);
    KillLocalsFrom(vfx, f, l, 0)
  }

  // ---------------------------------------------------------------------
  // Properties

  /** Reading a local just set gives the value and type set; other locals read as before. */
  lemma {:induction false} SetThenGet(l: Locals, id: nat, other: nat, v: nat, ty: Ty.Type)
    requires Valid(l)
    ensures GetValue(SetValue(l, id, v, ty), id) == Some(v)
    ensures GetType(SetValue(l, id, v, ty), id) == ty
    ensures other != id ==>
      GetValue(SetValue(l, id, v, ty), other) == GetValue(l, other) &&
      GetType(SetValue(l, id, v, ty), other) == GetType(l, other)
  {
  }

  /** After a reference update, no local holds the old reference any more. */
  lemma UpdateRefLeavesNoOldRef(l: Locals, oldRef: nat, newRef: nat, t: Ty.Type)
    requires Valid(l) && Ty.IsBoxed(t) && oldRef != newRef
    ensures !AnyHasValue(UpdateRefValues(l, oldRef, newRef, t), oldRef)
    ensures AnyHasValue(l, oldRef) ==> AnyHasValue(UpdateRefValues(l, oldRef, newRef, t), newRef)
  {
    var r := UpdateRefValues(l, oldRef, newRef, t);
    if AnyHasValue(l, oldRef) {
      var i :| 0 <= i < |l.values| && l.values[i] == Some(oldRef);
      assert r.values[i] == Some(newRef);
    }
  }

  /** A killed local reads as unknown. */
  lemma KillThenGet(l: Locals, id: int)
    requires Valid(l) && id >= -1
    ensures GetValue(KillValue(l, id), id).None?
    ensures GetType(KillValue(l, id), id) == Ty.None
  {
  }
}

=== FILE: opcodes.dfy ===
/**
 * The IR opcode catalog: every opcode of the JIT's intermediate
 * representation, in catalog order, with its destination-type rule, its
 * source-operand contract and its flags. The order matters: each
 * comparison or type query ("query op") has a conditional-branch twin at
 * the same distance from the start of the branch block.
 */
module Opcodes {
  import Ty = IRType

  /** How an opcode's destination type is computed. */
  datatype DstRule =
    | ND                // no destination
    | D(t: Ty.Type)     // a fixed type
    | DofS(n: nat)      // the type of source n
    | DUnbox(n: nat)    // the unboxed type of source n
    | DBox(n: nat)      // the boxed type of source n
    | DParam            // the instruction's type parameter
    | DLabel            // a label: destinations are set up separately
    | DVector           // decided by the vector-instruction effects

  /** One operand's contract. */
  datatype SrcCheck =
    | S(types: seq<Ty.Type>)  // a value of one of these types
    | C(t: Ty.Type)           // a constant of this type

  /** A whole source list's contract. */
  datatype SrcInfo =
    | NA                          // no sources
    | SUnk                        // unchecked
    | Checks(checks: seq<SrcCheck>)

  datatype Flag =
    | CanCSE | Essential | CallsNative | ProducesRC | ConsumesRC
    | MayModifyRefs | Rematerializable | MayRaiseError | MemEffects | Terminal

  datatype OpInfo = OpInfo(dst: DstRule, src: SrcInfo, flags: set<Flag>)

  /** An opcode is its position in the catalog (the enum value). */
  newtype Opcode = x: int | 0 <= x < 170

  /** The number of opcodes (IR_NUM_OPCODES). */
  const NumOpcodes: nat := 170

  const GuardType: Opcode := 0
  const GuardLoc: Opcode := 1
  const GuardStk: Opcode := 2
  const AssertStk: Opcode := 3
  const GuardRefs: Opcode := 4
  const AssertLoc: Opcode := 5
  const OpAdd: Opcode := 6
  const OpSub: Opcode := 7
  const OpAnd: Opcode := 8
  const OpOr: Opcode := 9
  const OpXor: Opcode := 10
  const OpMul: Opcode := 11
  const Conv: Opcode := 12
  const ExtendsClass: Opcode := 13
  const IsTypeMem: Opcode := 14
  const IsNTypeMem: Opcode := 15
  const OpGt: Opcode := 16
  const OpGte: Opcode := 17
  const OpLt: Opcode := 18
  const OpLte: Opcode := 19
  const OpEq: Opcode := 20
  const OpNeq: Opcode := 21
  const OpSame: Opcode := 22
  const OpNSame: Opcode := 23
  const InstanceOf: Opcode := 24
  const NInstanceOf: Opcode := 25
  const InstanceOfBitmask: Opcode := 26
  const NInstanceOfBitmask: Opcode := 27
  const IsType: Opcode := 28
  const IsNType: Opcode := 29
  const JmpGt: Opcode := 30
  const JmpGte: Opcode := 31
  const JmpLt: Opcode := 32
  const JmpLte: Opcode := 33
  const JmpEq: Opcode := 34
  const JmpNeq: Opcode := 35
  const JmpSame: Opcode := 36
  const JmpNSame: Opcode := 37
  const JmpInstanceOf: Opcode := 38
  const JmpNInstanceOf: Opcode := 39
  const JmpInstanceOfBitmask: Opcode := 40
  const JmpNInstanceOfBitmask: Opcode := 41
  const JmpIsType: Opcode := 42
  const JmpIsNType: Opcode := 43
  const JmpZero: Opcode := 44
  const JmpNZero: Opcode := 45
  const Jmp_: Opcode := 46
  const JmpIndirect: Opcode := 47
  const ExitWhenSurprised: Opcode := 48
  const ExitOnVarEnv: Opcode := 49
  const ReleaseVVOrExit: Opcode := 50
  const CheckInit: Opcode := 51
  const Unbox: Opcode := 52
  const Box: Opcode := 53
  const UnboxPtr: Opcode := 54
  const BoxPtr: Opcode := 55
  const LdStack: Opcode := 56
  const LdLoc: Opcode := 57
  const LdStackAddr: Opcode := 58
  const LdLocAddr: Opcode := 59
  const LdMem: Opcode := 60
  const LdProp: Opcode := 61
  const LdRef: Opcode := 62
  const LdThis: Opcode := 63
  const LdCtx: Opcode := 64
  const LdCtxCls: Opcode := 65
  const LdRetAddr: Opcode := 66
  const LdConst: Opcode := 67
  const DefConst: Opcode := 68
  const LdCls: Opcode := 69
  const LdClsCached: Opcode := 70
  const LdCachedClass: Opcode := 71
  const LdClsCns: Opcode := 72
  const LookupClsCns: Opcode := 73
  const LdClsMethodCache: Opcode := 74
  const LdClsMethodFCache: Opcode := 75
  const GetCtxFwdCall: Opcode := 76
  const LdClsMethod: Opcode := 77
  const LdPropAddr: Opcode := 78
  const LdClsPropAddr: Opcode := 79
  const LdClsPropAddrCached: Opcode := 80
  const LdObjMethod: Opcode := 81
  const LdObjClass: Opcode := 82
  const LdFunc: Opcode := 83
  const LdFixedFunc: Opcode := 84
  const LdARFuncPtr: Opcode := 85
  const LdContLocalsPtr: Opcode := 86
  const LdSSwitchDestFast: Opcode := 87
  const LdSSwitchDestSlow: Opcode := 88
  const NewObj: Opcode := 89
  const NewArray: Opcode := 90
  const NewTuple: Opcode := 91
  const LdRaw: Opcode := 92
  const DefActRec: Opcode := 93
  const FreeActRec: Opcode := 94
  const Call: Opcode := 95
  const NativeImpl: Opcode := 96
  const RetCtrl: Opcode := 97
  const RetVal: Opcode := 98
  const RetAdjustStack: Opcode := 99
  const StMem: Opcode := 100
  const StMemNT: Opcode := 101
  const StProp: Opcode := 102
  const StPropNT: Opcode := 103
  const StLoc: Opcode := 104
  const StLocNT: Opcode := 105
  const StRef: Opcode := 106
  const StRefNT: Opcode := 107
  const StRaw: Opcode := 108
  const SpillStack: Opcode := 109
  const ExitTrace: Opcode := 110
  const ExitTraceCc: Opcode := 111
  const ExitSlow: Opcode := 112
  const ExitSlowNoProgress: Opcode := 113
  const ExitGuardFailure: Opcode := 114
  const SyncVMRegs: Opcode := 115
  const Mov: Opcode := 116
  const LdAddr: Opcode := 117
  const IncRef: Opcode := 118
  const DecRefLoc: Opcode := 119
  const DecRefStack: Opcode := 120
  const DecRefThis: Opcode := 121
  const GenericRetDecRefs: Opcode := 122
  const DecRef: Opcode := 123
  const DecRefMem: Opcode := 124
  const DecRefNZ: Opcode := 125
  const DefLabel: Opcode := 126
  const Marker: Opcode := 127
  const DefFP: Opcode := 128
  const DefSP: Opcode := 129
  const RaiseUninitWarning: Opcode := 130
  const PrintStr: Opcode := 131
  const PrintInt: Opcode := 132
  const PrintBool: Opcode := 133
  const AddElemStrKey: Opcode := 134
  const AddElemIntKey: Opcode := 135
  const AddNewElem: Opcode := 136
  const DefCns: Opcode := 137
  const Concat: Opcode := 138
  const ArrayAdd: Opcode := 139
  const DefCls: Opcode := 140
  const DefFunc: Opcode := 141
  const AKExists: Opcode := 142
  const InterpOne: Opcode := 143
  const Spill: Opcode := 144
  const Reload: Opcode := 145
  const AllocSpill: Opcode := 146
  const FreeSpill: Opcode := 147
  const CreateCont: Opcode := 148
  const FillContLocals: Opcode := 149
  const FillContThis: Opcode := 150
  const ContEnter: Opcode := 151
  const UnlinkContVarEnv: Opcode := 152
  const LinkContVarEnv: Opcode := 153
  const ContRaiseCheck: Opcode := 154
  const ContPreNext: Opcode := 155
  const ContStartedCheck: Opcode := 156
  const IterInit: Opcode := 157
  const IterInitK: Opcode := 158
  const IterNext: Opcode := 159
  const IterNextK: Opcode := 160
  const DefMIStateBase: Opcode := 161
  const PropX: Opcode := 162
  const CGetProp: Opcode := 163
  const SetProp: Opcode := 164
  const CGetElem: Opcode := 165
  const SetElem: Opcode := 166
  const IncStat: Opcode := 167
  const DbgAssertRefCount: Opcode := 168
  const Nop: Opcode := 169

  /** The row of the IR_OPCODES table for the opcode. */
  function Info(op: Opcode): OpInfo
  {
    if op == GuardType then OpInfo(DParam, Checks([S([Ty.Gen])]), {CanCSE, Essential})
    else if op == GuardLoc then OpInfo(ND, Checks([S([Ty.StkPtr])]), {Essential})
    else if op == GuardStk then OpInfo(D(Ty.StkPtr), Checks([S([Ty.StkPtr]), C(Ty.Int)]), {Essential})
    else if op == AssertStk then OpInfo(D(Ty.StkPtr), Checks([S([Ty.StkPtr]), C(Ty.Int)]), {Essential})
    else if op == GuardRefs then OpInfo(ND, SUnk, {Essential})
    else if op == AssertLoc then OpInfo(ND, Checks([S([Ty.StkPtr])]), {Essential})
    else if op == OpAdd then OpInfo(DParam, Checks([S([Ty.Int, Ty.Bool, Ty.Dbl]), S([Ty.Int, Ty.Bool, Ty.Dbl])]), {CanCSE})
    else if op == OpSub then OpInfo(DParam, Checks([S([Ty.Int, Ty.Bool, Ty.Dbl]), S([Ty.Int, Ty.Bool, Ty.Dbl])]), {CanCSE})
    else if op == OpAnd then OpInfo(D(Ty.Int), Checks([S([Ty.Int, Ty.Bool]), S([Ty.Int, Ty.Bool])]), {CanCSE})
    else if op == OpOr then OpInfo(D(Ty.Int), Checks([S([Ty.Int, Ty.Bool, Ty.Dbl]), S([Ty.Int, Ty.Bool, Ty.Dbl])]), {CanCSE})
    else if op == OpXor then OpInfo(D(Ty.Int), Checks([S([Ty.Int, Ty.Bool]), S([Ty.Int, Ty.Bool])]), {CanCSE})
    else if op == OpMul then OpInfo(DParam, Checks([S([Ty.Int, Ty.Bool, Ty.Dbl]), S([Ty.Int, Ty.Bool, Ty.Dbl])]), {CanCSE})
    else if op == Conv then OpInfo(DParam, Checks([S([Ty.Gen])]), {CanCSE, CallsNative})
    else if op == ExtendsClass then OpInfo(D(Ty.Bool), Checks([S([Ty.Cls]), C(Ty.Cls)]), {CanCSE})
    else if op == IsTypeMem then OpInfo(D(Ty.Bool), Checks([S([Ty.PtrToGen])]), {})  // NA in the flags column: no flag
    else if op == IsNTypeMem then OpInfo(D(Ty.Bool), Checks([S([Ty.PtrToGen])]), {})  // NA in the flags column: no flag
    else if op == OpGt then OpInfo(D(Ty.Bool), Checks([S([Ty.Gen]), S([Ty.Gen])]), {CanCSE})
    else if op == OpGte then OpInfo(D(Ty.Bool), Checks([S([Ty.Gen]), S([Ty.Gen])]), {CanCSE})
    else if op == OpLt then OpInfo(D(Ty.Bool), Checks([S([Ty.Gen]), S([Ty.Gen])]), {CanCSE})
    else if op == OpLte then OpInfo(D(Ty.Bool), Checks([S([Ty.Gen]), S([Ty.Gen])]), {CanCSE})
    else if op == OpEq then OpInfo(D(Ty.Bool), Checks([S([Ty.Gen]), S([Ty.Gen])]), {CanCSE})
    else if op == OpNeq then OpInfo(D(Ty.Bool), Checks([S([Ty.Gen]), S([Ty.Gen])]), {CanCSE})
    else if op == OpSame then OpInfo(D(Ty.Bool), Checks([S([Ty.Gen]), S([Ty.Gen])]), {CanCSE, CallsNative})
    else if op == OpNSame then OpInfo(D(Ty.Bool), Checks([S([Ty.Gen]), S([Ty.Gen])]), {CanCSE, CallsNative})
    else if op == InstanceOf then OpInfo(D(Ty.Bool), Checks([S([Ty.Cls]), S([Ty.Cls]), C(Ty.Bool)]), {CanCSE, CallsNative})
    else if op == NInstanceOf then OpInfo(D(Ty.Bool), Checks([S([Ty.Cls]), S([Ty.Cls]), C(Ty.Bool)]), {CanCSE, CallsNative})
    else if op == InstanceOfBitmask then OpInfo(D(Ty.Bool), Checks([S([Ty.Cls]), C(Ty.StaticStr)]), {CanCSE})
    else if op == NInstanceOfBitmask then OpInfo(D(Ty.Bool), Checks([S([Ty.Cls]), C(Ty.StaticStr)]), {CanCSE})
    else if op == IsType then OpInfo(D(Ty.Bool), Checks([S([Ty.Cell])]), {CanCSE})
    else if op == IsNType then OpInfo(D(Ty.Bool), Checks([S([Ty.Cell])]), {CanCSE})
    else if op == JmpGt then OpInfo(D(Ty.None), Checks([S([Ty.Gen]), S([Ty.Gen])]), {Essential})
    else if op == JmpGte then OpInfo(D(Ty.None), Checks([S([Ty.Gen]), S([Ty.Gen])]), {Essential})
    else if op == JmpLt then OpInfo(D(Ty.None), Checks([S([Ty.Gen]), S([Ty.Gen])]), {Essential})
    else if op == JmpLte then OpInfo(D(Ty.None), Checks([S([Ty.Gen]), S([Ty.Gen])]), {Essential})
    else if op == JmpEq then OpInfo(D(Ty.None), Checks([S([Ty.Gen]), S([Ty.Gen])]), {Essential})
    else if op == JmpNeq then OpInfo(D(Ty.None), Checks([S([Ty.Gen]), S([Ty.Gen])]), {Essential})
    else if op == JmpSame then OpInfo(D(Ty.None), Checks([S([Ty.Gen]), S([Ty.Gen])]), {Essential})
    else if op == JmpNSame then OpInfo(D(Ty.None), Checks([S([Ty.Gen]), S([Ty.Gen])]), {Essential})
    else if op == JmpInstanceOf then OpInfo(D(Ty.None), Checks([S([Ty.Cls]), S([Ty.Cls]), C(Ty.Bool)]), {Essential, CallsNative})
    else if op == JmpNInstanceOf then OpInfo(D(Ty.None), Checks([S([Ty.Cls]), S([Ty.Cls]), C(Ty.Bool)]), {Essential, CallsNative})
    else if op == JmpInstanceOfBitmask then OpInfo(D(Ty.None), Checks([S([Ty.Cls]), C(Ty.StaticStr)]), {Essential})
    else if op == JmpNInstanceOfBitmask then OpInfo(D(Ty.None), Checks([S([Ty.Cls]), C(Ty.StaticStr)]), {Essential})
    else if op == JmpIsType then OpInfo(D(Ty.None), SUnk, {Essential})
    else if op == JmpIsNType then OpInfo(D(Ty.None), SUnk, {Essential})
    else if op == JmpZero then OpInfo(D(Ty.None), Checks([S([Ty.Int, Ty.Bool, Ty.Dbl])]), {Essential})
    else if op == JmpNZero then OpInfo(D(Ty.None), Checks([S([Ty.Int, Ty.Bool, Ty.Dbl])]), {Essential})
    else if op == Jmp_ then OpInfo(D(Ty.None), SUnk, {Terminal, Essential})
    else if op == JmpIndirect then OpInfo(ND, Checks([S([Ty.TCA])]), {Terminal, Essential})
    else if op == ExitWhenSurprised then OpInfo(ND, NA, {Essential})
    else if op == ExitOnVarEnv then OpInfo(ND, Checks([S([Ty.StkPtr])]), {Essential})
    else if op == ReleaseVVOrExit then OpInfo(ND, Checks([S([Ty.StkPtr])]), {Essential})
    else if op == CheckInit then OpInfo(ND, Checks([S([Ty.Gen])]), {})
    else if op == Unbox then OpInfo(DUnbox(0), Checks([S([Ty.Gen])]), {ProducesRC})
    else if op == Box then OpInfo(DBox(0), Checks([S([Ty.Gen])]), {Essential, CallsNative, MemEffects, ConsumesRC, ProducesRC})
    else if op == UnboxPtr then OpInfo(D(Ty.PtrToCell), Checks([S([Ty.PtrToGen])]), {})
    else if op == BoxPtr then OpInfo(D(Ty.PtrToBoxedCell), Checks([S([Ty.PtrToGen])]), {CallsNative, MemEffects})
    else if op == LdStack then OpInfo(DParam, Checks([S([Ty.StkPtr]), C(Ty.Int)]), {})
    else if op == LdLoc then OpInfo(DParam, Checks([S([Ty.StkPtr])]), {})
    else if op == LdStackAddr then OpInfo(D(Ty.PtrToGen), SUnk, {CanCSE})
    else if op == LdLocAddr then OpInfo(DParam, Checks([S([Ty.StkPtr])]), {CanCSE})
    else if op == LdMem then OpInfo(DParam, Checks([S([Ty.PtrToGen]), C(Ty.Int)]), {})
    else if op == LdProp then OpInfo(DParam, Checks([S([Ty.Obj]), C(Ty.Int)]), {})
    else if op == LdRef then OpInfo(DParam, Checks([S([Ty.BoxedCell])]), {})
    else if op == LdThis then OpInfo(D(Ty.Obj), Checks([S([Ty.StkPtr])]), {CanCSE, Rematerializable})
    else if op == LdCtx then OpInfo(D(Ty.Ctx), Checks([S([Ty.StkPtr])]), {CanCSE, Rematerializable})
    else if op == LdCtxCls then OpInfo(D(Ty.Cls), Checks([S([Ty.StkPtr])]), {CanCSE, Rematerializable})
    else if op == LdRetAddr then OpInfo(D(Ty.RetAddr), Checks([S([Ty.StkPtr])]), {})
    else if op == LdConst then OpInfo(DParam, NA, {CanCSE, Rematerializable})
    else if op == DefConst then OpInfo(DParam, NA, {CanCSE})
    else if op == LdCls then OpInfo(D(Ty.Cls), Checks([S([Ty.Str]), C(Ty.Cls)]), {CanCSE, Essential, CallsNative, MayModifyRefs, MayRaiseError, MemEffects})
    else if op == LdClsCached then OpInfo(D(Ty.Cls), Checks([C(Ty.StaticStr)]), {CanCSE, Essential, MayModifyRefs, MayRaiseError, MemEffects})
    else if op == LdCachedClass then OpInfo(D(Ty.Cls), Checks([C(Ty.StaticStr)]), {CanCSE})
    else if op == LdClsCns then OpInfo(DParam, Checks([C(Ty.StaticStr), C(Ty.StaticStr)]), {CanCSE})
    else if op == LookupClsCns then OpInfo(DParam, Checks([C(Ty.StaticStr), C(Ty.StaticStr)]), {Essential, MayModifyRefs, MayRaiseError, CallsNative, MemEffects})
    else if op == LdClsMethodCache then OpInfo(D(Ty.FuncCls), SUnk, {CanCSE, MayRaiseError})
    else if op == LdClsMethodFCache then OpInfo(D(Ty.FuncCtx), Checks([C(Ty.Cls), C(Ty.StaticStr), S([Ty.Obj, Ty.Cls, Ty.Ctx])]), {CanCSE, MayRaiseError})
    else if op == GetCtxFwdCall then OpInfo(D(Ty.Ctx), Checks([S([Ty.Obj, Ty.Cls, Ty.Ctx]), S([Ty.Func])]), {CanCSE})
    else if op == LdClsMethod then OpInfo(D(Ty.Func), Checks([S([Ty.Cls]), C(Ty.Int)]), {CanCSE})
    else if op == LdPropAddr then OpInfo(D(Ty.PtrToGen), Checks([S([Ty.Obj]), C(Ty.Int)]), {CanCSE})
    else if op == LdClsPropAddr then OpInfo(D(Ty.PtrToGen), Checks([S([Ty.Cls]), S([Ty.Str]), C(Ty.Cls)]), {CanCSE, Essential, CallsNative, MayRaiseError})
    else if op == LdClsPropAddrCached then OpInfo(D(Ty.PtrToGen), Checks([S([Ty.Cls]), C(Ty.StaticStr), C(Ty.StaticStr), C(Ty.Cls)]), {CanCSE, Essential, MayRaiseError})
    else if op == LdObjMethod then OpInfo(D(Ty.Func), Checks([C(Ty.Int), C(Ty.StaticStr), S([Ty.StkPtr])]), {CanCSE, Essential, CallsNative, MayModifyRefs, MayRaiseError})
    else if op == LdObjClass then OpInfo(D(Ty.Cls), Checks([S([Ty.Obj])]), {CanCSE})
    else if op == LdFunc then OpInfo(D(Ty.Func), Checks([S([Ty.Str])]), {Essential, CallsNative, ConsumesRC, MayRaiseError})
    else if op == LdFixedFunc then OpInfo(D(Ty.Func), Checks([C(Ty.StaticStr)]), {CanCSE, Essential, MayRaiseError})
    else if op == LdARFuncPtr then OpInfo(D(Ty.Func), Checks([S([Ty.StkPtr]), C(Ty.Int)]), {CanCSE})
    else if op == LdContLocalsPtr then OpInfo(D(Ty.PtrToCell), Checks([S([Ty.Obj])]), {CanCSE, Rematerializable})
    else if op == LdSSwitchDestFast then OpInfo(D(Ty.TCA), Checks([S([Ty.Gen])]), {CallsNative, Rematerializable})
    else if op == LdSSwitchDestSlow then OpInfo(D(Ty.TCA), Checks([S([Ty.Gen])]), {CallsNative, Rematerializable, MayModifyRefs, MayRaiseError})
    else if op == NewObj then OpInfo(D(Ty.StkPtr), Checks([C(Ty.Int), S([Ty.Str, Ty.Cls]), S([Ty.StkPtr]), S([Ty.StkPtr])]), {Essential, MemEffects, CallsNative, ProducesRC})
    else if op == NewArray then OpInfo(D(Ty.Arr), Checks([C(Ty.Int)]), {Essential, MemEffects, CallsNative, ProducesRC})
    else if op == NewTuple then OpInfo(D(Ty.Arr), Checks([C(Ty.Int), S([Ty.StkPtr])]), {Essential, MemEffects, CallsNative, ProducesRC, ConsumesRC})
    else if op == LdRaw then OpInfo(DParam, SUnk, {})
    else if op == DefActRec then OpInfo(D(Ty.ActRec), Checks([S([Ty.StkPtr]), S([Ty.Func, Ty.FuncCls, Ty.FuncCtx, Ty.Null]), S([Ty.Ctx, Ty.Cls, Ty.InitNull]), C(Ty.Int), S([Ty.Str, Ty.Null])]), {MemEffects})
    else if op == FreeActRec then OpInfo(D(Ty.StkPtr), Checks([S([Ty.StkPtr])]), {MemEffects})
    else if op == Call then OpInfo(D(Ty.StkPtr), SUnk, {Essential, MemEffects, ConsumesRC, MayModifyRefs})
    else if op == NativeImpl then OpInfo(ND, Checks([C(Ty.Func), S([Ty.StkPtr])]), {Essential, MemEffects, CallsNative, MayModifyRefs})
    else if op == RetCtrl then OpInfo(ND, Checks([S([Ty.StkPtr, Ty.PtrToGen]), S([Ty.StkPtr]), S([Ty.RetAddr])]), {Terminal, Essential, MemEffects})
    else if op == RetVal then OpInfo(ND, Checks([S([Ty.StkPtr]), S([Ty.Gen])]), {Essential, MemEffects, ConsumesRC})
    else if op == RetAdjustStack then OpInfo(D(Ty.StkPtr), Checks([S([Ty.StkPtr])]), {Essential})
    else if op == StMem then OpInfo(ND, Checks([S([Ty.PtrToCell]), C(Ty.Int), S([Ty.Gen])]), {Essential, MemEffects, ConsumesRC, MayModifyRefs})
    else if op == StMemNT then OpInfo(ND, Checks([S([Ty.PtrToCell]), C(Ty.Int), S([Ty.Gen])]), {Essential, MemEffects, ConsumesRC})
    else if op == StProp then OpInfo(ND, Checks([S([Ty.Obj]), S([Ty.Int]), S([Ty.Gen])]), {Essential, MemEffects, ConsumesRC, MayModifyRefs})
    else if op == StPropNT then OpInfo(ND, Checks([S([Ty.Obj]), S([Ty.Int]), S([Ty.Gen])]), {Essential, MemEffects, ConsumesRC})
    else if op == StLoc then OpInfo(ND, Checks([S([Ty.StkPtr]), S([Ty.Gen])]), {Essential, MemEffects, ConsumesRC})
    else if op == StLocNT then OpInfo(ND, Checks([S([Ty.StkPtr]), S([Ty.Gen])]), {Essential, MemEffects, ConsumesRC})
    else if op == StRef then OpInfo(DBox(1), SUnk, {Essential, MemEffects, ConsumesRC, MayModifyRefs})
    else if op == StRefNT then OpInfo(DBox(1), SUnk, {Essential, MemEffects, ConsumesRC})
    else if op == StRaw then OpInfo(ND, SUnk, {Essential, MemEffects})
    else if op == SpillStack then OpInfo(D(Ty.StkPtr), SUnk, {Essential, MemEffects, ConsumesRC})
    else if op == ExitTrace then OpInfo(ND, SUnk, {Terminal, Essential})
    else if op == ExitTraceCc then OpInfo(ND, SUnk, {Terminal, Essential})
    else if op == ExitSlow then OpInfo(ND, SUnk, {Terminal, Essential})
    else if op == ExitSlowNoProgress then OpInfo(ND, SUnk, {Terminal, Essential})
    else if op == ExitGuardFailure then OpInfo(ND, SUnk, {Terminal, Essential})
    else if op == SyncVMRegs then OpInfo(ND, Checks([S([Ty.StkPtr]), S([Ty.StkPtr])]), {Essential})
    else if op == Mov then OpInfo(DofS(0), SUnk, {CanCSE})
    else if op == LdAddr then OpInfo(DofS(0), SUnk, {CanCSE})
    else if op == IncRef then OpInfo(DofS(0), Checks([S([Ty.Gen])]), {MemEffects, ProducesRC})
    else if op == DecRefLoc then OpInfo(ND, Checks([S([Ty.StkPtr])]), {Essential, MemEffects, MayModifyRefs})
    else if op == DecRefStack then OpInfo(ND, Checks([S([Ty.StkPtr]), C(Ty.Int)]), {Essential, MemEffects, MayModifyRefs})
    else if op == DecRefThis then OpInfo(ND, SUnk, {Essential, MemEffects, MayModifyRefs})
    else if op == GenericRetDecRefs then OpInfo(D(Ty.StkPtr), Checks([S([Ty.StkPtr]), S([Ty.Gen]), C(Ty.Int)]), {Essential, CallsNative, MemEffects, MayModifyRefs})
    else if op == DecRef then OpInfo(ND, Checks([S([Ty.Gen])]), {Essential, MemEffects, ConsumesRC, MayModifyRefs})
    else if op == DecRefMem then OpInfo(ND, Checks([S([Ty.PtrToGen]), C(Ty.Int)]), {Essential, MemEffects, ConsumesRC, MayModifyRefs})
    else if op == DecRefNZ then OpInfo(ND, Checks([S([Ty.Gen])]), {MemEffects, ConsumesRC})
    else if op == DefLabel then OpInfo(DLabel, SUnk, {Essential})
    else if op == Marker then OpInfo(ND, NA, {Essential})
    else if op == DefFP then OpInfo(D(Ty.StkPtr), NA, {Essential})
    else if op == DefSP then OpInfo(D(Ty.StkPtr), Checks([S([Ty.StkPtr]), C(Ty.Int)]), {Essential})
    else if op == RaiseUninitWarning then OpInfo(ND, Checks([S([Ty.Str])]), {Essential, CallsNative, MemEffects, MayModifyRefs, MayRaiseError})
    else if op == PrintStr then OpInfo(ND, Checks([S([Ty.Str])]), {Essential, CallsNative, MemEffects, ConsumesRC})
    else if op == PrintInt then OpInfo(ND, Checks([S([Ty.Int])]), {Essential, CallsNative, MemEffects, ConsumesRC})
    else if op == PrintBool then OpInfo(ND, Checks([S([Ty.Bool])]), {Essential, CallsNative, MemEffects, ConsumesRC})
    else if op == AddElemStrKey then OpInfo(D(Ty.Arr), Checks([S([Ty.Arr]), S([Ty.Str]), S([Ty.Cell])]), {CallsNative, MemEffects, ConsumesRC, ProducesRC, MayModifyRefs})
    else if op == AddElemIntKey then OpInfo(D(Ty.Arr), Checks([S([Ty.Arr]), S([Ty.Int]), S([Ty.Cell])]), {CallsNative, MemEffects, ConsumesRC, ProducesRC, MayModifyRefs})
    else if op == AddNewElem then OpInfo(D(Ty.Arr), SUnk, {CallsNative, MemEffects, ConsumesRC, ProducesRC})
    else if op == DefCns then OpInfo(D(Ty.Bool), SUnk, {CanCSE, Essential, CallsNative, MemEffects})
    else if op == Concat then OpInfo(D(Ty.Str), Checks([S([Ty.Gen]), S([Ty.Gen])]), {CallsNative, MemEffects, ConsumesRC, ProducesRC, MayModifyRefs})
    else if op == ArrayAdd then OpInfo(D(Ty.Arr), SUnk, {CallsNative, MemEffects, ConsumesRC, ProducesRC})
    else if op == DefCls then OpInfo(ND, SUnk, {CanCSE, Essential, CallsNative})
    else if op == DefFunc then OpInfo(ND, SUnk, {CanCSE, Essential, CallsNative})
    else if op == AKExists then OpInfo(D(Ty.Bool), Checks([S([Ty.Cell]), S([Ty.Cell])]), {CanCSE, CallsNative})
    else if op == InterpOne then OpInfo(D(Ty.StkPtr), SUnk, {Essential, CallsNative, MemEffects, MayModifyRefs, MayRaiseError})
    else if op == Spill then OpInfo(DofS(0), SUnk, {MemEffects})
    else if op == Reload then OpInfo(DofS(0), SUnk, {MemEffects})
    else if op == AllocSpill then OpInfo(ND, Checks([C(Ty.Int)]), {Essential, MemEffects})
    else if op == FreeSpill then OpInfo(ND, Checks([C(Ty.Int)]), {Essential, MemEffects})
    else if op == CreateCont then OpInfo(D(Ty.Obj), Checks([C(Ty.TCA), S([Ty.StkPtr]), C(Ty.Bool), C(Ty.Func), C(Ty.Func)]), {Essential, CallsNative, MemEffects, ProducesRC})
    else if op == FillContLocals then OpInfo(ND, Checks([S([Ty.StkPtr]), C(Ty.Func), C(Ty.Func), S([Ty.Obj])]), {Essential, CallsNative, MemEffects})
    else if op == FillContThis then OpInfo(ND, Checks([S([Ty.StkPtr]), C(Ty.Func), C(Ty.Func), S([Ty.Obj])]), {Essential, MemEffects})
    else if op == ContEnter then OpInfo(ND, SUnk, {Essential, MemEffects})
    else if op == UnlinkContVarEnv then OpInfo(ND, Checks([S([Ty.StkPtr])]), {Essential, CallsNative, MemEffects})
    else if op == LinkContVarEnv then OpInfo(ND, Checks([S([Ty.StkPtr])]), {Essential, CallsNative, MemEffects})
    else if op == ContRaiseCheck then OpInfo(ND, Checks([S([Ty.Obj])]), {Essential})
    else if op == ContPreNext then OpInfo(ND, Checks([S([Ty.Obj])]), {Essential, MemEffects})
    else if op == ContStartedCheck then OpInfo(ND, Checks([S([Ty.Obj])]), {Essential})
    else if op == IterInit then OpInfo(D(Ty.Bool), Checks([S([Ty.Arr, Ty.Obj]), S([Ty.StkPtr]), C(Ty.Int), C(Ty.Int)]), {CallsNative, MemEffects, MayModifyRefs, ConsumesRC})
    else if op == IterInitK then OpInfo(D(Ty.Bool), Checks([S([Ty.Arr, Ty.Obj]), S([Ty.StkPtr]), C(Ty.Int), C(Ty.Int), C(Ty.Int)]), {CallsNative, MemEffects, MayModifyRefs, ConsumesRC})
    else if op == IterNext then OpInfo(D(Ty.Bool), Checks([S([Ty.StkPtr]), C(Ty.Int), C(Ty.Int)]), {CallsNative, MemEffects, MayModifyRefs})
    else if op == IterNextK then OpInfo(D(Ty.Bool), Checks([S([Ty.StkPtr]), C(Ty.Int), C(Ty.Int), C(Ty.Int)]), {CallsNative, MemEffects, MayModifyRefs})
    else if op == DefMIStateBase then OpInfo(D(Ty.PtrToCell), NA, {})
    else if op == PropX then OpInfo(D(Ty.PtrToGen), Checks([C(Ty.TCA), C(Ty.Cls), S([Ty.Obj, Ty.PtrToGen]), S([Ty.Gen]), S([Ty.PtrToCell])]), {Essential, CallsNative, MemEffects, MayModifyRefs, MayRaiseError})
    else if op == CGetProp then OpInfo(D(Ty.Cell), Checks([C(Ty.TCA), C(Ty.Cls), S([Ty.Obj, Ty.PtrToGen]), S([Ty.Gen]), S([Ty.PtrToCell])]), {Essential, CallsNative, MemEffects, MayModifyRefs, MayRaiseError})
    else if op == SetProp then OpInfo(DVector, Checks([C(Ty.TCA), C(Ty.Cls), S([Ty.Obj, Ty.PtrToGen]), S([Ty.Gen]), S([Ty.Cell])]), {Essential, CallsNative, MemEffects, MayModifyRefs, MayRaiseError})
    else if op == CGetElem then OpInfo(D(Ty.Cell), Checks([C(Ty.TCA), S([Ty.PtrToGen]), S([Ty.Gen]), S([Ty.PtrToCell])]), {Essential, CallsNative, MemEffects, MayModifyRefs, MayRaiseError})
    else if op == SetElem then OpInfo(DVector, Checks([C(Ty.TCA), S([Ty.PtrToGen]), S([Ty.Gen]), S([Ty.Cell])]), {Essential, CallsNative, MemEffects, MayModifyRefs, MayRaiseError})
    else if op == IncStat then OpInfo(ND, Checks([C(Ty.Int), C(Ty.Int), C(Ty.Bool)]), {Essential, MemEffects})
    else if op == DbgAssertRefCount then OpInfo(ND, SUnk, {Essential})
    else OpInfo(ND, NA, {})  // Nop
  }

  // ---------------------------------------------------------------------
  // Opcode properties used by the builder

  /** Whether the opcode has exactly one automatically created destination. */
  predicate HasDst(op: Opcode) {
    !Info(op).dst.ND? && !Info(op).dst.DLabel?
  }

  /** Whether instructions of this opcode may be shared by common-subexpression elimination. */
  predicate CanCSEOp(op: Opcode) {
    CanCSE in Info(op).flags
  }

  /** Whether control never falls through an instruction of this opcode. */
  predicate IsTerminalOp(op: Opcode) {
    Terminal in Info(op).flags
  }

  /** The kinds of extra data an instruction may carry. */
  datatype ExtraKind = NoExtra | LocalIdExtra | ConstDataExtra | MarkerDataExtra | SSwitchDataExtra

  /** The kind of extra data each opcode carries. */
  function ExtraKindOf(op: Opcode): ExtraKind {
    if op == LdSSwitchDestFast || op == LdSSwitchDestSlow then SSwitchDataExtra
    else if op == Marker then MarkerDataExtra
    else if op in {RaiseUninitWarning, GuardLoc, AssertLoc, LdLocAddr, DecRefLoc, LdLoc, StLoc, StLocNT} then LocalIdExtra
    else if op == DefConst || op == LdConst then ConstDataExtra
    else NoExtra
  }

  // ---------------------------------------------------------------------
  // Query ops and their conditional-branch twins

  predicate IsCmpOp(op: Opcode) {
    OpGt <= op <= OpNSame
  }

  /** A query op returns Bool and can be fused with a branch and negated. */
  predicate IsQueryOp(op: Opcode) {
    OpGt <= op <= IsNType
  }

  predicate IsQueryJmpOp(op: Opcode) {
    JmpGt <= op <= JmpIsNType
  }

  /** The conditional branch that tests the query. */
  function QueryToJmpOp(op: Opcode): (r: Opcode)
    requires IsQueryOp(op)
    ensures IsQueryJmpOp(r)
  {
    JmpGt + (op - OpGt)
  }

  /** The query a conditional branch tests. */
  function QueryJmpToQueryOp(op: Opcode): (r: Opcode)
    requires IsQueryJmpOp(op)
    ensures IsQueryOp(r)
  {
    OpGt + (op - JmpGt)
  }

  /** Queries too expensive to repeat are kept out of branch fusion. */
  predicate DisableBranchFusion(op: Opcode) {
    op == InstanceOf || op == NInstanceOf || op == InstanceOfBitmask || op == NInstanceOfBitmask
  }

  /** Mapping a query to its branch and back gives the query. */
  lemma QueryJmpRoundTrip(op: Opcode)
    requires IsQueryOp(op)
    ensures QueryJmpToQueryOp(QueryToJmpOp(op)) == op
  {
  }

  /** Mapping a branch to its query and back gives the branch. */
  lemma JmpQueryRoundTrip(op: Opcode)
    requires IsQueryJmpOp(op)
    ensures QueryToJmpOp(QueryJmpToQueryOp(op)) == op
  {
  }

  /**
   * The catalog keeps each query and its branch twin consistent: queries
   * produce Bool, branches produce nothing of use (None), and both take the
   * same operands, except that the type-test branches leave theirs unchecked.
   */
  lemma QueryBranchTwins(op: Opcode)
    requires IsQueryOp(op)
    ensures Info(op).dst == D(Ty.Bool)
    ensures Info(QueryToJmpOp(op)).dst == D(Ty.None)
    ensures op != IsType && op != IsNType ==> Info(QueryToJmpOp(op)).src == Info(op).src
    ensures op == IsType || op == IsNType <==> Info(QueryToJmpOp(op)).src == SUnk
  {
    assert op - OpGt < 14;
  }
}

=== FILE: stackvalue.dfy ===
/**
 * Finding a value that was earlier spilled onto the evaluation stack by
 * walking back along the chain of stack-pointer definitions.
 */
module StackValue {
  import Ty = IRType
  import opened Opcodes
  import opened Wrappers
  import IR
  import TB = TraceBuilder

  /** The index parameter is a 32-bit unsigned integer: arithmetic on it wraps. */
  function Wrap32(x: int): (r: nat)
    ensures r < 0x1_0000_0000
    ensures 0 <= x < 0x1_0000_0000 ==> r == x
    ensures (r - x) % 0x1_0000_0000 == 0
  {
    x % 0x1_0000_0000
  }

  /** The outcome of the search: the value (if one is at hand), whether it lives across a call, its known type. */
  datatype StackInfo = StackInfo(value: Option<nat>, spansCall: bool, ty: Ty.Type)

  /** What scanning a SpillStack's spilled sources gives: the value at the index, or the count pushed. */
  datatype Scan = Found(v: nat) | Pushed(n: int)

  /** When SpillStack takes an activation record, this many further sources belong to it. */
  const SpillStackActRecExtraArgs: nat := 4

  /**
   * Scan the spilled sources of a SpillStack (sources 2 on) from the
   * `i`-th one: an activation record counts `actRecCells` cells and swallows
   * its extra sources; the source at position `index` is the answer, seen
   * through an IncRef.
   */
  function SpillScan(actRecCells: nat, f: IR.Factory, inst: IR.Instr, index: nat, i: nat, pushed: int): (r: Result<Scan, TB.Error>)
    requires IR.WellFormed(f) && IR.AllBelow(inst.srcs, |f.values|)
    ensures r.Ok? && r.value.Found? ==> r.value.v < |f.values|
    ensures r.Ok? && r.value.Pushed? ==> r.value.n >= pushed
    decreases |inst.srcs| - i
  {
    if i + 2 >= |inst.srcs| then Ok(Pushed(pushed))
    else
      var tmp := inst.srcs[i + 2];
      if f.values[tmp].ty == Ty.ActRec then
        SpillScan(actRecCells, f, inst, index, i + 1 + SpillStackActRecExtraArgs, pushed + actRecCells)
      else if index == pushed then
        var p := TB.Producer(f, tmp);
        assert IR.ValueOk(f, tmp);
        if p.op != IncRef then Ok(Found(tmp))
        else if |p.srcs| == 0 then Err(TB.OperandMissing(0))
        else Ok(Found(p.srcs[0]))
      else
        SpillScan(actRecCells, f, inst, index, i + 1, pushed + 1)
  }

  /**
   * getStackValue: the value at `index` cells below the stack pointer `sp`,
   * when it can be found. The walk stops at a DefSP (nothing known), at a
   * guard or assertion on that slot (its type known), at a call's return
   * slot, at InterpOne's pushed result and at the object NewObj pushes;
   * it passes through calls (marking the value as living across a call),
   * spills, InterpOne and NewObj, adjusting the index by what each pushed
   * and popped. Any other producer of a stack pointer is refused.
   */
  function GetStackValue(actRecCells: nat, f: IR.Factory, sp: nat, index: nat, spansCall: bool, ty: Ty.Type): (r: Result<StackInfo, TB.Error>)
    requires IR.WellFormed(f) && sp < |f.values| && index < 0x1_0000_0000
    ensures r.Ok? && r.value.value.Some? ==> r.value.value.value < |f.values| && r.value.ty == f.values[r.value.value.value].ty
    ensures r.Ok? && spansCall ==> r.value.spansCall
    decreases sp
  {
    var inst := TB.Producer(f, sp);
    assert IR.ValueOk(f, sp);
    var op := inst.op;
    if op == DefSP then Ok(StackInfo(None, spansCall, ty))
    else if op == AssertStk || op == GuardStk then
      match TB.OperandInt(f, inst, 1)
      case Err(e) => Err(e)
      case Ok(slot) =>
        if slot == index then Ok(StackInfo(None, spansCall, inst.typeParam))
        else GetStackValue(actRecCells, f, inst.srcs[0], index, spansCall, ty)
    else if op == Call then
      if index == 0 then Ok(StackInfo(None, spansCall, ty))
      else if |inst.srcs| == 0 then Err(TB.OperandMissing(0))
      else GetStackValue(actRecCells, f, inst.srcs[0], Wrap32(index - (1 - actRecCells)), true, ty)
    else if op == SpillStack then
      match SpillScan(actRecCells, f, inst, index, 0, 0)
      case Err(e) => Err(e)
      case Ok(Found(v)) => Ok(StackInfo(Some(v), spansCall, f.values[v].ty))
      case Ok(Pushed(pushed)) =>
        match TB.OperandInt(f, inst, 1)
        case Err(e) => Err(e)
        case Ok(popped) =>
          GetStackValue(actRecCells, f, inst.srcs[0], Wrap32(index - (pushed - popped)), spansCall, ty)
    else if op == InterpOne then
      match TB.OperandInt(f, inst, 3)
      case Err(e) => Err(e)
      case Ok(popped) =>
        var pushed := if inst.typeParam == Ty.None then 0 else 1;
        if index == 0 && pushed == 1 then Ok(StackInfo(None, spansCall, inst.typeParam))
        else GetStackValue(actRecCells, f, inst.srcs[1], Wrap32(index - (pushed - popped)), spansCall, ty)
    else if op == NewObj then
      if index == actRecCells then Ok(StackInfo(None, spansCall, Ty.Obj))
      else if |inst.srcs| <= 2 then Err(TB.OperandMissing(2))
      else GetStackValue(actRecCells, f, inst.srcs[2], Wrap32(index - (1 + actRecCells)), spansCall, ty)
    else Err(TB.UnexpectedStackProducer(op))
  }

  // ---------------------------------------------------------------------
  // Properties

  /** No spilled source from position `i` on is an activation record or an IncRef's result. */
  predicate PlainSpills(f: IR.Factory, inst: IR.Instr, i: nat)
    requires IR.WellFormed(f) && IR.AllBelow(inst.srcs, |f.values|)
  {
    forall j | i + 2 <= j < |inst.srcs| ::
      f.values[inst.srcs[j]].ty != Ty.ActRec && TB.Producer(f, inst.srcs[j]).op != IncRef
  }

  /**
   * With only plain values spilled, the scan finds the `k`-th spilled
   * source at index `k` (counting from where the scan starts), and reports
   * every source as pushed when the index is beyond them.
   */
  lemma {:induction false} SpillScanPlain(actRecCells: nat, f: IR.Factory, inst: IR.Instr, index: nat, i: nat, pushed: int)
    requires IR.WellFormed(f) && IR.AllBelow(inst.srcs, |f.values|) && PlainSpills(f, inst, i)
    requires pushed <= index && i + 2 <= |inst.srcs|
    ensures index < pushed + (|inst.srcs| - 2 - i) ==>
      SpillScan(actRecCells, f, inst, index, i, pushed) == Ok(Found(inst.srcs[i + 2 + (index - pushed)]))
    ensures index >= pushed + (|inst.srcs| - 2 - i) ==>
      SpillScan(actRecCells, f, inst, index, i, pushed) == Ok(Pushed(pushed + (|inst.srcs| - 2 - i)))
    decreases |inst.srcs| - i
  {
    if i + 2 < |inst.srcs| && index != pushed {
      SpillScanPlain(actRecCells, f, inst, index, i + 1, pushed + 1);
    }
  }

  /**
   * A SpillStack of plain values exposes them top-down: index `k` finds the
   * `k`-th spilled value, and an index beyond them continues below the
   * spill with the pushes and pops undone.
   */
  lemma SpilledValuesFound(actRecCells: nat, f: IR.Factory, sp: nat, index: nat, ty: Ty.Type)
    requires IR.WellFormed(f) && sp < |f.values| && index < 0x1_0000_0000
    requires TB.Producer(f, sp).op == SpillStack && |TB.Producer(f, sp).srcs| >= 2
    requires IR.AllBelow(TB.Producer(f, sp).srcs, |f.values|) && PlainSpills(f, TB.Producer(f, sp), 0)
    ensures var inst := TB.Producer(f, sp); var n := |inst.srcs| - 2;
      index < n ==>
        GetStackValue(actRecCells, f, sp, index, false, ty) ==
        Ok(StackInfo(Some(inst.srcs[index + 2]), false, f.values[inst.srcs[index + 2]].ty))
    ensures var inst := TB.Producer(f, sp); var n := |inst.srcs| - 2;
      index >= n && TB.OperandInt(f, inst, 1).Ok? ==>
        GetStackValue(actRecCells, f, sp, index, false, ty) ==
        GetStackValue(actRecCells, f, inst.srcs[0], Wrap32(index - (n - TB.OperandInt(f, inst, 1).value)), false, ty)
  {
    assert IR.ValueOk(f, sp);
    SpillScanPlain(actRecCells, f, TB.Producer(f, sp), index, 0, 0);
  }

  /** The search never finds a value below a call's return slot without marking it as living across the call. */
  lemma ThroughCallSpans(actRecCells: nat, f: IR.Factory, sp: nat, index: nat, ty: Ty.Type)
    requires IR.WellFormed(f) && sp < |f.values| && index < 0x1_0000_0000
    requires TB.Producer(f, sp).op == Call && index != 0
    ensures var r := GetStackValue(actRecCells, f, sp, index, false, ty);
      r.Ok? ==> r.value.spansCall
  {
    assert IR.ValueOk(f, sp);
  }

  /** The return slot of a call holds no value the builder can reuse. */
  lemma CallReturnSlotUnknown(actRecCells: nat, f: IR.Factory, sp: nat, spansCall: bool, ty: Ty.Type)
    requires IR.WellFormed(f) && sp < |f.values| && TB.Producer(f, sp).op == Call
    ensures GetStackValue(actRecCells, f, sp, 0, spansCall, ty) == Ok(StackInfo(None, spansCall, ty))
  {
  }
}

=== FILE: tracebuilder.dfy ===
/**
 * The trace builder's translation-time state and the protocol by which
 * every generated instruction passes through it: operand checking,
 * common-subexpression lookup, simplification, cloning into the arena,
 * linking into the trace, and the update of the tracked state (stack and
 * frame pointers, stack offset, locals, CSE tables).
 *
 * A C++ `assert` of the builder becomes an `Err` outcome: the model says
 * exactly which inputs the builder refuses.
 */
module TraceBuilder {
  import Ty = IRType
  import opened Opcodes
  import opened Wrappers
  import TC = TypeCheck
  import IR
  import L = Locals

  // ---------------------------------------------------------------------
  // Configuration and state

  /** What the simplifier makes of an instruction. */
  datatype Simplified =
    | NoChange          // nothing simpler: emit the instruction
    | Replaced(v: nat)  // use this existing value instead
    | MadeNop           // the instruction was turned into a Nop

  /**
   * What the builder takes from outside: whether operand checking is on
   * (debug builds), the number of stack cells an activation record takes,
   * and the analyses whose bodies are not part of this model.
   */
  datatype Config = Config(
    debug: bool,
    actRecCells: nat,
    vfx: IR.VectorOracle,
    spillCells: IR.Instr -> int,
    simplify: (IR.Factory, IR.Instr) -> Simplified)

  /** The identity under which the CSE tables find an earlier instruction. */
  datatype CseKey = CseKey(op: Opcode, typeParam: Ty.Type, srcs: seq<nat>, extra: IR.Extra)

  function KeyOf(inst: IR.Instr): CseKey {
    CseKey(inst.op, inst.typeParam, inst.srcs, inst.extra)
  }

  /** The builder's state; `sp`, `fp` and `curFunc` are value ids, None for null. */
  datatype State = State(
    f: IR.Factory,
    trace: IR.Trace,
    enableCse: bool,
    enableSimplification: bool,
    sp: Option<nat>,
    fp: Option<nat>,
    curFunc: Option<nat>,
    spOffset: int,
    cse: map<CseKey, nat>,
    consts: map<CseKey, nat>,
    thisAvailable: bool,
    locals: L.Locals)

  /** Why the builder refuses an instruction (an assertion of the source failing). */
  datatype Error =
    | BuildFailed(b: IR.BuildError)
    | OutputFailed(o: TC.OutputError)
    | NegativeSpOffset(offset: int)
    | OperandMissing(index: nat)
    | OperandNotConstant(index: nat)
    | LocalIdMissing
    | InvalidLocalId(id: int)
    | RefNotBoxed
    | VectorBaseNotStaticallyKnown
    | VectorBaseTypeInvalid
    | SimplifiedWithoutDst
    | LocalTypeUnknown
    | LocalTypeAmbiguousNull
    | AssertLocContradicts
    | UnexpectedStackProducer(op: Opcode)
    | NoStackPointer
    | NoFramePointer
    | UnionUndefined
    | TypesIncomparable

  /** Every entry of a CSE table is a value defined by an instruction with the entry's key. */
  predicate TableSound(f: IR.Factory, t: map<CseKey, nat>) {
    forall k | k in t ::
      t[k] < |f.values| && f.values[t[k]].inst < |f.insts| &&
      KeyOf(f.insts[f.values[t[k]].inst]) == k
  }

  predicate OptBelow(v: Option<nat>, n: nat) {
    v.Some? ==> v.value < n
  }

  predicate Valid(st: State) {
    IR.WellFormed(st.f) &&
    OptBelow(st.sp, |st.f.values|) && OptBelow(st.fp, |st.f.values|) &&
    OptBelow(st.curFunc, |st.f.values|) &&
    IR.AllBelow(st.trace.instrs, |st.f.insts|) &&
    L.Valid(st.locals) && L.BoundBelow(st.locals, |st.f.values|) &&
    TableSound(st.f, st.cse) && TableSound(st.f, st.consts)
  }

  /** Allocating more instructions and values keeps a valid state valid. */
  lemma ValidUnderExtension(st: State, f': IR.Factory)
    requires Valid(st) && IR.WellFormed(f') && IR.Extends(st.f, f')
    ensures Valid(st.(f := f'))
  {
    var f := st.f;
    forall t | t == st.cse || t == st.consts
      ensures TableSound(f', t)
    {
      forall k | k in t
        ensures t[k] < |f'.values| && f'.values[t[k]].inst < |f'.insts| &&
          KeyOf(f'.insts[f'.values[t[k]].inst]) == k
      {
        assert f'.values[t[k]] == f'.values[..|f.values|][t[k]];
        var i := f.values[t[k]].inst;
        assert f'.insts[i] == f'.insts[..|f.insts|][i];
      }
    }
  }

  /** One step of the builder: validity kept, arena only grown, trace and switches untouched. */
  predicate Evolves(st: State, st': State) {
    Valid(st') && IR.Extends(st.f, st'.f) && st'.trace == st.trace &&
    st'.enableCse == st.enableCse && st'.enableSimplification == st.enableSimplification
  }

  /** The stack and frame pointers and the stack offset are unchanged. */
  predicate KeepsPointers(st: State, st': State) {
    st'.sp == st.sp && st'.fp == st.fp && st'.spOffset == st.spOffset
  }

  /** The single destination of an instruction, None when it has none. */
  function DstOf(inst: IR.Instr): (r: Option<nat>)
    ensures r.Some? <==> |inst.dsts| > 0
    ensures r.Some? ==> r.value == inst.dsts[0]
  {
    if |inst.dsts| > 0 then Some(inst.dsts[0]) else None
  }

  /** Making an instruction's destination the stack pointer, at some offset, is one step of the builder. */
  lemma StackPointerMoves(st: State, iid: nat, off: int)
    requires Valid(st) && iid < |st.f.insts|
    ensures Evolves(st, st.(sp := DstOf(st.f.insts[iid]), spOffset := off))
  {
    assert IR.InstOk(st.f, iid);
  }

  /** getValInt of source `n`: the constant's payload. */
  function OperandInt(f: IR.Factory, inst: IR.Instr, n: nat): (r: Result<int, Error>)
    ensures r.Ok? <==> n < |inst.srcs| && inst.srcs[n] < |f.values| && IR.ValInt(f, inst.srcs[n]).Some?
    ensures r.Ok? ==> r.value == IR.ValInt(f, inst.srcs[n]).value
  {
    if n >= |inst.srcs| || inst.srcs[n] >= |f.values| then Err(OperandMissing(n))
    else match IR.ValInt(f, inst.srcs[n])
      case None => Err(OperandNotConstant(n))
      case Some(x) => Ok(x)
  }

  /** The local id carried by an instruction's extra data. */
  function LocalIdOf(inst: IR.Instr): (r: Result<nat, Error>)
    ensures r.Ok? <==> inst.extra.LocalIdData?
    ensures r.Ok? ==> r.value == inst.extra.locId
  {
    if inst.extra.LocalIdData? then Ok(inst.extra.locId) else Err(LocalIdMissing)
  }

  /** An int64 operand used as a 32-bit local id: -1 means none; other negatives are invalid. */
  function AsLocalId(x: int): (r: Result<int, Error>)
    ensures r.Ok? <==> -1 <= x < 0x8000_0000
    ensures r.Ok? ==> r.value == x
  {
    if -1 <= x < 0x8000_0000 then Ok(x) else Err(InvalidLocalId(x))
  }

  // ---------------------------------------------------------------------
  // updateTrackedState, case by case

  /** A call or a continuation entry clobbers registers: the CSE table and local values go. */
  function KillAcrossCall(cfg: Config, st: State): (r: State)
    requires Valid(st)
    ensures Evolves(st, r)
    ensures r.cse == map[] && r.consts == st.consts && r.locals.types == st.locals.types
    ensures |r.locals.values| == |st.locals.values|
    ensures forall j | 0 <= j < |st.locals.values| ::
      L.KilledAsCallDoes(st.f, r.f, st.locals.values[j], r.locals.values[j])
    ensures r.sp == st.sp && r.fp == st.fp && r.spOffset == st.spOffset
    ensures r.thisAvailable == st.thisAvailable && r.curFunc == st.curFunc
  {
    var (f', l') := L.KillLocals(cfg.vfx, st.f, st.locals);
    ValidUnderExtension(st, f');
    st.(f := f', locals := l', cse := map[])
  }

  /** Call: pops the activation record, pushes the return value. */
  function TrackCall(cfg: Config, st: State, iid: nat): (r: Result<State, Error>)
    requires Valid(st) && iid < |st.f.insts|
    ensures r.Ok? <==> st.spOffset - cfg.actRecCells + 1 >= 0
    ensures r.Ok? ==> (Evolves(st, r.value) &&
      r.value.sp == DstOf(st.f.insts[iid]) && r.value.spOffset == st.spOffset - cfg.actRecCells + 1 &&
      r.value.cse == map[] && r.value.locals.types == st.locals.types &&
      |r.value.locals.values| == |st.locals.values| &&
      forall j | 0 <= j < |st.locals.values| ::
        L.KilledAsCallDoes(st.f, r.value.f, st.locals.values[j], r.value.locals.values[j]))
  {
    var off := st.spOffset - cfg.actRecCells + 1;
    if off < 0 then Err(NegativeSpOffset(off))
    else
      assert IR.InstOk(st.f, iid);
      var k := KillAcrossCall(cfg, st);
      Ok(k.(sp := DstOf(st.f.insts[iid]), spOffset := off))
  }

  /** DefSP: the stack pointer is defined afresh at the constant offset of source 1. */
  function TrackDefSP(st: State, iid: nat): (r: Result<State, Error>)
    requires Valid(st) && iid < |st.f.insts|
    ensures r.Ok? <==> OperandInt(st.f, st.f.insts[iid], 1).Ok?
    ensures r.Ok? ==> (Evolves(st, r.value) &&
      r.value == st.(sp := DstOf(st.f.insts[iid]), spOffset := OperandInt(st.f, st.f.insts[iid], 1).value))
  {
    var inst := st.f.insts[iid];
    assert IR.InstOk(st.f, iid);
    match OperandInt(st.f, inst, 1)
    case Err(e) => Err(e)
    case Ok(n) => StackPointerMoves(st, iid, n); Ok(st.(sp := DstOf(inst), spOffset := n))
  }

  /**
   * SpillStack: pops the adjustment given by source 1 and pushes the cells
   * of the spilled values; the offset may not go negative.
   */
  function TrackSpillStack(cfg: Config, st: State, iid: nat): (r: Result<State, Error>)
    requires Valid(st) && iid < |st.f.insts|
    ensures var inst := st.f.insts[iid]; var adj := OperandInt(st.f, inst, 1);
      r.Ok? <==> adj.Ok? && st.spOffset - adj.value + cfg.spillCells(inst) >= 0
    ensures var inst := st.f.insts[iid]; var adj := OperandInt(st.f, inst, 1);
      r.Ok? ==> (Evolves(st, r.value) &&
        r.value == st.(sp := DstOf(inst), spOffset := st.spOffset - adj.value + cfg.spillCells(inst)))
  {
    var inst := st.f.insts[iid];
    assert IR.InstOk(st.f, iid);
    match OperandInt(st.f, inst, 1)
    case Err(e) => Err(e)
    case Ok(adj) =>
      var off := st.spOffset - adj + cfg.spillCells(inst);
      if off < 0 then Err(NegativeSpOffset(off))
      else StackPointerMoves(st, iid, off); Ok(st.(sp := DstOf(inst), spOffset := off))
  }

  /** NewObj leaves the new object and an activation record on the stack. */
  function TrackNewObj(cfg: Config, st: State, iid: nat): (r: Result<State, Error>)
    requires Valid(st) && iid < |st.f.insts|
    ensures r.Ok? <==> st.spOffset + cfg.actRecCells + 1 >= 0
    ensures r.Ok? ==> (Evolves(st, r.value) &&
      r.value == st.(sp := DstOf(st.f.insts[iid]), spOffset := st.spOffset + cfg.actRecCells + 1))
  {
    var inst := st.f.insts[iid];
    assert IR.InstOk(st.f, iid);
    var off := st.spOffset + cfg.actRecCells + 1;
    if off < 0 then Err(NegativeSpOffset(off))
    else StackPointerMoves(st, iid, off); Ok(st.(sp := DstOf(inst), spOffset := off))
  }

  /**
   * InterpOne pushes its result (if its type parameter is not None) and
   * pops the count in source 3. No lower bound is checked here.
   */
  function TrackInterpOne(st: State, iid: nat): (r: Result<State, Error>)
    requires Valid(st) && iid < |st.f.insts|
    ensures r.Ok? <==> OperandInt(st.f, st.f.insts[iid], 3).Ok?
    ensures r.Ok? ==> Evolves(st, r.value)
    ensures r.Ok? ==> (r.value.sp == DstOf(st.f.insts[iid]) &&
      r.value.spOffset == st.spOffset + InterpOnePushed(st.f.insts[iid]) - OperandInt(st.f, st.f.insts[iid], 3).value)
    ensures r.Ok? ==> r.value == st.(sp := r.value.sp, spOffset := r.value.spOffset)
  {
    var inst := st.f.insts[iid];
    assert IR.InstOk(st.f, iid);
    match OperandInt(st.f, inst, 3)
    case Err(e) => Err(e)
    case Ok(popped) =>
      var off := st.spOffset + InterpOnePushed(inst) - popped;
      StackPointerMoves(st, iid, off);
      Ok(st.(sp := DstOf(inst), spOffset := off))
  }

  /** InterpOne pushes one cell when its type parameter names a result. */
  function InterpOnePushed(inst: IR.Instr): nat {
    if inst.typeParam == Ty.None then 0 else 1
  }

  /** StRef: every local holding the old reference (source 0) now holds the new one (the destination). */
  function TrackStRef(st: State, iid: nat): (r: Result<State, Error>)
    requires Valid(st) && iid < |st.f.insts|
    ensures var inst := st.f.insts[iid];
      r.Ok? <==> (|inst.srcs| > 0 && |inst.dsts| > 0 &&
        Ty.IsBoxed(st.f.values[inst.srcs[0]].ty) && Ty.IsBoxed(st.f.values[inst.dsts[0]].ty))
    ensures r.Ok? ==> var inst := st.f.insts[iid];
      Evolves(st, r.value) &&
      r.value == st.(locals := L.UpdateRefValues(st.locals, inst.srcs[0], inst.dsts[0], st.f.values[inst.dsts[0]].ty))
  {
    var inst := st.f.insts[iid];
    assert IR.InstOk(st.f, iid);
    if |inst.srcs| == 0 then Err(OperandMissing(0))
    else if |inst.dsts| == 0 then Err(RefNotBoxed)
    else
      var oldRef := inst.srcs[0];
      var newRef := inst.dsts[0];
      if !Ty.IsBoxed(st.f.values[oldRef].ty) || !Ty.IsBoxed(st.f.values[newRef].ty) then Err(RefNotBoxed)
      else
        var l' := L.UpdateRefValues(st.locals, oldRef, newRef, st.f.values[newRef].ty);
        Ok(st.(locals := l'))
  }

  /** The locals after binding local `id` to value `v` (StLoc, LdLoc). */
  function BindLocal(st: State, id: nat, v: nat): (r: State)
    requires Valid(st) && v < |st.f.values|
    ensures Evolves(st, r) && r == st.(locals := L.SetValue(st.locals, id, v, st.f.values[v].ty))
  {
    var l' := L.SetValue(st.locals, id, v, st.f.values[v].ty);
    st.(locals := l')
  }

  /** The locals after giving local `id` a type and forgetting its value (GuardLoc, AssertLoc). */
  function TypeLocal(st: State, id: nat, t: Ty.Type): (r: State)
    requires Valid(st)
    ensures Evolves(st, r) && r == st.(locals := L.SetType(st.locals, id, t))
  {
    st.(locals := L.SetType(st.locals, id, t))
  }

  /** StLoc: the local named by the extra data holds source 1. */
  function TrackStLoc(st: State, iid: nat): (r: Result<State, Error>)
    requires Valid(st) && iid < |st.f.insts|
    ensures var inst := st.f.insts[iid];
      r.Ok? <==> inst.extra.LocalIdData? && |inst.srcs| > 1
    ensures r.Ok? ==> var inst := st.f.insts[iid];
      Evolves(st, r.value) && r.value == st.(locals := r.value.locals) &&
      L.GetValue(r.value.locals, inst.extra.locId) == Some(inst.srcs[1]) &&
      L.GetType(r.value.locals, inst.extra.locId) == st.f.values[inst.srcs[1]].ty
  {
    var inst := st.f.insts[iid];
    assert IR.InstOk(st.f, iid);
    match LocalIdOf(inst)
    case Err(e) => Err(e)
    case Ok(id) =>
      if |inst.srcs| <= 1 then Err(OperandMissing(1))
      else Ok(BindLocal(st, id, inst.srcs[1]))
  }

  /** LdLoc: the local now holds the loaded value. */
  function TrackLdLoc(st: State, iid: nat): (r: Result<State, Error>)
    requires Valid(st) && iid < |st.f.insts|
    ensures var inst := st.f.insts[iid];
      r.Ok? <==> inst.extra.LocalIdData? && |inst.dsts| > 0
    ensures r.Ok? ==> var inst := st.f.insts[iid];
      Evolves(st, r.value) && r.value == st.(locals := r.value.locals) &&
      L.GetValue(r.value.locals, inst.extra.locId) == Some(inst.dsts[0]) &&
      L.GetType(r.value.locals, inst.extra.locId) == st.f.values[inst.dsts[0]].ty
  {
    var inst := st.f.insts[iid];
    assert IR.InstOk(st.f, iid);
    match LocalIdOf(inst)
    case Err(e) => Err(e)
    case Ok(id) =>
      if |inst.dsts| == 0 then Err(OperandMissing(0))
      else Ok(BindLocal(st, id, inst.dsts[0]))
  }

  /** GuardLoc, AssertLoc: the local has the type parameter and no known value. */
  function TrackLocType(st: State, iid: nat): (r: Result<State, Error>)
    requires Valid(st) && iid < |st.f.insts|
    ensures r.Ok? <==> st.f.insts[iid].extra.LocalIdData?
    ensures r.Ok? ==> var inst := st.f.insts[iid];
      Evolves(st, r.value) && r.value == st.(locals := r.value.locals) &&
      L.GetValue(r.value.locals, inst.extra.locId).None? &&
      L.GetType(r.value.locals, inst.extra.locId) == inst.typeParam
  {
    var inst := st.f.insts[iid];
    match LocalIdOf(inst)
    case Err(e) => Err(e)
    case Ok(id) => Ok(TypeLocal(st, id, inst.typeParam))
  }

  /** Forget the local whose id is source `n`. */
  function KillLocalAt(st: State, inst: IR.Instr, n: nat): (r: Result<State, Error>)
    requires Valid(st)
    ensures r.Ok? <==> OperandInt(st.f, inst, n).Ok? && -1 <= OperandInt(st.f, inst, n).value < 0x8000_0000
    ensures r.Ok? ==> (Evolves(st, r.value) &&
      r.value == st.(locals := L.KillValue(st.locals, OperandInt(st.f, inst, n).value)))
  {
    match OperandInt(st.f, inst, n)
    case Err(e) => Err(e)
    case Ok(x) =>
      match AsLocalId(x)
      case Err(e) => Err(e)
      case Ok(id) => Ok(st.(locals := L.KillValue(st.locals, id)))
  }

  /** The iterator opcodes: they overwrite a value local, and the K variants a key local too. */
  predicate IterOp(op: Opcode) {
    op == IterInit || op == IterInitK || op == IterNext || op == IterNextK
  }

  /** The iterator opcodes that also produce a key. */
  predicate KeyedIterOp(op: Opcode) {
    op == IterInitK || op == IterNextK
  }

  /**
   * The operands naming the locals an iterator instruction overwrites, as
   * the source's switch reads them: operand 3 then 2 for the K variants,
   * operand 2 otherwise.
   */
  function IterKilledOperandsAsWritten(op: Opcode): (r: seq<nat>)
    requires IterOp(op)
    ensures op == IterInitK || op == IterNextK ==> r == [3, 2]
    ensures op == IterInit || op == IterNext ==> r == [2]
  {
    if op == IterInitK || op == IterNextK then [3, 2] else [2]
  }

  /**
   * Where the catalog and the generators place an iterator instruction's
   * iterator id, value local and (for the K variants) key local: IterInit
   * takes the base array or object first and the frame pointer second,
   * IterNext takes the frame pointer first.
   */
  function IterIterIdOperand(op: Opcode): nat
    requires IterOp(op)
  {
    if op == IterInit || op == IterInitK then 2 else 1
  }

  function IterValLocalOperand(op: Opcode): nat
    requires IterOp(op)
  {
    IterIterIdOperand(op) + 1
  }

  function IterKeyLocalOperand(op: Opcode): nat
    requires KeyedIterOp(op)
  {
    IterIterIdOperand(op) + 2
  }

  /** The operands naming the locals an iterator instruction overwrites: the key local, then the value local. */
  function IterKilledOperands(op: Opcode): (r: seq<nat>)
    requires IterOp(op)
    ensures KeyedIterOp(op) ==> r == [IterKeyLocalOperand(op), IterValLocalOperand(op)]
    ensures (op == IterInit || op == IterNext) ==> r == [IterValLocalOperand(op)]
    ensures forall k | 0 <= k < |r| :: r[k] != IterIterIdOperand(op)
  {
    if op == IterInitK || op == IterNextK then [IterKeyLocalOperand(op), IterValLocalOperand(op)]
    else [IterValLocalOperand(op)]
  }

  /** Whether one of the listed operands is the integer constant `id`. */
  predicate NamesLocal(f: IR.Factory, inst: IR.Instr, ns: seq<nat>, id: int) {
    exists k | 0 <= k < |ns| :: OperandInt(f, inst, ns[k]) == Ok(id)
  }

  /**
   * Forget the locals named by the listed operands, in order: each one
   * reads no value and type None afterwards, and every other local keeps
   * its value and type.
   */
  function KillLocalsAt(st: State, inst: IR.Instr, ns: seq<nat>): (r: Result<State, Error>)
    requires Valid(st)
    ensures r.Ok? ==> Evolves(st, r.value) && r.value == st.(locals := r.value.locals)
    ensures r.Ok? ==> forall id | id >= -1 && L.GetValue(st.locals, id).None? :: L.GetValue(r.value.locals, id).None?
    ensures r.Ok? ==> forall k | 0 <= k < |ns| ::
      OperandInt(st.f, inst, ns[k]).Ok? && -1 <= OperandInt(st.f, inst, ns[k]).value < 0x8000_0000 &&
      L.GetValue(r.value.locals, OperandInt(st.f, inst, ns[k]).value).None? &&
      L.GetType(r.value.locals, OperandInt(st.f, inst, ns[k]).value) == Ty.None
    ensures r.Ok? ==> forall id | id >= -1 && !NamesLocal(st.f, inst, ns, id) ::
      L.GetValue(r.value.locals, id) == L.GetValue(st.locals, id) && L.GetType(r.value.locals, id) == L.GetType(st.locals, id)
    decreases |ns|
  {
    if |ns| == 0 then Ok(st)
    else
      match KillLocalAt(st, inst, ns[0])
      case Err(e) => Err(e)
      case Ok(st1) => KillLocalsAt(st1, inst, ns[1..])
  }

  /** An iterator instruction forgets the locals it stores the key and value into, and no other. */
  function TrackIter(st: State, iid: nat): (r: Result<State, Error>)
    requires Valid(st) && iid < |st.f.insts|
    requires IterOp(st.f.insts[iid].op)
    ensures r.Ok? ==> Evolves(st, r.value) && r.value == st.(locals := r.value.locals)
    ensures r.Ok? ==> var inst := st.f.insts[iid];
      forall k | 0 <= k < |IterKilledOperands(inst.op)| ::
        var n := IterKilledOperands(inst.op)[k];
        OperandInt(st.f, inst, n).Ok? && -1 <= OperandInt(st.f, inst, n).value < 0x8000_0000 &&
        L.GetValue(r.value.locals, OperandInt(st.f, inst, n).value).None? &&
        L.GetType(r.value.locals, OperandInt(st.f, inst, n).value) == Ty.None
    ensures r.Ok? ==> var inst := st.f.insts[iid];
      forall id | id >= -1 && !NamesLocal(st.f, inst, IterKilledOperands(inst.op), id) ::
        L.GetValue(r.value.locals, id) == L.GetValue(st.locals, id) && L.GetType(r.value.locals, id) == L.GetType(st.locals, id)
  {
    var inst := st.f.insts[iid];
    assert IR.InstOk(st.f, iid);
    KillLocalsAt(st, inst, IterKilledOperands(inst.op))
  }

  /** The same, reading the operands as the source's switch does. */
  function TrackIterAsWritten(st: State, iid: nat): (r: Result<State, Error>)
    requires Valid(st) && iid < |st.f.insts|
    requires IterOp(st.f.insts[iid].op)
    ensures r.Ok? ==> Evolves(st, r.value) && r.value == st.(locals := r.value.locals)
  {
    var inst := st.f.insts[iid];
    assert IR.InstOk(st.f, iid);
    KillLocalsAt(st, inst, IterKilledOperandsAsWritten(inst.op))
  }

  /** A constant-defining instruction producing value `v` with integer payload `bits`. */
  function ConstInst(bits: int, v: nat): IR.Instr {
    IR.Instr(LdConst, Ty.Int, [], [v], None, IR.ConstData(bits))
  }

  /**
   * An IterInit whose operands are an array, the frame pointer, iterator id
   * 0 and value local 1, with local 0 bound to value 1 and local 1 bound to
   * value 2.
   */
  function IterInitExample(): State {
    var f := IR.Factory(
        [ConstInst(7, 0), ConstInst(0, 1), ConstInst(0, 2), ConstInst(1, 3),
         IR.Instr(IterInit, Ty.None, [0, 1, 2, 3], [], None, IR.NoData)],
        [IR.Value(0, Ty.Int), IR.Value(1, Ty.Int), IR.Value(2, Ty.Int), IR.Value(3, Ty.Int)], 0);
    State(f, IR.Trace([]), false, false, None, None, None, 0, map[], map[], false,
          L.Locals([Some(1), Some(2)], [Ty.Int, Ty.Int]))
  }

  /**
   * On that example the switch as written forgets local 0 (the iterator id
   * read as a local) and keeps local 1's stale binding, though IterInit has
   * just stored the iterator's first value into it; the corrected layout
   * forgets local 1.
   */
  lemma IterInitAsWrittenKeepsStaleLocal()
    ensures Valid(IterInitExample()) && 4 < |IterInitExample().f.insts|
    ensures IterOp(IterInitExample().f.insts[4].op)
    ensures TrackIterAsWritten(IterInitExample(), 4).Ok?
    ensures L.GetValue(TrackIterAsWritten(IterInitExample(), 4).value.locals, 0).None?
    ensures L.GetValue(TrackIterAsWritten(IterInitExample(), 4).value.locals, 1) == Some(2)
    ensures TrackIter(IterInitExample(), 4).Ok?
    ensures L.GetValue(TrackIter(IterInitExample(), 4).value.locals, 1).None?
    ensures L.GetValue(TrackIter(IterInitExample(), 4).value.locals, 0) == Some(1)
  {
    var st := IterInitExample();
    var f := st.f;
    assert IR.WellFormed(f) by {
      forall i | 0 <= i < |f.insts| ensures IR.InstOk(f, i) { }
      forall v | 0 <= v < |f.values| ensures IR.ValueOk(f, v) { }
    }
    assert Valid(st);
    var inst := f.insts[4];
    assert IR.ValInt(f, 2) == Some(0) && IR.ValInt(f, 3) == Some(1);
    assert OperandInt(f, inst, 2) == Ok(0);
    assert OperandInt(f, inst, 3) == Ok(1);
    assert IterKilledOperandsAsWritten(IterInit) == [2];
    assert IterKilledOperands(IterInit) == [3];
  }

  /**
   * When the effects analysis says a vector helper changed the type or
   * value of its base, the local the base lives in loses its value and
   * takes the base's new type (dereferenced if it is a pointer).
   */
  function ApplyBaseEffects(st: State, loc: nat, ve: IR.VectorEffects): (r: Result<State, Error>)
    requires Valid(st)
    ensures !ve.baseTypeChanged && !ve.baseValChanged ==> r == Ok(st)
    ensures ve.baseTypeChanged || ve.baseValChanged ==>
      (r.Ok? <==> Ty.SubtypeOf(ve.baseType, Ty.Gen | Ty.PtrToGen))
    ensures r.Ok? ==> Evolves(st, r.value) && r.value == st.(locals := r.value.locals)
    ensures r.Ok? && (ve.baseTypeChanged || ve.baseValChanged) ==>
      L.GetValue(r.value.locals, loc).None? &&
      L.GetType(r.value.locals, loc) == Ty.DerefIfPtr(ve.baseType)
  {
    if !ve.baseTypeChanged && !ve.baseValChanged then Ok(st)
    else if !Ty.SubtypeOf(ve.baseType, Ty.Gen | Ty.PtrToGen) then Err(VectorBaseTypeInvalid)
    else
      var l1 := L.KillValue(st.locals, loc);
      Ok(st.(locals := L.SetType(l1, loc, Ty.DerefIfPtr(ve.baseType))))
  }

  /** The instruction defining value `v`. */
  function Producer(f: IR.Factory, v: nat): (r: IR.Instr)
    requires IR.WellFormed(f) && v < |f.values|
    ensures f.values[v].inst < |f.insts| && r == f.insts[f.values[v].inst]
  {
    assert IR.ValueOk(f, v);
    f.insts[f.values[v].inst]
  }

  /**
   * SetProp, SetElem: when the base is the address of a local (its
   * producer is LdLocAddr), whose type must be statically known, the
   * helper's effects on the base are applied to that local; any other
   * base leaves the state alone.
   */
  function TrackVectorSet(cfg: Config, st: State, iid: nat): (r: Result<State, Error>)
    requires Valid(st) && iid < |st.f.insts|
    requires st.f.insts[iid].op == SetProp || st.f.insts[iid].op == SetElem
    ensures r.Ok? ==> Evolves(st, r.value) && r.value == st.(locals := r.value.locals)
    ensures var inst := st.f.insts[iid]; var b := IR.VectorBaseIdx(inst.op);
      r.Ok? ==> (b < |inst.srcs| && inst.srcs[b] < |st.f.values| &&
        (Producer(st.f, inst.srcs[b]).op != LdLocAddr ==> r.value == st) &&
        (Producer(st.f, inst.srcs[b]).op == LdLocAddr ==>
          Ty.IsStaticallyKnown(st.f.values[inst.srcs[b]].ty) &&
          Producer(st.f, inst.srcs[b]).extra.LocalIdData? &&
          IR.AllBelow(inst.srcs, |st.f.values|) &&
          IR.VectorEffectsOf(cfg.vfx, st.f, inst).Some? &&
          r == ApplyBaseEffects(st, Producer(st.f, inst.srcs[b]).extra.locId,
                                IR.VectorEffectsOf(cfg.vfx, st.f, inst).value)))
  {
    var inst := st.f.insts[iid];
    assert IR.InstOk(st.f, iid);
    var b := IR.VectorBaseIdx(inst.op);
    if b >= |inst.srcs| then Err(OperandMissing(b))
    else
      var base := inst.srcs[b];
      var producer := Producer(st.f, base);
      if producer.op != LdLocAddr then Ok(st)
      else if !Ty.IsStaticallyKnown(st.f.values[base].ty) then Err(VectorBaseNotStaticallyKnown)
      else
        match LocalIdOf(producer)
        case Err(e) => Err(e)
        case Ok(loc) =>
          match IR.VectorEffectsOf(cfg.vfx, st.f, inst)
          case None => Err(OperandMissing(b + 2))
          case Some(ve) => ApplyBaseEffects(st, loc, ve)
  }

  /** The opcodes whose tracked effect is on the stack and frame pointers. */
  predicate PointerOp(op: Opcode) {
    op in {Call, ContEnter, DefFP, DefSP, AssertStk, GuardStk, SpillStack, NewObj, InterpOne}
  }

  /** The stack and frame pointer cases of updateTrackedState's switch. */
  function TrackPointers(cfg: Config, st: State, iid: nat): (r: Result<State, Error>)
    requires Valid(st) && iid < |st.f.insts| && PointerOp(st.f.insts[iid].op)
    ensures r.Ok? ==> Evolves(st, r.value)
  {
    var inst := st.f.insts[iid];
    var op := inst.op;
    assert IR.InstOk(st.f, iid);
    if op == Call then TrackCall(cfg, st, iid)
    else if op == ContEnter then Ok(KillAcrossCall(cfg, st))
    else if op == DefFP then Ok(st.(fp := DstOf(inst)))
    else if op == DefSP then TrackDefSP(st, iid)
    else if op == AssertStk || op == GuardStk then Ok(st.(sp := DstOf(inst)))
    else if op == SpillStack then TrackSpillStack(cfg, st, iid)
    else if op == NewObj then TrackNewObj(cfg, st, iid)
    else TrackInterpOne(st, iid)
  }

  /** The remaining cases of the switch: locals, `this`, and no effect at all. */
  function TrackOthers(cfg: Config, st: State, iid: nat): (r: Result<State, Error>)
    requires Valid(st) && iid < |st.f.insts| && !PointerOp(st.f.insts[iid].op)
    ensures r.Ok? ==> Evolves(st, r.value) && KeepsPointers(st, r.value)
  {
    var op := st.f.insts[iid].op;
    if op == StRef || op == StRefNT then TrackStRef(st, iid)
    else if op == StLoc || op == StLocNT then TrackStLoc(st, iid)
    else if op == LdLoc then TrackLdLoc(st, iid)
    else if op == AssertLoc || op == GuardLoc then TrackLocType(st, iid)
    else if IterOp(op) then TrackIter(st, iid)
    else if op == LdThis then Ok(st.(thisAvailable := true))
    else if op == SetProp || op == SetElem then TrackVectorSet(cfg, st, iid)
    else Ok(st)
  }

  /** The opcode switch of updateTrackedState. */
  function Track(cfg: Config, st: State, iid: nat): (r: Result<State, Error>)
    requires Valid(st) && iid < |st.f.insts|
    ensures r.Ok? ==> Evolves(st, r.value)
    ensures r.Ok? && !PointerOp(st.f.insts[iid].op) ==> KeepsPointers(st, r.value)
  {
    if PointerOp(st.f.insts[iid].op) then TrackPointers(cfg, st, iid) else TrackOthers(cfg, st, iid)
  }

  /** The table an instruction's CSE entry lives in: constants apart from the rest. */
  function TableFor(st: State, op: Opcode): map<CseKey, nat> {
    if op == DefConst then st.consts else st.cse
  }

  /** Record a CSE-able instruction (whose destination points back at it) in its table. */
  function CseInsert(st: State, iid: nat): (r: State)
    requires Valid(st) && iid < |st.f.insts| && DstsPointBack(st.f, iid)
    ensures Evolves(st, r) && r.f == st.f
    ensures var inst := st.f.insts[iid];
      if st.enableCse && CanCSEOp(inst.op) && |inst.dsts| > 0 then
        TableFor(r, inst.op) == TableFor(st, inst.op)[KeyOf(inst) := inst.dsts[0]] &&
        (inst.op == DefConst ==> r.cse == st.cse) && (inst.op != DefConst ==> r.consts == st.consts)
      else r == st
  {
    var inst := st.f.insts[iid];
    assert IR.InstOk(st.f, iid);
    if st.enableCse && CanCSEOp(inst.op) && |inst.dsts| > 0 then
      var d := inst.dsts[0];
      if inst.op == DefConst then st.(consts := st.consts[KeyOf(inst) := d])
      else st.(cse := st.cse[KeyOf(inst) := d])
    else st
  }

  /** Whether every destination of the instruction is a value it defines. */
  predicate DstsPointBack(f: IR.Factory, iid: nat)
    requires iid < |f.insts|
  {
    IR.AllBelow(f.insts[iid].dsts, |f.values|) &&
    forall k | 0 <= k < |f.insts[iid].dsts| :: f.values[f.insts[iid].dsts[k]].inst == iid
  }

  /** updateTrackedState: the opcode's effect, then the CSE insertion. */
  function UpdateTrackedState(cfg: Config, st: State, iid: nat): (r: Result<State, Error>)
    requires Valid(st) && iid < |st.f.insts| && DstsPointBack(st.f, iid)
    ensures r.Ok? ==> Evolves(st, r.value)
    ensures r.Ok? && !PointerOp(st.f.insts[iid].op) ==> KeepsPointers(st, r.value)
    ensures r.Ok? <==> Track(cfg, st, iid).Ok?
  {
    match Track(cfg, st, iid)
    case Err(e) => Err(e)
    case Ok(st1) =>
      assert st1.f.insts[iid] == st1.f.insts[..|st.f.insts|][iid];
      assert forall k | 0 <= k < |st.f.insts[iid].dsts| ::
        st1.f.values[st.f.insts[iid].dsts[k]] == st1.f.values[..|st.f.values|][st.f.insts[iid].dsts[k]];
      assert DstsPointBack(st1.f, iid);
      Ok(CseInsert(st1, iid))
  }

  /** clearTrackedState: forget everything the builder knows. */
  function ClearTrackedState(st: State): (r: State)
    requires Valid(st)
    ensures Valid(r) && r.f == st.f && r.trace == st.trace && r.consts == st.consts
    ensures r.cse == map[] && r.sp.None? && r.fp.None? && r.spOffset == 0 && !r.thisAvailable
    ensures |r.locals.values| == |st.locals.values|
    ensures forall id | -1 <= id :: L.GetValue(r.locals, id).None? && L.GetType(r.locals, id) == Ty.None
  {
    st.(cse := map[], locals := L.Clear(st.locals), sp := None, fp := None, spOffset := 0, thisAvailable := false)
  }

  // ---------------------------------------------------------------------
  // Emitting instructions

  /** The state with the instruction linked at the end of the trace, unless it is a Nop or DefConst. */
  function Linked(st: State, iid: nat): (r: State)
    requires Valid(st) && iid < |st.f.insts|
    ensures Valid(r) && r == st.(trace := r.trace)
    ensures var op := st.f.insts[iid].op;
      r.trace.instrs == st.trace.instrs + (if op == Nop || op == DefConst then [] else [iid])
  {
    var op := st.f.insts[iid].op;
    if op == Nop || op == DefConst then st else st.(trace := IR.Append(st.trace, iid))
  }

  /** appendInstruction: link into the trace unless Nop or DefConst, then track. */
  function AppendInstruction(cfg: Config, st: State, iid: nat): (r: Result<State, Error>)
    requires Valid(st) && iid < |st.f.insts| && DstsPointBack(st.f, iid)
    ensures r.Ok? ==> Valid(r.value) && IR.Extends(st.f, r.value.f)
    ensures r.Ok? ==> r.value.enableCse == st.enableCse && r.value.enableSimplification == st.enableSimplification
    ensures r.Ok? && !PointerOp(st.f.insts[iid].op) ==> KeepsPointers(st, r.value)
    ensures r.Ok? ==> var op := st.f.insts[iid].op;
      r.value.trace.instrs == st.trace.instrs + (if op == Nop || op == DefConst then [] else [iid])
  {
    UpdateTrackedState(cfg, Linked(st, iid), iid)
  }

  /** The value a table entry holds for the instruction's key, if CSE may be used. */
  function CseLookup(st: State, inst: IR.Instr): (r: Option<nat>)
    requires Valid(st)
    ensures r.Some? <==> st.enableCse && CanCSEOp(inst.op) && KeyOf(inst) in TableFor(st, inst.op)
    ensures r.Some? ==> (r.value < |st.f.values| && st.f.values[r.value].inst < |st.f.insts| &&
      KeyOf(st.f.insts[st.f.values[r.value].inst]) == KeyOf(inst))
  {
    var t := TableFor(st, inst.op);
    if st.enableCse && CanCSEOp(inst.op) && KeyOf(inst) in t then Some(t[KeyOf(inst)]) else None
  }

  /** The requirements on an instruction about to be emitted. */
  predicate Emittable(st: State, inst: IR.Instr) {
    IR.AllBelow(inst.srcs, |st.f.values|) &&
    (inst.target.Some? ==> inst.target.value < |st.f.insts|) &&
    inst.dsts == []
  }

  /** Clone the instruction into the arena and append it; its destination, if any, is the result. */
  function Emit(cfg: Config, st: State, inst: IR.Instr): (r: Result<(State, Option<nat>), Error>)
    requires Valid(st) && Emittable(st, inst)
    ensures r.Ok? ==> r.value.0.enableCse == st.enableCse && r.value.0.enableSimplification == st.enableSimplification
    ensures r.Ok? && !PointerOp(inst.op) ==> KeepsPointers(st, r.value.0)
    ensures r.Ok? ==> var (st', v) := r.value;
      Valid(st') && IR.Extends(st.f, st'.f) &&
      |st'.f.insts| > |st.f.insts| && st'.f.insts[|st.f.insts|] == inst.(dsts := st'.f.insts[|st.f.insts|].dsts) &&
      st'.trace.instrs == st.trace.instrs + (if inst.op == Nop || inst.op == DefConst then [] else [|st.f.insts|]) &&
      (v.Some? <==> HasDst(inst.op)) &&
      (v.Some? ==> (v.value == |st.f.values| && v.value < |st'.f.values| &&
         st'.f.values[v.value].inst == |st.f.insts| &&
         IR.DstType(cfg.vfx, st.f, inst) == Ok(st'.f.values[v.value].ty)))
  {
    match IR.CloneInstruction(cfg.vfx, st.f, inst)
    case Err(e) => Err(OutputFailed(e))
    case Ok((f1, iid)) =>
      ValidUnderExtension(st, f1);
      var st1 := st.(f := f1);
      assert DstsPointBack(f1, iid);
      match AppendInstruction(cfg, st1, iid)
      case Err(e) => Err(e)
      case Ok(st2) =>
        IR.ExtendsTrans(st.f, f1, st2.f);
        assert st2.f.insts[iid] == st2.f.insts[..|f1.insts|][iid];
        assert HasDst(inst.op) ==> st2.f.values[|st.f.values|] == st2.f.values[..|f1.values|][|st.f.values|];
        Ok((st2, if HasDst(inst.op) then Some(|st.f.values|) else None))
  }

  /**
   * optimizeInst: a CSE hit returns the earlier value and emits nothing;
   * otherwise the simplifier may supply a value (which must have a
   * defining instruction with a destination) or turn the instruction into
   * a Nop (nothing emitted, no value); otherwise the instruction is cloned
   * and appended.
   */
  function OptimizeInst(cfg: Config, st: State, inst: IR.Instr): (r: Result<(State, Option<nat>), Error>)
    requires Valid(st) && Emittable(st, inst)
    ensures r.Ok? ==> Valid(r.value.0) && IR.Extends(st.f, r.value.0.f)
    ensures r.Ok? ==> r.value.1.Some? ==> r.value.1.value < |r.value.0.f.values|
    ensures r.Ok? ==> r.value.0.enableCse == st.enableCse && r.value.0.enableSimplification == st.enableSimplification
    ensures r.Ok? && !PointerOp(inst.op) ==> KeepsPointers(st, r.value.0)
    ensures CseLookup(st, inst).Some? ==> r == Ok((st, CseLookup(st, inst)))
    ensures CseLookup(st, inst).None? && st.enableSimplification && cfg.simplify(st.f, inst).MadeNop? ==>
      r == Ok((st, None))
    ensures CseLookup(st, inst).None? && !st.enableSimplification ==> r == Emit(cfg, st, inst)
  {
    match CseLookup(st, inst)
    case Some(v) => Ok((st, Some(v)))
    case None =>
      if !st.enableSimplification then Emit(cfg, st, inst)
      else
        match cfg.simplify(st.f, inst)
        case Replaced(v) =>
          if v < |st.f.values| && st.f.values[v].inst < |st.f.insts| && HasDst(st.f.insts[st.f.values[v].inst].op)
          then Ok((st, Some(v)))
          else Err(SimplifiedWithoutDst)
        case MadeNop => Ok((st, None))
        case NoChange => Emit(cfg, st, inst)
  }

  /** The sources of `gen`'s argument list are allocated values. */
  predicate GenArgsOk(st: State, args: seq<IR.Arg>, srcs: IR.Srcs) {
    IR.ExtrasGiven(args) &&
    (srcs.SrcArray? ==> srcs.count <= |srcs.arr|) &&
    IR.AllBelow(IR.SrcsOf(srcs), |st.f.values|) &&
    (forall k | 0 <= k < |args| :: args[k].LabelArg? ==> args[k].l < |st.f.insts|)
  }

  /** Every label argument that reaches the instruction names an allocated instruction. */
  lemma ApplyArgsTarget(inst: IR.Instr, args: seq<IR.Arg>, n: nat)
    requires IR.ExtrasGiven(args) && IR.ApplyArgs(inst, args).Ok?
    requires inst.target.Some? ==> inst.target.value < n
    requires forall k | 0 <= k < |args| :: args[k].LabelArg? ==> args[k].l < n
    ensures IR.ApplyArgs(inst, args).value.target.Some? ==> IR.ApplyArgs(inst, args).value.target.value < n
    decreases |args|
  {
    if |args| > 0 {
      var inst' := match args[0]
        case LabelArg(l) => inst.(target := Some(l))
        case TypeArg(t) => inst.(typeParam := t)
        case ExtraArg(e) => inst.(extra := e);
      ApplyArgsTarget(inst', args[1..], n);
    }
  }

  /** gen: build the instruction (checking operands in debug builds) and optimize it. */
  function Gen(cfg: Config, st: State, op: Opcode, args: seq<IR.Arg>, srcs: IR.Srcs): (r: Result<(State, Option<nat>), Error>)
    requires Valid(st) && GenArgsOk(st, args, srcs)
    ensures r.Ok? ==> Valid(r.value.0) && IR.Extends(st.f, r.value.0.f)
    ensures r.Ok? ==> r.value.1.Some? ==> r.value.1.value < |r.value.0.f.values|
    ensures r.Ok? ==> r.value.0.enableCse == st.enableCse && r.value.0.enableSimplification == st.enableSimplification
    ensures r.Ok? && !PointerOp(op) ==> KeepsPointers(st, r.value.0)
    ensures r.Ok? && cfg.debug ==>
      exists inst :: IR.MakeInstruction(st.f, true, op, args, srcs) == Ok(inst) &&
        TC.OperandsOk(op, inst.typeParam, IR.Operands(st.f, IR.SrcsOf(srcs)))
    ensures IR.MakeInstruction(st.f, cfg.debug, op, args, srcs).Err? ==>
      r == Err(BuildFailed(IR.MakeInstruction(st.f, cfg.debug, op, args, srcs).error))
  {
    match IR.MakeInstruction(st.f, cfg.debug, op, args, srcs)
    case Err(e) => Err(BuildFailed(e))
    case Ok(inst) =>
      ApplyArgsTarget(IR.Transient(op), args, |st.f.insts|);
      OptimizeInst(cfg, st, inst)
  }
}

=== FILE: typecheck.dfy ===
/**
 * The two readings of the opcode catalog that look at a concrete
 * instruction: the type its destination gets, and the debug-build check
 * that its operands meet the opcode's source contract.
 */
module TypeCheck {
  import Ty = IRType
  import opened Opcodes
  import opened Wrappers

  /** What the operand checker can see of one source value. */
  datatype Operand = Operand(ty: Ty.Type, isConst: bool)

  // ---------------------------------------------------------------------
  // Destination types

  /** Why a destination type cannot be computed. */
  datatype OutputError =
    | NoDestination        // the opcode has no destination (ND)
    | SourceMissing(n: nat)  // DofS/DBox/DUnbox name a source that is not there
    | NotBoxable           // box() of a type outside Gen or already boxed
    | NotUnboxable         // unbox() of a type outside Gen

  /**
   * The type of the destination of an instruction with opcode `op`, type
   * parameter `typeParam` and source types `srcs`. The vector opcodes
   * (DVector) take their result from the vector-instruction effects
   * analysis, whose body is not part of this model; its answer is passed in
   * as `vectorValType`.
   */
  function OutputType(op: Opcode, typeParam: Ty.Type, srcs: seq<Ty.Type>, vectorValType: Ty.Type)
    : (r: Result<Ty.Type, OutputError>)
    ensures Info(op).dst.D? ==> r == Ok(Info(op).dst.t)
    ensures Info(op).dst.DofS? ==>
      (Info(op).dst.n < |srcs| <==> r.Ok?) && (r.Ok? ==> r.value == srcs[Info(op).dst.n])
    ensures Info(op).dst.DUnbox? && Info(op).dst.n < |srcs| && Ty.SubtypeOf(srcs[Info(op).dst.n], Ty.Gen) ==>
      r.Ok? && Ty.NotBoxed(r.value) && r.value == Ty.Unbox(srcs[Info(op).dst.n])
    ensures Info(op).dst.DBox? && r.Ok? ==>
      var n := Info(op).dst.n;
      n < |srcs| && Ty.SubtypeOf(srcs[n], Ty.Gen) && Ty.NotBoxed(srcs[n]) &&
      Ty.IsBoxed(r.value) && r.value == Ty.Box(srcs[n])
    ensures Info(op).dst.DParam? ==> r == Ok(typeParam)
    ensures Info(op).dst.DLabel? ==> r == Ok(Ty.None)
    ensures Info(op).dst.DVector? ==> r == Ok(vectorValType)
    ensures r.Err? && r.error == NoDestination <==> Info(op).dst.ND?
  {
    match Info(op).dst
    case ND => Err(NoDestination)
    case D(t) => Ok(t)
    case DofS(n) => if n < |srcs| then Ok(srcs[n]) else Err(SourceMissing(n))
    case DUnbox(n) =>
      if n >= |srcs| then Err(SourceMissing(n))
      else if !Ty.SubtypeOf(srcs[n], Ty.Gen) then Err(NotUnboxable)
      else Ok(Ty.Unbox(srcs[n]))
    case DBox(n) =>
      if n >= |srcs| then Err(SourceMissing(n))
      else if !(Ty.SubtypeOf(srcs[n], Ty.Gen) && Ty.NotBoxed(srcs[n])) then Err(NotBoxable)
      else Ok(Ty.Box(srcs[n]))
    case DParam => Ok(typeParam)
    case DLabel => Ok(Ty.None)
    case DVector => Ok(vectorValType)
  }

  // ---------------------------------------------------------------------
  // Source contracts

  /**
   * The union of the listed types as the checker builds it. The fold starts
   * from None rather than Bottom, so None is always part of the result.
   */
  function BuildUnion(ts: seq<Ty.Type>): (r: Ty.Type)
    ensures Ty.SubtypeOf(Ty.None, r)
    decreases |ts|
  {
    if |ts| == 0 then Ty.None
    else
      var rest := BuildUnion(ts[1..]);
      UnionMonotone(ts[0], rest);
      SubtypeTrans(Ty.None, rest, ts[0] | rest);
      ts[0] | rest
  }

  lemma SubtypeTrans(a: Ty.Type, b: Ty.Type, c: Ty.Type)
    requires Ty.SubtypeOf(a, b) && Ty.SubtypeOf(b, c)
    ensures Ty.SubtypeOf(a, c)
  {
    Ty.SubtypePartialOrder(a, b, c);
  }

  /** Every listed type lies within BuildUnion. */
  lemma {:induction false} BuildUnionUpper(ts: seq<Ty.Type>, i: nat)
    requires i < |ts|
    ensures Ty.SubtypeOf(ts[i], BuildUnion(ts))
    decreases i
  {
    UnionMonotone(ts[0], BuildUnion(ts[1..]));
    if i > 0 {
      assert ts[1..][i - 1] == ts[i];
      BuildUnionUpper(ts[1..], i - 1);
      SubtypeTrans(ts[i], BuildUnion(ts[1..]), BuildUnion(ts));
    }
  }

  lemma UnionMonotone(a: Ty.Type, b: Ty.Type)
    ensures Ty.SubtypeOf(a, a | b) && Ty.SubtypeOf(b, a | b)
  {
  }

  lemma UnionBelow(a: Ty.Type, b: Ty.Type, u: Ty.Type)
    requires Ty.SubtypeOf(a, u) && Ty.SubtypeOf(b, u)
    ensures Ty.SubtypeOf(a | b, u)
  {
  }

  /** BuildUnion is the least type containing None and every listed type. */
  lemma {:induction false} BuildUnionLeast(ts: seq<Ty.Type>, u: Ty.Type)
    requires Ty.SubtypeOf(Ty.None, u)
    requires forall i | 0 <= i < |ts| :: Ty.SubtypeOf(ts[i], u)
    ensures Ty.SubtypeOf(BuildUnion(ts), u)
    decreases |ts|
  {
    if |ts| > 0 {
      var tail := ts[1..];
      assert Ty.SubtypeOf(ts[0], u);
      forall i | 0 <= i < |tail|
        ensures Ty.SubtypeOf(tail[i], u)
      {
        assert tail[i] == ts[i + 1];
      }
      BuildUnionLeast(tail, u);
      UnionBelow(ts[0], BuildUnion(tail), u);
    }
  }

  /** Whether one operand meets one operand contract. */
  predicate Accepts(c: SrcCheck, o: Operand) {
    match c
    case S(ts) => Ty.SubtypeOf(o.ty, BuildUnion(ts))
    case C(t) => o.isConst && Ty.SubtypeOf(o.ty, t)
  }

  /** S(t1..tn) accepts every operand whose type lies within one of the ti. */
  lemma SAcceptsListedTypes(ts: seq<Ty.Type>, o: Operand, i: nat)
    requires i < |ts| && Ty.SubtypeOf(o.ty, ts[i])
    ensures Accepts(S(ts), o)
  {
    BuildUnionUpper(ts, i);
    SubtypeTrans(o.ty, ts[i], BuildUnion(ts));
  }

  /**
   * S(t1..tn) rejects every operand with a bit outside all of the ti and
   * outside None: together with SAcceptsListedTypes, it accepts exactly the
   * subtypes of t1|..|tn|None.
   */
  lemma SRejectsOtherTypes(ts: seq<Ty.Type>, o: Operand, u: Ty.Type)
    requires Ty.SubtypeOf(Ty.None, u)
    requires forall i | 0 <= i < |ts| :: Ty.SubtypeOf(ts[i], u)
    requires !Ty.SubtypeOf(o.ty, u)
    ensures !Accepts(S(ts), o)
  {
    BuildUnionLeast(ts, u);
    if Ty.SubtypeOf(o.ty, BuildUnion(ts)) {
      SubtypeTrans(o.ty, BuildUnion(ts), u);
    }
  }

  /** Because the union includes None, a None-typed value passes every S check. */
  lemma NoneTypedOperandPassesS(ts: seq<Ty.Type>, isConst: bool)
    ensures Accepts(S(ts), Operand(Ty.None, isConst))
  {
  }

  // ---------------------------------------------------------------------
  // The operand checker

  /** What the debug-build checker reports when it bails out. */
  datatype CheckError =
    | InvalidSrcNum             // DofS/DBox/DUnbox name a missing source
    | MissingTypeParam          // DParam with a None type parameter
    | ExpectedNoOperands        // NA with sources
    | TooFewOperands            // the contract names more operands than there are
    | OperandMismatch(index: nat) // operand `index` fails its check
    | TooManyOperands(expected: nat) // operands remain after the contract ends

  /** The destination half of the check. */
  function CheckDst(rule: DstRule, typeParam: Ty.Type, numSrcs: nat): Option<CheckError> {
    match rule
    case DofS(n) => if n < numSrcs then None else Some(InvalidSrcNum)
    case DBox(n) => if n < numSrcs then None else Some(InvalidSrcNum)
    case DUnbox(n) => if n < numSrcs then None else Some(InvalidSrcNum)
    case DParam => if typeParam != Ty.None then None else Some(MissingTypeParam)
    case _ => None
  }

  /**
   * The per-operand walk: `i` is the checker's current-source counter, which
   * each check advances by one, and the count check runs when the contract
   * is exhausted.
   */
  function CheckFrom(checks: seq<SrcCheck>, srcs: seq<Operand>, i: nat): (r: Option<CheckError>)
    requires i <= |checks| && i <= |srcs|
    ensures r.None? <==>
      |srcs| == |checks| && forall j | i <= j < |checks| :: Accepts(checks[j], srcs[j])
    ensures r == Some(TooFewOperands) <==>
      |srcs| < |checks| && forall j | i <= j < |checks| && j < |srcs| :: Accepts(checks[j], srcs[j])
    ensures r.Some? && r.value.OperandMismatch? ==>
      var k := r.value.index;
      i <= k < |checks| && k < |srcs| && !Accepts(checks[k], srcs[k]) &&
      forall j | i <= j < k :: Accepts(checks[j], srcs[j])
    ensures r.Some? && r.value.TooManyOperands? ==>
      r.value.expected == |checks| < |srcs| &&
      forall j | i <= j < |checks| :: Accepts(checks[j], srcs[j])
    ensures r.Some? ==> r.value.TooFewOperands? || r.value.OperandMismatch? || r.value.TooManyOperands?
    decreases |checks| - i
  {
    if i == |checks| then
      if |srcs| == i then None else Some(TooManyOperands(i))
    else if i == |srcs| then Some(TooFewOperands)
    else if !Accepts(checks[i], srcs[i]) then Some(OperandMismatch(i))
    else CheckFrom(checks, srcs, i + 1)
  }

  /** The debug-build operand checker for one instruction. */
  function CheckOperands(op: Opcode, typeParam: Ty.Type, srcs: seq<Operand>): (r: Option<CheckError>)
    ensures CheckDst(Info(op).dst, typeParam, |srcs|).Some? ==> r == CheckDst(Info(op).dst, typeParam, |srcs|)
    ensures r.None? <==> OperandsOk(op, typeParam, srcs)
  {
    var dstResult := CheckDst(Info(op).dst, typeParam, |srcs|);
    if dstResult.Some? then dstResult
    else
      match Info(op).src
      case NA => if |srcs| == 0 then None else Some(ExpectedNoOperands)
      case SUnk => None
      case Checks(cs) => CheckFrom(cs, srcs, 0)
  }

  /** The declarative reading of the catalog's destination rule. */
  predicate DstOk(rule: DstRule, typeParam: Ty.Type, numSrcs: nat) {
    (rule.DofS? || rule.DBox? || rule.DUnbox? ==> rule.n < numSrcs) &&
    (rule.DParam? ==> typeParam != Ty.None)
  }

  /** The declarative reading of the catalog's source contract. */
  predicate SrcsOk(info: SrcInfo, srcs: seq<Operand>) {
    match info
    case NA => |srcs| == 0
    case SUnk => true
    case Checks(cs) => |srcs| == |cs| && forall i | 0 <= i < |cs| :: Accepts(cs[i], srcs[i])
  }

  predicate OperandsOk(op: Opcode, typeParam: Ty.Type, srcs: seq<Operand>) {
    DstOk(Info(op).dst, typeParam, |srcs|) && SrcsOk(Info(op).src, srcs)
  }

  /**
   * Reports name the first problem: an operand mismatch at `k` means every
   * earlier operand passed, and running out of operands means every operand
   * there was passed.
   */
  lemma {:induction false} FirstFailureReported(cs: seq<SrcCheck>, srcs: seq<Operand>)
    ensures CheckFrom(cs, srcs, 0) == Some(TooFewOperands) ==>
      |srcs| < |cs| && forall j | 0 <= j < |srcs| :: Accepts(cs[j], srcs[j])
    ensures CheckFrom(cs, srcs, 0) == Some(TooManyOperands(|cs|)) <==>
      |srcs| > |cs| && forall j | 0 <= j < |cs| :: Accepts(cs[j], srcs[j])
  {
    var r := CheckFrom(cs, srcs, 0);
    if |srcs| > |cs| && forall j | 0 <= j < |cs| :: Accepts(cs[j], srcs[j]) {
      TooManyWhenAllPass(cs, srcs, 0);
    }
  }

  lemma {:induction false} TooManyWhenAllPass(cs: seq<SrcCheck>, srcs: seq<Operand>, i: nat)
    requires i <= |cs| < |srcs|
    requires forall j | i <= j < |cs| :: Accepts(cs[j], srcs[j])
    ensures CheckFrom(cs, srcs, i) == Some(TooManyOperands(|cs|))
    decreases |cs| - i
  {
    if i < |cs| {
      TooManyWhenAllPass(cs, srcs, i + 1);
    }
  }

  /**
   * An Int-typed addition of a constant Int and a string is refused at the
   * second operand; without its type parameter it is refused before any
   * operand is looked at.
   */
  lemma AddOfStringRefused()
    ensures CheckOperands(OpAdd, Ty.Int, [Operand(Ty.Int, true), Operand(Ty.Str, false)])
      == Some(OperandMismatch(1))
    ensures CheckOperands(OpAdd, Ty.None, [Operand(Ty.Int, true), Operand(Ty.Int, false)])
      == Some(MissingTypeParam)
  {
    var srcs := [Operand(Ty.Int, true), Operand(Ty.Str, false)];
    var cs := Info(OpAdd).src.checks;
    var num := [Ty.Int, Ty.Bool, Ty.Dbl];
    assert cs == [S(num), S(num)];
    assert BuildUnion(num[2..]) == Ty.Dbl | Ty.None;
    assert BuildUnion(num[1..]) == Ty.Bool | (Ty.Dbl | Ty.None);
    assert BuildUnion(num) == 0x8_0000_0000_001c;
    assert Accepts(cs[0], srcs[0]);
    assert !Accepts(cs[1], srcs[1]);
  }
}

=== FILE: vectorhelpers.dfy ===
/**
 * Selecting a member-instruction helper: the bool and enum arguments that
 * pick the helper are packed into a bitmask that indexes a table of
 * function pointers, and the kind of key a helper is specialised for is
 * derived from the key value's type.
 */
module VectorHelpers {
  import Ty = IRType
  import opened Wrappers

  /** The C++ type of a selector argument, which fixes how many bits it takes. */
  datatype ArgKind = Bool | KeyTypeArg | MInstrAttrArg | IncDecOpArg | SetOpOpArg | Other(sizeBytes: nat)

  /** One selector argument: its type and the integer it converts to. */
  datatype Arg = Arg(kind: ArgKind, value: int)

  /** The key kinds a helper can be specialised for. */
  datatype KeyType = AnyKey | StrKey | IntKey

  /** `static_assert` on the packed width: the last offset must stay below this. */
  const MaxBits: nat := 31

  /** `x << k`, as repeated doubling. */
  function Shl(x: int, k: nat): int
  {
    if k == 0 then x else 2 * Shl(x, k - 1)
  }

  function Pow2(k: nat): (r: nat)
    ensures r >= 1
  {
    if k == 0 then 1 else 2 * Pow2(k - 1)
  }

  lemma {:induction false} ShlPow2(k: nat)
    ensures Shl(1, k) == Pow2(k)
  {
    if k > 0 {
      ShlPow2(k - 1);
    }
  }

  lemma {:induction false} ShlAdd(x: int, y: int, k: nat)
    ensures Shl(x + y, k) == Shl(x, k) + Shl(y, k)
  {
    if k > 0 {
      ShlAdd(x, y, k - 1);
    }
  }

  lemma {:induction false} ShlShl(x: int, a: nat, b: nat)
    ensures Shl(Shl(x, a), b) == Shl(x, a + b)
    decreases b
  {
    if b > 0 {
      ShlShl(x, a, b - 1);
    }
  }

  lemma {:induction false} ShlMono(x: int, y: int, k: nat)
    requires x <= y
    ensures Shl(x, k) <= Shl(y, k)
  {
    if k > 0 {
      ShlMono(x, y, k - 1);
    }
  }

  lemma {:induction false} ShlNonNeg(x: int, k: nat)
    requires x >= 0
    ensures Shl(x, k) >= 0
  {
    if k > 0 {
      ShlNonNeg(x, k - 1);
    }
  }

  /** `x & ((1 << w) - 1)` on the two's-complement bits of `x`: the low `w` bits, one at a time. */
  function Low(x: int, w: nat): (r: int)
    decreases w
  {
    if w == 0 then 0 else x % 2 + 2 * Low(x / 2, w - 1)
  }

  lemma {:induction false} LowBound(x: int, w: nat)
    ensures 0 <= Low(x, w) < Shl(1, w)
    decreases w
  {
    if w > 0 {
      LowBound(x / 2, w - 1);
    }
  }

  lemma {:induction false} LowFits(x: int, w: nat)
    requires 0 <= x < Shl(1, w)
    ensures Low(x, w) == x
    decreases w
  {
    if w > 0 {
      LowFits(x / 2, w - 1);
    }
  }

  /** A low part below `1 << w` and a high part shifted by `w` can be told apart again. */
  lemma {:induction false} SplitUnique(t1: int, r1: int, t2: int, r2: int, w: nat)
    requires 0 <= t1 < Shl(1, w) && 0 <= t2 < Shl(1, w)
    requires t1 + Shl(r1, w) == t2 + Shl(r2, w)
    ensures t1 == t2 && r1 == r2
    decreases w
  {
    if w > 0 {
      SplitUnique(t1 / 2, r1, t2 / 2, r2, w - 1);
    }
  }

  /** `bitWidth<T>()`: how many bits an argument of this type takes in the mask. */
  function BitWidth(k: ArgKind): (r: nat)
    ensures k.Other? ==> r == 8 * k.sizeBytes
    ensures !k.Other? ==> 1 <= r <= 4
  {
    match k
    case Bool => 1
    case KeyTypeArg => 2
    case MInstrAttrArg => 4
    case IncDecOpArg => 2
    case SetOpOpArg => 4
    case Other(n) => 8 * n
  }

  /**
   * The values each argument type takes: the three key kinds, the four
   * attribute flags, the four increment/decrement operators below
   * `IncDec_invalid` (4) and the eleven compound-assignment operators below
   * `SetOp_invalid` (11).
   */
  predicate ValueFits(a: Arg) {
    match a.kind
    case Bool => 0 <= a.value <= 1
    case KeyTypeArg => 0 <= a.value < 3
    case MInstrAttrArg => 0 <= a.value < 16
    case IncDecOpArg => 0 <= a.value < 4
    case SetOpOpArg => 0 <= a.value < 11
    case Other(n) => 0 <= a.value < Pow2(8 * n)
  }

  /** `multiBitWidth`: the widths of all arguments added up. */
  function MultiBitWidth(args: seq<Arg>): (r: nat)
    ensures |args| == 0 ==> r == 0
  {
    if |args| == 0 then 0 else BitWidth(args[0].kind) + MultiBitWidth(args[1..])
  }

  /** The argument cut to its width: the unsigned conversion masked with `(1 << width) - 1`. */
  function Truncate(a: Arg): (r: nat)
    ensures r < Shl(1, BitWidth(a.kind))
  {
    LowBound(a.value, BitWidth(a.kind));
    Low(a.value, BitWidth(a.kind))
  }

  /**
   * The packed fields relative to the first one: each argument's truncated
   * bits sit above those of the arguments before it. The source ORs the
   * shifted fields; they occupy disjoint bits, so the OR is this sum.
   */
  function Packed(args: seq<Arg>): (r: int)
  {
    if |args| == 0 then 0 else Truncate(args[0]) + Shl(Packed(args[1..]), BitWidth(args[0].kind))
  }

  /**
   * `buildBitmask<bit>`: the table index for the arguments, their fields
   * starting at offset `bit`. The width check of the source is a compile-time
   * assertion, so it is a precondition here.
   */
  function BuildBitmask(args: seq<Arg>, bit: nat): (r: int)
    requires bit + MultiBitWidth(args) < MaxBits
  {
    if |args| == 0 then 0
    else Shl(Truncate(args[0]), bit) + BuildBitmask(args[1..], bit + BitWidth(args[0].kind))
  }

  /** The mask is the packed fields shifted up to `bit`. */
  lemma {:induction false} BuildBitmaskShifts(args: seq<Arg>, bit: nat)
    requires bit + MultiBitWidth(args) < MaxBits
    ensures BuildBitmask(args, bit) == Shl(Packed(args), bit)
    decreases |args|
  {
    if |args| > 0 {
      var w := BitWidth(args[0].kind);
      var t, rest := Truncate(args[0]), Packed(args[1..]);
      BuildBitmaskShifts(args[1..], bit + w);
      ShlShl(rest, w, bit);
      ShlAdd(t, Shl(rest, w), bit);
      assert Packed(args) == t + Shl(rest, w);
      assert BuildBitmask(args, bit) == Shl(t, bit) + BuildBitmask(args[1..], bit + w);
    } else {
      ShlAdd(0, 0, bit);
    }
  }

  /** The packed fields fit in the combined width. */
  lemma {:induction false} PackedBound(args: seq<Arg>)
    ensures 0 <= Packed(args) < Shl(1, MultiBitWidth(args))
    decreases |args|
  {
    if |args| > 0 {
      var w := BitWidth(args[0].kind);
      var wr := MultiBitWidth(args[1..]);
      var rest := Packed(args[1..]);
      PackedBound(args[1..]);
      ShlNonNeg(rest, w);
      ShlAdd(rest, 1, w);
      ShlMono(rest + 1, Shl(1, wr), w);
      ShlShl(1, wr, w);
    }
  }

  /**
   * Every mask indexes inside the table `BUILD_OPTAB_ARG` allocates, which
   * has `1 << multiBitWidth` slots.
   */
  lemma BitmaskInTable(args: seq<Arg>)
    requires MultiBitWidth(args) < MaxBits
    ensures 0 <= BuildBitmask(args, 0) < Pow2(MultiBitWidth(args))
  {
    BuildBitmaskShifts(args, 0);
    PackedBound(args);
    ShlPow2(MultiBitWidth(args));
    assert Shl(Packed(args), 0) == Packed(args);
  }

  /** Same argument types, same kinds of values. */
  predicate SameKinds(a: seq<Arg>, b: seq<Arg>) {
    |a| == |b| && forall i | 0 <= i < |a| :: a[i].kind == b[i].kind
  }

  /** Arguments of the same types that give the same packed fields agree on every truncated argument. */
  lemma {:induction false} PackedInjective(a: seq<Arg>, b: seq<Arg>)
    requires SameKinds(a, b) && Packed(a) == Packed(b)
    ensures forall i | 0 <= i < |a| :: Truncate(a[i]) == Truncate(b[i])
    decreases |a|
  {
    if |a| > 0 {
      SplitUnique(Truncate(a[0]), Packed(a[1..]), Truncate(b[0]), Packed(b[1..]), BitWidth(a[0].kind));
      assert SameKinds(a[1..], b[1..]) by {
        forall i | 0 <= i < |a| - 1 ensures a[1..][i].kind == b[1..][i].kind { assert a[i + 1].kind == b[i + 1].kind; }
      }
      PackedInjective(a[1..], b[1..]);
      forall i | 1 <= i < |a| ensures Truncate(a[i]) == Truncate(b[i]) {
        assert a[i] == a[1..][i - 1] && b[i] == b[1..][i - 1];
      }
    }
  }

  /** An argument within the range of its type survives truncation unchanged. */
  lemma TruncateFits(a: Arg)
    requires ValueFits(a)
    ensures Truncate(a) == a.value
  {
    var w := BitWidth(a.kind);
    ShlPow2(w);
    if !a.kind.Other? {
      assert Shl(1, 1) == 2 && Shl(1, 2) == 4 && Shl(1, 4) == 16 by {
        assert Shl(1, 3) == 8;
      }
    }
    LowFits(a.value, w);
  }

  predicate AllFit(args: seq<Arg>) {
    forall i | 0 <= i < |args| :: ValueFits(args[i])
  }

  /** Distinct argument lists of the same types, each within range, select distinct table slots. */
  lemma BitmaskDistinct(a: seq<Arg>, b: seq<Arg>)
    requires SameKinds(a, b) && AllFit(a) && AllFit(b) && a != b
    requires MultiBitWidth(a) < MaxBits && MultiBitWidth(b) < MaxBits
    ensures BuildBitmask(a, 0) != BuildBitmask(b, 0)
  {
    BuildBitmaskShifts(a, 0);
    BuildBitmaskShifts(b, 0);
    if Packed(a) == Packed(b) {
      PackedInjective(a, b);
      forall i | 0 <= i < |a| ensures a[i] == b[i] {
        TruncateFits(a[i]);
        TruncateFits(b[i]);
      }
    }
  }

  // ---------------------------------------------------------------------
  // The helper table

  /** A helper table: the argument types it is indexed by and its slots. */
  datatype Table<H> = Table(kinds: seq<ArgKind>, slots: seq<Option<H>>)

  datatype TableError = SlotTaken(index: nat) | NoHelper(index: nat) | WrongArguments

  function KindWidth(kinds: seq<ArgKind>): nat {
    if |kinds| == 0 then 0 else BitWidth(kinds[0]) + KindWidth(kinds[1..])
  }

  predicate Matches(kinds: seq<ArgKind>, args: seq<Arg>) {
    |args| == |kinds| && forall i | 0 <= i < |args| :: args[i].kind == kinds[i]
  }

  lemma {:induction false} MatchesWidth(kinds: seq<ArgKind>, args: seq<Arg>)
    requires Matches(kinds, args)
    ensures MultiBitWidth(args) == KindWidth(kinds)
    decreases |args|
  {
    if |args| > 0 {
      assert Matches(kinds[1..], args[1..]) by {
        forall i | 0 <= i < |args| - 1 ensures args[1..][i].kind == kinds[1..][i] { assert args[i + 1].kind == kinds[i + 1]; }
      }
      MatchesWidth(kinds[1..], args[1..]);
    }
  }

  /** The table `BUILD_OPTAB_ARG` allocates: `1 << multiBitWidth` empty slots. */
  function NewTable<H>(kinds: seq<ArgKind>): (r: Table<H>)
    requires KindWidth(kinds) < MaxBits
    ensures r.kinds == kinds && |r.slots| == Pow2(KindWidth(kinds))
    ensures forall i | 0 <= i < |r.slots| :: r.slots[i].None?
  {
    Table(kinds, seq(Pow2(KindWidth(kinds)), _ => None))
  }

  predicate TableOk<H>(t: Table<H>) {
    KindWidth(t.kinds) < MaxBits && |t.slots| == Pow2(KindWidth(t.kinds))
  }

  /** The slot for some arguments, or an error if they are not of the table's types. */
  function SlotOf<H>(t: Table<H>, args: seq<Arg>): (r: Result<nat, TableError>)
    requires TableOk(t)
    ensures r.Ok? ==> r.value < |t.slots| && Matches(t.kinds, args) && MultiBitWidth(args) < MaxBits && r.value == BuildBitmask(args, 0)
    ensures r.Err? <==> !Matches(t.kinds, args)
  {
    if !Matches(t.kinds, args) then Err(WrongArguments)
    else
      MatchesWidth(t.kinds, args);
      BitmaskInTable(args);
      Ok(BuildBitmask(args, 0))
  }

  /** `FILL_ROW`: store a helper in the slot for its arguments, which must still be empty. */
  function FillRow<H>(t: Table<H>, h: H, args: seq<Arg>): (r: Result<Table<H>, TableError>)
    requires TableOk(t)
    ensures r.Ok? ==> TableOk(r.value) && r.value.kinds == t.kinds
    ensures r.Ok? ==> SlotOf(t, args).Ok? && r.value.slots == t.slots[SlotOf(t, args).value := Some(h)]
    ensures SlotOf(t, args).Ok? && t.slots[SlotOf(t, args).value].Some? ==> r == Err(SlotTaken(SlotOf(t, args).value))
  {
    match SlotOf(t, args)
    case Err(e) => Err(e)
    case Ok(i) =>
      if t.slots[i].Some? then Err(SlotTaken(i))
      else Ok(t.(slots := t.slots[i := Some(h)]))
  }

  /** Filling a table row by row. */
  function FillRows<H>(t: Table<H>, rows: seq<(H, seq<Arg>)>): (r: Result<Table<H>, TableError>)
    requires TableOk(t)
    ensures r.Ok? ==> TableOk(r.value) && r.value.kinds == t.kinds
    decreases |rows|
  {
    if |rows| == 0 then Ok(t)
    else match FillRow(t, rows[0].0, rows[0].1)
      case Err(e) => Err(e)
      case Ok(t') => FillRows(t', rows[1..])
  }

  /** The lookup after `BUILD_OPTAB_ARG`: the slot for the arguments must hold a helper. */
  function Lookup<H>(t: Table<H>, args: seq<Arg>): (r: Result<H, TableError>)
    requires TableOk(t)
    ensures r.Ok? ==> SlotOf(t, args).Ok? && t.slots[SlotOf(t, args).value] == Some(r.value)
  {
    match SlotOf(t, args)
    case Err(e) => Err(e)
    case Ok(i) => if t.slots[i].Some? then Ok(t.slots[i].value) else Err(NoHelper(i))
  }

  /** Rows whose arguments are of the table's types, within range, and pairwise different. */
  predicate GoodRows<H>(kinds: seq<ArgKind>, rows: seq<(H, seq<Arg>)>) {
    && (forall i | 0 <= i < |rows| :: Matches(kinds, rows[i].1) && AllFit(rows[i].1))
    && (forall i, j | 0 <= i < j < |rows| :: rows[i].1 != rows[j].1)
  }

  /** The rows' slots are still empty. */
  predicate SlotsFree<H>(t: Table<H>, rows: seq<(H, seq<Arg>)>)
    requires TableOk(t)
  {
    forall i | 0 <= i < |rows| :: SlotOf(t, rows[i].1).Ok? && t.slots[SlotOf(t, rows[i].1).value].None?
  }

  /**
   * Filling distinct in-range rows into empty slots never trips the
   * assertion that a slot is written once, and afterwards each row's
   * arguments look up its helper.
   */
  lemma {:induction false} FillRowsSucceeds<H>(t: Table<H>, rows: seq<(H, seq<Arg>)>)
    requires TableOk(t) && GoodRows(t.kinds, rows) && SlotsFree(t, rows)
    ensures FillRows(t, rows).Ok?
    ensures forall i | 0 <= i < |rows| :: Lookup(FillRows(t, rows).value, rows[i].1) == Ok(rows[i].0)
    decreases |rows|
  {
    if |rows| > 0 {
      var args0 := rows[0].1;
      var i0 := SlotOf(t, args0).value;
      var t' := FillRow(t, rows[0].0, args0).value;
      var rest := rows[1..];
      assert GoodRows(t.kinds, rest) by {
        forall i, j | 0 <= i < j < |rest| ensures rest[i].1 != rest[j].1 { assert rest[i] == rows[i + 1] && rest[j] == rows[j + 1]; }
      }
      MatchesWidth(t.kinds, args0);
      forall i | 0 <= i < |rest| ensures SlotOf(t', rest[i].1) == SlotOf(t, rest[i].1) && SlotOf(t, rest[i].1).value != i0 {
        assert rest[i] == rows[i + 1];
        MatchesWidth(t.kinds, rest[i].1);
        BitmaskDistinct(args0, rest[i].1);
      }
      FillRowsSucceeds(t', rest);
      var final := FillRows(t, rows).value;
      assert final == FillRows(t', rest).value;
      forall i | 0 <= i < |rows| ensures Lookup(final, rows[i].1) == Ok(rows[i].0) {
        if i > 0 {
          assert rows[i] == rest[i - 1];
        } else {
          FillKeeps(t', rest, i0);
        }
      }
    }
  }

  /** Filling rows whose slots differ from `i` leaves slot `i` alone. */
  lemma {:induction false} FillKeeps<H>(t: Table<H>, rows: seq<(H, seq<Arg>)>, i: nat)
    requires TableOk(t) && i < |t.slots| && FillRows(t, rows).Ok?
    requires forall k | 0 <= k < |rows| :: SlotOf(t, rows[k].1).Ok? && SlotOf(t, rows[k].1).value != i
    ensures FillRows(t, rows).value.slots[i] == t.slots[i]
    decreases |rows|
  {
    if |rows| > 0 {
      var t' := FillRow(t, rows[0].0, rows[0].1).value;
      forall k | 0 <= k < |rows| - 1 ensures SlotOf(t', rows[1..][k].1).Ok? && SlotOf(t', rows[1..][k].1).value != i {
        assert rows[1..][k] == rows[k + 1];
      }
      FillKeeps(t', rows[1..], i);
    }
  }

  // ---------------------------------------------------------------------
  // Key types

  /**
   * `getKeyType`: boxed keys go through the generic path; a string or an
   * integer key gets the specialised path when it is a constant or the
   * helper takes non-literal keys of that kind. The caller promises the
   * type is statically known.
   */
  function GetKeyType(t: Ty.Type, isConst: bool, nonLitStr: bool, nonLitInt: bool): (r: KeyType)
    requires Ty.IsStaticallyKnown(t)
  {
    if Ty.IsBoxed(t) then AnyKey
    else if (isConst || nonLitStr) && Ty.IsString(t) then StrKey
    else if (isConst || nonLitInt) && Ty.SubtypeOf(t, Ty.Int) then IntKey
    else AnyKey
  }

  /** A specialised key kind is only chosen for a key of that kind, and never for a boxed one. */
  lemma KeyTypeSound(t: Ty.Type, isConst: bool, nonLitStr: bool, nonLitInt: bool)
    requires Ty.IsStaticallyKnown(t)
    ensures var r := GetKeyType(t, isConst, nonLitStr, nonLitInt);
      && (r == StrKey <==> !Ty.IsBoxed(t) && Ty.IsString(t) && (isConst || nonLitStr))
      && (r == IntKey <==> !Ty.IsBoxed(t) && !(Ty.IsString(t) && (isConst || nonLitStr)) && Ty.SubtypeOf(t, Ty.Int) && (isConst || nonLitInt))
      && (r == StrKey ==> Ty.SubtypeOf(t, Ty.Str))
      && (r == IntKey ==> Ty.SubtypeOf(t, Ty.Int))
  {
  }

  /** `getKeyType(key)`: only constant keys are specialised. */
  function GetKeyTypeConst(t: Ty.Type, isConst: bool): (r: KeyType)
    requires Ty.IsStaticallyKnown(t)
    ensures !isConst ==> r == AnyKey
  {
    GetKeyType(t, isConst, false, false)
  }

  /** `getKeyTypeS(key)`: non-literal strings are specialised too. */
  function GetKeyTypeS(t: Ty.Type, isConst: bool): (r: KeyType)
    requires Ty.IsStaticallyKnown(t)
    ensures !isConst ==> r != IntKey
  {
    GetKeyType(t, isConst, true, false)
  }

  /** `getKeyTypeIS(key)`: non-literal strings and integers are specialised too. */
  function GetKeyTypeIS(t: Ty.Type, isConst: bool): (r: KeyType)
    requires Ty.IsStaticallyKnown(t)
    ensures r == GetKeyType(t, true, false, false)
  {
    GetKeyType(t, isConst, true, true)
  }

  /** Accepting more non-literal keys never takes a specialisation away. */
  lemma KeyTypeVariantsMonotone(t: Ty.Type, isConst: bool)
    requires Ty.IsStaticallyKnown(t)
    ensures GetKeyTypeConst(t, isConst) != AnyKey ==> GetKeyTypeS(t, isConst) == GetKeyTypeConst(t, isConst)
    ensures GetKeyTypeS(t, isConst) != AnyKey ==> GetKeyTypeIS(t, isConst) == GetKeyTypeS(t, isConst)
  {
  }
}

=== FILE: wrappers.dfy ===
/**
 * Failure-compatible wrappers shared by every module of the model: an
 * optional value (the source's nullable pointers) and a result that is
 * either a value or an error (the source's exceptions, fatal errors and
 * failed debug assertions).
 */
module Wrappers {

  datatype Option<+T> = None | Some(value: T) {
    predicate IsFailure() {
      None?
    }

    function PropagateFailure<U>(): Option<U>
      requires None?
    {
      None
    }

    function Extract(): T
      requires Some?
    {
      value
    }

    function GetOr(default: T): T {
      match this
      case Some(v) => v
      case None => default
    }
  }

  datatype Result<+T, +E> = Ok(value: T) | Err(error: E) {
    predicate IsFailure() {
      Err?
    }

    function PropagateFailure<U>(): Result<U, E>
      requires Err?
    {
      Err(error)
    }

    function Extract(): T
      requires Ok?
    {
      value
    }
  }
}

=== FILE: zend_array.dfy ===
/**
 * The Zend-compatible ordered hash array. The bucket chains and the
 * doubly linked list are abstracted into one insertion-ordered sequence of
 * key/value entries; what remains is the next free integer key, the
 * internal position (an index into the entries) and the power-of-two size
 * of the bucket table, which only matters for when the table grows.
 */
module ZendArray {
  import opened Wrappers

  const Int64Min: int := -0x8000_0000_0000_0000
  const Int64Max: int := 0x7fff_ffff_ffff_ffff
  const TwoTo64: int := 0x1_0000_0000_0000_0000
  /** `init` caps the table at this size so that the 32-bit size cannot overflow. */
  const MaxTableSize: nat := 0x8000_0000

  predicate InInt64(x: int) { Int64Min <= x <= Int64Max }

  /** Signed 64-bit arithmetic wraps around. */
  function Wrap64(x: int): (r: int)
    ensures InInt64(r)
    ensures InInt64(x) ==> r == x
    ensures x == Int64Max + 1 ==> r == Int64Min
    ensures x == Int64Min - 1 ==> r == Int64Max
  {
    (x - Int64Min) % TwoTo64 + Int64Min
  }

  datatype Key = IntKey(i: int) | StrKey(s: string)

  datatype Entry<V> = Entry(key: Key, value: V)

  /**
   * The array: its entries in list order, the next free integer key
   * (negative once the largest integer key has been used), the internal
   * position (None before anything was inserted and once it has run off
   * the end), and the bucket-table size.
   */
  datatype ZArray<V> = ZArray(entries: seq<Entry<V>>, nextFree: int, pos: Option<nat>, tableSize: nat)

  /** What the error paths of the source end in. */
  datatype ZError = NullDereference

  predicate IsPow2(n: nat) {
    if n <= 1 then n == 1 else n % 2 == 0 && IsPow2(n / 2)
  }

  predicate DistinctKeys<V>(e: seq<Entry<V>>) {
    forall i, j | 0 <= i < j < |e| :: e[i].key != e[j].key
  }

  predicate KeysInRange<V>(e: seq<Entry<V>>) {
    forall i | 0 <= i < |e| :: e[i].key.IntKey? ==> InInt64(e[i].key.i)
  }

  /** While the next free key is non-negative, every integer key lies below it. */
  predicate BelowNextFree<V>(e: seq<Entry<V>>, nextFree: int) {
    nextFree >= 0 ==> forall i | 0 <= i < |e| :: e[i].key.IntKey? ==> e[i].key.i < nextFree
  }

  predicate Valid<V>(a: ZArray<V>) {
    && DistinctKeys(a.entries)
    && KeysInRange(a.entries)
    && InInt64(a.nextFree)
    && BelowNextFree(a.entries, a.nextFree)
    && (a.pos.Some? ==> a.pos.value < |a.entries|)
    && IsPow2(a.tableSize) && |a.entries| <= a.tableSize
    && |a.entries| <= Int64Max
  }

  function Values<V>(e: seq<Entry<V>>): (r: seq<V>)
    ensures |r| == |e| && forall i | 0 <= i < |e| :: r[i] == e[i].value
  {
    if |e| == 0 then [] else [e[0].value] + Values(e[1..])
  }

  // ---------------------------------------------------------------------
  // Table size

  lemma Pow2Double(n: nat)
    requires n >= 1
    ensures IsPow2(2 * n) == IsPow2(n)
  {
  }

  lemma {:induction false} Pow2Square(n: nat)
    requires IsPow2(n)
    ensures IsPow2(n * n)
    decreases n
  {
    if n > 1 {
      var m := n / 2;
      Pow2Square(m);
      assert n * n == 2 * (2 * (m * m));
      Pow2Double(m * m);
      Pow2Double(2 * (m * m));
    }
  }

  lemma MaxTableSizeIsPow2()
    ensures IsPow2(MaxTableSize)
  {
    Pow2Double(1);
    Pow2Square(2);
    Pow2Square(4);
    Pow2Square(16);
    Pow2Square(256);
    Pow2Square(65536);
    Pow2Double(MaxTableSize);
  }

  /** The least power of two that is at least `n` and at least `p`. */
  function NextPower2From(p: nat, n: nat): (r: nat)
    requires IsPow2(p)
    ensures IsPow2(r) && r >= n && r >= p
    ensures p < n ==> r < 2 * n
    decreases n - p
  {
    if p >= n then p else NextPower2From(2 * p, n)
  }

  /**
   * The table size `init` picks for a requested size: the minimum for small
   * requests, the cap from 2^31 on, and otherwise the least power of two
   * not below the request.
   */
  function InitTableSize(minSize: nat, nSize: nat): (r: nat)
    requires IsPow2(minSize) && minSize <= MaxTableSize
    ensures IsPow2(r) && r >= minSize
    ensures nSize <= minSize ==> r == minSize
    ensures minSize < nSize < MaxTableSize ==> nSize <= r < 2 * nSize
    ensures nSize >= MaxTableSize ==> r == MaxTableSize
  {
    if nSize >= MaxTableSize then
      MaxTableSizeIsPow2();
      MaxTableSize
    else if minSize < nSize then NextPower2From(1, nSize)
    else minSize
  }

  /** A new, empty array. */
  function Init<V>(minSize: nat, nSize: nat): (r: ZArray<V>)
    requires IsPow2(minSize) && minSize <= MaxTableSize
    ensures Valid(r) && r.entries == [] && r.nextFree == 0 && r.pos.None?
    ensures nSize <= r.tableSize || r.tableSize == MaxTableSize
  {
    ZArray([], 0, None, InitTableSize(minSize, nSize))
  }

  /** `resize`: the table doubles and the entries are rehashed in list order. */
  function Resize<V>(a: ZArray<V>): (r: ZArray<V>)
    ensures r.entries == a.entries && r.nextFree == a.nextFree && r.pos == a.pos
    ensures IsPow2(a.tableSize) ==> IsPow2(r.tableSize) && r.tableSize > a.tableSize
  {
    a.(tableSize := 2 * a.tableSize)
  }

  // ---------------------------------------------------------------------
  // Lookup

  /** The index of the entry with key `k`, if any. */
  function Find<V>(e: seq<Entry<V>>, k: Key): (r: Option<nat>)
    ensures r.Some? ==> r.value < |e| && e[r.value].key == k
    ensures r.Some? ==> forall j | 0 <= j < r.value :: e[j].key != k
    ensures r.None? <==> forall j | 0 <= j < |e| :: e[j].key != k
  {
    if |e| == 0 then None
    else if e[0].key == k then Some(0)
    else match Find(e[1..], k)
      case None => None
      case Some(j) => Some(j + 1)
  }

  /** The value stored under `k`. */
  function Get<V>(a: ZArray<V>, k: Key): (r: Option<V>)
    ensures r.Some? <==> exists j | 0 <= j < |a.entries| :: a.entries[j].key == k
    ensures DistinctKeys(a.entries) ==>
      forall j | 0 <= j < |a.entries| && a.entries[j].key == k :: r == Some(a.entries[j].value)
  {
    match Find(a.entries, k)
    case None => None
    case Some(j) => Some(a.entries[j].value)
  }

  /** The key the internal position stands on. */
  function PosKey<V>(a: ZArray<V>): Option<Key> {
    if a.pos.Some? && a.pos.value < |a.entries| then Some(a.entries[a.pos.value].key) else None
  }

  lemma FindSameKeys<V, W>(e1: seq<Entry<V>>, e2: seq<Entry<W>>, k: Key)
    requires |e1| == |e2| && forall j | 0 <= j < |e1| :: e1[j].key == e2[j].key
    ensures Find(e1, k) == Find(e2, k)
  {
  }

  // ---------------------------------------------------------------------
  // Insertion

  /** The next free key after inserting `k`: only an integer key at or above a non-negative next-free moves it. */
  function NextFreeAfter(nextFree: int, k: Key): int {
    if k.IntKey? && k.i >= nextFree && nextFree >= 0 then Wrap64(k.i + 1) else nextFree
  }

  /** Link a new entry at the tail; a position that was unset picks it up; the table grows once the size exceeds it. */
  function Append<V>(a: ZArray<V>, e: Entry<V>, nextFree: int): (r: ZArray<V>)
    ensures r.entries == a.entries + [e] && r.nextFree == nextFree
    ensures r.pos == if a.pos.None? then Some(|a.entries|) else a.pos
    ensures IsPow2(a.tableSize) && |a.entries| <= a.tableSize ==> IsPow2(r.tableSize) && |r.entries| <= r.tableSize
  {
    var b := ZArray(a.entries + [e], nextFree, if a.pos.None? then Some(|a.entries|) else a.pos, a.tableSize);
    if |b.entries| > b.tableSize then Resize(b) else b
  }

  /** `nextInsert`: append under the next free key; refused, with the array unchanged, once that key is negative. */
  function NextInsert<V>(a: ZArray<V>, v: V): (r: Option<ZArray<V>>)
    ensures r.None? <==> a.nextFree < 0
    ensures r.Some? ==> r.value.entries == a.entries + [Entry(IntKey(a.nextFree), v)]
    ensures r.Some? ==> r.value.nextFree == Wrap64(a.nextFree + 1)
  {
    if a.nextFree < 0 then None
    else Some(Append(a, Entry(IntKey(a.nextFree), v), Wrap64(a.nextFree + 1)))
  }

  /** `update`: overwrite in place when the key is present, otherwise append. */
  function Update<V>(a: ZArray<V>, k: Key, v: V): (r: ZArray<V>)
    ensures Find(a.entries, k).Some? ==>
      r.entries == a.entries[Find(a.entries, k).value := Entry(k, v)] && r.nextFree == a.nextFree && r.pos == a.pos
    ensures Find(a.entries, k).None? ==>
      r.entries == a.entries + [Entry(k, v)] && r.nextFree == NextFreeAfter(a.nextFree, k)
  {
    match Find(a.entries, k)
    case Some(j) => a.(entries := a.entries[j := Entry(k, v)])
    case None => Append(a, Entry(k, v), NextFreeAfter(a.nextFree, k))
  }

  /** `add`: the caller promises the key is absent; the entry goes to the tail. */
  function Add<V>(a: ZArray<V>, k: Key, v: V): (r: ZArray<V>)
    requires Find(a.entries, k).None?
    ensures r == Update(a, k, v)
  {
    Append(a, Entry(k, v), NextFreeAfter(a.nextFree, k))
  }

  /** Looking a key up after `update` gives the new value; every other key is unaffected. */
  lemma UpdateGet<V>(a: ZArray<V>, k: Key, v: V, k': Key)
    ensures Get(Update(a, k, v), k') == if k' == k then Some(v) else Get(a, k')
  {
    var r := Update(a, k, v);
    match Find(a.entries, k)
    case Some(j) =>
      FindSameKeys(a.entries, r.entries, k');
    case None =>
      if k' != k {
        assert Find(r.entries, k') == Find(a.entries, k') by {
          if Find(r.entries, k').Some? { assert Find(r.entries, k').value < |a.entries|; }
          if Find(a.entries, k').Some? { assert r.entries[Find(a.entries, k').value] == a.entries[Find(a.entries, k').value]; }
        }
      } else {
        assert r.entries[|a.entries|].key == k;
      }
  }

  /** `update` of a present key keeps the size and the order of the keys. */
  lemma UpdateExistingKeepsOrder<V>(a: ZArray<V>, k: Key, v: V)
    requires exists j | 0 <= j < |a.entries| :: a.entries[j].key == k
    ensures |Update(a, k, v).entries| == |a.entries|
    ensures forall j | 0 <= j < |a.entries| :: Update(a, k, v).entries[j].key == a.entries[j].key
  {
  }

  /** Inserting an integer key at or above a non-negative next-free moves it past the key; a string key never moves it. */
  lemma InsertMovesNextFree<V>(a: ZArray<V>, k: Key, v: V)
    requires Valid(a) && Find(a.entries, k).None?
    ensures k.StrKey? ==> Update(a, k, v).nextFree == a.nextFree
    ensures k.IntKey? && InInt64(k.i) && k.i < Int64Max && k.i >= a.nextFree >= 0 ==> Update(a, k, v).nextFree == k.i + 1
    ensures k.IntKey? && k.i < a.nextFree ==> Update(a, k, v).nextFree == a.nextFree
  {
  }

  /** Every insertion keeps the array well formed. */
  lemma UpdateKeepsValid<V>(a: ZArray<V>, k: Key, v: V)
    requires Valid(a) && |a.entries| < Int64Max
    requires k.IntKey? ==> InInt64(k.i)
    ensures Valid(Update(a, k, v))
  {
    var r := Update(a, k, v);
    if Find(a.entries, k).None? {
      assert r.entries[|a.entries|].key == k;
      forall i, j | 0 <= i < j < |r.entries| ensures r.entries[i].key != r.entries[j].key {
        if j < |a.entries| { assert r.entries[i] == a.entries[i] && r.entries[j] == a.entries[j]; }
        else { assert r.entries[i] == a.entries[i]; }
      }
      assert BelowNextFree(r.entries, r.nextFree) by {
        if r.nextFree >= 0 {
          forall i | 0 <= i < |r.entries| && r.entries[i].key.IntKey? ensures r.entries[i].key.i < r.nextFree {
            if i < |a.entries| { assert r.entries[i] == a.entries[i]; }
          }
        }
      }
    } else {
      var j := Find(a.entries, k).value;
      assert forall i | 0 <= i < |a.entries| :: r.entries[i].key == a.entries[i].key;
    }
  }

  /** `nextInsert` keeps the array well formed. */
  lemma NextInsertKeepsValid<V>(a: ZArray<V>, v: V)
    requires Valid(a) && |a.entries| < Int64Max && a.nextFree >= 0
    ensures NextInsert(a, v).Some? && Valid(NextInsert(a, v).value)
    ensures Get(NextInsert(a, v).value, IntKey(a.nextFree)) == Some(v)
  {
    var k := IntKey(a.nextFree);
    assert Find(a.entries, k).None?;
    UpdateKeepsValid(a, k, v);
    assert NextInsert(a, v).value == Update(a, k, v);
    UpdateGet(a, k, v, k);
  }

  // ---------------------------------------------------------------------
  // Erasure

  /** Unlink entry `j`; a position on it moves to its successor. */
  function EraseEntry<V>(a: ZArray<V>, j: nat, lower: bool): (r: ZArray<V>)
    requires j < |a.entries|
    ensures r.entries == a.entries[..j] + a.entries[j + 1..]
    ensures r.nextFree == if lower then Wrap64(a.nextFree - 1) else a.nextFree
  {
    var e := a.entries;
    ZArray(e[..j] + e[j + 1..],
      if lower then Wrap64(a.nextFree - 1) else a.nextFree,
      match a.pos
      case None => None
      case Some(p) => if p < j then Some(p) else if p > j then Some(p - 1) else if j + 1 < |e| then Some(j) else None,
      a.tableSize)
  }

  /**
   * Whether erasing `key` lowers the next free key, as the source writes it:
   * the key must equal next-free minus one, compared as unsigned 64-bit
   * values, and either the caller asks for it or the key is the largest
   * 64-bit integer.
   */
  predicate LowersNextFreeAsWritten(key: Key, nextFree: int, updateNext: bool) {
    key.IntKey? && Wrap64(key.i) == Wrap64(nextFree - 1) && (key.i == Int64Max || updateNext)
  }

  /** The same test, refusing to lower a next free key that is already 0. */
  predicate LowersNextFree(key: Key, nextFree: int, updateNext: bool) {
    key.IntKey? && Wrap64(key.i) == Wrap64(nextFree - 1) && (key.i == Int64Max || (updateNext && nextFree > 0))
  }

  /** `erase` as written (`remove` passes `updateNext` false). */
  function EraseAsWritten<V>(a: ZArray<V>, k: Key, updateNext: bool): (r: ZArray<V>)
    ensures Find(a.entries, k).None? ==> r == a
  {
    match Find(a.entries, k)
    case None => a
    case Some(j) => EraseEntry(a, j, LowersNextFreeAsWritten(k, a.nextFree, updateNext))
  }

  /** `erase` with the guard on a next free key of 0. */
  function Erase<V>(a: ZArray<V>, k: Key, updateNext: bool): (r: ZArray<V>)
    ensures Find(a.entries, k).None? ==> r == a
    ensures !updateNext ==> r == EraseAsWritten(a, k, updateNext)
  {
    match Find(a.entries, k)
    case None => a
    case Some(j) => EraseEntry(a, j, LowersNextFree(k, a.nextFree, updateNext))
  }

  /**
   * Erasing removes exactly the matched entry, keeps everyone else's
   * relative order, and moves a position that stood on it to its successor.
   */
  lemma EraseRemoves<V>(a: ZArray<V>, k: Key, updateNext: bool)
    requires Valid(a) && Find(a.entries, k).Some?
    ensures var j := Find(a.entries, k).value; var r := Erase(a, k, updateNext);
      && |r.entries| == |a.entries| - 1
      && (forall i | 0 <= i < j :: r.entries[i] == a.entries[i])
      && (forall i | j < i < |a.entries| :: r.entries[i - 1] == a.entries[i])
      && Get(r, k).None?
      && (PosKey(a) == Some(k) ==> PosKey(r) == if j + 1 < |a.entries| then Some(a.entries[j + 1].key) else None)
      && (PosKey(a) != Some(k) ==> PosKey(r) == PosKey(a))
  {
    var j := Find(a.entries, k).value;
    var r := Erase(a, k, updateNext);
    forall i | 0 <= i < |r.entries| ensures r.entries[i].key != k {
      if i < j { assert r.entries[i] == a.entries[i]; } else { assert r.entries[i] == a.entries[i + 1]; }
    }
  }

  /** Erasing keeps the array well formed, and never turns a non-negative next free key negative. */
  lemma EraseKeepsValid<V>(a: ZArray<V>, k: Key, updateNext: bool)
    requires Valid(a)
    ensures Valid(Erase(a, k, updateNext))
    ensures a.nextFree >= 0 ==> Erase(a, k, updateNext).nextFree >= 0
  {
    if Find(a.entries, k).Some? {
      var j := Find(a.entries, k).value;
      var r := Erase(a, k, updateNext);
      forall i | 0 <= i < |r.entries| ensures r.entries[i] == a.entries[if i < j then i else i + 1] { }
      if LowersNextFree(k, a.nextFree, updateNext) {
        if k.i == Int64Max {
          assert a.nextFree < 0;
          assert a.nextFree == Int64Min;
        } else {
          assert k.i == a.nextFree - 1;
        }
      }
    }
  }

  // ---------------------------------------------------------------------
  // Pop

  /** The popped value (None on an empty array) and the array left behind. */
  datatype Popped<V> = Popped(value: Option<V>, arr: ZArray<V>)

  function PopWith<V>(a: ZArray<V>, asWritten: bool): (r: Popped<V>)
  {
    if |a.entries| == 0 then Popped(None, a.(pos := None))
    else
      var n := |a.entries| - 1;
      var last := a.entries[n];
      var lower := if asWritten then LowersNextFreeAsWritten(last.key, a.nextFree, true)
                   else LowersNextFree(last.key, a.nextFree, true);
      var b := EraseEntry(a, n, lower);
      Popped(Some(last.value), b.(pos := if n == 0 then None else Some(0)))
  }

  /** `pop` as written: remove the tail, asking erase to lower next-free, and reset the position to the head. */
  function PopAsWritten<V>(a: ZArray<V>): (r: Popped<V>)
    ensures r.value.Some? <==> |a.entries| > 0
    ensures |a.entries| > 0 ==> r.value == Some(a.entries[|a.entries| - 1].value) && r.arr.entries == a.entries[..|a.entries| - 1]
    ensures r.arr.pos == if |r.arr.entries| > 0 then Some(0) else None
  {
    PopWith(a, true)
  }

  /** `pop` with erase's guard on a next free key of 0. */
  function Pop<V>(a: ZArray<V>): (r: Popped<V>)
    ensures r.value.Some? <==> |a.entries| > 0
    ensures |a.entries| > 0 ==> r.value == Some(a.entries[|a.entries| - 1].value) && r.arr.entries == a.entries[..|a.entries| - 1]
    ensures r.arr.pos == if |r.arr.entries| > 0 then Some(0) else None
  {
    PopWith(a, false)
  }

  /** Popping right after `nextInsert` gives back the value and the previous entries and next-free. */
  lemma PopUndoesNextInsert<V>(a: ZArray<V>, v: V)
    requires Valid(a) && a.nextFree >= 0
    ensures NextInsert(a, v).Some?
    ensures var p := Pop(NextInsert(a, v).value);
      p.value == Some(v) && p.arr.entries == a.entries && p.arr.nextFree == a.nextFree
  {
    var b := NextInsert(a, v).value;
    assert b.entries[..|b.entries| - 1] == a.entries;
    assert LowersNextFree(IntKey(a.nextFree), b.nextFree, true);
  }

  /** Popping keeps a non-negative next free key non-negative, so a later append still succeeds. */
  lemma PopKeepsAppending<V>(a: ZArray<V>, v: V)
    requires Valid(a) && a.nextFree >= 0
    ensures Pop(a).arr.nextFree >= 0 && NextInsert(Pop(a).arr, v).Some?
  {
    if |a.entries| > 0 {
      EraseKeepsValid(a, a.entries[|a.entries| - 1].key, true);
      assert Find(a.entries, a.entries[|a.entries| - 1].key) == Some(|a.entries| - 1);
    }
  }

  /** As written, popping the only entry, keyed -1, drives next-free to -1, and the next append is refused. */
  lemma PopAsWrittenBlocksAppend()
    ensures var a := ZArray([Entry(IntKey(-1), 7)], 0, Some(0), 8);
      && Valid(a)
      && PopAsWritten(a).arr.nextFree == -1
      && NextInsert(PopAsWritten(a).arr, 8).None?
  {
    var a := ZArray([Entry(IntKey(-1), 7)], 0, Some(0), 8);
    assert IsPow2(8) by { assert IsPow2(4) by { assert IsPow2(2); } }
    assert LowersNextFreeAsWritten(IntKey(-1), 0, true);
  }

  // ---------------------------------------------------------------------
  // Renumbering

  function CountInt<V>(e: seq<Entry<V>>): (r: nat)
    ensures r <= |e|
  {
    if |e| == 0 then 0 else (if e[0].key.IntKey? then 1 else 0) + CountInt(e[1..])
  }

  /** The entries with their integer keys relabelled `next`, `next`+1, ... in list order. */
  function RenumberFrom<V>(e: seq<Entry<V>>, next: int): (r: seq<Entry<V>>)
  {
    if |e| == 0 then []
    else if e[0].key.IntKey? then [Entry(IntKey(next), e[0].value)] + RenumberFrom(e[1..], next + 1)
    else [e[0]] + RenumberFrom(e[1..], next)
  }

  /** The integer keys count up from `next` in list order. */
  predicate NumberedFrom<V>(e: seq<Entry<V>>, next: int) {
    |e| == 0 || (if e[0].key.IntKey? then e[0].key.i == next && NumberedFrom(e[1..], next + 1) else NumberedFrom(e[1..], next))
  }

  /**
   * `renumber` as the source does it: scan for the first integer key out of
   * place, and relabel from there on.
   */
  function RenumberScan<V>(e: seq<Entry<V>>, j: nat, i: int): (r: seq<Entry<V>>)
    requires j <= |e|
    decreases |e| - j
  {
    if j == |e| then e
    else if e[j].key.IntKey? && e[j].key.i != i then e[..j] + RenumberFrom(e[j..], i)
    else RenumberScan(e, j + 1, if e[j].key.IntKey? then i + 1 else i)
  }

  function Renumber<V>(a: ZArray<V>): (r: ZArray<V>)
  {
    a.(entries := RenumberScan(a.entries, 0, 0), nextFree := CountInt(a.entries))
  }

  /** Relabelling keeps the values, the string keys and which entries are integer-keyed, and numbers the rest from `next`. */
  lemma {:induction false} RenumberFromSpec<V>(e: seq<Entry<V>>, next: int)
    ensures |RenumberFrom(e, next)| == |e|
    ensures forall j | 0 <= j < |e| :: RenumberFrom(e, next)[j].value == e[j].value
    ensures forall j | 0 <= j < |e| :: RenumberFrom(e, next)[j].key.IntKey? == e[j].key.IntKey?
    ensures forall j | 0 <= j < |e| :: e[j].key.StrKey? ==> RenumberFrom(e, next)[j].key == e[j].key
    ensures NumberedFrom(RenumberFrom(e, next), next)
    ensures CountInt(RenumberFrom(e, next)) == CountInt(e)
    decreases |e|
  {
    if |e| > 0 {
      var n' := if e[0].key.IntKey? then next + 1 else next;
      RenumberFromSpec(e[1..], n');
      var r := RenumberFrom(e, next);
      assert r[1..] == RenumberFrom(e[1..], n');
      forall j | 1 <= j < |e| ensures r[j] == RenumberFrom(e[1..], n')[j - 1] && e[j] == e[1..][j - 1] { }
    }
  }

  /** Relabelling leaves the entries alone exactly when they are already numbered from `next`. */
  lemma {:induction false} RenumberFixed<V>(e: seq<Entry<V>>, next: int)
    ensures RenumberFrom(e, next) == e <==> NumberedFrom(e, next)
    decreases |e|
  {
    if |e| > 0 {
      var n' := if e[0].key.IntKey? then next + 1 else next;
      RenumberFixed(e[1..], n');
      var r := RenumberFrom(e, next);
      if r == e {
        assert r[1..] == e[1..];
      }
      if NumberedFrom(e, next) {
        assert e == [e[0]] + e[1..];
      }
    }
  }

  /** The source's scan-then-relabel gives the plain relabelling. */
  lemma {:induction false} RenumberScanIsRenumber<V>(e: seq<Entry<V>>, j: nat, i: int)
    requires j <= |e|
    ensures RenumberScan(e, j, i) == e[..j] + RenumberFrom(e[j..], i)
    decreases |e| - j
  {
    if j == |e| {
      assert e[..j] == e;
    } else if e[j].key.IntKey? && e[j].key.i != i {
    } else {
      var i' := if e[j].key.IntKey? then i + 1 else i;
      RenumberScanIsRenumber(e, j + 1, i');
      assert e[j..][1..] == e[j + 1..];
      assert RenumberFrom(e[j..], i) == [e[j]] + RenumberFrom(e[j + 1..], i');
      assert e[..j + 1] == e[..j] + [e[j]];
    }
  }

  /**
   * `renumber` relabels the integer keys 0, 1, ... in list order, leaves
   * string keys and values where they were, and sets next-free to the
   * number of integer keys.
   */
  lemma RenumberSpec<V>(a: ZArray<V>)
    ensures var r := Renumber(a);
      && |r.entries| == |a.entries|
      && (forall j | 0 <= j < |a.entries| :: r.entries[j].value == a.entries[j].value)
      && (forall j | 0 <= j < |a.entries| :: a.entries[j].key.StrKey? ==> r.entries[j].key == a.entries[j].key)
      && (forall j | 0 <= j < |a.entries| :: r.entries[j].key.IntKey? == a.entries[j].key.IntKey?)
      && NumberedFrom(r.entries, 0)
      && r.nextFree == CountInt(r.entries)
      && r.pos == a.pos
  {
    RenumberScanIsRenumber(a.entries, 0, 0);
    assert a.entries[0..] == a.entries;
    assert Renumber(a).entries == RenumberFrom(a.entries, 0) by {
      assert a.entries[..0] + RenumberFrom(a.entries, 0) == RenumberFrom(a.entries, 0);
    }
    RenumberFromSpec(a.entries, 0);
  }

  /** Renumbering twice is renumbering once. */
  lemma RenumberIdempotent<V>(a: ZArray<V>)
    ensures Renumber(Renumber(a)) == Renumber(a)
  {
    RenumberSpec(a);
    var r := Renumber(a);
    RenumberSpec(r);
    RenumberScanIsRenumber(r.entries, 0, 0);
    assert r.entries[0..] == r.entries;
    RenumberFixed(r.entries, 0);
  }

  // ---------------------------------------------------------------------
  // Vector check

  /** The keys are exactly the integers 0..n-1 in list order. */
  predicate VectorKeys<V>(e: seq<Entry<V>>) {
    forall j | 0 <= j < |e| :: e[j].key == IntKey(j)
  }

  /** `isVectorData`: walk the list, counting, and stop at the first key that is not the count. */
  method IsVectorData<V>(a: ZArray<V>) returns (b: bool)
    ensures b <==> VectorKeys(a.entries)
  {
    var index := 0;
    while index < |a.entries|
      invariant 0 <= index <= |a.entries|
      invariant forall j | 0 <= j < index :: a.entries[j].key == IntKey(j)
    {
      var k := a.entries[index].key;
      if k.StrKey? || k.i != index {
        return false;
      }
      index := index + 1;
    }
    return true;
  }

  /** Vector data is exactly an all-integer-keyed array that renumbering leaves alone. */
  lemma {:induction false} VectorIffNumbered<V>(e: seq<Entry<V>>, next: nat)
    ensures (forall j | 0 <= j < |e| :: e[j].key == IntKey(next + j)) <==> (CountInt(e) == |e| && NumberedFrom(e, next))
    decreases |e|
  {
    if |e| > 0 {
      VectorIffNumbered(e[1..], next + 1);
      if forall j | 0 <= j < |e| :: e[j].key == IntKey(next + j) {
        forall j | 0 <= j < |e| - 1 ensures e[1..][j].key == IntKey(next + 1 + j) {
          assert e[j + 1].key == IntKey(next + (j + 1));
        }
      }
      if CountInt(e) == |e| && NumberedFrom(e, next) {
        assert e[0].key.IntKey?;
        forall j | 0 <= j < |e| ensures e[j].key == IntKey(next + j) {
          if j > 0 { assert e[j] == e[1..][j - 1]; }
        }
      }
    }
  }

  /** After renumbering an array with no string keys, it holds vector data. */
  lemma RenumberedIsVector<V>(a: ZArray<V>)
    requires forall j | 0 <= j < |a.entries| :: a.entries[j].key.IntKey?
    ensures VectorKeys(Renumber(a).entries)
  {
    RenumberSpec(a);
    var r := Renumber(a);
    IntKeyedCount(r.entries);
    VectorIffNumbered(r.entries, 0);
  }

  lemma {:induction false} IntKeyedCount<V>(e: seq<Entry<V>>)
    requires forall j | 0 <= j < |e| :: e[j].key.IntKey?
    ensures CountInt(e) == |e|
    decreases |e|
  {
    if |e| > 0 {
      IntKeyedCount(e[1..]);
    }
  }

  // ---------------------------------------------------------------------
  // Prepend

  /** Move the tail entry to the head, renumber, and reset the position to the head. */
  function MoveTailToHead<V>(b: ZArray<V>): (r: ZArray<V>)
    requires |b.entries| > 0
    ensures |r.entries| == |b.entries| && r.entries[0].value == b.entries[|b.entries| - 1].value && r.pos == Some(0)
    ensures NumberedFrom(r.entries, 0)
  {
    var n := |b.entries| - 1;
    var moved := b.(entries := [b.entries[n]] + b.entries[..n]);
    RenumberSpec(moved);
    Renumber(moved).(pos := Some(0))
  }

  /**
   * `prepend` as written: the result of `nextInsert` is ignored, so when it
   * is refused the old tail is moved to the head instead, and on an empty
   * array the move dereferences a null list head.
   */
  function PrependAsWritten<V>(a: ZArray<V>, v: V): (r: Result<ZArray<V>, ZError>)
    ensures NextInsert(a, v).Some? ==> r.Ok?
    ensures r.Err? <==> NextInsert(a, v).None? && |a.entries| == 0
  {
    var b := match NextInsert(a, v) case Some(b) => b case None => a;
    if |b.entries| == 1 then Ok(b)
    else if |b.entries| == 0 then Err(NullDereference)
    else Ok(MoveTailToHead(b))
  }

  /**
   * `prepend` as its comments describe it: the new element ends up at the
   * head and the integer keys are rewritten from 0. When `nextInsert` is
   * refused the element is still linked at the tail (under a placeholder
   * key, which the renumbering replaces) before it is moved.
   */
  function Prepend<V>(a: ZArray<V>, v: V): (r: ZArray<V>)
    ensures |r.entries| == |a.entries| + 1 && r.entries[0].value == v
  {
    match NextInsert(a, v)
    case None => MoveTailToHead(Append(a, Entry(IntKey(0), v), a.nextFree))
    case Some(b) => if |b.entries| == 1 then b else MoveTailToHead(b)
  }

  /**
   * Prepending puts the value at the head with the integer keys renumbered
   * from 0 and the position on the head, and the old entries follow in
   * their old order; into an empty array the single entry takes the next
   * free key, or 0 when that key is used up.
   */
  lemma PrependSpec<V>(a: ZArray<V>, v: V)
    requires Valid(a)
    ensures |Prepend(a, v).entries| == |a.entries| + 1
    ensures Prepend(a, v).entries[0].value == v
    ensures forall j | 0 <= j < |a.entries| :: Prepend(a, v).entries[j + 1].value == a.entries[j].value
    ensures forall j | 0 <= j < |a.entries| :: a.entries[j].key.StrKey? ==> Prepend(a, v).entries[j + 1].key == a.entries[j].key
    ensures |a.entries| > 0 ==>
      Prepend(a, v).entries[0].key == IntKey(0) && NumberedFrom(Prepend(a, v).entries, 0) && Prepend(a, v).pos == Some(0)
    ensures |a.entries| == 0 ==>
      Prepend(a, v).entries == [Entry(IntKey(if a.nextFree >= 0 then a.nextFree else 0), v)] && Prepend(a, v).pos == Some(0)
  {
    var b := if a.nextFree >= 0 then NextInsert(a, v).value else Append(a, Entry(IntKey(0), v), a.nextFree);
    assert b.entries == a.entries + [Entry(IntKey(if a.nextFree >= 0 then a.nextFree else 0), v)];
    if |b.entries| > 1 || a.nextFree < 0 {
      var n := |b.entries| - 1;
      var moved := b.(entries := [b.entries[n]] + b.entries[..n]);
      assert Prepend(a, v) == Renumber(moved).(pos := Some(0));
      RenumberSpec(moved);
      forall j | 0 <= j < |a.entries| ensures moved.entries[j + 1] == a.entries[j] { }
      if |a.entries| == 0 {
        var r := Renumber(moved).entries;
        assert |r| == 1 && r[0].value == v && r[0].key.IntKey?;
        assert NumberedFrom(r, 0) ==> r[0].key == IntKey(0);
        assert r == [Entry(IntKey(0), v)];
      }
    }
  }

  /** Prepending never loses a value: the value lands at the head, followed by the old values in order. */
  lemma PrependKeepsValues<V>(a: ZArray<V>, v: V)
    requires Valid(a)
    ensures Values(Prepend(a, v).entries) == [v] + Values(a.entries)
  {
    PrependSpec(a, v);
  }

  /**
   * As written, prepending to an array whose next key is used up drops the
   * value and moves the old tail to the head; the corrected prepend keeps
   * it at the head.
   */
  lemma PrependAsWrittenDropsValue()
    ensures var a := ZArray([Entry(IntKey(Int64Max), 1), Entry(StrKey("s"), 2)], Int64Min, Some(0), 8);
      (Valid(a)
      && PrependAsWritten(a, 3) == Ok(ZArray([Entry(StrKey("s"), 2), Entry(IntKey(0), 1)], 1, Some(0), 8))
      && Values(Prepend(a, 3).entries) == [3, 1, 2])
  {
    var a := ZArray([Entry(IntKey(Int64Max), 1), Entry(StrKey("s"), 2)], Int64Min, Some(0), 8);
    assert IsPow2(8) by { assert IsPow2(4) by { assert IsPow2(2); } }
    var moved := [Entry(StrKey("s"), 2), Entry(IntKey(Int64Max), 1)];
    assert [a.entries[1]] + a.entries[..1] == moved;
    assert RenumberScan(moved, 0, 0) == [Entry(StrKey("s"), 2), Entry(IntKey(0), 1)] by {
      assert RenumberScan(moved, 0, 0) == RenumberScan(moved, 1, 0);
      assert RenumberScan(moved, 1, 0) == moved[..1] + RenumberFrom(moved[1..], 0);
      assert moved[..1] == [Entry(StrKey("s"), 2)];
      assert moved[1..] == [Entry(IntKey(Int64Max), 1)];
      assert moved[1..][1..] == [];
      assert RenumberFrom(moved[1..], 0) == [Entry(IntKey(0), 1)] + RenumberFrom(moved[1..][1..], 1);
    }
    assert CountInt(moved) == 1 by { assert moved[1..][1..] == []; }
    PrependKeepsValues(a, 3);
    assert Values(a.entries) == [1, 2];
  }

  // ---------------------------------------------------------------------
  // Copy

  /**
   * `copyImplHelper`: the copy's table is sized for the entry count; the
   * entries keep their order; the position is carried over as none, the
   * head, or the entry with the same key.
   */
  function Copy<V>(minSize: nat, a: ZArray<V>): (r: ZArray<V>)
    requires IsPow2(minSize) && minSize <= MaxTableSize
    requires a.pos.Some? ==> a.pos.value < |a.entries|
  {
    var pos := match a.pos
      case None => None
      case Some(p) => if p == 0 then Some(0) else Find(a.entries, a.entries[p].key);
    ZArray(a.entries, a.nextFree, pos, InitTableSize(minSize, |a.entries|))
  }

  /** A copy has the same entries in the same order, the same next-free, and its position on the same key. */
  lemma CopyPreserves<V>(minSize: nat, a: ZArray<V>)
    requires IsPow2(minSize) && minSize <= MaxTableSize
    requires Valid(a) && |a.entries| <= MaxTableSize
    ensures var r := Copy(minSize, a);
      && r.entries == a.entries && r.nextFree == a.nextFree
      && r.pos == a.pos && PosKey(r) == PosKey(a)
      && Valid(r)
  {
  }
}
